=== FILE: README.md ===
# girc, modelled in Dafny

girc is an asyncio IRC client library. This project models its logic that does
no I/O, and proves properties of the model. The model is made of pure functions
over immutable records. One Dafny module stands for each source file:

- `Envelope` (`girc/ircreactor/envelope.py`): the RFC 1459 line codec and the
  IRCv3 tag-value escaping. The codec follows section 2.3.1 of RFC 1459.
- `Utils` (`girc/utils.py`):
  - `sort_prefixes` and `parse_modes`;
  - `NickMask`;
  - the case-insensitive list and dict;
  - `validate_hostname`, whose label rules are those of sections 2.3.1 and
    2.3.4 of RFC 1035.
- `IMapping` (`girc/imapping.py`): the casemapping standards `ascii`,
  `rfc1459` and `rfc1459-strict` as translation tables, and `IDict`, `IList`
  and `IString` over them. The fold, translate and then lower-case, is a pure
  function on strings.
- `Features` (`girc/features.py`): the ISUPPORT table. `Capabilities`
  (`girc/capabilities.py`): the CAP LS table and `to_enable`.
- `Reactor` (`girc/ircreactor/events.py`): the event manager. Each event keeps
  a priority-sorted subscriber list, and insertion is stable.
- `Numerics` and `Pipeline` (`girc/events.py`):
  - the numeric-to-name table;
  - verb refinement (public or private message, channel or user mode);
  - CTCP splitting and de-quoting;
  - the parameter-to-attribute table and `from_to`;
  - the `action` events.
- `Formatting` (`girc/formatting.py`): `$`-escaping of IRC formatting
  characters.
- `Types` and `Info` (`girc/types.py`, `girc/info.py`): the state tracker's
  user and channel records, kept in casemapped dicts.
- `Client` (`girc/client.py`): the connection logic without I/O:
  - CR/LF framing;
  - the one-shot casemapping;
  - handler registration and the CAP handshake;
  - registration, the autojoin queue and `JOIN` splitting;
  - channel and nick classification;
  - `msg` and `ctcp`.

Support modules:

- `Wrappers` holds `Option` and `Result`. A Python exception becomes a
  `Failure` that names the exception class.
- `Strings` holds Python's `split`, `join`, `replace`, `lower` and `strip`,
  each restricted to ASCII.
- `Dicts` holds the insertion-ordered association list that stands for a
  Python dict.

A handler that raises part-way keeps the effects made before the exception. A
`Client.Step` therefore records the new connection, the messages sent and the
exception raised, if any.

Some behaviour of the code is easy to misread; the model follows the code:

- `CAP ACK` and `CAP NAK` leave `enabled` unchanged: `rpl_cap` only answers
  them (girc/client.py:265-270), and `Capabilities.ingest` acts on `ls` alone.
- `PREFIX` is stored as the dict that `zip` builds (girc/features.py:42-46),
  in the order the server lists the modes; no privilege order is imposed.
- `CAP LS` sends `CAP REQ` even when nothing is left to enable, with an empty
  list of capabilities (girc/client.py:262-264).
- `validate_hostname("google.com.")` is false, although girc's own test
  expects true (tests/test_utils.py:103; see `Utils.TrailingDotRejected`).

Several literal defects are modelled by their evident intent:

- `string.ascii_upper` does not exist in Python; the model reads it as `A`–`Z`.
- Before CASEMAPPING arrives, the connection passes `None` as the standard;
  the model uses `ascii` instead.
- The join membership update writes to copies that are discarded; see
  Findings.
- `unescape` raises KeyError on `$$`; `msg` and `me` use the corrected
  unescape. See Findings.
- `_send_message` and the entity resolution of `message_to_event` call
  methods that `Info` does not define; the model runs them as intended. See
  Findings.
- `IString(text)` raises TypeError, so every `welcome` with a nick raises;
  the pipeline records the nick as intended. See Findings.
- The parameter table applies girc's `escape`, which turns the placeholder
  text `girc-escaped-character` into `$$`; the pipeline uses the corrected
  escape. See Findings.

## Model

| member | source | states |
|---|---|---|
| Envelope.EscapeCode | girc/ircreactor/envelope.py:20-27 | every character that needs escaping has a code in the table, and unescaping that code gives the character back |
| Envelope.TagEscape | girc/ircreactor/envelope.py:48-58 | the escaped value is well escaped: it has no raw `;`, space, CR or LF, and every backslash is followed by a known code |
| Envelope.TagEscapeRoundTrip | girc/ircreactor/envelope.py:20-58 | `tag_unescape(tag_escape(s)) == s` for every string |
| Envelope.TagUnescapeAppend | girc/ircreactor/envelope.py:30-45 | unescaping a well-escaped prefix does not depend on the text that follows it |
| Envelope.TagUnescapeUnknownAndTrailing | girc/ircreactor/envelope.py:30-45 | an unknown escape `\x` gives `x`, and a lone trailing backslash is dropped |
| Envelope.FromData | girc/ircreactor/envelope.py:63-79 | a falsy source becomes None and a non-empty one is kept; verb and params are kept; the tags are put into a dict, so a tag list without repeated keys is kept as is |
| Envelope.ParseTag | girc/ircreactor/envelope.py:94-99 | a bare key has no value; `k=v` splits at the first `=`, and the value is tag-unescaped |
| Envelope.ParseParams | girc/ircreactor/envelope.py:110-122 | every parameter except the last is a middle parameter, only the last can be empty, and there are never more parameters than tokens |
| Envelope.FromMessage | girc/ircreactor/envelope.py:82-124 | a parsed verb is upper-case; the parameters before the last are middle parameters; a source is a non-empty word; tags come only from a leading `@`; failure (IndexError) happens only after a tags or source token |
| Envelope.ArgsBase | girc/ircreactor/envelope.py:126-136 | the params are kept in order up to the first one that is not a middle parameter; that one gets a `:` prefix and everything after it is dropped |
| Envelope.FirstNonMiddle | girc/ircreactor/envelope.py:128-134 | the index found is the first parameter that needs the trailing form |
| Envelope.VerbText | girc/ircreactor/envelope.py:149-152 | an int verb below 1000 is written as three digits with the same value; a text verb is written as is |
| Envelope.ZeroPadValue | girc/ircreactor/envelope.py:150 | `zfill` keeps the digits' value and pads the text to the width |
| Envelope.ToMessageShape | girc/ircreactor/envelope.py:138-157 | empty tags, an empty source and empty params leave no trace; tags lead with `@` and a source with `:` |
| Envelope.TagsRoundTrip | girc/ircreactor/envelope.py:88-99 | the serialised tags block parses back to the tag list |
| Envelope.ParamsRoundTrip | girc/ircreactor/envelope.py:110-136 | the parameters written by `args_to_message` parse back |
| Envelope.ParseParamsTrailing | girc/ircreactor/envelope.py:115-118 | a colon-led token takes the rest of the line verbatim |
| Envelope.MessageRoundTrip | girc/ircreactor/envelope.py:81-157 | `from_message(to_message(m)) == m` for every message whose verb, source, tags and params meet the conditions under which the wire form is unambiguous |
| Utils.SortPrefixes | girc/utils.py:8-19 | the result is a subsequence of the reference string and holds exactly its characters that occur in `orig`, with the reference's multiplicity |
| Utils.SignedLetters | girc/utils.py:43-48 | the reference reading of a mode string: each non-sign character is paired with the latest sign |
| Utils.TakesArg | girc/utils.py:50-51 | the argument condition under Python's precedence; a lookup past the end of `mode_types` raises IndexError |
| Utils.ParseModeChars | girc/utils.py:43-58 | one change per non-sign character, in order, with the latest sign; the consumed values followed by the unconsumed arguments are the arguments; type-A/B and prefix letters always get a value; letters that take none get None; a failure is IndexError |
| Utils.ParseModes | girc/utils.py:22-58 | raises the sign error exactly when the mode string does not start with a sign; on success the string did, the changes follow it, and the values consumed are a prefix of the arguments |
| Utils.ParseModesDefault | girc/utils.py:37-38 | with the default mode types and no prefixes, nothing is consumed and every value is None |
| Utils.ParseModeCharsGreedy | girc/utils.py:43-58 | the loop against a greedy reference: it succeeds exactly when every letter is known and each letter that always takes an argument finds one; each value is the next unconsumed argument when the letter is eligible; the leftover arguments are those after the eligible letters |
| Utils.ParseModesGreedy | girc/utils.py:22-58 | for a signed mode string, the same reference lifted to `parse_modes`, whose failure is then IndexError |
| Utils.ParseModeCharsEnoughArgs | girc/utils.py:50-52 | with three mode classes, as many arguments as mode characters never run out |
| Utils.ParseNickMask | girc/utils.py:73-86 | split at the first `!` and then the first `@`; the `n!u@h`, `n!u`, `n@h` and `n` cases, with missing parts empty |
| Utils.MakeNickMask | girc/utils.py:64-71 | a NickMask is copied field by field, and an object with a `nickmask` attribute is parsed from it |
| Utils.NickMaskRoundTrip | girc/utils.py:88-94 | `NickMask(n!u@h).nickmask == n!u@h` and its `userhost` is `u@h` |
| Utils.NickMaskAttrCopy | girc/utils.py:64-71 | reading a mask through its `nickmask` attribute gives the same fields as copying it |
| Utils.CIExtend | girc/utils.py:105-136 | extending keeps the old elements and appends each new one case-folded |
| Utils.CIInsert | girc/utils.py:131-136 | the folded value lands at the index that `list.insert` clamps to; the values before it stay put and those after it move up by one |
| Utils.CISetItem | girc/utils.py:118-123 | IndexError exactly when the index is out of range; otherwise the subscripted position (negative indices count from the end) holds the folded value and every other position is unchanged |
| Utils.CIExtendContains | girc/utils.py:138-142 | after extending, a probe is found exactly when it was found before or some added value folds like it |
| Utils.CIGet | girc/utils.py:200-201 | KeyError exactly when no case variant of the key is present |
| Utils.CIDel | girc/utils.py:203-204 | KeyError exactly when no case variant is present; otherwise one entry fewer |
| Utils.CIGetSet | girc/utils.py:195-201 | a value set under one case variant reads back under every variant; keys that fold differently read as before |
| Utils.CIKeysLastSet | girc/utils.py:195-207 | iteration yields the key with the casing of its last assignment |
| Utils.CIGetDel | girc/utils.py:200-204 | deleting through any variant removes that key and no other |
| Utils.CIEqReads | girc/utils.py:212-226 | two dicts are equal exactly when every key, in any casing, reads the same from both |
| Utils.ValidateHostname | girc/utils.py:241-249 | true exactly when the name has a dot, is at most 253 characters long, and every label is 1 to 63 letters, digits or hyphens, not starting or ending with a hyphen |
| Utils.TrailingDotRejected | girc/utils.py:244-246 | a name with a trailing dot is rejected |
| Utils.TwoLabelHost | girc/utils.py:241-249 | two valid labels joined by a dot form a host name |
| Utils.EmptyLabelRejected | girc/utils.py:244-246 | a name with an empty label is rejected |
| IMapping.LowerChars | girc/imapping.py:24-38 | 26 letters plus four (`rfc1459`), three (`rfc1459-strict`) or no (`ascii`) punctuation characters |
| IMapping.TransInverse | girc/imapping.py:54-57 | the lower and upper translation tables are mutually inverse |
| IMapping.FoldCharEq | girc/imapping.py:59-101 | two characters fold together exactly when they are equal or one of the standard's pairs |
| IMapping.PairsOfStd | girc/imapping.py:24-38 | the pairs of each standard: letters for `ascii`; also `[{`, `\|` and `]}` for `rfc1459-strict`; and also `^~` for `rfc1459` |
| IMapping.FoldIdempotent | girc/imapping.py:98-101 | folding twice is folding once |
| IMapping.FoldEq | girc/imapping.py:98-101 | two strings fold equal exactly when they have the same length and differ only by the standard's pairs |
| IMapping.TranslateEqIffFoldEq | girc/imapping.py:59-64 | translating alone is already canonical: strings translate equal exactly when they fold equal |
| IMapping.FoldCoarsening | girc/imapping.py:24-38 | ascii-equal implies rfc1459-strict-equal, which implies rfc1459-equal |
| IMapping.StdOf | girc/imapping.py:24-38 | the three known standard names, and no other name, select a table |
| IMapping.SetStd | girc/imapping.py:42-57 | the name is lower-cased; a known name selects its tables and an unknown one keeps the previous tables |
| IMapping.IDictGet | girc/imapping.py:83-84 | KeyError exactly when no key that folds like the probe is present |
| IMapping.IDictDel | girc/imapping.py:89-90 | KeyError exactly when the key is absent; otherwise the length drops by one |
| IMapping.IDictGetSet | girc/imapping.py:83-87 | a value set under one variant reads back under every variant; other keys read as before |
| IMapping.IDictSetOthers | girc/imapping.py:86-87 | setting a key leaves every key that folds differently, and the set of present keys, as before apart from that key |
| IMapping.IDictLenSet | girc/imapping.py:86-96 | `len` counts distinct folded keys |
| IMapping.IDictGetDel | girc/imapping.py:83-90 | deleting through any variant removes the key for every variant |
| IMapping.IListAppend | girc/imapping.py:146-148 | append stores the translated value at the end |
| IMapping.IListExtend | girc/imapping.py:154-158 | extend keeps the old elements and appends each value translated |
| IMapping.IListInsert | girc/imapping.py:162-164 | the translated value lands at the clamped `list.insert` index; the values before it stay put and those after it move up by one |
| IMapping.IListSetItem | girc/imapping.py:136-138 | IndexError exactly when the index is out of range; otherwise the subscripted position holds the translated value and every other position is unchanged |
| IMapping.IListRemove | girc/imapping.py:169-171 | ValueError exactly when no stored element equals the translated value; otherwise the first such element goes and the others keep their order |
| IMapping.RemoveFirst | girc/imapping.py:169-171 | `list.remove`: None exactly when the value is absent; otherwise the first occurrence is cut out and one fewer copy remains |
| IMapping.IListRemoveVariant | girc/imapping.py:146-171 | a value appended under one case variant is removed by another |
| IMapping.IrcLower | girc/imapping.py:190-195 | `_irc_lower` is the fold under the string's own standard |
| IMapping.NewIStringAsWritten | girc/imapping.py:177-178 | with no `__init__` of its own, `IString(...)` reaches `IMap.__init__(self)`: it builds an empty string without an argument and raises TypeError with one |
| IMapping.LowerAsWritten | girc/imapping.py:180-183 | `IString.lower()` as written always raises TypeError, since it passes the folded text to the constructor |
| IMapping.IStringEqSpec | girc/imapping.py:210-235 | `==` is fold equality and symmetric; equal strings hash alike; `!=` negates `==` |
| IMapping.Rfc1459Brackets | girc/imapping.py:28-32 | under rfc1459, `[Foo]` equals `{foo}` |
| IMapping.IStringContainsVariant | girc/imapping.py:205-208 | `in` is a substring test on folded forms: a substring is found, and so is every string that folds like it |
| Features.LimitToNumber | girc/features.py:5-12 | a number exactly for an optionally signed digit string; its value is the digits' value, negated after `-` |
| Features.LimitToNumberOfText | girc/features.py:5-12 | `limit_to_number` reads back what `str` writes, with or without `+` |
| Features.PrefixValue | girc/features.py:42-46 | ValueError unless the value splits at `)` into exactly two pieces |
| Features.PrefixPairs | girc/features.py:42-46 | `(modes)chars` pairs the i-th mode letter with the i-th prefix character |
| Features.ColonPair | girc/features.py:54-61 | ValueError unless a group has exactly one colon; the two pieces rebuild the group |
| Features.ChanLimits | girc/features.py:58-64 | fails exactly when some group is malformed; the keys are exactly the type characters named, together with the existing keys |
| Features.ChanLimitsLast | girc/features.py:60-63 | a type character takes the limit of the last group naming it |
| Features.ChanLimitsKeeps | girc/features.py:60-63 | a character no group names keeps its value |
| Features.FeatureValue | girc/features.py:41-67 | PREFIX gives its pairs; CHANMODES splits at commas; TARGMAX is validated and kept as the raw string; CHANLIMIT fails exactly when a group is malformed and otherwise gives the limits; another all-digit value becomes an int |
| Features.IngestOne | girc/features.py:25-73 | `-NAME` deletes the folded name; a name is case-folded and stored; other features are unchanged; a bare name stores True; only CASEMAPPING reaches the connection |
| Features.IngestOverwrites | girc/features.py:34-69 | a later token for the same name overwrites the earlier value |
| Features.IngestCasemapping | girc/features.py:69-73 | `CASEMAPPING=value`, with the name in any case, stores the value and hands it to the connection |
| Features.NewFeaturesTable | girc/features.py:17-22 | a fresh table holds `prefix = {o:@, v:+}` and `chantypes = #` |
| Features.Get | girc/features.py:75-76 | the stored value, or the default; no case folding |
| Capabilities.NewCaps | girc/capabilities.py:10-13 | `available` and `enabled` start empty; `wanted` holds the wish list case-folded |
| Capabilities.CapToken | girc/capabilities.py:22-31 | one leading `=` or `~` is stripped; the value is the text after the last `=`; no `=` gives True; an empty value gives None |
| Capabilities.CapTokenRoundTrip | girc/capabilities.py:22-31 | reading a written token gives back the name and value |
| Capabilities.IngestTokensGet | girc/capabilities.py:21-33 | after the loop a probe reads the value of the last token that names it, in any casing; other probes read as before |
| Capabilities.Ingest | girc/capabilities.py:15-33 | only `ls`, in any case, acts (IndexError without parameters); `wanted` and `enabled` never change |
| Capabilities.IngestAdvertises | girc/capabilities.py:18-33 | every capability named in an LS reply is available afterwards, with the value of its last advertisement |
| Capabilities.ToEnable | girc/capabilities.py:35-43 | in wanted order, exactly the wanted capabilities that are available and not enabled, each as often as it is wanted |
| Capabilities.PendingCounts | girc/capabilities.py:38-41 | the filter keeps every copy of a kept capability: each one appears as often as in `wanted`, or not at all |
| Capabilities.LsOffersWanted | girc/capabilities.py:15-43 | a capability an LS reply advertises is then requested, provided it is wanted and not yet enabled |
| Capabilities.OffersWanted | girc/capabilities.py:21-43 | once LS tokens are stored, a wanted and not yet enabled capability that one of them advertises is requested |
| Reactor.InsertPos | girc/ircreactor/events.py:32-33 | a receiver is placed after every receiver whose priority is not greater than its own |
| Reactor.Insert | girc/ircreactor/events.py:32-33 | insertion adds exactly the new receiver |
| Reactor.InsertGroups | girc/ircreactor/events.py:32-33 | insertion is stable: the receiver goes last in its priority group, and other groups are untouched |
| Reactor.StableSort | girc/ircreactor/events.py:33 | `sorted` by priority: the result is sorted, a permutation of the input, and keeps each priority group in order |
| Reactor.SortedUnique | girc/ircreactor/events.py:33 | a sorted list is determined by its priority groups, so the stable sort is unique |
| Reactor.Attach | girc/ircreactor/events.py:31-33 | after `attach` the subscribers are sorted and hold exactly one more receiver |
| Reactor.AttachInserts | girc/ircreactor/events.py:31-33 | on a sorted list, `attach` is the stable insertion |
| Reactor.Detach | girc/ircreactor/events.py:35-36 | ValueError exactly when the receiver is absent; otherwise one occurrence goes and the list stays sorted |
| Reactor.AttachDetach | girc/ircreactor/events.py:31-36 | detaching a newly attached receiver restores the subscriber list |
| Reactor.Register | girc/ircreactor/events.py:44-52 | the event object is created on first use and reused later; exactly the new receiver is added; other events are untouched |
| Reactor.DispatchEvent | girc/ircreactor/events.py:65-75 | an unknown event calls nobody; subscribers are called in priority order |
| Reactor.RegisterThenDispatch | girc/ircreactor/events.py:31-39 | a registered callable is called on the next dispatch of its event, after every lower-priority receiver |
| Reactor.RegisterDetach | girc/ircreactor/events.py:31-36 | detaching the receiver a registration made restores the event object |
| Pipeline.IsChannel | girc/client.py:294-297 | IndexError on an empty name; otherwise true exactly when the first character is a channel type |
| Pipeline.IsNick | girc/client.py:299-301 | neither a channel nor a valid host name |
| Pipeline.ClassifyAgrees | girc/events.py:311-326 | a name resolves to a user exactly when `is_nick` holds, and to a server exactly when it is a host name and not a channel |
| Pipeline.VerbName | girc/events.py:188-191 | a numeric in the table is replaced by its name, then the verb is lower-cased; an int verb has no `lower` |
| Pipeline.WelcomeVerb | girc/events.py:376 | 001 is dispatched as `welcome` |
| Pipeline.EndOfMotdVerbs | girc/events.py:493-525 | 376 is `endofmotd` and 422 is `nomotd` |
| Pipeline.Refine | girc/events.py:193-204 | `privmsg` becomes `pubmsg` to a channel; `notice` becomes `pubnotice` or `privnotice`; `mode` becomes `cmode` or `umode`; a missing `params[0]` raises; other verbs are unchanged |
| Pipeline.RefineIdempotent | girc/events.py:193-204 | a refined verb refines to itself |
| Pipeline.Dequote | girc/events.py:150-167 | the identity without backslashes; never longer than the input |
| Pipeline.DequoteQuote | girc/events.py:150-167 | de-quoting undoes CTCP quoting for every text |
| Pipeline.DequoteRules | girc/events.py:155-167 | `\x` gives `x` for `x` other than `a`, and a lone trailing backslash vanishes |
| Pipeline.CtcpSplit | girc/events.py:125-130 | the left-stripped segment is the verb, a space and the text, or the verb alone with empty text |
| Pipeline.SegmentEvent | girc/events.py:112-175 | an empty even segment is dropped; an even segment keeps the target and itself; an odd one is a `ctcp` event (`ctcp_reply` for notices) with its verb lower-cased; de-quoting applies to the CTCP fields of `ctcp` events and to the params of the others |
| Pipeline.Unpack | girc/events.py:95-110 | IndexError exactly when the body parameter is missing |
| Pipeline.UnpackSegmentsInOrder | girc/events.py:112-134 | segment order is kept |
| Pipeline.UnpackIsSomes | girc/events.py:112-134 | the loop keeps exactly the events of the segments that make one (a non-empty text or any CTCP), in segment order |
| Pipeline.UnpackPlain | girc/events.py:110-119 | a body without `\x01` is one plain event, or none when empty |
| Pipeline.UnpackCtcp | girc/events.py:110-175 | a body of one delimited CTCP yields exactly one CTCP event with the lower-cased, de-quoted verb and the de-quoted text |
| Pipeline.EscapedAttrNames | girc/events.py:227-230 | `lstrip('escaped_')` happens to leave `message` and `reason` |
| Pipeline.LastWriter | girc/events.py:224-236 | the last row that fires and writes a key |
| Pipeline.ExtractGet | girc/events.py:224-236 | an attribute is set exactly when some row for it fires, to the value of the last such row; other attributes are kept |
| Pipeline.ExtractMessage | girc/events.py:224-236 | a message event gets `target` from its first parameter and the escaped text as `message`, and nothing else |
| Pipeline.ExtractPlaceholder | girc/events.py:224-236 | for a message whose text is the escape placeholder, the table keeps the text, while girc's own `escape` gives `$$` |
| Pipeline.ExtractJoin | girc/events.py:224-236 | a `join` gets its `channels` attribute from its first parameter and nothing else |
| Pipeline.WelcomeNickRow | girc/events.py:224-236 | the `nick` attribute of a `welcome` reply is its first parameter |
| Pipeline.Modes | girc/events.py:250-275 | `umode` and `cmode` with a mode string parse `params[1:]`, with no types or with CHANMODES; `cmodeis` with at most two params gets `''` and `[]`; it fails exactly when that parse fails; the modestring is the joined, stripped arguments and the modes are the parse's |
| Pipeline.UserModesTakeNoArgs | girc/events.py:250-255 | a user mode change consumes no argument |
| Pipeline.FromTo | girc/events.py:342-367 | `from_to` as intended: the picked party, dropped when it resolves to a server |
| Pipeline.FromToParty | girc/events.py:342-364 | the source of incoming private messages, the target of outgoing ones, and the target of public messages |
| Pipeline.ResolvedNames | girc/events.py:311-326 | the names resolution looks at: the non-empty source, `target` and `channel`, and nothing else |
| Pipeline.CreateAll | girc/events.py:311-334 | creation in order stops at the first entity whose creator `Info` lacks, raising AttributeError that names it; it succeeds exactly when all are users |
| Pipeline.ResolveAsWritten | girc/events.py:277-334 | the written entity steps succeed exactly for a non-`namreply` event whose source, target and channel are all users and whose `channels` is empty; `namreply` raises IndexError without a third parameter |
| Pipeline.ResolveDiscrepancy | girc/events.py:311-326 | a public message to a channel is processed by the intended pipeline with the channel as `from_to`, while the written resolution raises |
| Pipeline.Process | girc/events.py:220-367 | fails exactly when `welcome` has no nick, the mode parse fails or `from_to` raises; the attributes are the table's, the modes and `from_to` are those the two steps compute, and name, verb, params, source and CTCP fields are kept |
| Pipeline.ProcessAll | girc/events.py:218-221 | every event is processed in order, and the loop fails exactly when some event fails |
| Pipeline.WelcomeAsWritten | girc/events.py:239-241 | as written the `welcome` step always raises: KeyError without a nick, TypeError from `server.istring` with one |
| Pipeline.StepAsWrittenFails | girc/events.py:220-367 | a written step raises exactly on a `welcome`, a failing mode parse, a name only `create_channel` or `create_server` could create, or a `from_to`; so wherever the intended processing raises |
| Pipeline.FirstFailure | girc/events.py:218-221 | the loop stops at the first event that raises, and that error is the result |
| Pipeline.MessageToEventAsWritten | girc/events.py:180-369 | the written pipeline raises wherever the intended one does and then with the first failing step's error; when it returns, its events are named as the intended ones |
| Pipeline.WelcomeDiscrepancy | girc/events.py:239-241 | a `welcome` with a nick is processed with that nick by the intended step and raises TypeError in the written one |
| Pipeline.JoinProcessed | girc/events.py:220-367 | the intended processing of a `join` without a source goes through |
| Pipeline.JoinDiscrepancy | girc/events.py:328-333 | a `join` goes through the intended processing and raises AttributeError for `create_channel` in the written step, whatever the channel is called |
| Pipeline.OutgoingJoin | girc/events.py:180-369 | for an outgoing `join` of one channel the written pipeline raises AttributeError for `create_channel` and the intended one goes through |
| Pipeline.ActionOf | girc/events.py:244-248 | the added `action` is a copy whose `message` is the CTCP text |
| Pipeline.Actions | girc/events.py:244-248 | at most one `action` per event, each named `action`; none exactly when no event is a CTCP ACTION |
| Pipeline.ActionsAppend | girc/events.py:244-248 | the actions of two event lists appended are the actions of each, appended |
| Pipeline.ActionsFrom | girc/events.py:244-248 | every added `action` is the copy of some CTCP ACTION event |
| Pipeline.IncomingPrivateMessage | girc/events.py:180-369 | an incoming private message is one `privmsg` event with the target, the escaped text and the sender as `from_to` |
| Pipeline.PlainProcessed | girc/events.py:224-367 | processing an incoming private message sets its target, its escaped text and its sender as `from_to` |
| Pipeline.IncomingAction | girc/events.py:180-369 | an incoming CTCP ACTION is a `ctcp` event followed by an `action` event whose message is the text |
| Pipeline.Unpacked | girc/events.py:186-215 | the events before processing: fails exactly for an int verb, a failed refinement or a message without a body; each event is named by the refined verb or its CTCP name; a non-message verb gives exactly one event with the message's params |
| Pipeline.MessageToEventOrder | girc/events.py:180-369 | the processed events come first, in order, and the processed actions follow them; a failing event fails the whole call |
| Pipeline.MessageToEventNames | girc/events.py:180-369 | every event is named by the refined verb, `ctcp`, `ctcp_reply` or `action` |
| Pipeline.MessageToEventNick | girc/events.py:239-241 | a nick is reported exactly when a `welcome` event is among the events, and it is the `nick` attribute of one |
| Pipeline.MessageToEventSteps | girc/events.py:180-369 | given the results of naming, refining, unpacking and processing, `message_to_event` is the processed events followed by the processed actions |
| Formatting.FormatChar | girc/formatting.py:5-11 | the five keys map onto the five control characters |
| Formatting.EscapeChar | girc/formatting.py:14-20 | `$` becomes `$$`; a control character becomes `$` and its key; anything else is kept |
| Formatting.Escape | girc/formatting.py:14-20 | the output holds no control character; text without `$` or control characters is unchanged |
| Formatting.EscapeAgrees | girc/formatting.py:14-20 | the written escape equals the character-wise escape on every message that does not contain the placeholder text |
| Formatting.EscapeWrittenSteps | girc/formatting.py:16-18 | the `$` replacement and the five control-code replacements together map each character on its own, with `$` as the placeholder |
| Formatting.UnescapeAsWritten | girc/formatting.py:22-36 | the identity on `$`-free text; fails exactly on text that is not well escaped for it: IndexError for a trailing `$`, KeyError naming the character after a `$` that has no format key; a success equals the corrected unescape and holds no `$` |
| Formatting.Unescape | girc/formatting.py:22-36 | the identity on `$`-free text; fails exactly on text that is not well escaped |
| Formatting.UnescapeEscape | girc/formatting.py:14-36 | `unescape(escape(s)) == s` for every text |
| Formatting.UnescapeFlatMap | girc/formatting.py:22-36 | unescaping the character-wise escape of any text gives that text back |
| Formatting.UnescapeAsWrittenEscape | girc/formatting.py:14-36 | the written unescape undoes the escape of every text without `$` |
| Formatting.UnescapeAsWrittenInverse | girc/formatting.py:14-36 | on text that is well escaped for the written unescape and holds no control character, escaping the unescaped text gives the text back |
| Types.NewUser | girc/types.py:16-24 | the nick, user and host are those of `NickMask(mask)`; the channel list starts empty |
| Types.NewUserMasks | girc/types.py:40-46 | `userhost == user@host` and `nickmask == nick!user@host` |
| Types.NewChannel | girc/types.py:67-73 | not joined, no members |
| Types.MeText | girc/types.py:52-56 | the CTCP text is `ACTION ` and the message, unescaped when formatted |
| Types.MeEscaped | girc/types.py:52-56 | a formatted `me` of an escaped text sends the text |
| Types.UserMe | girc/types.py:52-56 | the CTCP goes to the user's nick |
| Types.ChannelMe | girc/types.py:92-96 | the CTCP goes to the channel's name |
| Info.NewState | girc/info.py:11-16 | no users and no channels, under the connection's casemapping |
| Info.CreateUser | girc/info.py:42-59 | a user absent under every variant is created and announced; the nick is always rewritten, and the user and host only when the mask has them; nothing else changes |
| Info.CreateUserIdempotent | girc/info.py:42-59 | a second `create_user` changes nothing and announces nothing |
| Info.CreateChannel | girc/info.py:62-69 | an absent channel is created and announced; a present one is untouched |
| Info.CreateChannelsCovers | girc/info.py:61-69 | every listed channel exists afterwards, and known channels keep their records |
| Info.CreateChannelsOnlyListed | girc/info.py:61-69 | no unlisted channel appears |
| Info.CreateChannelsAnnounces | girc/info.py:61-69 | one announcement per record created, each for a listed name that was unknown |
| Info.CreateChannelsIdempotent | girc/info.py:61-69 | a second `create_channels` changes nothing and announces nothing |
| Info.AddMember | girc/info.py:29-34 | one turn of the guarded membership update records user and channel against each other and keeps the keys |
| Info.MembersRecord | girc/info.py:29-34 | after the loop every joined channel and the nick are recorded against each other |
| Info.MembersListOnce | girc/info.py:30-31 | the guarded loop adds no repeat to the user's channel list |
| Info.Join | girc/info.py:22-34 | a missing source raises TypeError; missing params raise IndexError |
| Info.JoinRecords | girc/info.py:22-34 | after a join, the user and every channel of `params[0]` are recorded against each other; a list without repeats stays so |
| Info.JoinDiffersByMembers | girc/info.py:22-34 | the intended join is the written one followed by the membership loop |
| Info.UpdateInfo | girc/info.py:21-34 | only `join` changes the tracker |
| Client.StripLineEnds | girc/client.py:178-185 | the CR/LF-free characters of a text, in order |
| Client.Scan | girc/client.py:178-187 | every line is non-empty and CR/LF-free, the rest is CR/LF-free, and lines followed by rest give the CR/LF-free characters of the input |
| Client.Frame | girc/client.py:172-187 | the framing loop computes `Scan` of the old buffer followed by the new data |
| Client.ScanSplits | girc/client.py:178-187 | the lines are exactly the non-empty maximal CR/LF-free runs before the last line end, and the buffer is the run after it |
| Client.Send | girc/client.py:150-151 | `send` builds the message with `from_data`: verb and params kept, no tags, a non-empty source kept and a falsy one dropped |
| Client.WireLine | girc/client.py:155 | the line written is the wire form and CR LF; without the CR LF it parses back to the message when the message round-trips |
| Client.SendMessage | girc/client.py:154-170 | the intended send writes the wire line exactly when the outgoing pipeline goes through |
| Client.SendMessageAsWritten | girc/client.py:154-170 | the written send writes only when the outgoing pipeline yields no event; an error of the written pipeline stops it first, and otherwise any event makes it raise AttributeError for `handle_event_out`; when it writes, the line is the intended one |
| Client.EmptyPipelineAsWritten | girc/client.py:163-170 | a pipeline with no event gets through as written too, so the line is written |
| Client.SendJoinAsWritten | girc/client.py:150-170 | `send('JOIN', [chan])` as written raises AttributeError for `create_channel` before `handle_event_out`; the intended send writes it |
| Client.SendDiscrepancy | girc/client.py:150-170 | a command that is no message or notice is never written by the code as it stands, while the intended send writes it whenever the pipeline goes through |
| Client.RegisterEvent | girc/client.py:82-92 | `in` and `both` reach the incoming manager, `out` and `both` the outgoing one, `girc` only the internal one; nothing else changes |
| Client.NewConn | girc/client.py:23-79 | not ready, no casemapping, the 13 wanted capabilities folded, the RFC 1459 features, an empty tracker under ascii |
| Client.NewConnSubscribes | girc/client.py:67-71 | the tracker gets every incoming event; `cap`, `features`, `endofmotd`, `nomotd` and `ping` are handled in both directions |
| Client.Restd | girc/client.py:101-102 | every tracked casemapped object takes the new standard; stored keys are not re-folded |
| Client.SetCasemapping | girc/client.py:95-102 | only the first call acts: it sets the flag and moves every tracked object to the folded standard; a non-string value raises AttributeError; nothing is sent |
| Client.SetCasemappingOnce | girc/client.py:95-97 | after one call every later call changes nothing |
| Client.IngestFeatures | girc/features.py:24-73 | the features are those of `ingest`; the first CASEMAPPING value moves the tracker to its standard |
| Client.RplFeatures | girc/client.py:276-278 | no parameters besides the trailing text means nothing happens |
| Client.RplFeaturesIgnoresLast | girc/client.py:277-278 | the trailing text is never read |
| Client.FeaturesSetCasemapping | girc/client.py:276-278 | a first ISUPPORT reply naming a known CASEMAPPING puts the tracker under that standard |
| Client.RplPing | girc/client.py:287-288 | a PONG carrying the PING's parameters |
| Client.Welcome | girc/client.py:272-274 | `NICK nick`, then `USER user * * real` |
| Client.RplCap | girc/client.py:252-270 | IndexError when the subcommand is missing; the reply is always ingested; once ready nothing is sent; LS sends `CAP REQ` with the capabilities to enable; ACK and NAK send `CAP END`, NICK and USER |
| Client.LsRequests | girc/client.py:262-264 | before registration, an LS reply requests what is left to enable |
| Client.AckRegisters | girc/client.py:265-274 | before registration, an ACK reply sends `CAP END`, NICK and USER |
| Client.Handshake | girc/client.py:252-274 | on a new connection, LS then ACK requests exactly the wanted capabilities that were advertised, in wish-list order, then registers |
| Client.RequestReadsBack | girc/client.py:263-264 | the REQ text, split at spaces, is the list of capabilities requested |
| Client.JoinParams | girc/client.py:313-320 | an entry with a space must split into exactly two pieces (otherwise ValueError); an empty key is dropped; the parameters space-joined give the entry back |
| Client.JoinParamsRoundTrip | girc/client.py:313-322 | a space-free channel and key are sent as given |
| Client.JoinLoop | girc/client.py:310-322 | one JOIN per entry, in order, up to the first bad entry, whose error is raised |
| Client.JoinChannels | girc/client.py:304-322 | before ready the list replaces the queue and nothing is sent; afterwards each entry is joined in order |
| Client.RplEndOfMotd | girc/client.py:280-285 | the first call sets ready and joins the queue; later calls do nothing |
| Client.AutojoinQueue | girc/client.py:280-308 | channels queued before registration are joined at the end of the MOTD, and only once |
| Client.IsChannel | girc/client.py:294-297 | the first character looked up with Python `in` in the CHANTYPES value; IndexError on an empty name and TypeError for a missing or non-container value |
| Client.IsChannelAgrees | girc/client.py:294-301 | with a string CHANTYPES, the connection and the pipeline classify names alike |
| Client.IsChannelNonString | girc/client.py:294-297 | with CHANTYPES missing, bare or numeric the connection's `is_channel` raises TypeError for every non-empty name, while the pipeline's string-based test answers for every CHANTYPES string |
| Client.NewConnChannels | girc/client.py:294-297 | a new connection takes exactly the `#` names for channels |
| Client.IsNick | girc/client.py:299-301 | neither a channel nor a host name; fails exactly when `is_channel` fails |
| Client.Msg | girc/client.py:205-210 | a PRIVMSG to the target from the connection's nick; a formatted message is unescaped and fails exactly when unescaping fails |
| Client.MsgEscaped | girc/client.py:205-210 | a formatted message of an escaped text sends the text |
| Client.Ctcp | girc/client.py:219-226 | the text is the verb and the argument, space-joined between two `\x01` |
| Client.MeReachesPeer | girc/types.py:52-56 | `me` sent through `ctcp` reaches the peer's pipeline as an `action` whose message is the text |

## Left out

- Transport, asyncio and UTF-8 decoding (girc/client.py:126-170, 174) are left out because they are I/O.
- The reactor in `girc/__init__.py` and `girc/asyncio_compat.py` are left out because they are loop glue.
- Dispatching framed lines to handlers (girc/client.py:189-202) is left out. `Frame` returns the lines in order instead. The dispatch also calls `info.handle_event_in`, which `Info` does not define.
- Dispatching outgoing events to handlers in `_send_message` (girc/client.py:157-168) is left out, and so are the `raw` events it dispatches first. `Client.SendMessage` runs the outgoing pipeline and returns the line that would be written.
- Client.SendMessage: as written, the outgoing pipeline raises first on every `welcome`, channel or server name and `from_to` (see `Pipeline.MessageToEventAsWritten`); otherwise every event is handed to `info.handle_event_out`, which `Info` does not define, so a send that yields an event raises AttributeError and writes nothing. `Client.SendMessageAsWritten` models this (see Findings); `SendMessage` is the evidently intended behaviour.
- Pipeline.IsChannel: the pipeline reads CHANTYPES as a string. girc's `is_channel` looks the first character up in the stored CHANTYPES feature and raises TypeError when the server removed it (`-CHANTYPES`), sent it bare (stored as `True`) or sent digits (stored as an int); `refine` and the entity resolution would then raise on every `privmsg`, `notice` and `mode`. The model does not carry that failure into the pipeline; `Client.IsChannel` models it, `Client.IsChannelAgrees` connects the two for a string, and `Client.IsChannelNonString` shows the gap.
- Pipeline.IsNick: inherits the string-only CHANTYPES of `Pipeline.IsChannel`, so the TypeError above is not modelled here either; `Client.IsNick` models it.
- Pipeline.ExtractGet: the value of an `escaped_` row is the corrected `Formatting.Escape`. girc's own `escape`, which the source applies (girc/events.py:235), turns text holding the placeholder `girc-escaped-character` into `$$`; elsewhere the two agree (`Formatting.EscapeAgrees`). `Pipeline.ExtractPlaceholder` shows the difference.
- Pipeline.ExtractMessage: states the corrected escape of the text, for the same reason as `Pipeline.ExtractGet`.
- Pipeline.IncomingPrivateMessage: the `message` attribute is the corrected escape, for the same reason as `Pipeline.ExtractGet`.
- Pipeline.PlainProcessed: the `message` attribute is the corrected escape, for the same reason as `Pipeline.ExtractGet`.
- Pipeline.MessageToEventNick: as written, no nick is ever reported, since every `welcome` with one raises TypeError (see `Pipeline.WelcomeAsWritten`); the lemma states the evidently intended nick.
- IMapping.IStringEqSpec: models `==` on an `IString` with a text, which the source cannot build (`IString(text)` raises TypeError), and `lower()`, which `==` calls first, raises too (`IMapping.LowerAsWritten`). It states the evidently intended fold comparison.
- IMapping.IStringContainsVariant: models `in` on an `IString`, which the source cannot construct with a text and whose `in` calls the raising `lower()`, as for `IMapping.IStringEqSpec`.
- IMapping.Rfc1459Brackets: states the intended comparison of `IString`s, as for `IMapping.IStringEqSpec`.
- `notice`, `ctcp_reply` and `mode` on the connection are left out; they mirror `msg` and `ctcp`.
- `User.msg`, `User.ctcp` and the other forwarding wrappers in `girc/types.py` are left out.
- The rfc3454 standard (girc/imapping.py:60-61) is left out because it calls the foreign `encodings.idna.nameprep`.
- Python's Unicode `lower`, `upper` and `casefold` are left out: folding is restricted to ASCII.
- `IString` ordering operators, `_irc_upper` and the `__getattribute__` wrapper (girc/imapping.py:197-202, 216-259) are left out. They do not give string semantics.
- The live User and Channel objects that resolution and NAMES handling put into an event (girc/events.py:277-340) are left out. `Pipeline.Classify` keeps only which kind of entity a name resolves to, and the nick prefixes of a NAMES reply are not stripped.
- Pipeline.Process: as written, resolving a channel name calls `info.create_channel` and a server name `info.create_server`, neither of which `Info` defines, and every `namreply` calls `create_channel`; so those events raise AttributeError (or IndexError). `Pipeline.ResolveAsWritten` models this (see Findings); `Process`, and through it `Pipeline.MessageToEvent`, models the evidently intended resolution, which never raises. Likewise the `welcome` step raises TypeError whenever the reply has a nick, because `server.istring` calls `IString(nick)` and `IString` has no constructor that takes an argument (girc/imapping.py:13, 177); `Pipeline.WelcomeAsWritten` models this and `Process` records the nick as intended. Finally, `refine` and the resolution steps use `Pipeline.IsChannel`, so an event that girc rejects for a missing, bare or numeric CHANTYPES is processed normally (see the `Pipeline.IsChannel` line).
- `EventReceiver.__del__`, garbage-collection-driven unsubscription and logging are left out.
- `Info.json` and the pprint debug dump (girc/info.py:36-40, 71-76) are left out.
- SASL, the connect password and ACK/NAK bookkeeping are left out. The source does not implement them.
- Python dicts are modelled as association lists in insertion order. Object identity and aliasing are not modelled, except where `Info.JoinAsWritten` needs them.
- Handler callables and the identities of receiver objects become natural numbers.
- Client.Restd: does not model that objects created after the first CASEMAPPING keep the standard they were created with.
- Client.SetCasemapping: an unknown standard name keeps the previous tables, as `set_std` does for an object whose tables were built before (girc/imapping.py:48-57). An object that never had a known standard has no table in the source, and `_translate` then returns None; the model starts every object under `ascii`, so it has no such object.
- IMapping.SetStd: the `None` standard that the connection passes before CASEMAPPING is replaced by `ascii`, because the source would crash.
- Capabilities.ToEnable: the `in available` test folds the probe as `CaseInsensitiveDict` does. The `not in enabled` test is `CaseInsensitiveList.__contains__`.
- Features.Ingest: a failure does not keep the features ingested before it. `Client.IngestFeatures` models those partial effects.
- Pipeline.Modes: `cmodeis` arguments are parsed only when present.
- Pipeline.MessageToEvent: the `welcome` nick is returned rather than written into a live connection.
- Pipeline.MessageToEvent: the `raw` events that accompany each line are left out.
- Client.Msg: a formatted message is unescaped with the corrected `Formatting.Unescape`, so `$$` sends `$` where the source raises KeyError. Wherever the written unescape succeeds the two agree, because `Formatting.UnescapeAsWritten` states that its success equals `Unescape`.
- Client.MsgEscaped: relies on the corrected unescape; with the written one, a text holding `$` would raise instead of being sent.
- Types.MeText: a formatted `me` is unescaped with the corrected `Formatting.Unescape`, for the same reason as `Client.Msg`.
- Types.MeEscaped: relies on the corrected unescape, like `Client.MsgEscaped`.
- Envelope.FromMessage: bytes input is left out, because it is decoded before parsing.

## Findings

| source | as written | input that shows it | evidently intended | confidence | as-written member | corrected member |
|---|---|---|---|---|---|---|
| girc/capabilities.py:45-46 | `get` reads `self._dict`, which a `Capabilities` object never has | any call, e.g. `get('sasl')` | look up `available` | high, not executed | Capabilities.GetAsWritten, Capabilities.GetDiscrepancy | Capabilities.Get |
| girc/formatting.py:29-32 | `unescape` raises KeyError on `$$`, the escape of `$` | `unescape(escape('$'))` | `$$` gives `$` back | high, not executed | Formatting.UnescapeAsWritten, Formatting.DollarLost | Formatting.Unescape, Formatting.UnescapeEscape, Client.Msg, Types.MeText |
| girc/formatting.py:16-19 | text equal to the placeholder `girc-escaped-character` is escaped as if it were `$` | `escape('girc-escaped-character')` gives `$$` | escape each character on its own | high, not executed | Formatting.EscapeAsWritten, Formatting.PlaceholderCollision, Pipeline.ExtractPlaceholder | Formatting.Escape, Formatting.UnescapeEscape, Pipeline.ExtractGet, Pipeline.ExtractMessage, Pipeline.IncomingPrivateMessage, Pipeline.PlainProcessed |
| girc/events.py:366-367 | the removal test reads `from_to.is_server`, which the User, Channel and Server records do not define | any incoming `privmsg` from a user | drop `from_to` when it resolves to a server | medium, not executed | Pipeline.FromToAsWritten, Pipeline.FromToDiscrepancy | Pipeline.FromTo |
| girc/client.py:166 | `_send_message` hands every outgoing event to `self.info.handle_event_out`, which `Info` does not define, before `transport.write` | `send('NICK', ['me'])` | dispatch the events and write the line | high, not executed | Client.SendMessageAsWritten, Client.SendDiscrepancy | Client.SendMessage, Client.WireLine |
| girc/events.py:311-334 | a channel name is resolved through `info.create_channel` and a server name through `info.create_server`, neither of which `Info` defines | `:n!u@h PRIVMSG #chan :hi` | create or look up the channel or server and carry on | high, not executed | Pipeline.ResolveAsWritten, Pipeline.ResolveDiscrepancy, Pipeline.JoinDiscrepancy, Pipeline.OutgoingJoin, Pipeline.MessageToEventAsWritten, Client.SendJoinAsWritten | Pipeline.Process |
| girc/imapping.py:177 | `IString` defines no `__init__`, so `IString(text)` reaches `IMap.__init__(self)` and raises TypeError; `server.istring` does this for every `welcome` | `:srv 001 me :Welcome` | build the string with the text and record the nick | high, not executed | IMapping.NewIStringAsWritten, IMapping.LowerAsWritten, Pipeline.WelcomeAsWritten, Pipeline.WelcomeDiscrepancy | Pipeline.Process, Pipeline.MessageToEventNick, IMapping.IrcLower, IMapping.IStringEqSpec |
| girc/info.py:29-34 | membership is appended to copies that the `channels` and `users` properties build on each read, so it is lost | a `join` of a new user to a new channel | record the membership on the records | high, not executed | Info.JoinAsWritten, Info.JoinMembershipLost | Info.Join, Info.JoinRecords |

=== FILE: capabilities.dfy ===
/** IRCv3 client capability negotiation state (the CAP command). Models
    girc/capabilities.py. */
module Capabilities {
  import opened Wrappers
  import opened Strings
  import opened Dicts
  import opened Utils

  /** The value a server advertises for a capability: bare (`True`), an
      empty value after `=` (`None`), or a string. */
  datatype CapValue = CapTrue | CapNone | CapStr(s: string)

  /** `available` maps advertised names to values; `wanted` and `enabled`
      are case-insensitive lists. */
  datatype Caps = Caps(available: CIDict<CapValue>, wanted: CIList, enabled: CIList)

  predicate CapsValid(c: Caps)
  {
    CIDictValid(c.available) && CIListValid(c.wanted) && CIListValid(c.enabled)
  }

  /** `Capabilities(wanted)`. */
  function NewCaps(wanted: seq<string>): (c: Caps)
    ensures CapsValid(c)
    ensures c.available.store == [] && c.enabled.store == []
    ensures |c.wanted.store| == |wanted|
    ensures forall i :: 0 <= i < |wanted| ==> c.wanted.store[i] == Lower(wanted[i])
  {
    Caps(CIDict([]), CIExtend(CIList([]), wanted), CIList([]))
  }

  /** One token of a `CAP LS` reply: one leading `=` or `~` is dropped, then
      the text after the last `=` is the value (`None` when empty) and a
      token without `=` is enabled-by-presence. */
  function CapToken(cap: string): (r: (string, CapValue))
    ensures var body := if StartsWith(cap, "=") || StartsWith(cap, "~") then cap[1..] else cap;
      && CapText(r.0, r.1) == body
      && (r.1.CapTrue? <==> '=' !in body)
      && (r.1.CapStr? ==> r.1.s != "" && '=' !in r.1.s)
  {
    var body := if StartsWith(cap, "=") || StartsWith(cap, "~") then cap[1..] else cap;
    if '=' in body then
      var (name, value) := SplitLast(body, '=');
      (name, if value == "" then CapNone else CapStr(value))
    else (body, CapTrue)
  }

  /** The token text the server writes for a capability. */
  function CapText(name: string, value: CapValue): string
  {
    match value
    case CapTrue => name
    case CapNone => name + "="
    case CapStr(s) => name + "=" + s
  }

  /** Reading an advertised token gives back the name and value written. */
  lemma CapTokenRoundTrip(name: string, value: CapValue)
    requires |name| > 0 && name[0] != '=' && name[0] != '~'
    requires value.CapTrue? ==> '=' !in name
    requires value.CapStr? ==> value.s != "" && '=' !in value.s
    ensures CapToken(CapText(name, value)) == (name, value)
  {
    var t := CapText(name, value);
    assert t[0] == name[0];
    assert !StartsWith(t, "=") && !StartsWith(t, "~") by {
      assert t[..1] == [name[0]];
    }
    match value
    case CapTrue =>
    case CapNone =>
      assert t == name + ['='] + "";
      SplitLastOf(name, "", '=');
    case CapStr(s) =>
      assert t == name + ['='] + s;
      SplitLastOf(name, s, '=');
  }

  /** The loop of `ingest`: each token is stored in turn. */
  function IngestTokens(avail: CIDict<CapValue>, tokens: seq<string>): (r: CIDict<CapValue>)
    ensures CIDictValid(avail) ==> CIDictValid(r)
    decreases |tokens|
  {
    if |tokens| == 0 then avail
    else
      var (name, value) := CapToken(tokens[|tokens| - 1]);
      CISet(IngestTokens(avail, tokens[..|tokens| - 1]), name, value)
  }

  /** Token `t` advertises `probe` in some casing. */
  predicate Names(t: string, probe: string)
  {
    Lower(CapToken(t).0) == Lower(probe)
  }

  /** The index of the last token advertising `probe`, if any. */
  function LastNaming(tokens: seq<string>, probe: string): (r: Option<nat>)
    ensures r.Some? ==> r.value < |tokens| && Names(tokens[r.value], probe)
    ensures r.Some? ==> forall k :: r.value < k < |tokens| ==> !Names(tokens[k], probe)
    ensures r.None? ==> forall k :: 0 <= k < |tokens| ==> !Names(tokens[k], probe)
  {
    LastWhere(tokens, t => Names(t, probe))
  }

  /** After the loop a probe reads the value of the last token advertising
      it, in any casing, and a probe no token names reads as before. */
  lemma {:induction false} IngestTokensGet(avail: CIDict<CapValue>, tokens: seq<string>, probe: string)
    ensures CIGet(IngestTokens(avail, tokens), probe) ==
      match LastNaming(tokens, probe)
      case Some(i) => Success(CapToken(tokens[i]).1)
      case None => CIGet(avail, probe)
    decreases |tokens|
  {
    if |tokens| > 0 {
      var init := tokens[..|tokens| - 1];
      var (name, value) := CapToken(tokens[|tokens| - 1]);
      IngestTokensGet(avail, init, probe);
      CIGetSet(IngestTokens(avail, init), name, value, probe);
      LastNamingSnoc(tokens, probe);
      var li := LastNaming(init, probe);
      if li.Some? {
        assert init[li.value] == tokens[li.value];
      }
    }
  }

  /** The last token naming `probe` is the final token when it names it,
      and otherwise the last one among the others. */
  lemma LastNamingSnoc(tokens: seq<string>, probe: string)
    requires |tokens| > 0
    ensures LastNaming(tokens, probe) ==
      if Names(tokens[|tokens| - 1], probe) then Some(|tokens| - 1)
      else LastNaming(tokens[..|tokens| - 1], probe)
  {
  }

  /** `ingest(cmd, parameters)`: only the `LS` subcommand (in any case) is
      read; its first parameter is a space-separated token list. */
  function Ingest(c: Caps, cmd: string, params: seq<string>): (r: Result<Caps>)
    ensures Lower(cmd) != "ls" ==> r == Success(c)
    ensures Lower(cmd) == "ls" ==> (r.Failure? <==> |params| == 0)
    ensures r.Success? ==> r.value.wanted == c.wanted && r.value.enabled == c.enabled
    ensures r.Success? && CapsValid(c) ==> CapsValid(r.value)
  {
    if Lower(cmd) != "ls" then Success(c)
    else if |params| == 0 then Failure(IndexError("list index out of range"))
    else Success(c.(available := IngestTokens(c.available, Split(params[0], ' '))))
  }

  /** Every capability named in an `LS` reply is available afterwards, with
      the value of its last advertisement. */
  lemma IngestAdvertises(c: Caps, cmd: string, list: string, k: nat)
    requires Lower(cmd) == "ls" && k < |Split(list, ' ')|
    ensures var tokens := Split(list, ' ');
      var name := CapToken(tokens[k]).0;
      && LastNaming(tokens, name).Some?
      && k <= LastNaming(tokens, name).value
      && CIGet(Ingest(c, cmd, [list]).value.available, name) ==
        Success(CapToken(tokens[LastNaming(tokens, name).value]).1)
  {
    var tokens := Split(list, ' ');
    var name := CapToken(tokens[k]).0;
    assert Names(tokens[k], name);
    IngestTokensGet(c.available, tokens, name);
  }

  /** `to_enable`: the wanted capabilities, in wanted order, that are
      available and not yet enabled. */
  function ToEnable(c: Caps): (r: seq<string>)
    ensures IsSubsequence(r, c.wanted.store)
    ensures forall x :: x in r <==>
      x in c.wanted.store && CIGet(c.available, x).Success? && !CIContains(c.enabled, x)
    ensures forall x :: multiset(r)[x] == (if CIGet(c.available, x).Success? && !CIContains(c.enabled, x) then multiset(c.wanted.store)[x] else 0)
  {
    PendingCounts(c.wanted.store, c.available, c.enabled);
    Pending(c.wanted.store, c.available, c.enabled)
  }

  /** The filter of `to_enable` over a prefix of the wanted list. */
  function Pending(wanted: seq<string>, avail: CIDict<CapValue>, enabled: CIList): (r: seq<string>)
    ensures IsSubsequence(r, wanted)
    ensures forall x :: x in r <==>
      x in wanted && CIGet(avail, x).Success? && !CIContains(enabled, x)
    decreases |wanted|
  {
    if |wanted| == 0 then []
    else
      var init := wanted[..|wanted| - 1];
      var x := wanted[|wanted| - 1];
      var head := Pending(init, avail, enabled);
      assert wanted == init + [x];
      if CIGet(avail, x).Success? && !CIContains(enabled, x) then
        var r := head + [x];
        assert r[..|r| - 1] == head;
        r
      else
        SubsequenceExtend(head, init, x);
        head
  }

  /** The filter keeps every copy of a capability it keeps: a capability
      listed twice in `wanted` is requested twice. */
  lemma {:induction false} PendingCounts(wanted: seq<string>, avail: CIDict<CapValue>, enabled: CIList)
    ensures forall x :: multiset(Pending(wanted, avail, enabled))[x] == (if CIGet(avail, x).Success? && !CIContains(enabled, x) then multiset(wanted)[x] else 0)
    decreases |wanted|
  {
    if |wanted| > 0 {
      var init, last := wanted[..|wanted| - 1], wanted[|wanted| - 1];
      var keep := CIGet(avail, last).Success? && !CIContains(enabled, last);
      PendingCounts(init, avail, enabled);
      assert wanted == init + [last];
      var r := Pending(wanted, avail, enabled);
      assert r == Pending(init, avail, enabled) + (if keep then [last] else []);
      assert multiset(r) == multiset(Pending(init, avail, enabled)) + multiset(if keep then [last] else []);
    }
  }

  /** A wanted capability the server advertises is requested unless it is
      already enabled. */
  lemma LsOffersWanted(c: Caps, list: string, k: nat)
    requires k < |Split(list, ' ')|
    requires CapToken(Split(list, ' ')[k]).0 in c.wanted.store
    requires !CIContains(c.enabled, CapToken(Split(list, ' ')[k]).0)
    ensures CapToken(Split(list, ' ')[k]).0 in ToEnable(Ingest(c, "LS", [list]).value)
  {
    var tokens := Split(list, ' ');
    IngestLs(c, list);
    OffersWanted(c, tokens, k);
  }

  /** An `LS` reply stores its space-separated tokens. */
  lemma IngestLs(c: Caps, list: string)
    ensures Ingest(c, "LS", [list]) == Success(c.(available := IngestTokens(c.available, Split(list, ' '))))
  {
    assert Lower("LS") == "ls";
  }

  /** A wanted, not yet enabled capability that some token advertises is
      requested once the tokens are stored. */
  lemma OffersWanted(c: Caps, tokens: seq<string>, k: nat)
    requires k < |tokens|
    requires CapToken(tokens[k]).0 in c.wanted.store
    requires !CIContains(c.enabled, CapToken(tokens[k]).0)
    ensures CapToken(tokens[k]).0 in ToEnable(c.(available := IngestTokens(c.available, tokens)))
  {
    var name := CapToken(tokens[k]).0;
    assert Names(tokens[k], name);
    IngestTokensGet(c.available, tokens, name);
  }

  /** `get(key, default)` as written reads `self._dict`, an attribute a
      `Capabilities` object never has, so every call raises. */
  function GetAsWritten(c: Caps, key: string, default: CapValue): (r: Result<CapValue>)
    ensures r.Failure? && r.error.AttributeError?
  {
    Failure(AttributeError("'Capabilities' object has no attribute '_dict'"))
  }

  /** `get(key, default)` as evidently intended: the advertised value of
      `key` in any casing, else `default`. */
  function Get(c: Caps, key: string, default: CapValue): (r: CapValue)
    ensures CIGet(c.available, key).Success? ==> r == CIGet(c.available, key).value
    ensures CIGet(c.available, key).Failure? ==> r == default
  {
    match CIGet(c.available, key)
    case Success(v) => v
    case Failure(_) => default
  }

  /** The two disagree on every input: the written method never returns. */
  lemma GetDiscrepancy(c: Caps, key: string, default: CapValue)
    ensures GetAsWritten(c, key, default).Failure?
    ensures Get(Ingest(c, "LS", [key]).value, key, default) == CapTrue ||
      '=' in key || ' ' in key || StartsWith(key, "~")
  {
    if '=' !in key && ' ' !in key && !StartsWith(key, "~") {
      assert Lower("LS") == "ls";
      SplitNoSep(key, ' ');
      CapTokenBare(key);
      IngestAdvertises(c, "LS", key, 0);
      assert LastNaming([key], key) == Some(0);
    }
  }

  /** A token with no `=` and no leading `~` is its own name, enabled by
      presence. */
  lemma CapTokenBare(t: string)
    requires '=' !in t && !StartsWith(t, "~")
    ensures CapToken(t) == (t, CapTrue)
  {
    assert !StartsWith(t, "=") by {
      if |t| > 0 {
        assert t[..1] == [t[0]] && t[0] != '=';
      }
    }
  }
}

=== FILE: client.dfy ===
/** The non-I/O logic of a server connection: line framing, the one-shot
    casemapping, capability negotiation and registration, the autojoin
    queue and the name predicates. Models girc/client.py. */
module Client {
  import opened Wrappers
  import opened Strings
  import opened Dicts
  import opened Utils
  import opened IMapping
  import opened Types
  import Formatting
  import Envelope
  import Features
  import Capabilities
  import Reactor
  import Info
  import Pipeline

  /* ------------------------------------------------------------ framing */

  predicate IsLineEnd(c: char)
  {
    c == '\r' || c == '\n'
  }

  predicate NoLineEnd(s: string)
  {
    forall k :: 0 <= k < |s| ==> !IsLineEnd(s[k])
  }

  /** The characters of `s` that are not CR or LF, in order. */
  function StripLineEnds(s: string): (r: string)
    ensures NoLineEnd(r) && |r| <= |s|
  {
    if |s| == 0 then ""
    else
      var c := s[|s| - 1];
      StripLineEnds(s[..|s| - 1]) + (if IsLineEnd(c) then "" else [c])
  }

  /** The lines one after the other. */
  function Concat(lines: seq<string>): string
  {
    if |lines| == 0 then ""
    else Concat(lines[..|lines| - 1]) + lines[|lines| - 1]
  }

  /** The framing loop of `data_received` over the characters read so far:
      the completed lines and the partial line still buffered. Every line
      is non-empty and CR/LF free, the buffer is CR/LF free, and together
      they hold exactly the input's CR/LF-free characters. */
  function Scan(s: string): (r: (seq<string>, string))
    ensures forall i :: 0 <= i < |r.0| ==> r.0[i] != "" && NoLineEnd(r.0[i])
    ensures NoLineEnd(r.1)
    ensures Concat(r.0) + r.1 == StripLineEnds(s)
  {
    if |s| == 0 then ([], "")
    else
      var (lines, cur) := Scan(s[..|s| - 1]);
      var c := s[|s| - 1];
      if IsLineEnd(c) then
        if |cur| > 0 then
          var r := lines + [cur];
          assert r[..|r| - 1] == lines;
          (r, "")
        else (lines, "")
      else
        (lines, cur + [c])
  }

  /** `data_received(data)` without the decoding and the dispatch: the
      buffered partial line and the new data are scanned character by
      character; a CR or LF ends a non-empty line and is otherwise skipped.
      Returns the lines to dispatch, in order, and the new buffer. */
  method Frame(buffer: string, data: string) returns (lines: seq<string>, rest: string)
    ensures forall i :: 0 <= i < |lines| ==> lines[i] != "" && NoLineEnd(lines[i])
    ensures NoLineEnd(rest)
    ensures Concat(lines) + rest == StripLineEnds(buffer + data)
    ensures (lines, rest) == Scan(buffer + data)
  {
    var s := buffer + data;
    lines := [];
    rest := "";
    var i := 0;
    while i < |s|
      invariant 0 <= i <= |s|
      invariant (lines, rest) == Scan(s[..i])
    {
      assert s[..i + 1][..i] == s[..i];
      var c := s[i];
      if c == '\r' || c == '\n' {
        if |rest| > 0 {
          lines := lines + [rest];
          rest := "";
        }
      } else {
        rest := rest + [c];
      }
      i := i + 1;
    }
    assert s[..i] == s;
  }

  /** CR read as LF. */
  function Normalize(s: string): (r: string)
    ensures |r| == |s|
  {
    seq(|s|, i requires 0 <= i < |s| => if s[i] == '\r' then '\n' else s[i])
  }

  /** The non-empty elements, in order. */
  function NonEmpty(xs: seq<string>): (r: seq<string>)
  {
    if |xs| == 0 then []
    else NonEmpty(xs[..|xs| - 1]) + (if xs[|xs| - 1] != "" then [xs[|xs| - 1]] else [])
  }

  /** The lines framing yields are the maximal runs without CR or LF: split
      the input at every CR and LF, keep the non-empty pieces but the last
      as lines, and the last piece is the buffer. */
  lemma {:induction false} ScanSplits(s: string)
    ensures SplitsAs(s)
    decreases |s|
  {
    if |s| > 0 {
      var t := s[..|s| - 1];
      ScanSplits(t);
      assert s == t + [s[|s| - 1]];
      ScanSplitsStep(t, s[|s| - 1]);
    }
  }

  /** The framing of `s` is read off its pieces at CR and LF. */
  predicate SplitsAs(s: string)
  {
    var ps := Split(Normalize(s), '\n');
    Scan(s) == (NonEmpty(ps[..|ps| - 1]), ps[|ps| - 1])
  }

  /** One more character keeps the framing and the pieces in step. */
  lemma {:induction false} ScanSplitsStep(t: string, c: char)
    requires SplitsAs(t)
    ensures SplitsAs(t + [c])
  {
    var s := t + [c];
    var n := if c == '\r' then '\n' else c;
    assert Normalize(s) == Normalize(t) + [n];
    SplitSnoc(Normalize(t), n, '\n');
    if IsLineEnd(c) {
      ScanStepLineEnd(t, c);
    } else {
      ScanStepOther(t, c);
    }
  }

  /** A CR or LF starts a new empty piece and closes the last one. */
  lemma {:induction false} ScanStepLineEnd(t: string, c: char)
    requires SplitsAs(t) && IsLineEnd(c)
    requires var p := Split(Normalize(t), '\n');
      Split(Normalize(t + [c]), '\n') == p + [""]
    ensures SplitsAs(t + [c])
  {
    ScanLineEnd(t, c);
    PiecesNewLine(Split(Normalize(t), '\n'));
  }

  /** Any other character extends the last piece. */
  lemma {:induction false} ScanStepOther(t: string, c: char)
    requires SplitsAs(t) && !IsLineEnd(c)
    requires var p := Split(Normalize(t), '\n');
      Split(Normalize(t + [c]), '\n') == p[..|p| - 1] + [p[|p| - 1] + [c]]
    ensures SplitsAs(t + [c])
  {
    var s := t + [c];
    assert s[..|s| - 1] == t;
    PiecesExtend(Split(Normalize(t), '\n'), [c]);
  }

  /** A new empty piece turns the last piece into a line. */
  lemma PiecesNewLine(p: seq<string>)
    requires |p| >= 1
    ensures var q := p + [""];
      && NonEmpty(q[..|q| - 1]) == NonEmpty(p[..|p| - 1]) + (if p[|p| - 1] != "" then [p[|p| - 1]] else [])
      && q[|q| - 1] == ""
  {
    var q := p + [""];
    assert q[..|q| - 1] == p;
  }

  /** Extending the last piece keeps the lines before it. */
  lemma PiecesExtend(p: seq<string>, x: string)
    requires |p| >= 1
    ensures var q := p[..|p| - 1] + [p[|p| - 1] + x];
      q[..|q| - 1] == p[..|p| - 1] && q[|q| - 1] == p[|p| - 1] + x
  {
  }

  /** A CR or LF closes the buffered line, if there is one. */
  lemma ScanLineEnd(t: string, c: char)
    requires IsLineEnd(c)
    ensures var (lines, cur) := Scan(t);
      Scan(t + [c]) == (lines + (if cur != "" then [cur] else []), "")
  {
    var s := t + [c];
    assert s[..|s| - 1] == t && s[|s| - 1] == c;
    var (lines, cur) := Scan(t);
    assert lines + [] == lines;
  }

  /* -------------------------------------------------------- connection */

  /** The callables the connection registers, by identity. */
  const RplCapHandler: nat := 0
  const RplFeaturesHandler: nat := 1
  const RplEndOfMotdHandler: nat := 2
  const RplPingHandler: nat := 3
  const UpdateInfoHandler: nat := 4

  /** A `ServerConnection`, less its transport: the registration flags, the
      user info, the autojoin queue, the capability and feature tables, the
      state tracker (whose dicts and lists are the casemapped objects of the
      connection), the unframed input and the three event managers. */
  datatype Conn = Conn(
    ready: bool,
    casemapSet: bool,
    nick: string,
    user: string,
    realname: string,
    autojoin: seq<string>,
    caps: Capabilities.Caps,
    features: Features.Features,
    info: Info.State,
    buffer: string,
    eventsIn: Reactor.EventManager,
    eventsOut: Reactor.EventManager,
    gircEvents: Reactor.EventManager)

  /** What a handler leaves behind: the connection, the messages it sent in
      order, and the exception it raised, if any (after the effects it had
      before raising). */
  datatype Step = Step(conn: Conn, sent: seq<Envelope.Message>, raised: Option<Error>)

  /** `send(verb, params, source)`. */
  function Send(verb: string, params: seq<string>, source: Option<string>): (m: Envelope.Message)
    ensures m.verb == Envelope.Named(verb) && m.params == params && m.tags == []
    ensures source.Some? && source.value != "" ==> m.source == source
    ensures m.source.None? <==> source.None? || source.value == ""
  {
    Envelope.FromData(Envelope.Named(verb), params, source, [])
  }

  /** The line `_send_message` writes for a message: its wire form and
      CR LF. Stripped of the CR LF, it parses back to the message. */
  function WireLine(m: Envelope.Message): (line: string)
    ensures |line| >= 2 && line[|line| - 2..] == "\r\n"
    ensures Envelope.RoundTrips(m) ==> Envelope.FromMessage(line[..|line| - 2]) == Success(m)
  {
    var text := Envelope.ToMessage(m);
    assert (text + "\r\n")[..|text|] == text;
    if Envelope.RoundTrips(m) then
      Envelope.MessageRoundTrip(m);
      text + "\r\n"
    else
      text + "\r\n"
  }

  /** `_send_message(message)` as evidently intended: the outgoing
      pipeline runs over the message (its events are dispatched to the
      outgoing handlers, which are left out), and the wire line is written.
      An exception from the pipeline stops the write. */
  function SendMessage(srv: Pipeline.Server, m: Envelope.Message): (r: Result<string>)
    ensures r.Success? <==> Pipeline.MessageToEvent(srv, Pipeline.Out, m).Success?
    ensures r.Success? ==> r.value == WireLine(m)
  {
    var _ :- Pipeline.MessageToEvent(srv, Pipeline.Out, m);
    Success(WireLine(m))
  }

  /** `_send_message(message)` as written. The outgoing pipeline runs in
      full before any event is handed on, and as written it raises on every
      `welcome`, channel or server name and `from_to`; that error stops the
      send. Otherwise every event is first handed to
      `self.info.handle_event_out`, which `Info` does not define, so the
      line is written only when the pipeline yields no event at all. */
  function SendMessageAsWritten(srv: Pipeline.Server, m: Envelope.Message): (r: Result<string>)
    ensures r.Success? <==>
      Pipeline.MessageToEvent(srv, Pipeline.Out, m).Success? && Pipeline.MessageToEvent(srv, Pipeline.Out, m).value.events == []
    ensures Pipeline.MessageToEventAsWritten(srv, Pipeline.Out, m).Failure? ==>
      r == Failure(Pipeline.MessageToEventAsWritten(srv, Pipeline.Out, m).error)
    ensures Pipeline.MessageToEventAsWritten(srv, Pipeline.Out, m).Success? && r.Failure? ==>
      r.error == AttributeError("'Info' object has no attribute 'handle_event_out'")
    ensures r.Success? ==> r == SendMessage(srv, m)
  {
    EmptyPipelineAsWritten(srv, m);
    var names :- Pipeline.MessageToEventAsWritten(srv, Pipeline.Out, m);
    if names != [] then Failure(AttributeError("'Info' object has no attribute 'handle_event_out'"))
    else SendMessage(srv, m)
  }

  /** An outgoing pipeline that yields no event gets through as written too:
      there is no event for a written step to raise on. */
  lemma EmptyPipelineAsWritten(srv: Pipeline.Server, m: Envelope.Message)
    ensures var r := Pipeline.MessageToEvent(srv, Pipeline.Out, m);
      r.Success? && r.value.events == [] ==> Pipeline.MessageToEventAsWritten(srv, Pipeline.Out, m) == Success([])
  {
    var r := Pipeline.MessageToEvent(srv, Pipeline.Out, m);
    if r.Success? && r.value.events == [] {
      var events, done, actions := Pipeline.MessageToEventStages(srv, Pipeline.Out, m);
      assert events == [] && done == [];
      assert Pipeline.Actions(done) == [];
      assert Pipeline.Steps(srv, []) == [];
    }
  }

  /** A command that is no message or notice, e.g. `send('NICK', ['me'])`,
      is never written by the code as it stands: its pipeline yields one
      event or raises. The intended send writes it whenever the pipeline
      goes through, and the line parses back to the message. */
  lemma SendDiscrepancy(srv: Pipeline.Server, m: Envelope.Message)
    requires m.verb.Named?
    requires var v := Pipeline.VerbName(m.verb).value; v != "notice" && !Pipeline.IsMessageVerb(v)
    ensures SendMessageAsWritten(srv, m).Failure?
    ensures Pipeline.MessageToEvent(srv, Pipeline.Out, m).Success? ==> SendMessage(srv, m).Success?
  {
    var r := Pipeline.MessageToEvent(srv, Pipeline.Out, m);
    if r.Success? {
      assert |r.value.events| >= 1 by {
        Pipeline.MessageToEventOrder(srv, Pipeline.Out, m);
      }
    }
  }

  /** `send('JOIN', [chan])` as written raises AttributeError for
      `create_channel`, which the resolution of the `channels` attribute
      calls before `handle_event_out` is reached; the intended send writes
      the line. */
  lemma SendJoinAsWritten(srv: Pipeline.Server, m: Envelope.Message, chan: string)
    requires Pipeline.VerbName(m.verb) == Success("join")
    requires m.params == [chan] && chan != "" && m.source.None?
    ensures SendMessageAsWritten(srv, m) == Failure(AttributeError("'Info' object has no attribute 'create_channel'"))
    ensures SendMessage(srv, m).Success?
  {
    Pipeline.OutgoingJoin(srv, m, chan);
  }

  /* ------------------------------------------------------- registration */

  /** Whether `handler` is among the subscribers `verb` dispatches to. */
  predicate Subscribed(m: Reactor.EventManager, verb: string, handler: nat)
  {
    exists x :: x in Reactor.DispatchEvent(m, verb) && x.handler == handler
  }

  /** `register_event(direction, verb, child_fn, priority)`: `in` and
      `both` register with the incoming manager, `out` and `both` with the
      outgoing one, `girc` with the internal one; any other direction
      registers nowhere. */
  function RegisterEvent(c: Conn, direction: string, verb: string, handler: nat, priority: int): (r: Conn)
    ensures (direction == "in" || direction == "both") ==> Subscribed(r.eventsIn, verb, handler)
    ensures (direction == "out" || direction == "both") ==> Subscribed(r.eventsOut, verb, handler)
    ensures direction == "girc" ==> Subscribed(r.gircEvents, verb, handler)
    ensures !(direction == "in" || direction == "both") ==> r.eventsIn == c.eventsIn
    ensures !(direction == "out" || direction == "both") ==> r.eventsOut == c.eventsOut
    ensures direction != "girc" ==> r.gircEvents == c.gircEvents
    ensures r.(eventsIn := c.eventsIn, eventsOut := c.eventsOut, gircEvents := c.gircEvents) == c
    ensures forall e :: e != verb ==>
      && Reactor.DispatchEvent(r.eventsIn, e) == Reactor.DispatchEvent(c.eventsIn, e)
      && Reactor.DispatchEvent(r.eventsOut, e) == Reactor.DispatchEvent(c.eventsOut, e)
      && Reactor.DispatchEvent(r.gircEvents, e) == Reactor.DispatchEvent(c.gircEvents, e)
  {
    var evIn := if direction == "in" || direction == "both" then RegisterWith(c.eventsIn, verb, handler, priority) else c.eventsIn;
    var evOut := if direction == "out" || direction == "both" then RegisterWith(c.eventsOut, verb, handler, priority) else c.eventsOut;
    var evGirc := if direction == "girc" then RegisterWith(c.gircEvents, verb, handler, priority) else c.gircEvents;
    c.(eventsIn := evIn, eventsOut := evOut, gircEvents := evGirc)
  }

  /** One manager's `register`, with the subscription it makes. */
  function RegisterWith(m: Reactor.EventManager, verb: string, handler: nat, priority: int): (r: Reactor.EventManager)
    ensures Subscribed(r, verb, handler)
    ensures forall e :: e != verb ==> Reactor.DispatchEvent(r, e) == Reactor.DispatchEvent(m, e)
    ensures Reactor.ManagerValid(m) ==> Reactor.ManagerValid(r)
  {
    var (r, x) := Reactor.Register(m, verb, handler, priority);
    assert x in multiset(Reactor.DispatchEvent(r, verb));
    r
  }

  /** The capabilities the connection asks for. */
  const DefaultWanted: seq<string> := [
    "account-notify", "account-tag", "away-notify", "cap-notify", "chghost",
    "extended-join", "invite-notify", "metadata", "monitor", "multi-prefix",
    "sasl", "server-time", "userhost-in-names"]

  /** The priority `register_event` uses unless told otherwise. */
  const DefaultPriority := 10

  /** `ServerConnection(name, reactor)` followed by `set_user_info`: not
      ready, no casemapping yet, the default capability wish list, the
      RFC 1459 features, an empty tracker under the ascii casemapping, and
      the handlers of the constructor registered (the tracker's first). */
  function NewConn(nick: string, user: string, realname: string): (c: Conn)
    ensures !c.ready && !c.casemapSet && c.autojoin == [] && c.buffer == ""
    ensures c.nick == nick && c.user == user && c.realname == realname
    ensures Capabilities.CapsValid(c.caps) && c.caps.available.store == [] && c.caps.enabled.store == []
    ensures c.caps == Capabilities.NewCaps(DefaultWanted) && |c.caps.wanted.store| == |DefaultWanted|
    ensures c.features == Features.Features(map[
      "prefix" := Features.FPrefix(map['o' := '@', 'v' := '+']),
      "chantypes" := Features.FStr("#")])
    ensures c.info == Info.NewState(DefaultMap)
  {
    RegisterDefaults(BareConn(nick, user, realname))
  }

  /** The fields the constructor sets before it registers any handler. */
  function BareConn(nick: string, user: string, realname: string): (c: Conn)
    ensures !c.ready && !c.casemapSet && c.autojoin == [] && c.buffer == ""
    ensures c.nick == nick && c.user == user && c.realname == realname
    ensures Capabilities.CapsValid(c.caps) && c.caps.available.store == [] && c.caps.enabled.store == []
    ensures c.caps == Capabilities.NewCaps(DefaultWanted) && |c.caps.wanted.store| == |DefaultWanted|
    ensures c.features == Features.Features(map[
      "prefix" := Features.FPrefix(map['o' := '@', 'v' := '+']),
      "chantypes" := Features.FStr("#")])
    ensures c.info == Info.NewState(DefaultMap)
    ensures c.eventsIn == c.eventsOut == c.gircEvents == Reactor.EmptyManager
  {
    Features.NewFeaturesTable();
    Conn(false, false, nick, user, realname, [], Capabilities.NewCaps(DefaultWanted),
      Features.NewFeatures().value, Info.NewState(DefaultMap), "",
      Reactor.EmptyManager, Reactor.EmptyManager, Reactor.EmptyManager)
  }

  /** The registrations of the constructor, in order: the tracker's
      `update_info` for every incoming event, then the connection's own
      handlers in both directions. */
  function RegisterDefaults(c0: Conn): (c: Conn)
    ensures c.(eventsIn := c0.eventsIn, eventsOut := c0.eventsOut, gircEvents := c0.gircEvents) == c0
  {
    var c1 := RegisterEvent(c0, "in", "all", UpdateInfoHandler, DefaultPriority);
    var c2 := RegisterEvent(c1, "both", "cap", RplCapHandler, DefaultPriority);
    var c3 := RegisterEvent(c2, "both", "features", RplFeaturesHandler, DefaultPriority);
    var c4 := RegisterEvent(c3, "both", "endofmotd", RplEndOfMotdHandler, DefaultPriority);
    var c5 := RegisterEvent(c4, "both", "nomotd", RplEndOfMotdHandler, DefaultPriority);
    RegisterEvent(c5, "both", "ping", RplPingHandler, DefaultPriority)
  }

  /** A new connection routes each reply it handles itself to its handler,
      whichever way the reply travels, and every incoming event to the
      tracker. */
  lemma NewConnSubscribes(nick: string, user: string, realname: string)
    ensures var c := NewConn(nick, user, realname);
      && Subscribed(c.eventsIn, "all", UpdateInfoHandler)
      && Subscribed(c.eventsIn, "cap", RplCapHandler) && Subscribed(c.eventsOut, "cap", RplCapHandler)
      && Subscribed(c.eventsIn, "features", RplFeaturesHandler) && Subscribed(c.eventsOut, "features", RplFeaturesHandler)
      && Subscribed(c.eventsIn, "endofmotd", RplEndOfMotdHandler) && Subscribed(c.eventsOut, "endofmotd", RplEndOfMotdHandler)
      && Subscribed(c.eventsIn, "nomotd", RplEndOfMotdHandler) && Subscribed(c.eventsOut, "nomotd", RplEndOfMotdHandler)
      && Subscribed(c.eventsIn, "ping", RplPingHandler) && Subscribed(c.eventsOut, "ping", RplPingHandler)
  {
    RegisterDefaultsSubscribes(BareConn(nick, user, realname));
  }

  /** Registering a handler for one event leaves the subscriptions of every
      other event as they were. */
  lemma RegisterKeeps(c: Conn, direction: string, verb: string, handler: nat, v: string, h: nat)
    requires v != verb
    ensures var r := RegisterEvent(c, direction, verb, handler, DefaultPriority);
      && (Subscribed(r.eventsIn, v, h) <==> Subscribed(c.eventsIn, v, h))
      && (Subscribed(r.eventsOut, v, h) <==> Subscribed(c.eventsOut, v, h))
  {
    var r := RegisterEvent(c, direction, verb, handler, DefaultPriority);
    assert Reactor.DispatchEvent(r.eventsIn, v) == Reactor.DispatchEvent(c.eventsIn, v);
    assert Reactor.DispatchEvent(r.eventsOut, v) == Reactor.DispatchEvent(c.eventsOut, v);
  }

  /** The registrations `__init__` makes subscribe each default handler,
      whatever the managers held before. */
  lemma RegisterDefaultsSubscribes(c0: Conn)
    ensures var c := RegisterDefaults(c0);
      && Subscribed(c.eventsIn, "all", UpdateInfoHandler)
      && Subscribed(c.eventsIn, "cap", RplCapHandler) && Subscribed(c.eventsOut, "cap", RplCapHandler)
      && Subscribed(c.eventsIn, "features", RplFeaturesHandler) && Subscribed(c.eventsOut, "features", RplFeaturesHandler)
      && Subscribed(c.eventsIn, "endofmotd", RplEndOfMotdHandler) && Subscribed(c.eventsOut, "endofmotd", RplEndOfMotdHandler)
      && Subscribed(c.eventsIn, "nomotd", RplEndOfMotdHandler) && Subscribed(c.eventsOut, "nomotd", RplEndOfMotdHandler)
      && Subscribed(c.eventsIn, "ping", RplPingHandler) && Subscribed(c.eventsOut, "ping", RplPingHandler)
  {
    var c1 := RegisterEvent(c0, "in", "all", UpdateInfoHandler, DefaultPriority);
    var c2 := RegisterEvent(c1, "both", "cap", RplCapHandler, DefaultPriority);
    var c3 := RegisterEvent(c2, "both", "features", RplFeaturesHandler, DefaultPriority);
    var c4 := RegisterEvent(c3, "both", "endofmotd", RplEndOfMotdHandler, DefaultPriority);
    var c5 := RegisterEvent(c4, "both", "nomotd", RplEndOfMotdHandler, DefaultPriority);
    VerbsDistinct();
    RegisterKeeps(c1, "both", "cap", RplCapHandler, "all", UpdateInfoHandler);
    RegisterKeeps(c2, "both", "features", RplFeaturesHandler, "all", UpdateInfoHandler);
    RegisterKeeps(c2, "both", "features", RplFeaturesHandler, "cap", RplCapHandler);
    RegisterKeeps(c3, "both", "endofmotd", RplEndOfMotdHandler, "all", UpdateInfoHandler);
    RegisterKeeps(c3, "both", "endofmotd", RplEndOfMotdHandler, "cap", RplCapHandler);
    RegisterKeeps(c3, "both", "endofmotd", RplEndOfMotdHandler, "features", RplFeaturesHandler);
    RegisterKeeps(c4, "both", "nomotd", RplEndOfMotdHandler, "all", UpdateInfoHandler);
    RegisterKeeps(c4, "both", "nomotd", RplEndOfMotdHandler, "cap", RplCapHandler);
    RegisterKeeps(c4, "both", "nomotd", RplEndOfMotdHandler, "features", RplFeaturesHandler);
    RegisterKeeps(c4, "both", "nomotd", RplEndOfMotdHandler, "endofmotd", RplEndOfMotdHandler);
    RegisterKeeps(c5, "both", "ping", RplPingHandler, "all", UpdateInfoHandler);
    RegisterKeeps(c5, "both", "ping", RplPingHandler, "cap", RplCapHandler);
    RegisterKeeps(c5, "both", "ping", RplPingHandler, "features", RplFeaturesHandler);
    RegisterKeeps(c5, "both", "ping", RplPingHandler, "endofmotd", RplEndOfMotdHandler);
    RegisterKeeps(c5, "both", "ping", RplPingHandler, "nomotd", RplEndOfMotdHandler);
  }


  lemma VerbsDistinct()
    ensures "all" != "cap" && "all" != "features" && "all" != "endofmotd" && "all" != "nomotd" && "all" != "ping"
    ensures "cap" != "features" && "cap" != "endofmotd" && "cap" != "nomotd" && "cap" != "ping"
    ensures "features" != "endofmotd" && "features" != "nomotd" && "features" != "ping"
    ensures "endofmotd" != "nomotd" && "endofmotd" != "ping" && "nomotd" != "ping"
  {
    assert "all"[0] != "cap"[0] && "all"[0] != "features"[0] && "all"[0] != "endofmotd"[0];
    assert "all"[0] != "nomotd"[0] && "all"[0] != "ping"[0];
    assert "cap"[0] != "features"[0] && "cap"[0] != "endofmotd"[0] && "cap"[0] != "nomotd"[0] && "cap"[0] != "ping"[0];
    assert "features"[0] != "endofmotd"[0] && "features"[0] != "nomotd"[0] && "features"[0] != "ping"[0];
    assert "endofmotd"[0] != "nomotd"[0] && "endofmotd"[0] != "ping"[0] && "nomotd"[0] != "ping"[0];
  }


  /* -------------------------------------------------------- casemapping */

  /** Every casemapped object of the tracker put under the standard `name`:
      the two dicts, each user's channel list and each channel's member
      dict. Stored keys and elements are not folded again. */
  function Restd(s: Info.State, name: string): (r: Info.State)
    ensures r.users.cmap == SetStd(s.users.cmap, name) && r.channels.cmap == SetStd(s.channels.cmap, name)
    ensures Keys(r.users.store) == Keys(s.users.store) && Keys(r.channels.store) == Keys(s.channels.store)
    ensures forall i :: 0 <= i < |r.users.store| ==>
      var (u, u') := (s.users.store[i].1, r.users.store[i].1);
      && u'.nick == u.nick && u'.user == u.user && u'.host == u.host
      && u'.channels.store == u.channels.store && u'.channels.cmap == SetStd(u.channels.cmap, name)
    ensures forall i :: 0 <= i < |r.channels.store| ==>
      var (ch, ch') := (s.channels.store[i].1, r.channels.store[i].1);
      && ch'.name == ch.name && ch'.joined == ch.joined
      && ch'.users.store == ch.users.store && ch'.users.cmap == SetStd(ch.users.cmap, name)
  {
    var users := MapValues(s.users.store, (u: User) => u.(channels := u.channels.(cmap := SetStd(u.channels.cmap, name))));
    var channels := MapValues(s.channels.store, (ch: Channel) => ch.(users := ch.users.(cmap := SetStd(ch.users.cmap, name))));
    assert Keys(users) == Keys(s.users.store);
    assert Keys(channels) == Keys(s.channels.store);
    Info.State(IDict(SetStd(s.users.cmap, name), users), IDict(SetStd(s.channels.cmap, name), channels))
  }

  /** `set_casemapping(casemap)`: only the first call acts. It marks the
      casemapping as set, then case-folds the value (which fails for a
      value that is not a string) and puts every tracked object under that
      standard. Nothing but the flag and the tracker changes, and nothing is
      sent. */
  function SetCasemapping(c: Conn, v: Features.FValue): (r: Step)
    ensures r.sent == [] && r.conn.casemapSet
    ensures c.casemapSet ==> r == Step(c, [], None)
    ensures r.conn.(casemapSet := c.casemapSet, info := c.info) == c
    ensures r.raised.Some? <==> !c.casemapSet && !v.FStr?
    ensures r.raised.Some? ==> r.raised.value.AttributeError? && r.conn.info == c.info
    ensures !c.casemapSet && v.FStr? ==>
      && r.conn.info.users.cmap.std == Lower(v.s) && r.conn.info.channels.cmap.std == Lower(v.s)
      && r.conn.info == Restd(c.info, Lower(v.s))
  {
    if c.casemapSet then Step(c, [], None)
    else
      var c1 := c.(casemapSet := true);
      if !v.FStr? then Step(c1, [], Some(AttributeError("object has no attribute 'casefold'")))
      else
        LowerIdempotent(v.s);
        Step(c1.(info := Restd(c.info, Lower(v.s))), [], None)
  }

  /** After one call, every later call leaves the connection alone. */
  lemma SetCasemappingOnce(c: Conn, v: Features.FValue, w: Features.FValue)
    ensures var first := SetCasemapping(c, v);
      SetCasemapping(first.conn, w) == Step(first.conn, [], None)
  {
  }

  /** `features.ingest(*params)` as the connection sees it: each feature in
      turn, and after one that names CASEMAPPING, `set_casemapping` with its
      value; the first exception ends the loop. */
  function IngestFeatures(c: Conn, params: seq<string>): (r: Step)
    ensures r.sent == []
    ensures r.conn.(features := c.features, info := c.info, casemapSet := c.casemapSet) == c
    ensures r.raised.None? ==> Features.Ingest(c.features, params).Success?
    ensures r.raised.None? ==> r.conn.features == Features.Ingest(c.features, params).value.0
    ensures r.raised.None? && c.casemapSet ==> r.conn.info == c.info && r.conn.casemapSet
    ensures r.raised.None? && !c.casemapSet ==>
      var cms := Features.Ingest(c.features, params).value.1;
      && (|cms| == 0 ==> r.conn.info == c.info && !r.conn.casemapSet)
      && (|cms| > 0 ==> cms[0].FStr? && r.conn.casemapSet && r.conn.info == Restd(c.info, Lower(cms[0].s)))
    decreases |params|
  {
    if |params| == 0 then Step(c, [], None)
    else
      match Features.IngestOne(c.features, params[0])
      case Failure(e) => Step(c, [], Some(e))
      case Success(one) =>
        var c1 := c.(features := one.features);
        if one.casemapping.Some? then
          var st := SetCasemapping(c1, one.casemapping.value);
          if st.raised.Some? then st else IngestFeatures(st.conn, params[1..])
        else IngestFeatures(c1, params[1..])
  }

  /** `rpl_features(event)`: the parameters but the last (the "are
      supported by this server" text) are ingested. */
  function RplFeatures(c: Conn, params: seq<string>): (r: Step)
    ensures r.sent == []
    ensures |params| <= 1 ==> r == Step(c, [], None)
  {
    IngestFeatures(c, if |params| == 0 then [] else params[..|params| - 1])
  }

  /** The trailing text of an ISUPPORT reply is never read. */
  lemma RplFeaturesIgnoresLast(c: Conn, params: seq<string>, text: string, other: string)
    ensures RplFeatures(c, params + [text]) == RplFeatures(c, params + [other])
  {
    assert (params + [text])[..|params|] == params;
    assert (params + [other])[..|params|] == params;
  }

  /** A first ISUPPORT reply naming a known CASEMAPPING puts the tracker
      under that standard, whatever the case of the name and the value. */
  lemma FeaturesSetCasemapping(c: Conn, name: string, value: string, text: string, std: Std)
    requires !c.casemapSet
    requires '=' !in name && !StartsWith(name, "-") && Lower(name) == "casemapping"
    requires StdOf(Lower(value)) == Some(std) && !IsDigits(value)
    ensures var r := RplFeatures(c, [name + "=" + value, text]);
      && r.raised.None? && r.conn.casemapSet
      && r.conn.info.users.cmap.table == std && r.conn.info.channels.cmap.table == std
  {
    var feature := name + "=" + value;
    var params := [feature, text];
    assert params[..|params| - 1] == [feature];
    Features.IngestCasemapping(c.features, name, value);
    var one := Features.IngestOne(c.features, feature).value;
    var c1 := c.(features := one.features);
    var st := SetCasemapping(c1, Features.FStr(value));
    assert st.raised.None?;
    assert IngestFeatures(st.conn, []) == Step(st.conn, [], None);
    assert [feature][1..] == [];
    assert RplFeatures(c, params) == IngestFeatures(c, [feature]) == st;
    LowerIdempotent(value);
    var info := Restd(c.info, Lower(value));
    assert st.conn.info == info;
    assert info.users.cmap == SetStd(c.info.users.cmap, Lower(value));
  }

  /* ---------------------------------------------- capabilities, welcome */

  /** `rpl_ping(event)`: the reply is a PONG carrying the PING's
      parameters unchanged, whichever way the PING travelled. */
  function RplPing(params: seq<string>): (m: Envelope.Message)
    ensures m.verb == Envelope.Named("PONG") && m.params == params
    ensures m.source.None? && m.tags == []
  {
    Send("PONG", params, None)
  }

  /** `send_welcome()`: NICK, then USER with the two unused fields as `*`. */
  function Welcome(c: Conn): (ms: seq<Envelope.Message>)
    ensures |ms| == 2
    ensures ms[0].verb == Envelope.Named("NICK") && ms[0].params == [c.nick]
    ensures ms[1].verb == Envelope.Named("USER") && ms[1].params == [c.user, "*", "*", c.realname]
  {
    [Send("NICK", [c.nick], None), Send("USER", [c.user, "*", "*", c.realname], None)]
  }

  /** The position of the subcommand: an incoming CAP reply starts with
      the client name. */
  function SubIndex(direction: Pipeline.Direction): nat
  {
    if direction == Pipeline.In then 1 else 0
  }

  /** `rpl_cap(event)`: the client name (incoming only) and the subcommand
      are popped, the subcommand case-folded, and the capability table
      always ingests the reply. Before registration completes, LS requests
      the capabilities left to enable, and ACK or NAK ends negotiation and
      registers; once ready nothing is sent. */
  function RplCap(c: Conn, direction: Pipeline.Direction, params: seq<string>): (r: Step)
    ensures var k := SubIndex(direction);
      r.raised.None? <==> |params| > k && (Lower(params[k]) != "ls" || |params| > k + 1)
    ensures r.raised.Some? ==> r.raised.value.IndexError? && r.conn == c && r.sent == []
    ensures r.raised.None? ==> var k := SubIndex(direction);
      r.conn == c.(caps := Capabilities.Ingest(c.caps, params[k], params[k + 1..]).value)
    ensures c.ready ==> r.sent == []
    ensures r.raised.None? && !c.ready ==>
      var sub := Lower(params[SubIndex(direction)]);
      && (sub == "ls" ==> r.sent == [Send("CAP", ["REQ", Join(Capabilities.ToEnable(r.conn.caps), " ")], None)])
      && (sub == "ack" || sub == "nak" ==> r.sent == [Send("CAP", ["END"], None)] + Welcome(c))
      && (sub != "ls" && sub != "ack" && sub != "nak" ==> r.sent == [])
  {
    var k := SubIndex(direction);
    if |params| <= k then Step(c, [], Some(IndexError("pop from empty list")))
    else
      var sub := Lower(params[k]);
      LowerIdempotent(params[k]);
      match Capabilities.Ingest(c.caps, sub, params[k + 1..])
      case Failure(e) => Step(c, [], Some(e))
      case Success(caps) =>
        var c1 := c.(caps := caps);
        if c.ready then Step(c1, [], None)
        else if sub == "ls" then
          Step(c1, [Send("CAP", ["REQ", Join(Capabilities.ToEnable(caps), " ")], None)], None)
        else if sub == "ack" || sub == "nak" then
          Step(c1, [Send("CAP", ["END"], None)] + Welcome(c1), None)
        else Step(c1, [], None)
  }

  /** `CAP * LS :list` before registration: the list is ingested and the
      capabilities left to enable are requested. */
  lemma LsRequests(c: Conn, list: string)
    requires !c.ready
    ensures var ls := RplCap(c, Pipeline.In, ["*", "LS", list]);
      && ls.raised.None?
      && ls.conn == c.(caps := Capabilities.Ingest(c.caps, "LS", [list]).value)
      && ls.sent == [Send("CAP", ["REQ", Join(Capabilities.ToEnable(ls.conn.caps), " ")], None)]
  {
    SubcommandNames();
    assert ["*", "LS", list][2..] == [list];
  }

  /** `CAP * ACK :…` before registration ends negotiation and registers. */
  lemma AckRegisters(c: Conn, acked: string)
    requires !c.ready
    ensures var ack := RplCap(c, Pipeline.In, ["*", "ACK", acked]);
      && ack.raised.None? && !ack.conn.ready
      && ack.sent == [Send("CAP", ["END"], None), Send("NICK", [c.nick], None), Send("USER", [c.user, "*", "*", c.realname], None)]
  {
    SubcommandNames();
  }

  /** `CAP * LS :list` then `CAP * ACK :…` on a new connection: the client
      requests, in wish-list order, exactly the wanted capabilities the
      server advertised, and on the acknowledgement ends negotiation and
      registers with its nick and user info. */
  lemma Handshake(nick: string, user: string, realname: string, list: string, acked: string)
    ensures var c := NewConn(nick, user, realname);
      var ls := RplCap(c, Pipeline.In, ["*", "LS", list]);
      var req := Capabilities.ToEnable(ls.conn.caps);
      var ack := RplCap(ls.conn, Pipeline.In, ["*", "ACK", acked]);
      && ls.raised.None? && ls.sent == [Send("CAP", ["REQ", Join(req, " ")], None)]
      && IsSubsequence(req, c.caps.wanted.store)
      && (forall x :: x in req <==> x in c.caps.wanted.store && CIGet(ls.conn.caps.available, x).Success?)
      && ack.raised.None? && !ack.conn.ready
      && ack.sent == [Send("CAP", ["END"], None), Send("NICK", [nick], None), Send("USER", [user, "*", "*", realname], None)]
  {
    var c := NewConn(nick, user, realname);
    LsRequests(c, list);
    var ls := RplCap(c, Pipeline.In, ["*", "LS", list]);
    assert ls.conn.caps.enabled == c.caps.enabled;
    assert ls.conn.caps.wanted == c.caps.wanted;
    AckRegisters(ls.conn, acked);
  }

  lemma SubcommandNames()
    ensures Lower("LS") == "ls" && Lower("ACK") == "ack" && Lower("NAK") == "nak"
    ensures "ls" != "ack" && "ls" != "nak"
  {
    assert Lower("LS")[0] == 'l' && Lower("LS")[1] == 's';
    assert Lower("ACK")[0] == 'a' && Lower("ACK")[1] == 'c' && Lower("ACK")[2] == 'k';
    assert Lower("NAK")[0] == 'n' && Lower("NAK")[1] == 'a' && Lower("NAK")[2] == 'k';
  }

  /** The REQ list reads back, split at spaces, as the capabilities
      requested. */
  lemma RequestReadsBack(c: Conn)
    requires Capabilities.CapsValid(c.caps)
    requires forall i :: 0 <= i < |c.caps.wanted.store| ==> ' ' !in c.caps.wanted.store[i]
    requires |Capabilities.ToEnable(c.caps)| > 0
    ensures Split(Join(Capabilities.ToEnable(c.caps), " "), ' ') == Capabilities.ToEnable(c.caps)
  {
    var req := Capabilities.ToEnable(c.caps);
    forall i | 0 <= i < |req| ensures ' ' !in req[i] {
      assert req[i] in c.caps.wanted.store;
    }
    SplitJoin(req, ' ');
  }

  /** The default wish list holds no spaces. */
  lemma DefaultWantedWords()
    ensures forall i :: 0 <= i < |DefaultWanted| ==> ' ' !in DefaultWanted[i]
  {
  }

  /* ------------------------------------------------------------ joining */

  /** The parameters `join_channels` sends for one entry: an entry with a
      space must split into exactly a channel and a key (else ValueError);
      an empty key is not sent. Nothing of the entry is lost: the
      parameters, space-joined, give the entry back, less a trailing space
      when the key was empty. */
  function JoinParams(entry: string): (r: Result<seq<string>>)
    ensures ' ' !in entry ==> r == Success([entry])
    ensures r.Failure? <==> ' ' in entry && |Split(entry, ' ')| != 2
    ensures r.Failure? ==> r.error.ValueError?
    ensures r.Success? ==> 1 <= |r.value| <= 2 && forall i :: 0 <= i < |r.value| ==> ' ' !in r.value[i]
    ensures r.Success? ==> entry == Join(r.value, " ") || (|r.value| == 1 && entry == r.value[0] + " ")
  {
    if ' ' in entry then
      var p := Split(entry, ' ');
      if |p| != 2 then Failure(ValueError("too many values to unpack"))
      else
        JoinSplit(entry, ' ');
        assert Join(p, " ") == p[0] + " " + p[1];
        Success([p[0]] + (if p[1] != "" then [p[1]] else []))
    else
      Success([entry])
  }

  /** A channel and a key, both space-free, are sent as they were given;
      a channel alone is sent alone. */
  lemma JoinParamsRoundTrip(chan: string, key: string)
    requires ' ' !in chan && ' ' !in key
    ensures JoinParams(chan) == Success([chan])
    ensures JoinParams(chan + " " + key) == Success(if key != "" then [chan, key] else [chan])
  {
    SplitAppend(chan, key, ' ');
    SplitNoSep(chan, ' ');
    SplitNoSep(key, ' ');
    var entry := chan + " " + key;
    assert entry == chan + [' '] + key;
    assert entry[|chan|] == ' ';
    assert Split(entry, ' ') == [chan, key];
    assert ' ' in entry;
    assert JoinParams(entry) == Success([chan] + (if key != "" then [key] else []));
    assert [chan] + [key] == [chan, key] && [chan] + [] == [chan];
  }

  /** The JOINs of a list of entries, in order, up to the first entry that
      does not split; that entry's error is raised after the JOINs before
      it were sent. */
  function JoinLoop(entries: seq<string>): (r: (seq<Envelope.Message>, Option<Error>))
    ensures |r.0| <= |entries|
    ensures forall i :: 0 <= i < |r.0| ==>
      JoinParams(entries[i]).Success? && r.0[i] == Send("JOIN", JoinParams(entries[i]).value, None)
    ensures r.1.None? ==> |r.0| == |entries|
    ensures r.1.Some? ==>
      && |r.0| < |entries| && JoinParams(entries[|r.0|]).Failure?
      && r.1.value == JoinParams(entries[|r.0|]).error
    decreases |entries|
  {
    if |entries| == 0 then ([], None)
    else
      match JoinParams(entries[0])
      case Failure(e) => ([], Some(e))
      case Success(ps) =>
        var (rest, err) := JoinLoop(entries[1..]);
        ([Send("JOIN", ps, None)] + rest, err)
  }

  /** `join_channels(*channels)`: before registration completes the list
      replaces the autojoin queue and nothing is sent; afterwards every
      entry is joined in order. */
  function JoinChannels(c: Conn, channels: seq<string>): (r: Step)
    ensures !c.ready ==> r == Step(c.(autojoin := channels), [], None)
    ensures c.ready ==> r.conn == c
    ensures c.ready ==> |r.sent| <= |channels| && (r.raised.None? ==> |r.sent| == |channels|)
    ensures c.ready ==> forall i :: 0 <= i < |r.sent| ==>
      && JoinParams(channels[i]).Success?
      && r.sent[i].verb == Envelope.Named("JOIN") && r.sent[i].params == JoinParams(channels[i]).value
    ensures c.ready && r.raised.Some? ==> r.raised.value.ValueError?
  {
    if !c.ready then Step(c.(autojoin := channels), [], None)
    else
      var (sent, err) := JoinLoop(channels);
      Step(c, sent, err)
  }

  /** `rpl_endofmotd(event)` (also run for `nomotd`): the first call marks
      the connection ready and joins the queued channels; later calls do
      nothing. */
  function RplEndOfMotd(c: Conn): (r: Step)
    ensures r.conn.ready
    ensures c.ready ==> r == Step(c, [], None)
    ensures !c.ready ==> r.conn == c.(ready := true)
    ensures !c.ready ==> (r.sent, r.raised) == JoinLoop(c.autojoin)
  {
    if c.ready then Step(c, [], None)
    else
      var c1 := c.(ready := true);
      if |c.autojoin| > 0 then JoinChannels(c1, c.autojoin)
      else Step(c1, [], None)
  }

  /** Channels asked for before registration completes are queued, and
      joined, in order, at the end of the MOTD; a second end of MOTD joins
      nothing more. */
  lemma AutojoinQueue(c: Conn, channels: seq<string>)
    requires !c.ready
    ensures var q := JoinChannels(c, channels);
      var e := RplEndOfMotd(q.conn);
      && q.sent == [] && q.raised.None?
      && e.conn.ready && (e.sent, e.raised) == JoinLoop(channels)
      && RplEndOfMotd(e.conn) == Step(e.conn, [], None)
  {
  }

  /* -------------------------------------------------------------- names */

  /** `is_channel(name)`: the first character looked up in the CHANTYPES
      feature with Python's `in`, which reads a string by characters, a
      list by elements and a dict by keys. An empty name raises
      IndexError; a CHANTYPES that is missing, `True` or a number raises
      TypeError. */
  function IsChannel(c: Conn, name: string): (r: Result<bool>)
    ensures name == "" ==> r.Failure? && r.error.IndexError?
    ensures name != "" && "chantypes" !in c.features.table ==> r.Failure? && r.error.TypeError?
    ensures name != "" && "chantypes" in c.features.table ==>
      match c.features.table["chantypes"]
      case FStr(t) => r == Success(name[0] in t)
      case FList(items) => r == Success([name[0]] in items)
      case FPrefix(m) => r == Success(name[0] in m)
      case FLimits(m) => r == Success(name[0] in m)
      case _ => r.Failure? && r.error.TypeError?
  {
    if name == "" then Failure(IndexError("string index out of range"))
    else if "chantypes" !in c.features.table then Failure(TypeError("argument of type 'NoneType' is not iterable"))
    else
      match c.features.table["chantypes"]
      case FStr(t) => Success(name[0] in t)
      case FList(items) => Success([name[0]] in items)
      case FPrefix(m) => Success(name[0] in m)
      case FLimits(m) => Success(name[0] in m)
      case FTrue => Failure(TypeError("argument of type 'bool' is not iterable"))
      case FInt(_) => Failure(TypeError("argument of type 'int' is not iterable"))
  }

  /** With CHANTYPES a string, the connection and the event pipeline agree
      on what a channel and what a nick is. */
  lemma IsChannelAgrees(c: Conn, name: string)
    requires "chantypes" in c.features.table && c.features.table["chantypes"].FStr?
    ensures IsChannel(c, name) == Pipeline.IsChannel(c.features.table["chantypes"].s, name)
      || (IsChannel(c, name).Failure? && Pipeline.IsChannel(c.features.table["chantypes"].s, name).Failure?)
    ensures IsNick(c, name).Success? ==>
      IsNick(c, name) == Pipeline.IsNick(c.features.table["chantypes"].s, name)
  {
  }

  /** Where the two part: once CHANTYPES is gone (`-CHANTYPES`), bare or a
      number, the connection's `is_channel` raises TypeError for every
      non-empty name, while the pipeline, which reads CHANTYPES as a string,
      answers for every string it could be given. */
  lemma IsChannelNonString(c: Conn, name: string, chantypes: string)
    requires name != ""
    requires "chantypes" !in c.features.table
      || c.features.table["chantypes"].FTrue? || c.features.table["chantypes"].FInt?
    ensures IsChannel(c, name).Failure? && IsChannel(c, name).error.TypeError?
    ensures IsNick(c, name).Failure? && IsNick(c, name).error.TypeError?
    ensures Pipeline.IsChannel(chantypes, name) == Success(name[0] in chantypes)
  {
  }

  /** A new connection takes exactly the names starting with `#` for
      channels. */
  lemma NewConnChannels(nick: string, user: string, realname: string, name: string)
    requires name != ""
    ensures IsChannel(NewConn(nick, user, realname), name) == Success(name[0] == '#')
  {
    var c := NewConn(nick, user, realname);
    DefaultChantypes(c.features);
    HashChannel(c, name);
  }

  lemma DefaultChantypes(f: Features.Features)
    requires f == Features.Features(map[
      "prefix" := Features.FPrefix(map['o' := '@', 'v' := '+']),
      "chantypes" := Features.FStr("#")])
    ensures "chantypes" in f.table && f.table["chantypes"] == Features.FStr("#")
  {
  }

  lemma HashChannel(c: Conn, name: string)
    requires name != ""
    requires "chantypes" in c.features.table && c.features.table["chantypes"] == Features.FStr("#")
    ensures IsChannel(c, name) == Success(name[0] == '#')
  {
    assert name[0] in "#" <==> name[0] == '#';
  }

  /** `is_server(name)`. */
  predicate IsServer(name: string)
  {
    IsHostname(name)
  }

  /** `is_nick(name)`: neither a channel nor a server. */
  function IsNick(c: Conn, name: string): (r: Result<bool>)
    ensures r.Failure? <==> IsChannel(c, name).Failure?
    ensures r.Success? ==> (r.value <==> !IsChannel(c, name).value && !IsHostname(name))
  {
    var channel :- IsChannel(c, name);
    Success(!channel && !IsServer(name))
  }

  /* --------------------------------------------------------- messaging */

  /** `msg(target, message, formatted)`: a PRIVMSG from the connection's
      nick; a formatted message is unescaped first, and fails when that
      does. */
  function Msg(c: Conn, target: string, message: string, formatted: bool): (r: Result<Envelope.Message>)
    ensures r.Failure? <==> formatted && Formatting.Unescape(message).Failure?
    ensures r.Success? ==>
      && r.value.verb == Envelope.Named("PRIVMSG") && |r.value.params| == 2
      && r.value.params[0] == target
    ensures r.Success? && !formatted ==> r.value.params[1] == message
    ensures r.Success? && formatted ==> r.value.params[1] == Formatting.Unescape(message).value
    ensures r.Success? && c.nick != "" ==> r.value.source == Some(c.nick)
  {
    var text :- if formatted then Formatting.Unescape(message) else Success(message);
    Success(Send("PRIVMSG", [target, text], Some(c.nick)))
  }

  /** A formatted message sends the text whose escape it was: the escape
      and the unescape of `msg` are inverse. */
  lemma MsgEscaped(c: Conn, target: string, text: string)
    ensures Msg(c, target, Formatting.Escape(text), true).Success?
    ensures Msg(c, target, Formatting.Escape(text), true).value.params == [target, text]
  {
    Formatting.UnescapeEscape(text);
  }

  /** The CTCP delimiter. */
  const XDelim: char := '\U{01}'

  /** `ctcp(target, verb, argument)`: a plain message whose text is the
      verb and the argument, if any, space-joined between two delimiters. */
  function Ctcp(c: Conn, target: string, verb: string, argument: Option<string>): (m: Envelope.Message)
    ensures m.verb == Envelope.Named("PRIVMSG") && |m.params| == 2 && m.params[0] == target
    ensures argument.None? ==> m.params[1] == [XDelim] + verb + [XDelim]
    ensures argument.Some? ==> m.params[1] == [XDelim] + verb + " " + argument.value + [XDelim]
    ensures c.nick != "" ==> m.source == Some(c.nick)
  {
    var atoms := [verb] + (if argument.Some? then [argument.value] else []);
    assert argument.Some? ==> Join(atoms, " ") == verb + " " + argument.value by {
      if argument.Some? {
        JoinCons(verb, [argument.value], " ");
      }
    }
    Msg(c, target, [XDelim] + Join(atoms, " ") + [XDelim], false).value
  }

  /** Text without backslashes or delimiters needs no CTCP quoting. */
  lemma {:induction false} QuotePlain(text: string)
    requires '\\' !in text && XDelim !in text
    ensures Pipeline.Quote(text) == text
    decreases |text|
  {
    if |text| > 0 {
      assert '\\' !in text[1..] && XDelim !in text[1..] by {
        forall i | 0 <= i < |text[1..]| ensures text[1..][i] == text[i + 1] {}
      }
      QuotePlain(text[1..]);
      assert text == [text[0]] + text[1..];
    }
  }

  /** `user.me(message, formatted=False)` reaches the user as an `action`:
      the PRIVMSG the connection sends, read back by the user's own
      pipeline, yields a `ctcp` ACTION event and then an `action` event
      whose message is the text that was sent. */
  lemma MeReachesPeer(c: Conn, u: User, message: string, srv: Pipeline.Server)
    requires '\\' !in message && XDelim !in message
    requires u.nick != "" && u.nick[0] !in srv.chantypes
    requires c.nick != "" && Pipeline.Classify(srv.chantypes, c.nick) != Pipeline.ServerEntity
    ensures UserMe(u, message, false).Success?
    ensures var (target, text) := UserMe(u, message, false).value;
      var r := Pipeline.MessageToEvent(srv, Pipeline.In, Ctcp(c, target, text, None));
      && r.Success? && |r.value.events| == 2
      && r.value.events[1].name == "action" && "message" in r.value.events[1].info.attrs
      && r.value.events[1].info.attrs["message"] == message
  {
    var text := "ACTION " + message;
    assert UserMe(u, message, false) == Success((u.nick, text));
    var m := Ctcp(c, u.nick, text, None);
    QuotePlain(message);
    var body := "\U{01}" + "ACTION" + " " + Pipeline.Quote(message) + "\U{01}";
    assert m.params[1] == body;
    assert m == Envelope.Message([], Some(c.nick), Envelope.Named("PRIVMSG"), [u.nick, body]);
    Pipeline.IncomingAction(srv, [], c.nick, u.nick, message);
  }
}

=== FILE: dicts.dfy ===
/** Python dicts where insertion order is observable: an association list
    whose keys are distinct, where assigning an existing key keeps its place
    and a new key goes last. */
module Dicts {
  import opened Wrappers

  type Dict<K, V> = seq<(K, V)>

  predicate HasKey<K(==), V>(t: Dict<K, V>, k: K)
  {
    exists i :: 0 <= i < |t| && t[i].0 == k
  }

  predicate DistinctKeys<K(==), V>(t: Dict<K, V>)
  {
    forall i, j :: 0 <= i < j < |t| ==> t[i].0 != t[j].0
  }

  /** The index of the first entry for `k`, if any. */
  function IndexOf<K(==), V>(t: Dict<K, V>, k: K): (r: Option<nat>)
    ensures r.Some? ==> r.value < |t| && t[r.value].0 == k
    ensures r.Some? ==> forall j :: 0 <= j < r.value ==> t[j].0 != k
    ensures r.None? ==> forall j :: 0 <= j < |t| ==> t[j].0 != k
    decreases |t|
  {
    if |t| == 0 then None
    else if t[0].0 == k then Some(0)
    else
      match IndexOf(t[1..], k)
      case Some(i) =>
        assert forall j :: 0 < j <= i ==> t[j] == t[1..][j - 1];
        Some(i + 1)
      case None =>
        assert forall j :: 0 < j < |t| ==> t[j] == t[1..][j - 1];
        None
  }

  /** Two dicts with the same key at every index find every key at the same
      index. */
  lemma IndexOfKeys<K, V, W>(a: Dict<K, V>, b: Dict<K, W>, k: K)
    requires |a| == |b| && forall j :: 0 <= j < |a| ==> a[j].0 == b[j].0
    ensures IndexOf(a, k) == IndexOf(b, k)
  {
    var ia, ib := IndexOf(a, k), IndexOf(b, k);
    if ia.Some? && ib.Some? {
      assert !(ia.value < ib.value) && !(ib.value < ia.value);
    }
  }

  /** `d[k] = v`: an existing key keeps its place and takes the new value, a
      new key goes last; every other entry is untouched. */
  function Put<K(==), V>(t: Dict<K, V>, k: K, v: V): (r: Dict<K, V>)
    ensures HasKey(t, k) ==> |r| == |t|
    ensures !HasKey(t, k) ==> r == t + [(k, v)]
    ensures DistinctKeys(t) ==> DistinctKeys(r)
    ensures DistinctKeys(t) ==> forall i :: 0 <= i < |r| && r[i].0 == k ==> r[i].1 == v
    ensures forall i :: 0 <= i < |r| && r[i].0 != k ==> i < |t| && r[i] == t[i]
    ensures HasKey(r, k)
  {
    match IndexOf(t, k)
    case Some(i) =>
      var r := t[i := (k, v)];
      assert r[i].0 == k;
      r
    case None =>
      var r := t + [(k, v)];
      assert r[|t|].0 == k;
      r
  }

  /** `d.get(k)`: the value stored under `k`, if any. */
  function Get<K(==), V>(t: Dict<K, V>, k: K): (r: Option<V>)
    ensures r.Some? <==> HasKey(t, k)
    ensures r.Some? ==> exists i :: 0 <= i < |t| && t[i] == (k, r.value)
  {
    match IndexOf(t, k)
    case Some(i) => Some(t[i].1)
    case None => None
  }

  /** `del d[k]`: the entry for `k` goes, the rest keep their order. */
  function Remove<K(==,!new), V>(t: Dict<K, V>, k: K): (r: Dict<K, V>)
    ensures DistinctKeys(t) ==> DistinctKeys(r) && !HasKey(r, k)
    ensures |r| == if HasKey(t, k) then |t| - 1 else |t|
    ensures forall x :: x != k ==> (HasKey(r, x) <==> HasKey(t, x))
    ensures forall i :: 0 <= i < |r| ==> r[i] in t
    decreases |t|
  {
    if |t| == 0 then []
    else if t[0].0 == k then t[1..]
    else
      var rest := Remove(t[1..], k);
      var r := [t[0]] + rest;
      assert r[1..] == rest;
      HasKeyCons(t, k);
      forall x | x != k ensures HasKey(r, x) <==> HasKey(t, x) {
        HasKeyCons(t, x);
        HasKeyCons(r, x);
      }
      assert DistinctKeys(t) ==> DistinctKeys(r) by {
        if DistinctKeys(t) {
          forall i | 0 < i < |r| ensures r[0].0 != r[i].0 {
            var j :| 0 <= j < |t| && t[j] == r[i];
            assert j != 0 ==> t[0].0 != t[j].0;
          }
        }
      }
      r
  }

  lemma HasKeyCons<K, V>(t: Dict<K, V>, k: K)
    requires |t| > 0
    ensures HasKey(t, k) <==> t[0].0 == k || HasKey(t[1..], k)
  {
    if HasKey(t, k) && t[0].0 != k {
      var i :| 0 <= i < |t| && t[i].0 == k;
      assert t[1..][i - 1] == t[i];
    }
    if HasKey(t[1..], k) {
      var i :| 0 <= i < |t[1..]| && t[1..][i].0 == k;
      assert t[i + 1] == t[1..][i];
    }
  }

  /** Reading a key back after assigning it, and reading any other key. */
  lemma GetPut<K, V>(t: Dict<K, V>, k: K, v: V, x: K)
    ensures Get(Put(t, k, v), x) == if x == k then Some(v) else Get(t, x)
  {
    var r := Put(t, k, v);
    match IndexOf(t, k)
    case Some(i) =>
      IndexOfKeys(r, t, x);
    case None =>
      assert forall j :: 0 <= j < |t| ==> r[j] == t[j];
      if x != k {
        assert r[|t|].0 != x;
        assert IndexOf(r, x) == IndexOf(t, x) by {
          var ir, it := IndexOf(r, x), IndexOf(t, x);
          if ir.Some? && it.Some? {
            assert !(ir.value < it.value) && !(it.value < ir.value);
          }
        }
      }
  }


  /** After `del d[k]`, `k` is gone and any other key reads as before. */
  lemma {:induction false} GetRemove<K(!new), V>(t: Dict<K, V>, k: K, x: K)
    requires DistinctKeys(t)
    ensures Get(Remove(t, k), x) == if x == k then None else Get(t, x)
    decreases |t|
  {
    if |t| > 0 {
      if t[0].0 == k {
        if x == k {
          assert !HasKey(Remove(t, k), k);
        } else {
          assert Get(t, x) == Get(t[1..], x);
        }
      } else {
        GetRemove(t[1..], k, x);
        assert Remove(t, k)[1..] == Remove(t[1..], k);
      }
    }
  }

  /** The keys in insertion order. */
  function Keys<K(==), V>(t: Dict<K, V>): (ks: seq<K>)
    ensures |ks| == |t|
    ensures forall i :: 0 <= i < |t| ==> ks[i] == t[i].0
  {
    seq(|t|, i requires 0 <= i < |t| => t[i].0)
  }

  /** Successive assignments of the given pairs, as `dict.update` does. */
  function PutAll<K(==), V>(t: Dict<K, V>, kvs: Dict<K, V>): (r: Dict<K, V>)
    ensures DistinctKeys(t) ==> DistinctKeys(r)
    decreases |kvs|
  {
    if |kvs| == 0 then t else PutAll(Put(t, kvs[0].0, kvs[0].1), kvs[1..])
  }

  /** Assigning keys that are new and distinct only appends them. */
  lemma {:induction false} PutAllFresh<K, V>(t: Dict<K, V>, kvs: Dict<K, V>)
    requires DistinctKeys(t + kvs)
    ensures PutAll(t, kvs) == t + kvs
    decreases |kvs|
  {
    if |kvs| > 0 {
      forall i | 0 <= i < |t|
        ensures t[i].0 != kvs[0].0
      {
        assert (t + kvs)[i] == t[i];
        assert (t + kvs)[|t|] == kvs[0];
      }
      assert t + [kvs[0]] + kvs[1..] == t + kvs;
      PutAllFresh(t + [kvs[0]], kvs[1..]);
    }
  }

  /** Assigning a key the value it already holds changes nothing. */
  lemma PutSame<K, V>(t: Dict<K, V>, k: K, v: V)
    requires Get(t, k) == Some(v)
    ensures Put(t, k, v) == t
  {
  }


  /** The same keys, in the same order, with every value passed through
      `f`. */
  function MapValues<K, V, W>(t: Dict<K, V>, f: V -> W): (r: Dict<K, W>)
    ensures |r| == |t|
    ensures forall i :: 0 <= i < |t| ==> r[i] == (t[i].0, f(t[i].1))
  {
    seq(|t|, i requires 0 <= i < |t| => (t[i].0, f(t[i].1)))
  }

  /** Assigning a present key keeps the keys and their order. */
  lemma PutKeys<K, V>(t: Dict<K, V>, k: K, v: V)
    requires HasKey(t, k)
    ensures Keys(Put(t, k, v)) == Keys(t)
  {
  }

  /** Membership of a key depends on the keys alone. */
  lemma HasKeyOfKeys<K, V, W>(a: Dict<K, V>, b: Dict<K, W>, k: K)
    requires Keys(a) == Keys(b)
    ensures HasKey(a, k) <==> HasKey(b, k)
  {
    if HasKey(a, k) {
      var i :| 0 <= i < |a| && a[i].0 == k;
      assert Keys(a)[i] == k;
    }
    if HasKey(b, k) {
      var i :| 0 <= i < |b| && b[i].0 == k;
      assert Keys(b)[i] == k;
    }
  }
}

=== FILE: envelope.dfy ===
/** One IRC line as a message value: the `[@tags ][:source ]VERB[ params]`
    format of section 2.3.1 of RFC 1459, extended with the IRCv3 message
    tags block and its value escaping. Models girc/ircreactor/envelope.py. */
module Envelope {
  import opened Wrappers
  import opened Strings
  import opened Dicts

  /* ------------------------------------------------------- tag escaping */

  /** The escape codes a tag value may use after a backslash. */
  predicate IsEscapeCode(k: char)
  {
    k == '\\' || k == ':' || k == 's' || k == 'r' || k == 'n'
  }

  /** The characters a tag value may not carry raw. */
  predicate NeedsEscape(c: char)
  {
    c == '\\' || c == ';' || c == ' ' || c == '\r' || c == '\n'
  }

  /** `_tag_unescapes.get(k, k)`: a known code maps to its character, any
      other character stands for itself. */
  function UnescapeCode(k: char): char
  {
    match k
    case '\\' => '\\'
    case ':' => ';'
    case 's' => ' '
    case 'r' => '\r'
    case 'n' => '\n'
    case _ => k
  }

  /** `_tag_escapes`, the inverse table. */
  function EscapeCode(c: char): (k: char)
    requires NeedsEscape(c)
    ensures IsEscapeCode(k) && UnescapeCode(k) == c
  {
    match c
    case '\\' => '\\'
    case ';' => ':'
    case ' ' => 's'
    case '\r' => 'r'
    case '\n' => 'n'
  }

  /** The shape of escaped text: plain characters that need no escape, and
      backslash-code pairs. */
  predicate WellEscaped(e: string)
    decreases |e|
  {
    if |e| == 0 then true
    else if e[0] == '\\' then |e| >= 2 && IsEscapeCode(e[1]) && WellEscaped(e[2..])
    else !NeedsEscape(e[0]) && WellEscaped(e[1..])
  }

  /** `tag_escape`: its output is well escaped, so it never contains a raw
      `;`, space, CR or LF. */
  function TagEscape(s: string): (e: string)
    ensures WellEscaped(e)
    ensures forall i :: 0 <= i < |e| ==> e[i] != ';' && e[i] != ' ' && e[i] != '\r' && e[i] != '\n'
    decreases |s|
  {
    if |s| == 0 then ""
    else
      var rest := TagEscape(s[1..]);
      if NeedsEscape(s[0]) then
        var e := ['\\', EscapeCode(s[0])] + rest;
        assert e[2..] == rest;
        e
      else
        var e := [s[0]] + rest;
        assert e[1..] == rest;
        e
  }

  /** `tag_unescape`: a backslash and the next character become one
      character; a backslash at the very end is dropped. */
  function TagUnescape(s: string): string
    decreases |s|
  {
    if |s| == 0 then ""
    else if s[0] == '\\' then
      if |s| == 1 then "" else [UnescapeCode(s[1])] + TagUnescape(s[2..])
    else [s[0]] + TagUnescape(s[1..])
  }

  /** Unescaping a well-escaped prefix is independent of what follows. */
  lemma {:induction false} TagUnescapeAppend(e: string, t: string)
    requires WellEscaped(e)
    ensures TagUnescape(e + t) == TagUnescape(e) + TagUnescape(t)
    decreases |e|
  {
    if |e| > 0 {
      if e[0] == '\\' {
        assert (e + t)[2..] == e[2..] + t;
        TagUnescapeAppend(e[2..], t);
      } else {
        assert (e + t)[1..] == e[1..] + t;
        TagUnescapeAppend(e[1..], t);
      }
    } else {
      assert e + t == t;
    }
  }

  /** Round trip: unescaping an escaped value gives the value back. */
  lemma {:induction false} TagEscapeRoundTrip(s: string)
    ensures TagUnescape(TagEscape(s)) == s
    decreases |s|
  {
    if |s| > 0 {
      TagEscapeRoundTrip(s[1..]);
      var rest := TagEscape(s[1..]);
      if NeedsEscape(s[0]) {
        assert (['\\', EscapeCode(s[0])] + rest)[2..] == rest;
      } else {
        assert ([s[0]] + rest)[1..] == rest;
      }
    }
  }

  /** An unknown escape `\x` stands for `x`, and a lone trailing backslash is
      dropped, wherever they sit between well-escaped text. */
  lemma TagUnescapeUnknownAndTrailing(a: string, x: char, b: string)
    requires !IsEscapeCode(x)
    ensures TagUnescape(TagEscape(a) + ['\\', x] + TagEscape(b)) == a + [x] + b
    ensures TagUnescape(TagEscape(a) + ['\\']) == a
  {
    TagUnescapeAppend(TagEscape(a), ['\\', x] + TagEscape(b));
    assert TagEscape(a) + ['\\', x] + TagEscape(b) == TagEscape(a) + (['\\', x] + TagEscape(b));
    assert (['\\', x] + TagEscape(b))[2..] == TagEscape(b);
    TagEscapeRoundTrip(a);
    TagEscapeRoundTrip(b);
    TagUnescapeAppend(TagEscape(a), ['\\']);
  }

  /* ----------------------------------------------------------- messages */

  /** A verb as the caller gave it: text, or an integer numeric. */
  datatype Verb = Named(name: string) | Numeric(code: int)

  /** The tags dictionary, in Python's insertion order. */
  type TagList = Dict<string, Option<string>>

  datatype Message = Message(tags: TagList, source: Option<string>, verb: Verb, params: seq<string>)

  /** `RFC1459Message.from_data`: falsy params, source and tags are
      normalised to an empty list, None and an empty dict. */
  function FromData(verb: Verb, params: seq<string>, source: Option<string>, tags: TagList): (m: Message)
    ensures m.verb == verb && m.params == params
    ensures source.Some? && source.value != "" ==> m.source == source
    ensures m.source.None? <==> source.None? || source.value == ""
    ensures DistinctKeys(m.tags)
    ensures DistinctKeys(tags) ==> m.tags == tags
  {
    var t := PutAll([], tags);
    assert DistinctKeys(tags) ==> t == tags by {
      if DistinctKeys(tags) {
        assert [] + tags == tags;
        PutAllFresh([], tags);
      }
    }
    Message(t, if source.Some? && source.value != "" then source else None, verb, params)
  }

  /* ------------------------------------------------------------ parsing */

  /** One entry of the tags block: `k=v` splits at the first `=` and the
      value is unescaped; a bare key has no value. */
  function ParseTag(tag: string): (kv: (string, Option<string>))
    ensures '=' !in tag ==> kv == (tag, None)
    ensures '=' in tag ==>
      && '=' !in kv.0 && |kv.0| < |tag| && tag[..|kv.0|] == kv.0 && tag[|kv.0|] == '='
      && kv.1 == Some(TagUnescape(tag[|kv.0| + 1..]))
  {
    if '=' in tag then
      var (k, v) := SplitFirst(tag, '=');
      assert tag == k + "=" + v;
      assert tag[..|k|] == k && tag[|k| + 1..] == v;
      (k, Some(TagUnescape(v)))
    else (tag, None)
  }

  function ParseTagPieces(pieces: seq<string>): (kvs: TagList)
    ensures |kvs| == |pieces|
    ensures forall i :: 0 <= i < |pieces| ==> kvs[i] == ParseTag(pieces[i])
  {
    seq(|pieces|, i requires 0 <= i < |pieces| => ParseTag(pieces[i]))
  }

  /** The parameter loop of `from_message`: empty tokens (runs of spaces)
      are skipped, and a token that starts with `:` takes the rest of the
      line, colon removed. */
  function ParseParams(tokens: seq<string>): (ps: seq<string>)
    requires Words(tokens)
    ensures forall i :: 0 <= i < |ps| - 1 ==> IsMiddle(ps[i])
    ensures forall i :: 0 <= i < |ps| && ps[i] == "" ==> i == |ps| - 1
    ensures |ps| <= |tokens|
    decreases |tokens|
  {
    if |tokens| == 0 then []
    else if tokens[0] == "" then ParseParams(tokens[1..])
    else if tokens[0][0] == ':' then [Join(tokens, " ")[1..]]
    else [tokens[0]] + ParseParams(tokens[1..])
  }

  /** Tokens of a split on spaces. */
  predicate Words(s: seq<string>)
  {
    forall i :: 0 <= i < |s| ==> ' ' !in s[i]
  }

  lemma WordsAppend(a: seq<string>, b: seq<string>)
    ensures Words(a + b) <==> Words(a) && Words(b)
  {
    if Words(a) && Words(b) {
      forall i | 0 <= i < |a + b| ensures ' ' !in (a + b)[i] {
        if i < |a| { assert (a + b)[i] == a[i]; } else { assert (a + b)[i] == b[i - |a|]; }
      }
    }
    if Words(a + b) {
      forall i | 0 <= i < |a| ensures ' ' !in a[i] { assert (a + b)[i] == a[i]; }
      forall i | 0 <= i < |b| ensures ' ' !in b[i] { assert (a + b)[i + |a|] == b[i]; }
    }
  }

  /** A parameter that can be written without the trailing `:` form. */
  predicate IsMiddle(p: string)
  {
    p != "" && ' ' !in p && p[0] != ':'
  }

  /** `RFC1459Message.from_message`. Running out of tokens after the tags or
      the source raises IndexError in the source. */
  function FromMessage(line: string): (r: Result<Message>)
    ensures r.Success? ==> r.value.verb.Named? && Upper(r.value.verb.name) == r.value.verb.name
    ensures r.Success? ==> forall i :: 0 <= i < |r.value.params| - 1 ==> IsMiddle(r.value.params[i])
    ensures r.Success? && r.value.source.Some? ==> r.value.source.value != "" && ' ' !in r.value.source.value
    ensures r.Success? && |r.value.tags| > 0 ==> StartsWith(line, "@")
    ensures r.Failure? ==> StartsWith(line, "@") || StartsWith(line, ":")
  {
    var s := Split(line, ' ');
    assert |s| > 0 && |s[0]| > 0 ==> s[0][0] == line[0] by {
      JoinSplit(line, ' ');
      if |s| > 1 {
        JoinCons(s[0], s[1..], " ");
        assert s == [s[0]] + s[1..];
      }
    }
    ParseTokens(s)
  }

  /** The body of `from_message` after `message.split(' ')`. */
  function ParseTokens(s: seq<string>): (r: Result<Message>)
    requires |s| > 0
    requires Words(s)
    ensures r.Success? ==> r.value.verb.Named? && Upper(r.value.verb.name) == r.value.verb.name
    ensures r.Success? ==> forall i :: 0 <= i < |r.value.params| - 1 ==> IsMiddle(r.value.params[i])
    ensures r.Success? && r.value.source.Some? ==> r.value.source.value != "" && ' ' !in r.value.source.value
    ensures r.Success? && |r.value.tags| > 0 ==> StartsWith(s[0], "@")
    ensures r.Failure? ==> StartsWith(s[0], "@") || StartsWith(s[0], ":")
  {
    if StartsWith(s[0], "@") then
      var tags := ParseTagPieces(Split(s[0][1..], ';'));
      if |s| == 1 then Failure(IndexError("no verb after the tags"))
      else AfterTags(s[1..], tags)
    else AfterTags(s, [])
  }

  /** The tokens after the tags block: an optional source, then the verb. */
  function AfterTags(s: seq<string>, tags: TagList): (r: Result<Message>)
    requires |s| > 0
    requires Words(s)
    ensures r.Success? ==> r.value.verb.Named? && Upper(r.value.verb.name) == r.value.verb.name
    ensures r.Success? ==> forall i :: 0 <= i < |r.value.params| - 1 ==> IsMiddle(r.value.params[i])
    ensures r.Success? && r.value.source.Some? ==> r.value.source.value != "" && ' ' !in r.value.source.value
    ensures r.Success? && |tags| == 0 ==> |r.value.tags| == 0
    ensures r.Failure? ==> StartsWith(s[0], ":")
  {
    if StartsWith(s[0], ":") then
      if |s| == 1 then Failure(IndexError("no verb after the source"))
      else
        assert ' ' !in s[0];
        AfterSource(s[1..], Some(s[0][1..]), tags)
    else AfterSource(s, None, tags)
  }

  /** The verb, upper-cased, and the parameters. */
  function AfterSource(s: seq<string>, source: Option<string>, tags: TagList): (r: Result<Message>)
    requires |s| > 0
    requires Words(s)
    requires source.Some? ==> ' ' !in source.value
    ensures r.Success? && r.value.verb.Named? && Upper(r.value.verb.name) == r.value.verb.name
    ensures forall i :: 0 <= i < |r.value.params| - 1 ==> IsMiddle(r.value.params[i])
    ensures r.value.source.Some? ==> r.value.source.value != "" && ' ' !in r.value.source.value
    ensures |tags| == 0 ==> |r.value.tags| == 0
  {
    var verb := Upper(s[0]);
    assert Upper(verb) == verb;
    Success(FromData(Named(verb), ParseParams(s[1..]), source, tags))
  }

  /* -------------------------------------------------------- serialising */

  /** The parameters `args_to_message` keeps: every one up to and including
      the first that is not a middle parameter, that one colon-prefixed. */
  function ArgsBase(params: seq<string>): (base: seq<string>)
    ensures |base| == if FirstNonMiddle(params) < |params| then FirstNonMiddle(params) + 1 else |params|
    ensures forall i :: 0 <= i < |base| && i < FirstNonMiddle(params) ==> base[i] == params[i]
    ensures FirstNonMiddle(params) < |params| ==> base[FirstNonMiddle(params)] == ":" + params[FirstNonMiddle(params)]
    decreases |params|
  {
    if |params| == 0 then []
    else if IsMiddle(params[0]) then [params[0]] + ArgsBase(params[1..])
    else [":" + params[0]]
  }

  /** Index of the first parameter that needs the trailing form, or the
      length when there is none. */
  function FirstNonMiddle(params: seq<string>): (k: nat)
    ensures k <= |params|
    ensures forall i :: 0 <= i < k ==> IsMiddle(params[i])
    ensures k < |params| ==> !IsMiddle(params[k])
    decreases |params|
  {
    if |params| == 0 then 0
    else if IsMiddle(params[0]) then 1 + FirstNonMiddle(params[1..])
    else 0
  }

  /** `args_to_message`. */
  function ArgsToMessage(params: seq<string>): string
  {
    Join(ArgsBase(params), " ")
  }

  /** `tag_escape`d `k=v`, or the bare key for a None value. */
  function TagText(kv: (string, Option<string>)): string
  {
    if kv.1.Some? then kv.0 + "=" + TagEscape(kv.1.value) else kv.0
  }

  function TagTexts(tags: TagList): (ts: seq<string>)
    ensures |ts| == |tags|
    ensures forall i :: 0 <= i < |tags| ==> ts[i] == TagText(tags[i])
  {
    seq(|tags|, i requires 0 <= i < |tags| => TagText(tags[i]))
  }

  function Zeros(n: nat): (z: string)
    ensures |z| == n && forall i :: 0 <= i < n ==> z[i] == '0'
  {
    seq(n, _ => '0')
  }

  /** `s.zfill(width)`: zeros are inserted after a leading sign. */
  function ZFill(s: string, width: nat): string
  {
    if |s| >= width then s
    else if |s| > 0 && (s[0] == '-' || s[0] == '+') then [s[0]] + Zeros(width - |s|) + s[1..]
    else Zeros(width - |s|) + s
  }

  /** The verb as written on the wire: an int verb is zero-padded to three
      digits. */
  function VerbText(v: Verb): (t: string)
    ensures v.Named? ==> t == v.name
    ensures v.Numeric? && 0 <= v.code < 1000 ==>
      |t| == 3 && (forall i :: 0 <= i < 3 ==> IsDigit(t[i])) && DecimalValue(t) == v.code
  {
    match v
    case Named(name) => name
    case Numeric(code) =>
      var t := ZFill(IntText(code), 3);
      if 0 <= code < 1000 then
        ZeroPadValue(NatToDigits(code), 3);
        DigitsOfSmall(code);
        t
      else t
  }

  lemma DigitsOfSmall(n: nat)
    requires n < 1000
    ensures |NatToDigits(n)| <= 3
  {
    if n >= 10 {
      if n / 10 >= 10 {
        assert |NatToDigits(n / 10 / 10)| == 1;
      }
    }
  }

  /** Leading zeros do not change a decimal value. */
  lemma ZeroPadValue(d: string, width: nat)
    requires forall i :: 0 <= i < |d| ==> IsDigit(d[i])
    ensures forall i :: 0 <= i < |ZFill(d, width)| ==> IsDigit(ZFill(d, width)[i])
    ensures |d| <= width ==> |ZFill(d, width)| == width
    ensures DecimalValue(ZFill(d, width)) == DecimalValue(d)
  {
    if |d| < width {
      assert |d| > 0 ==> IsDigit(d[0]);
      ZerosValue(width - |d|, d);
    }
  }

  lemma {:induction false} ZerosValue(n: nat, d: string)
    requires forall i :: 0 <= i < |d| ==> IsDigit(d[i])
    ensures DecimalValue(Zeros(n) + d) == DecimalValue(d)
    decreases |d|
  {
    var z := Zeros(n) + d;
    if |d| == 0 {
      assert z == Zeros(n);
      ZerosAllZero(n);
    } else {
      assert z[..|z| - 1] == Zeros(n) + d[..|d| - 1];
      ZerosValue(n, d[..|d| - 1]);
    }
  }

  lemma {:induction false} ZerosAllZero(n: nat)
    ensures DecimalValue(Zeros(n)) == 0
  {
    if n > 0 {
      assert Zeros(n)[..n - 1] == Zeros(n - 1);
      ZerosAllZero(n - 1);
    }
  }

  /** The components `to_message` joins with single spaces. */
  function Components(m: Message): seq<string>
  {
    (if |m.tags| > 0 then ["@" + Join(TagTexts(m.tags), ";")] else [])
    + (if m.source.Some? && m.source.value != "" then [":" + m.source.value] else [])
    + [VerbText(m.verb)]
    + (if |m.params| > 0 then [ArgsToMessage(m.params)] else [])
  }

  /** `to_message`. */
  function ToMessage(m: Message): string
  {
    Join(Components(m), " ")
  }

  /** What `to_message` writes: empty tags, a None or empty source and empty
      params leave no trace, the verb is the zero-padded code or the text,
      and the parameters follow `args_to_message`. */
  lemma ToMessageShape(m: Message)
    ensures |m.tags| == 0 && (m.source.None? || m.source.value == "") && |m.params| == 0 ==>
      ToMessage(m) == VerbText(m.verb)
    ensures |m.tags| > 0 ==> StartsWith(ToMessage(m), "@")
    ensures |m.tags| == 0 && m.source.Some? && m.source.value != "" ==>
      StartsWith(ToMessage(m), ":" + m.source.value + " ")
  {
    var c := Components(m);
    if |m.tags| > 0 {
      assert c == [c[0]] + c[1..];
      JoinCons(c[0], c[1..], " ");
    } else if m.source.Some? && m.source.value != "" {
      assert c == [c[0]] + c[1..];
      JoinCons(c[0], c[1..], " ");
      assert ToMessage(m) == c[0] + " " + Join(c[1..], " ");
      assert (":" + m.source.value + " ") == c[0] + " ";
    }
  }

  /* ---------------------------------------------------------- round trip */

  /** The messages that survive serialising and parsing unchanged: a text
      verb that is upper-case, has no space and cannot be mistaken for a
      tags or source token; a source that is absent or a non-empty word;
      distinct tag keys free of `=`, `;` and space; and every parameter but
      the last a middle parameter. */
  predicate RoundTrips(m: Message)
  {
    && m.verb.Named?
    && Upper(m.verb.name) == m.verb.name
    && ' ' !in m.verb.name
    && !StartsWith(m.verb.name, "@") && !StartsWith(m.verb.name, ":")
    && (m.source.Some? ==> m.source.value != "" && ' ' !in m.source.value)
    && DistinctKeys(m.tags)
    && (forall i :: 0 <= i < |m.tags| ==>
          '=' !in m.tags[i].0 && ';' !in m.tags[i].0 && ' ' !in m.tags[i].0)
    && (forall i :: 0 <= i < |m.params| - 1 ==> IsMiddle(m.params[i]))
  }

  /** Parsing the text of a tag entry gives the entry back. */
  lemma ParseTagText(kv: (string, Option<string>))
    requires '=' !in kv.0
    ensures ParseTag(TagText(kv)) == kv
  {
    if kv.1.Some? {
      SplitFirstOf(kv.0, TagEscape(kv.1.value), '=');
      TagEscapeRoundTrip(kv.1.value);
      assert TagText(kv) == kv.0 + ['='] + TagEscape(kv.1.value);
    }
  }

  /** A tag's text adds no `;` and no space to those of its key. */
  lemma TagTextClean(kv: (string, Option<string>))
    ensures ';' !in kv.0 ==> ';' !in TagText(kv)
    ensures ' ' !in kv.0 ==> ' ' !in TagText(kv)
  {
    if kv.1.Some? {
      var e := TagEscape(kv.1.value);
      assert TagText(kv) == kv.0 + "=" + e;
    }
  }

  /** The tags block parses back to the tag list. */
  lemma TagsRoundTrip(tags: TagList)
    requires |tags| > 0
    requires DistinctKeys(tags)
    requires forall i :: 0 <= i < |tags| ==> '=' !in tags[i].0 && ';' !in tags[i].0
    ensures ParseTagPieces(Split(Join(TagTexts(tags), ";"), ';')) == tags
    ensures forall i :: 0 <= i < |tags| ==> ' ' !in tags[i].0 ==> ' ' !in TagText(tags[i])
  {
    var ts := TagTexts(tags);
    forall i | 0 <= i < |ts|
      ensures ';' !in ts[i] && (' ' !in tags[i].0 ==> ' ' !in ts[i])
    {
      TagTextClean(tags[i]);
    }
    SplitJoin(ts, ';');
    forall i | 0 <= i < |tags|
      ensures ParseTag(ts[i]) == tags[i]
    {
      ParseTagText(tags[i]);
    }
  }

  /** Middle parameters at the front of the tokens pass through unchanged. */
  lemma {:induction false} ParseParamsMiddle(pre: seq<string>, rest: seq<string>)
    requires forall i :: 0 <= i < |pre| ==> IsMiddle(pre[i])
    requires Words(rest)
    ensures Words(pre + rest) && ParseParams(pre + rest) == pre + ParseParams(rest)
    decreases |pre|
  {
    WordsAppend(pre, rest);
    if |pre| > 0 {
      assert (pre + rest)[1..] == pre[1..] + rest;
      ParseParamsMiddle(pre[1..], rest);
      assert pre == [pre[0]] + pre[1..];
    } else {
      assert pre + rest == rest;
    }
  }

  /** A colon-led token takes the rest of the line verbatim: the split of a
      colon-prefixed parameter parses back to the parameter. */
  lemma ParseParamsTrailing(p: string)
    ensures ParseParams(Split(":" + p, ' ')) == [p]
  {
    var toks := Split(":" + p, ' ');
    SplitCons(':', p, ' ');
    JoinSplit(":" + p, ' ');
    assert toks[0][0] == ':';
  }

  /** The parameters written by `args_to_message` parse back. */
  lemma ParamsRoundTrip(params: seq<string>)
    requires |params| > 0
    requires forall i :: 0 <= i < |params| - 1 ==> IsMiddle(params[i])
    ensures ParseParams(Split(ArgsToMessage(params), ' ')) == params
  {
    if FirstNonMiddle(params) == |params| {
      AllMiddleRoundTrip(params);
    } else {
      TrailingRoundTrip(params);
    }
  }

  /** All middle parameters: they are written space-joined and split back. */
  lemma {:induction false} AllMiddleRoundTrip(params: seq<string>)
    requires |params| > 0 && FirstNonMiddle(params) == |params|
    ensures ParseParams(Split(ArgsToMessage(params), ' ')) == params
  {
    var base := ArgsBase(params);
    assert base == params;
    SplitJoin(base, ' ');
    ParseParamsMiddle(params, []);
    assert params + [] == params;
  }

  /** A last parameter that is not middle is written colon-prefixed and
      taken verbatim on the way back. */
  lemma {:induction false} TrailingRoundTrip(params: seq<string>)
    requires |params| > 0 && FirstNonMiddle(params) != |params|
    requires forall i :: 0 <= i < |params| - 1 ==> IsMiddle(params[i])
    ensures ParseParams(Split(ArgsToMessage(params), ' ')) == params
  {
    var n := |params|;
    var last, front := params[n - 1], params[..n - 1];
    var toks := Split(":" + last, ' ');
    assert Split(ArgsToMessage(params), ' ') == front + toks by {
      TrailingSplit(params);
    }
    assert ParseParams(toks) == [last] by {
      ParseParamsTrailing(last);
    }
    assert Words(front + toks) && ParseParams(front + toks) == front + [last] by {
      ParseParamsMiddle(front, toks);
    }
    assert front + [last] == params;
  }

  /** The written parameters split into the middle ones followed by the
      pieces of the colon-prefixed last one. */
  lemma {:induction false} TrailingSplit(params: seq<string>)
    requires |params| > 0 && FirstNonMiddle(params) != |params|
    requires forall i :: 0 <= i < |params| - 1 ==> IsMiddle(params[i])
    ensures Split(ArgsToMessage(params), ' ') == params[..|params| - 1] + Split(":" + params[|params| - 1], ' ')
  {
    var n := |params|;
    var base := ArgsBase(params);
    assert Split(ArgsToMessage(params), ' ') == base[..n - 1] + Split(base[n - 1], ' ') by {
      ArgsBaseTrailing(params);
      SplitJoinLast(base, ' ');
    }
    assert base[..n - 1] == params[..n - 1] && base[n - 1] == ":" + params[n - 1] by {
      ArgsBaseTrailing(params);
    }
  }

  /** With only the last parameter not middle, the written tokens are the
      middle parameters and the colon-prefixed last one; none but the last
      holds a space. */
  lemma {:induction false} ArgsBaseTrailing(params: seq<string>)
    requires |params| > 0 && FirstNonMiddle(params) != |params|
    requires forall i :: 0 <= i < |params| - 1 ==> IsMiddle(params[i])
    ensures |ArgsBase(params)| == |params|
    ensures ArgsBase(params)[|params| - 1] == ":" + params[|params| - 1]
    ensures forall i :: 0 <= i < |params| - 1 ==> ArgsBase(params)[i] == params[i] && ' ' !in ArgsBase(params)[i]
  {
    assert FirstNonMiddle(params) == |params| - 1;
    forall i | 0 <= i < |params| - 1 ensures ' ' !in params[i] {
      assert IsMiddle(params[i]);
    }
  }

  /** The tokens before the parameters that `to_message` writes. */
  function Head(m: Message): seq<string>
    requires m.verb.Named?
  {
    (if |m.tags| > 0 then ["@" + Join(TagTexts(m.tags), ";")] else [])
    + (if m.source.Some? && m.source.value != "" then [":" + m.source.value] else [])
    + [m.verb.name]
  }

  /** The head tokens of a message that round-trips carry no space. */
  lemma HeadWords(m: Message)
    requires RoundTrips(m)
    ensures Words(Head(m))
  {
    var tagPart := if |m.tags| > 0 then ["@" + Join(TagTexts(m.tags), ";")] else [];
    var sourcePart := if m.source.Some? && m.source.value != "" then [":" + m.source.value] else [];
    if |m.tags| > 0 {
      forall i | 0 <= i < |m.tags| ensures ' ' !in TagTexts(m.tags)[i] {
        if m.tags[i].1.Some? {
          assert TagText(m.tags[i]) == m.tags[i].0 + "=" + TagEscape(m.tags[i].1.value);
        }
      }
      JoinNoSpace(TagTexts(m.tags), ";");
    }
    WordsAppend(tagPart, sourcePart);
    WordsAppend(tagPart + sourcePart, [m.verb.name]);
  }

  /** Splitting the serialised line gives the head tokens, then the pieces of
      the parameter text. */
  lemma ToMessageTokens(m: Message)
    requires RoundTrips(m)
    ensures Words(Head(m))
    ensures Split(ToMessage(m), ' ') ==
      Head(m) + (if |m.params| > 0 then Split(ArgsToMessage(m.params), ' ') else [])
  {
    HeadWords(m);
    var c := Components(m);
    var pre := Head(m);
    if |m.params| > 0 {
      assert c == pre + [ArgsToMessage(m.params)];
      assert c[..|c| - 1] == pre;
      SplitJoinLast(c, ' ');
    } else {
      assert c == pre;
      assert c[..|c| - 1] + [m.verb.name] == pre;
      SplitJoinLast(c, ' ');
      SplitNoSep(m.verb.name, ' ');
    }
  }

  /** The verb token and the parameter tokens parse back. */
  lemma ParseVerb(m: Message, rest: seq<string>)
    requires RoundTrips(m)
    requires ' ' !in m.verb.name
    requires Words(rest)
    requires ParseParams(rest) == m.params
    ensures Words([m.verb.name] + rest)
    ensures AfterSource([m.verb.name] + rest, m.source, m.tags) == Success(m)
  {
    var vs := [m.verb.name] + rest;
    WordsAppend([m.verb.name], rest);
    assert vs[1..] == rest;
    PutAllFresh([], m.tags);
    assert [] + m.tags == m.tags;
  }

  /** The source token, when there is one, parses back. */
  lemma ParseSource(m: Message, rest: seq<string>)
    requires RoundTrips(m)
    requires Words([m.verb.name] + rest)
    requires AfterSource([m.verb.name] + rest, m.source, m.tags) == Success(m)
    ensures var ss := (if m.source.Some? then [":" + m.source.value] else []) + [m.verb.name] + rest;
      Words(ss) && AfterTags(ss, m.tags) == Success(m)
  {
    var vs := [m.verb.name] + rest;
    if m.source.Some? {
      assert [":" + m.source.value] + [m.verb.name] + rest == [":" + m.source.value] + vs;
      ParseSourceToken(m.source.value, vs, m.tags);
    } else {
      assert [] + [m.verb.name] + rest == vs;
    }
  }

  /** A source token is read off and the rest parses after it. */
  lemma ParseSourceToken(src: string, vs: seq<string>, tags: TagList)
    requires src != "" && ' ' !in src
    requires |vs| > 0 && Words(vs)
    ensures Words([":" + src] + vs)
    ensures AfterTags([":" + src] + vs, tags) == AfterSource(vs, Some(src), tags)
  {
    var ss := [":" + src] + vs;
    WordsAppend([":" + src], vs);
    assert ss[1..] == vs;
    assert ss[0][1..] == src;
    assert ss[0][..1] == ":";
  }

  /** The tags token, when there is one, parses back. */
  lemma ParseTagsToken(tags: TagList, ss: seq<string>)
    requires |tags| > 0
    requires DistinctKeys(tags)
    requires forall i :: 0 <= i < |tags| ==> '=' !in tags[i].0 && ';' !in tags[i].0 && ' ' !in tags[i].0
    requires |ss| > 0
    requires Words(ss)
    ensures Words(["@" + Join(TagTexts(tags), ";")] + ss)
    ensures ParseTokens(["@" + Join(TagTexts(tags), ";")] + ss) == AfterTags(ss, tags)
  {
    var tt := "@" + Join(TagTexts(tags), ";");
    var s := [tt] + ss;
    TagsRoundTrip(tags);
    JoinNoSpace(TagTexts(tags), ";");
    WordsAppend([tt], ss);
    assert tt[1..] == Join(TagTexts(tags), ";");
    assert s[1..] == ss;
  }

  /** `from_message` applied to the tokens of a serialised message. */
  lemma ParseHead(m: Message, rest: seq<string>)
    requires RoundTrips(m)
    requires Words(Head(m))
    requires Words(rest)
    requires ParseParams(rest) == m.params
    ensures Words(Head(m) + rest) && ParseTokens(Head(m) + rest) == Success(m)
  {
    var s := Head(m) + rest;
    WordsAppend(Head(m), rest);
    ParseVerb(m, rest);
    ParseSource(m, rest);
    var ss := (if m.source.Some? then [":" + m.source.value] else []) + [m.verb.name] + rest;
    assert !StartsWith(ss[0], "@");
    if |m.tags| > 0 {
      ParseTagsToken(m.tags, ss);
      assert s == ["@" + Join(TagTexts(m.tags), ";")] + ss;
    } else {
      assert s == ss;
    }
  }

  /** Round trip of the codec: a message that `RoundTrips` is reproduced by
      `from_message(to_message(m))`. */
  lemma MessageRoundTrip(m: Message)
    requires RoundTrips(m)
    ensures FromMessage(ToMessage(m)) == Success(m)
  {
    ToMessageTokens(m);
    var rest := if |m.params| > 0 then Split(ArgsToMessage(m.params), ' ') else [];
    if |m.params| > 0 {
      ParamsRoundTrip(m.params);
    }
    ParseHead(m, rest);
  }

  /** A join of space-free strings with a space-free separator is
      space-free. */
  lemma {:induction false} JoinNoSpace(xs: seq<string>, sep: string)
    requires ' ' !in sep
    requires forall i :: 0 <= i < |xs| ==> ' ' !in xs[i]
    ensures ' ' !in Join(xs, sep)
    decreases |xs|
  {
    if |xs| > 1 {
      JoinNoSpace(xs[1..], sep);
    }
  }
}

=== FILE: features.dfy ===
/** The ISUPPORT (RPL_ISUPPORT, numeric 005) feature table. Models
    girc/features.py. Feature names are case-folded on ingest but not on
    lookup. */
module Features {
  import opened Wrappers
  import opened Strings

  /** `limit_to_number`: an optionally signed digit string gives its value,
      anything else None. */
  function LimitToNumber(limit: string): (r: Option<int>)
    ensures r.Some? <==>
      IsDigits(limit) || (|limit| > 0 && IsSign(limit[0]) && IsDigits(limit[1..]))
    ensures IsDigits(limit) ==> r == Some(DecimalValue(limit))
    ensures |limit| > 0 && limit[0] == '-' && IsDigits(limit[1..]) ==> r == Some(0 - DecimalValue(limit[1..]))
    ensures |limit| > 0 && limit[0] == '+' && IsDigits(limit[1..]) ==> r == Some(DecimalValue(limit[1..]))
  {
    if StartsWith(limit, "-") || StartsWith(limit, "+") then
      assert !IsDigit(limit[0]);
      if IsDigits(limit[1..]) then
        var magnitude: int := DecimalValue(limit[1..]);
        Some(if limit[0] == '-' then 0 - magnitude else magnitude)
      else None
    else if IsDigits(limit) then Some(DecimalValue(limit))
    else None
  }

  /** `limit_to_number` reads back what `str` writes, with or without an
      explicit `+`. */
  lemma LimitToNumberOfText(n: int)
    ensures LimitToNumber(IntText(n)) == Some(n)
    ensures n >= 0 ==> LimitToNumber("+" + IntText(n)) == Some(n)
  {
    var d := NatToDigits(if n < 0 then -n else n);
    assert ("-" + d)[1..] == d;
    assert ("+" + d)[1..] == d;
    assert IsDigit(d[0]);
  }

  /** A stored feature value. */
  datatype FValue =
    | FTrue
    | FStr(s: string)
    | FInt(n: int)
    | FPrefix(modes: map<char, char>)
    | FList(items: seq<string>)
    | FLimits(limits: map<char, Option<int>>)

  /** The table of a connection's features. */
  datatype Features = Features(table: map<string, FValue>)

  /** `PREFIX=(modes)chars`: the value must split at `)` into exactly two
      pieces; the first loses its opening character and the i-th mode is
      paired with the i-th prefix character (`zip` stops at the shorter). */
  function PrefixValue(v: string): (r: Result<FValue>)
    ensures r.Success? <==> |Split(v, ')')| == 2
    ensures r.Success? ==> r.value.FPrefix?
  {
    var pieces := Split(v, ')');
    if |pieces| != 2 then Failure(ValueError("PREFIX must split into two at ')'"))
    else
      var modes := if |pieces[0]| == 0 then "" else pieces[0][1..];
      var chars := pieces[1];
      var n := if |modes| < |chars| then |modes| else |chars|;
      Success(FPrefix(PairMap(modes[..n], chars[..n])))
  }

  /** `PREFIX=(modes)chars` pairs every mode letter with its prefix
      character. */
  lemma PrefixPairs(modes: string, chars: string)
    requires |modes| == |chars| && DistinctChars(modes)
    requires ')' !in modes && ')' !in chars
    ensures PrefixValue("(" + modes + ")" + chars).Success?
    ensures var m := PrefixValue("(" + modes + ")" + chars).value.modes;
      (forall c :: c in m <==> c in modes) && forall i :: 0 <= i < |modes| ==> m[modes[i]] == chars[i]
  {
    var v := "(" + modes + ")" + chars;
    assert v == ("(" + modes) + [')'] + chars;
    SplitAppend("(" + modes, chars, ')');
    SplitNoSep("(" + modes, ')');
    SplitNoSep(chars, ')');
    assert ("(" + modes)[1..] == modes;
    assert modes[..|modes|] == modes && chars[..|chars|] == chars;
    forall i | 0 <= i < |modes| ensures PairMap(modes, chars)[modes[i]] == chars[i] {
      PairMapAt(modes, chars, i);
    }
  }

  /** One `types:limit` group of CHANLIMIT (or `command:limit` of TARGMAX):
      exactly one colon. */
  function ColonPair(group: string): (r: Result<(string, string)>)
    ensures r.Success? <==> |Split(group, ':')| == 2
    ensures r.Success? ==> r.value.0 + ":" + r.value.1 == group && ':' !in r.value.0 && ':' !in r.value.1
  {
    var parts := Split(group, ':');
    if |parts| != 2 then Failure(ValueError("expected one ':'"))
    else
      JoinSplit(group, ':');
      assert Join(parts, [':']) == parts[0] + [':'] + parts[1] by {
        JoinCons(parts[0], parts[1..], [':']);
        assert parts == [parts[0]] + parts[1..];
      }
      Success((parts[0], parts[1]))
  }

  /** The type characters of a well-formed CHANLIMIT group. */
  function GroupTypes(group: string): string
  {
    if ColonPair(group).Success? then ColonPair(group).value.0 else ""
  }

  /** The limit of a well-formed CHANLIMIT group, as a number. */
  function GroupLimit(group: string): Option<int>
  {
    if ColonPair(group).Success? then LimitToNumber(ColonPair(group).value.1) else None
  }

  /** The CHANLIMIT loop: every type character of every group is mapped to
      the group's limit, later groups overriding earlier ones. */
  function ChanLimits(groups: seq<string>, acc: map<char, Option<int>>): (r: Result<map<char, Option<int>>>)
    ensures r.Success? <==> forall i :: 0 <= i < |groups| ==> ColonPair(groups[i]).Success?
    ensures r.Success? ==> forall c :: c in r.value <==>
      c in acc || exists i :: 0 <= i < |groups| && c in GroupTypes(groups[i])
    decreases |groups|
  {
    if |groups| == 0 then Success(acc)
    else
      match ColonPair(groups[0])
      case Failure(e) => Failure(e)
      case Success((types, limit)) =>
        var r := ChanLimits(groups[1..], SetAll(acc, types, LimitToNumber(limit)));
        assert forall j :: 1 <= j < |groups| ==> groups[1..][j - 1] == groups[j];
        assert r.Success? ==> forall c :: c in r.value <==>
          c in acc || exists i :: 0 <= i < |groups| && c in GroupTypes(groups[i]) by {
          if r.Success? {
            forall c | c in r.value ensures c in acc || exists i :: 0 <= i < |groups| && c in GroupTypes(groups[i]) {
              if c !in acc && c !in types {
                var i :| 0 <= i < |groups[1..]| && c in GroupTypes(groups[1..][i]);
                assert groups[1..][i] == groups[i + 1];
              }
            }
            forall c | c in acc || exists i :: 0 <= i < |groups| && c in GroupTypes(groups[i]) ensures c in r.value {
              if c !in acc && c !in types {
                var i :| 0 <= i < |groups| && c in GroupTypes(groups[i]);
                assert i != 0;
                assert groups[1..][i - 1] == groups[i];
              }
            }
          }
        }
        r
  }

  /** A type character takes the limit of the last group that names it. */
  lemma {:induction false} ChanLimitsLast(groups: seq<string>, acc: map<char, Option<int>>, i: nat, c: char)
    requires ChanLimits(groups, acc).Success?
    requires i < |groups| && c in GroupTypes(groups[i])
    requires forall j :: i < j < |groups| ==> c !in GroupTypes(groups[j])
    ensures ChanLimits(groups, acc).value[c] == GroupLimit(groups[i])
    decreases |groups|
  {
    var (types, limit) := ColonPair(groups[0]).value;
    var acc' := SetAll(acc, types, LimitToNumber(limit));
    assert ChanLimits(groups, acc) == ChanLimits(groups[1..], acc');
    forall j | i - 1 < j < |groups[1..]| ensures c !in GroupTypes(groups[1..][j]) {
      assert groups[1..][j] == groups[j + 1];
    }
    if i == 0 {
      assert c in acc' && acc'[c] == GroupLimit(groups[0]);
      ChanLimitsKeeps(groups[1..], acc', c);
    } else {
      ChanLimitsLast(groups[1..], acc', i - 1, c);
    }
  }

  /** A character no group names keeps the value it had before the loop. */
  lemma {:induction false} ChanLimitsKeeps(groups: seq<string>, acc: map<char, Option<int>>, c: char)
    requires ChanLimits(groups, acc).Success?
    requires c in acc
    requires forall j :: 0 <= j < |groups| ==> c !in GroupTypes(groups[j])
    ensures ChanLimits(groups, acc).value[c] == acc[c]
    decreases |groups|
  {
    if |groups| > 0 {
      var (types, limit) := ColonPair(groups[0]).value;
      var acc' := SetAll(acc, types, LimitToNumber(limit));
      assert ChanLimits(groups, acc) == ChanLimits(groups[1..], acc');
      forall j | 0 <= j < |groups[1..]| ensures c !in GroupTypes(groups[1..][j]) {
        assert groups[1..][j] == groups[j + 1];
      }
      ChanLimitsKeeps(groups[1..], acc', c);
    }
  }

  /** `for prefix in chan_types: limit_dict[prefix] = limit`. */
  function SetAll(acc: map<char, Option<int>>, keys: string, v: Option<int>): (r: map<char, Option<int>>)
    ensures forall c :: c in r <==> c in acc || c in keys
    ensures forall c :: c in keys ==> r[c] == v
    ensures forall c :: c in acc && c !in keys ==> r[c] == acc[c]
    decreases |keys|
  {
    if |keys| == 0 then acc else SetAll(acc[keys[0] := v], keys[1..], v)
  }

  /** The TARGMAX loop: each comma-separated group must have exactly one
      colon; the computed map is discarded. */
  predicate TargmaxValid(v: string)
  {
    forall i :: 0 <= i < |Split(v, ',')| ==> ColonPair(Split(v, ',')[i]).Success?
  }

  /** The result of ingesting one feature: the new table and, for
      CASEMAPPING, the value to hand to the connection. */
  datatype Ingested = Ingested(features: Features, casemapping: Option<FValue>)

  /** The value of `name=value`, special processing included, before it is
      stored. */
  function FeatureValue(name: string, value: FValue): (r: Result<FValue>)
    ensures name == "prefix" && value.FStr? ==> r == PrefixValue(value.s)
    ensures name == "chanmodes" && value.FStr? ==> r == Success(FList(Split(value.s, ',')))
    ensures name == "targmax" && value.FStr? ==>
      (r.Success? <==> TargmaxValid(value.s)) && (r.Success? ==> r.value == FStr(value.s))
    ensures name == "chanlimit" && value.FStr? ==>
      (r.Success? <==> ChanLimits(Split(value.s, ','), map[]).Success?) &&
      (r.Success? ==> r.value == FLimits(ChanLimits(Split(value.s, ','), map[]).value))
    ensures name != "prefix" && name != "chanmodes" && name != "targmax" && name != "chanlimit" ==>
      r == Success(if value.FStr? && IsDigits(value.s) then FInt(DecimalValue(value.s)) else value)
    ensures (name == "prefix" || name == "chanmodes" || name == "targmax" || name == "chanlimit") && !value.FStr? ==>
      r.Failure?
  {
    if name in ["prefix", "chanmodes", "targmax", "chanlimit"] && !value.FStr? then
      Failure(AttributeError("'bool' object has no attribute 'split'"))
    else if name == "prefix" then PrefixValue(value.s)
    else if name == "chanmodes" then Success(FList(Split(value.s, ',')))
    else if name == "targmax" then
      if TargmaxValid(value.s) then
        assert !IsDigits(value.s) by { TargmaxNotDigits(value.s); }
        Success(value)
      else Failure(ValueError("expected one ':'"))
    else if name == "chanlimit" then
      match ChanLimits(Split(value.s, ','), map[])
      case Success(m) => Success(FLimits(m))
      case Failure(e) => Failure(e)
    else if value.FStr? && IsDigits(value.s) then Success(FInt(DecimalValue(value.s)))
    else Success(value)
  }

  /** A valid TARGMAX value holds a colon, so it is never all digits. */
  lemma TargmaxNotDigits(v: string)
    requires TargmaxValid(v)
    ensures !IsDigits(v)
  {
    var groups := Split(v, ',');
    var p := ColonPair(groups[0]).value;
    JoinSplit(v, ',');
    if |groups| > 1 {
      JoinCons(groups[0], groups[1..], [',']);
      assert groups == [groups[0]] + groups[1..];
    }
    assert v[|p.0|] == ':';
  }

  /** `ingest` of one parameter. */
  function IngestOne(f: Features, feature: string): (r: Result<Ingested>)
    ensures StartsWith(feature, "-") ==>
      r == Success(Ingested(Features(f.table - {Lower(feature[1..])}), None))
    ensures !StartsWith(feature, "-") && r.Success? ==>
      var name := Lower(if '=' in feature then SplitFirst(feature, '=').0 else feature);
      && name in r.value.features.table
      && (forall k :: k != name ==> (k in r.value.features.table <==> k in f.table))
      && (forall k :: k != name && k in f.table ==> r.value.features.table[k] == f.table[k])
      && (r.value.casemapping.Some? <==> name == "casemapping")
      && (name == "casemapping" ==> r.value.casemapping.value == r.value.features.table[name])
    ensures !StartsWith(feature, "-") && '=' !in feature ==>
      var name := Lower(feature);
      name != "prefix" && name != "chanmodes" && name != "targmax" && name != "chanlimit" ==>
        r.Success? && r.value.features.table[name] == FTrue
  {
    if StartsWith(feature, "-") then
      Success(Ingested(Features(f.table - {Lower(feature[1..])}), None))
    else
      var (rawName, value) :=
        if '=' in feature then
          var (k, v) := SplitFirst(feature, '=');
          (k, FStr(v))
        else (feature, FTrue);
      var name := Lower(rawName);
      match FeatureValue(name, value)
      case Failure(e) => Failure(e)
      case Success(stored) =>
        Success(Ingested(
          Features(f.table[name := stored]),
          if name == "casemapping" then Some(stored) else None))
  }

  /** `ingest(*parameters)`: the parameters in order; the first failure
      ends the call. The CASEMAPPING values are returned in order. */
  function Ingest(f: Features, params: seq<string>): (r: Result<(Features, seq<FValue>)>)
    ensures |params| == 0 ==> r == Success((f, []))
    decreases |params|
  {
    if |params| == 0 then Success((f, []))
    else
      match IngestOne(f, params[0])
      case Failure(e) => Failure(e)
      case Success(one) =>
        match Ingest(one.features, params[1..])
        case Failure(e) => Failure(e)
        case Success((g, cms)) =>
          Success((g, (if one.casemapping.Some? then [one.casemapping.value] else []) + cms))
  }

  /** A later token for the same name overwrites the earlier value. */
  lemma IngestOverwrites(f: Features, a: string, b: string)
    requires '=' in a && '=' in b
    requires Lower(SplitFirst(a, '=').0) == Lower(SplitFirst(b, '=').0)
    requires !StartsWith(a, "-") && !StartsWith(b, "-")
    requires IngestOne(f, a).Success?
    requires IngestOne(IngestOne(f, a).value.features, b).Success?
    ensures IngestOne(IngestOne(f, a).value.features, b).value.features ==
      IngestOne(f, b).value.features
  {
  }

  /** `Features.__init__`: the RFC 1459 basics. */
  function NewFeatures(): Result<Features>
  {
    match Ingest(Features(map[]), ["PREFIX=(ov)@+", "CHANTYPES=#"])
    case Success((f, _)) => Success(f)
    case Failure(e) => Failure(e)
  }

  /** The default `(ov)@+` prefix table. */
  lemma DefaultPrefix()
    ensures PrefixValue("(ov)@+") == Success(FPrefix(map['o' := '@', 'v' := '+']))
  {
    var v := "(ov)@+";
    assert v == "(ov" + [')'] + "@+";
    SplitAppend("(ov", "@+", ')');
    SplitNoSep("(ov", ')');
    SplitNoSep("@+", ')');
    assert Split(v, ')') == ["(ov", "@+"];
    assert "(ov"[1..] == "ov";
    assert "ov"[..2] == "ov" && "@+"[..2] == "@+";
    DefaultPairs();
  }

  lemma DefaultPairs()
    ensures PairMap("ov", "@+") == map['o' := '@', 'v' := '+']
  {
    assert "ov"[..1] == "o" && "@+"[..1] == "@";
    assert "o"[..0] == "" && "@"[..0] == "";
  }

  /** Ingesting `name=value` stores the processed value under the folded
      name. */
  lemma IngestAssign(f: Features, name: string, value: string, stored: FValue)
    requires '=' !in name && !StartsWith(name, "-") && Lower(name) != "casemapping"
    requires FeatureValue(Lower(name), FStr(value)) == Success(stored)
    ensures IngestOne(f, name + "=" + value) == Success(Ingested(Features(f.table[Lower(name) := stored]), None))
  {
    SplitFirstOf(name, value, '=');
    assert name + "=" + value == name + ['='] + value;
    var feature := name + "=" + value;
    assert !StartsWith(feature, "-") by {
      if |name| == 0 {
        assert feature[0] == '=';
      } else {
        assert feature[0] == name[0];
        assert name[..1] == [name[0]];
      }
    }
  }

  /** Ingesting `CASEMAPPING=value`, the name in any case, stores the value
      and hands it to the connection. */
  lemma IngestCasemapping(f: Features, name: string, value: string)
    requires '=' !in name && !StartsWith(name, "-") && Lower(name) == "casemapping"
    requires !IsDigits(value)
    ensures IngestOne(f, name + "=" + value) ==
      Success(Ingested(Features(f.table["casemapping" := FStr(value)]), Some(FStr(value))))
  {
    SplitFirstOf(name, value, '=');
    assert name + "=" + value == name + ['='] + value;
    var feature := name + "=" + value;
    assert !StartsWith(feature, "-") by {
      assert |name| > 0;
      assert feature[0] == name[0];
      assert name[..1] == [name[0]];
    }
  }

  lemma PrefixName()
    ensures Lower("PREFIX") == "prefix" && !StartsWith("PREFIX", "-") && '=' !in "PREFIX"
  {
    assert forall i :: 0 <= i < 6 ==> Lower("PREFIX")[i] == "prefix"[i];
    assert "PREFIX"[..1] == "P";
    assert forall i :: 0 <= i < 6 ==> "PREFIX"[i] != '=';
  }

  lemma IngestDefaultPrefix(f: Features)
    ensures IngestOne(f, "PREFIX=(ov)@+") ==
      Success(Ingested(Features(f.table["prefix" := FPrefix(map['o' := '@', 'v' := '+'])]), None))
  {
    var name, value := "PREFIX", "(ov)@+";
    assert name + "=" + value == "PREFIX=(ov)@+";
    PrefixName();
    DefaultPrefix();
    IngestAssign(f, name, value, FPrefix(map['o' := '@', 'v' := '+']));
  }

  /** The CHANTYPES name is upper-case `chantypes`, unsigned and has no `=`. */
  lemma ChantypesName()
    ensures Lower("CHANTYPES") == "chantypes" && !StartsWith("CHANTYPES", "-") && '=' !in "CHANTYPES"
  {
    assert forall i :: 0 <= i < 9 ==> Lower("CHANTYPES")[i] == "chantypes"[i];
    assert "CHANTYPES"[..1] == "C";
    assert forall i :: 0 <= i < 9 ==> "CHANTYPES"[i] != '=';
  }

  lemma IngestDefaultChantypes(f: Features)
    ensures IngestOne(f, "CHANTYPES=#") == Success(Ingested(Features(f.table["chantypes" := FStr("#")]), None))
  {
    var name, value := "CHANTYPES", "#";
    assert name + "=" + value == "CHANTYPES=#";
    ChantypesName();
    assert FeatureValue("chantypes", FStr(value)) == Success(FStr(value)) by {
      assert !IsDigit(value[0]);
    }
    IngestAssign(f, name, value, FStr(value));
  }

  /** A fresh table knows the `o`/`v` prefixes and the `#` channel type. */
  lemma NewFeaturesTable()
    ensures NewFeatures() == Success(Features(map[
      "prefix" := FPrefix(map['o' := '@', 'v' := '+']),
      "chantypes" := FStr("#")]))
  {
    var empty := Features(map[]);
    IngestDefaultPrefix(empty);
    var f1 := Features(map["prefix" := FPrefix(map['o' := '@', 'v' := '+'])]);
    IngestDefaultChantypes(f1);
    var params := ["PREFIX=(ov)@+", "CHANTYPES=#"];
    assert params[1..] == ["CHANTYPES=#"];
    assert params[1..][1..] == [];
  }

  /** `get(key, default)`: no case folding on lookup. */
  function Get(f: Features, key: string, default: FValue): (r: FValue)
    ensures key in f.table ==> r == f.table[key]
    ensures key !in f.table ==> r == default
  {
    if key in f.table then f.table[key] else default
  }

  /** `has(key)`: no case folding on lookup. */
  predicate Has(f: Features, key: string)
  {
    key in f.table
  }
}

=== FILE: formatting.dfy ===
/** mIRC-style formatting codes written as `$`-escapes: bold, colour,
    italic, underline and reset become `$b`, `$c`, `$i`, `$u`, `$r`, and a
    literal `$` becomes `$$`. Models girc/formatting.py. */
module Formatting {
  import opened Wrappers
  import opened Strings

  const EscapeCharacter: char := '$'

  /** The temporary stand-in for `$` while the codes are escaped. */
  const Placeholder: string := "girc-escaped-character"

  /** `format_dict`, in its insertion order: key letters and the control
      characters they stand for. */
  const FormatKeys: string := "bciur"
  const FormatChars: string := ['\U{02}', '\U{03}', '\U{1d}', '\U{1f}', '\U{0f}']

  /** `format_dict[key]`. */
  function FormatChar(key: char): (r: Option<char>)
    ensures r.Some? <==> key in FormatKeys
    ensures r.Some? ==> r.value in FormatChars
  {
    if key == 'b' then Some('\U{02}')
    else if key == 'c' then Some('\U{03}')
    else if key == 'i' then Some('\U{1d}')
    else if key == 'u' then Some('\U{1f}')
    else if key == 'r' then Some('\U{0f}')
    else None
  }

  /** The key letter of a control character. */
  function KeyOf(x: char): (r: Option<char>)
    ensures r.Some? <==> x in FormatChars
    ensures r.Some? ==> r.value in FormatKeys && FormatChar(r.value) == Some(x)
  {
    if x == '\U{02}' then Some('b')
    else if x == '\U{03}' then Some('c')
    else if x == '\U{1d}' then Some('i')
    else if x == '\U{1f}' then Some('u')
    else if x == '\U{0f}' then Some('r')
    else None
  }

  /* ------------------------------------------------------------ escape */

  /** `escape(msg)` as written: `$` to the placeholder, each control
      character to its escape in dictionary order, then the placeholder to
      `$$`. */
  function EscapeAsWritten(msg: string): string
  {
    var m0 := Replace(msg, [EscapeCharacter], Placeholder);
    var m1 := Replace(m0, [FormatChars[0]], ['$', FormatKeys[0]]);
    var m2 := Replace(m1, [FormatChars[1]], ['$', FormatKeys[1]]);
    var m3 := Replace(m2, [FormatChars[2]], ['$', FormatKeys[2]]);
    var m4 := Replace(m3, [FormatChars[3]], ['$', FormatKeys[3]]);
    var m5 := Replace(m4, [FormatChars[4]], ['$', FormatKeys[4]]);
    Replace(m5, Placeholder, "$$")
  }

  /** The escape of one character. */
  function EscapeChar(x: char): (r: string)
    ensures x == '$' ==> r == "$$"
    ensures x in FormatChars ==> |r| == 2 && r[0] == '$' && FormatChar(r[1]) == Some(x)
    ensures x != '$' && x !in FormatChars ==> r == [x]
  {
    if x == '$' then "$$"
    else match KeyOf(x)
      case Some(k) => ['$', k]
      case None => [x]
  }

  /** `escape(msg)` as evidently intended: each character escaped on its
      own, so no text of the message can collide with the placeholder. */
  function Escape(msg: string): (r: string)
    ensures forall y :: y in r ==> y !in FormatChars
    ensures '$' !in msg && (forall i :: 0 <= i < |msg| ==> msg[i] !in FormatChars) ==> r == msg
  {
    var r := FlatMap(msg, EscapeChar);
    forall y | y in r ensures y !in FormatChars {
      FlatMapChars(msg, EscapeChar, y);
    }
    if '$' !in msg && (forall i :: 0 <= i < |msg| ==> msg[i] !in FormatChars) then
      PlainEscape(msg);
      r
    else r
  }

  lemma {:induction false} PlainEscape(msg: string)
    requires '$' !in msg && forall i :: 0 <= i < |msg| ==> msg[i] !in FormatChars
    ensures FlatMap(msg, EscapeChar) == msg
    decreases |msg|
  {
    if |msg| > 0 {
      PlainEscape(msg[1..]);
      assert msg == [msg[0]] + msg[1..];
    }
  }

  /** The image of a character after the first `k` steps of the written
      escape (the `$` step and `k` control-character steps). */
  function Partial(k: nat, x: char): string
  {
    if x == '$' then Placeholder
    else if x in FormatChars[..if k < 5 then k else 5] then ['$', KeyOf(x).value]
    else [x]
  }

  function PartialMap(k: nat): char -> string
  {
    x => Partial(k, x)
  }

  /** One control-character step of the written escape. */
  lemma EscapeStep(s: string, k: nat)
    requires k < 5
    ensures Replace(FlatMap(s, PartialMap(k)), [FormatChars[k]], ['$', FormatKeys[k]]) ==
      FlatMap(s, PartialMap(k + 1))
  {
    var c, rep := FormatChars[k], ['$', FormatKeys[k]];
    ReplaceChar(FlatMap(s, PartialMap(k)), c, rep);
    forall x ensures FlatMap(PartialMap(k)(x), Subst(c, rep)) == PartialMap(k + 1)(x) {
      EscapeStepChar(k, x);
    }
    FlatMapCompose(s, PartialMap(k), Subst(c, rep), PartialMap(k + 1));
  }

  /** One control-character step of the written escape, on the image of one
      character. */
  lemma EscapeStepChar(k: nat, x: char)
    requires k < 5
    ensures FlatMap(Partial(k, x), Subst(FormatChars[k], ['$', FormatKeys[k]])) == Partial(k + 1, x)
  {
    var c, rep := FormatChars[k], ['$', FormatKeys[k]];
    if x == '$' {
      SubstAbsent(Placeholder, c, rep);
    } else if x in FormatChars[..k] {
      SubstAbsent(['$', KeyOf(x).value], c, rep);
    } else {
      assert FormatChars[..k + 1] == FormatChars[..k] + [c];
      assert [x][1..] == [];
    }
  }

  /** The `$` step of the written escape. */
  lemma EscapeFirstStep(s: string)
    ensures Replace(s, [EscapeCharacter], Placeholder) == FlatMap(s, PartialMap(0))
  {
    ReplaceChar(s, '$', Placeholder);
    forall x ensures Subst('$', Placeholder)(x) == PartialMap(0)(x) {
    }
    FlatMapSame(s, Subst('$', Placeholder), PartialMap(0));
  }

  lemma {:induction false} FlatMapSame(s: string, f: char -> string, g: char -> string)
    requires forall x :: f(x) == g(x)
    ensures FlatMap(s, f) == FlatMap(s, g)
    decreases |s|
  {
    if |s| > 0 {
      FlatMapSame(s[1..], f, g);
    }
  }

  /** Text free of `$` and `g` that a partially escaped string starts with
      comes from the message itself. */
  lemma {:induction false} PartialPrefix(u: string, q: string)
    requires '$' !in q && 'g' !in q
    requires StartsWith(FlatMap(u, PartialMap(5)), q)
    ensures StartsWith(u, q)
    decreases |q|
  {
    if |q| > 0 {
      var img := Partial(5, u[0]);
      var rest := FlatMap(u[1..], PartialMap(5));
      assert FlatMap(u, PartialMap(5)) == img + rest;
      assert q[0] == (img + rest)[0];
      assert img[0] == if u[0] == '$' then 'g' else if u[0] in FormatChars then '$' else u[0];
      if u[0] != '$' && u[0] !in FormatChars {
        assert img == [u[0]];
        assert q[1..] == rest[..|q| - 1];
        assert '$' !in q[1..] && 'g' !in q[1..];
        PartialPrefix(u[1..], q[1..]);
        assert u == [u[0]] + u[1..];
        assert u[..|q|] == [u[0]] + u[1..][..|q| - 1];
      }
    }
  }

  /** Any occurrence of the placeholder in `[x] + t` starts at the front or
      lies in `t`. */
  lemma SubstringCons(needle: string, x: char, t: string)
    requires !IsSubstring(needle, [x] + t)
    ensures !IsSubstring(needle, t) && !StartsWith([x] + t, needle)
  {
    var s := [x] + t;
    if IsSubstring(needle, t) {
      var i :| 0 <= i <= |t| - |needle| && OccursAt(needle, t, i);
      assert s[i + 1..i + 1 + |needle|] == t[i..i + |needle|];
      assert OccursAt(needle, s, i + 1);
    }
    if StartsWith(s, needle) {
      assert OccursAt(needle, s, 0);
    }
  }

  /** The last step of the written escape, on a message that does not
      contain the placeholder text. */
  lemma {:induction false} EscapeLastStep(s: string)
    requires !IsSubstring(Placeholder, s)
    ensures Replace(FlatMap(s, PartialMap(5)), Placeholder, "$$") == FlatMap(s, EscapeChar)
    decreases |s|
  {
    if |s| > 0 {
      var x, t := s[0], s[1..];
      assert s == [x] + t;
      SubstringCons(Placeholder, x, t);
      EscapeLastStep(t);
      var rest := FlatMap(t, PartialMap(5));
      assert FlatMap(s, PartialMap(5)) == Partial(5, x) + rest;
      assert FlatMap(s, EscapeChar) == EscapeChar(x) + FlatMap(t, EscapeChar);
      if x == '$' {
        LastStepDollar(rest);
      } else if x in FormatChars {
        LastStepControl(KeyOf(x).value, rest);
      } else {
        LastStepPlain(x, t);
      }
    }
  }

  lemma LastStepDollar(rest: string)
    ensures Replace(Placeholder + rest, Placeholder, "$$") == "$$" + Replace(rest, Placeholder, "$$")
  {
    assert StartsWith(Placeholder + rest, Placeholder) by {
      assert (Placeholder + rest)[..|Placeholder|] == Placeholder;
    }
    assert (Placeholder + rest)[|Placeholder|..] == rest;
  }

  lemma LastStepControl(k: char, rest: string)
    requires k in FormatKeys
    ensures Replace(['$', k] + rest, Placeholder, "$$") == ['$', k] + Replace(rest, Placeholder, "$$")
  {
    var s := ['$', k] + rest;
    assert !StartsWith(s, Placeholder) by {
      assert s[0] == '$';
    }
    assert s[1..] == [k] + rest;
    assert !StartsWith([k] + rest, Placeholder) by {
      assert ([k] + rest)[0] == k;
    }
    assert ([k] + rest)[1..] == rest;
  }

  /** After its leading `g` the placeholder holds neither `$` nor `g`. */
  lemma PlaceholderTail()
    ensures |Placeholder| > 0 && '$' !in Placeholder[1..] && 'g' !in Placeholder[1..]
  {
    PlaceholderNoDollar();
  }

  lemma PlaceholderNoDollar()
    ensures '$' !in Placeholder
  {
  }

  lemma LastStepPlain(x: char, t: string)
    requires x != '$' && x !in FormatChars
    requires !StartsWith([x] + t, Placeholder)
    ensures var rest := FlatMap(t, PartialMap(5));
      Replace([x] + rest, Placeholder, "$$") == [x] + Replace(rest, Placeholder, "$$")
  {
    var rest := FlatMap(t, PartialMap(5));
    var q := Placeholder[1..];
    PlaceholderTail();
    ConsStartsWith(x, rest, Placeholder);
    ConsStartsWith(x, t, Placeholder);
    if StartsWith(rest, q) {
      PartialPrefix(t, q);
    }
    ReplaceCons(x, rest, Placeholder, "$$");
  }

  /** The written escape equals the character-wise escape on every message
      that does not itself contain the placeholder text. */
  lemma EscapeAgrees(msg: string)
    requires !IsSubstring(Placeholder, msg)
    ensures EscapeAsWritten(msg) == Escape(msg)
  {
    EscapeWrittenSteps(msg);
    EscapeLastStep(msg);
  }

  /** The `$` step and the five control-character steps of the written
      escape together map each character on its own. */
  lemma EscapeWrittenSteps(msg: string)
    ensures EscapeAsWritten(msg) == Replace(FlatMap(msg, PartialMap(5)), Placeholder, "$$")
  {
    EscapeFirstStep(msg);
    EscapeStep(msg, 0);
    EscapeStep(msg, 1);
    EscapeStep(msg, 2);
    EscapeStep(msg, 3);
    EscapeStep(msg, 4);
  }

  /** Replacing a character that does not occur changes nothing. */
  lemma ReplaceAbsent(s: string, c: char, rep: string)
    requires c !in s
    ensures Replace(s, [c], rep) == s
  {
    ReplaceChar(s, c, rep);
    SubstAbsent(s, c, rep);
  }

  lemma PlaceholderPlain()
    ensures Escape(Placeholder) == Placeholder
  {
    PlaceholderLetters();
    PlainEscape(Placeholder);
  }

  /** On text without `$` or control characters only the last step of the
      written escape can change anything. */
  lemma EscapePlainText(m: string)
    requires '$' !in m && forall i :: 0 <= i < 5 ==> FormatChars[i] !in m
    ensures EscapeAsWritten(m) == Replace(m, Placeholder, "$$")
  {
    ReplaceAbsent(m, '$', Placeholder);
    ReplaceAbsent(m, FormatChars[0], ['$', FormatKeys[0]]);
    ReplaceAbsent(m, FormatChars[1], ['$', FormatKeys[1]]);
    ReplaceAbsent(m, FormatChars[2], ['$', FormatKeys[2]]);
    ReplaceAbsent(m, FormatChars[3], ['$', FormatKeys[3]]);
    ReplaceAbsent(m, FormatChars[4], ['$', FormatKeys[4]]);
  }

  /** The placeholder is lower-case letters and hyphens. */
  lemma PlaceholderLetters()
    ensures '$' !in Placeholder && forall i :: 0 <= i < 5 ==> FormatChars[i] !in Placeholder
  {
    assert forall j :: 0 <= j < |Placeholder| ==> 'a' <= Placeholder[j] <= 'z' || Placeholder[j] == '-';
  }

  /** The placeholder text itself is escaped as if it were a `$`. */
  lemma PlaceholderCollision()
    ensures EscapeAsWritten(Placeholder) == "$$"
    ensures Escape(Placeholder) == Placeholder
  {
    PlaceholderPlain();
    PlaceholderLetters();
    EscapePlainText(Placeholder);
    LastStepDollar("");
    assert Placeholder + "" == Placeholder;
  }

  /* ---------------------------------------------------------- unescape */

  /** `unescape(msg)` as written: `$` followed by a key letter becomes its
      control character; a trailing `$` raises IndexError and any other
      key, `$` included, raises KeyError. Where it returns, it agrees with
      the corrected unescape and leaves no `$` behind. */
  function UnescapeAsWritten(msg: string): (r: Result<string>)
    ensures '$' !in msg ==> r == Success(msg)
    ensures r.Failure? <==> !WellEscapedAsWritten(msg)
    ensures r.Failure? ==> r.error.IndexError? || r.error.KeyError?
    ensures r.Failure? && r.error.IndexError? ==> |msg| > 0 && msg[|msg| - 1] == '$'
    ensures r.Failure? && r.error.KeyError? ==> exists i ::
      && 0 <= i < |msg| - 1 && msg[i] == '$' && msg[i + 1] !in FormatKeys && r.error == KeyError([msg[i + 1]])
    ensures r.Success? ==> r == Unescape(msg) && '$' !in r.value
    decreases |msg|
  {
    if |msg| == 0 then Success("")
    else if msg[0] == EscapeCharacter then
      if |msg| < 2 then Failure(IndexError("string index out of range"))
      else match FormatChar(msg[1])
        case None => Failure(KeyError([msg[1]]))
        case Some(c) =>
          match UnescapeAsWritten(msg[2..])
          case Success(rest) => Success([c] + rest)
          case Failure(e) => Failure(e)
    else
      match UnescapeAsWritten(msg[1..])
      case Success(rest) =>
        assert msg == [msg[0]] + msg[1..];
        Success([msg[0]] + rest)
      case Failure(e) => Failure(e)
  }

  /** Every `$` starts a two-character escape of `$` plus a key; `$$` is
      not one. */
  predicate WellEscapedAsWritten(msg: string)
    decreases |msg|
  {
    if |msg| == 0 then true
    else if msg[0] == '$' then |msg| >= 2 && msg[1] in FormatKeys && WellEscapedAsWritten(msg[2..])
    else WellEscapedAsWritten(msg[1..])
  }

  /** `unescape` as evidently intended: `$$` gives back a literal `$`. */
  function Unescape(msg: string): (r: Result<string>)
    ensures '$' !in msg ==> r == Success(msg)
    ensures r.Failure? <==> !WellEscaped(msg)
    decreases |msg|
  {
    if |msg| == 0 then Success("")
    else if msg[0] == EscapeCharacter then
      if |msg| < 2 then Failure(IndexError("string index out of range"))
      else
        var c := if msg[1] == '$' then Some('$') else FormatChar(msg[1]);
        match c
        case None => Failure(KeyError([msg[1]]))
        case Some(c) =>
          match Unescape(msg[2..])
          case Success(rest) => Success([c] + rest)
          case Failure(e) => Failure(e)
    else
      match Unescape(msg[1..])
      case Success(rest) =>
        assert msg == [msg[0]] + msg[1..];
        Success([msg[0]] + rest)
      case Failure(e) => Failure(e)
  }

  /** Every `$` starts a two-character escape `$$` or `$` plus a key. */
  predicate WellEscaped(msg: string)
    decreases |msg|
  {
    if |msg| == 0 then true
    else if msg[0] == '$' then
      |msg| >= 2 && (msg[1] == '$' || msg[1] in FormatKeys) && WellEscaped(msg[2..])
    else WellEscaped(msg[1..])
  }

  /** Unescaping undoes escaping, for every message. */
  lemma UnescapeEscape(msg: string)
    ensures Unescape(Escape(msg)) == Success(msg)
  {
    UnescapeFlatMap(msg);
  }

  /** The induction behind `UnescapeEscape`, over the character-wise
      escape. */
  lemma {:induction false} UnescapeFlatMap(msg: string)
    ensures Unescape(FlatMap(msg, EscapeChar)) == Success(msg)
    decreases |msg|
  {
    if |msg| > 0 {
      var x, t := msg[0], msg[1..];
      UnescapeFlatMap(t);
      UnescapeCons(x, FlatMap(t, EscapeChar));
      assert msg == [x] + t;
    }
  }

  /** Unescaping reads the escape of one character back off the front. */
  lemma UnescapeCons(x: char, rest: string)
    ensures Unescape(EscapeChar(x) + rest) ==
      match Unescape(rest)
      case Success(r) => Success([x] + r)
      case Failure(e) => Failure(e)
  {
    var e := EscapeChar(x);
    if x == '$' || x in FormatChars {
      assert (e + rest)[0] == '$' && (e + rest)[1] == e[1];
      assert (e + rest)[2..] == rest;
    } else {
      assert (e + rest)[0] == x;
      assert (e + rest)[1..] == rest;
    }
  }

  /** The written unescape undoes the escape of any message without `$`. */
  lemma UnescapeAsWrittenEscape(msg: string)
    requires '$' !in msg
    ensures UnescapeAsWritten(Escape(msg)) == Success(msg)
  {
    UnescapeAsWrittenFlatMap(msg);
  }

  /** The induction behind `UnescapeAsWrittenEscape`, over the
      character-wise escape. */
  lemma {:induction false} UnescapeAsWrittenFlatMap(msg: string)
    requires '$' !in msg
    ensures UnescapeAsWritten(FlatMap(msg, EscapeChar)) == Success(msg)
    decreases |msg|
  {
    if |msg| > 0 {
      var x, t := msg[0], msg[1..];
      assert msg == [x] + t;
      assert '$' !in t;
      UnescapeAsWrittenFlatMap(t);
      var e, f := EscapeChar(x), FlatMap(t, EscapeChar);
      FlatMapCons(x, t);
      if x in FormatChars {
        assert (e + f)[0] == '$' && (e + f)[1] == e[1];
        assert (e + f)[2..] == f;
      } else {
        assert (e + f)[0] == x;
        assert (e + f)[1..] == f;
      }
    }
  }

  /** On text where every `$` is followed by a key and no control
      character occurs, the written unescape turns each `$` and key into
      its control character and keeps every other character: escaping the
      result gives the text back. */
  lemma {:induction false} UnescapeAsWrittenInverse(msg: string)
    requires WellEscapedAsWritten(msg)
    requires forall i :: 0 <= i < |msg| ==> msg[i] !in FormatChars
    ensures UnescapeAsWritten(msg).Success?
    ensures Escape(UnescapeAsWritten(msg).value) == msg
    decreases |msg|
  {
    if |msg| > 0 {
      var u := UnescapeAsWritten(msg).value;
      if msg[0] == '$' {
        var t := msg[2..];
        UnescapeAsWrittenInverse(t);
        var c := FormatChar(msg[1]).value;
        var rest := UnescapeAsWritten(t).value;
        assert u == [c] + rest;
        KeyOfFormatChar(msg[1]);
        assert EscapeChar(c) == msg[..2];
        FlatMapCons(c, rest);
        assert msg == msg[..2] + t;
      } else {
        var t := msg[1..];
        UnescapeAsWrittenInverse(t);
        var rest := UnescapeAsWritten(t).value;
        assert u == [msg[0]] + rest;
        FlatMapCons(msg[0], rest);
        assert msg == [msg[0]] + t;
      }
    }
  }

  /** The escape of a control character names its key. */
  lemma KeyOfFormatChar(k: char)
    requires k in FormatKeys
    ensures EscapeChar(FormatChar(k).value) == ['$', k]
  {
  }

  /** The character-wise escape of a string with one more character in
      front. */
  lemma FlatMapCons(x: char, s: string)
    ensures FlatMap([x] + s, EscapeChar) == EscapeChar(x) + FlatMap(s, EscapeChar)
  {
    assert ([x] + s)[1..] == s;
  }

  /** A literal `$` does not survive the written round trip: its escape
      `$$` is rejected by the written unescape. */
  lemma DollarLost()
    ensures EscapeAsWritten("$") == "$$"
    ensures UnescapeAsWritten(EscapeAsWritten("$")).Failure?
    ensures Unescape(EscapeAsWritten("$")) == Success("$")
  {
    assert !IsSubstring(Placeholder, "$");
    EscapeAgrees("$");
    assert FlatMap("$", EscapeChar) == "$$" + FlatMap("", EscapeChar);
    assert Unescape("$$") == Success("$") by {
      assert "$$"[0] == '$' && "$$"[1] == '$';
      assert "$$"[2..] == "";
      assert Unescape("") == Success("");
      assert ['$'] + "" == "$";
    }
  }
}

=== FILE: imapping.dfy ===
/** IRC casemapping: the `ascii`, `rfc1459` and `rfc1459-strict`
    translation tables (section 2.2 of RFC 1459 makes `{}|` the lower-case
    forms of `[]\`), and the dict, list and string types that fold through
    them. Models girc/imapping.py. */
module IMapping {
  import opened Wrappers
  import opened Strings
  import opened Lists
  import opened Dicts

  /** The casemapping standards that have tables. */
  datatype Std = Ascii | Rfc1459 | Rfc1459Strict

  /** How many punctuation pairs a standard adds to the 26 letters. */
  function TailLen(std: Std): nat
  {
    match std
    case Ascii => 0
    case Rfc1459 => 4
    case Rfc1459Strict => 3
  }

  /** `_lower_chars`: `a`..`z`, then `chr(91)`.. (`[\]^` or `[\]`). */
  function LowerChars(std: Std): (s: string)
    ensures |s| == 26 + TailLen(std)
  {
    seq(26, i requires 0 <= i < 26 => (97 + i) as char)
    + seq(TailLen(std), i requires 0 <= i < TailLen(std) => (91 + i) as char)
  }

  /** `_upper_chars`: `A`..`Z`, then `chr(123)`.. (`{|}~` or `{|}`). The
      source names `string.ascii_upper`, which does not exist; the evident
      `A`..`Z` is used. */
  function UpperChars(std: Std): (s: string)
    ensures |s| == 26 + TailLen(std)
  {
    seq(26, i requires 0 <= i < 26 => (65 + i) as char)
    + seq(TailLen(std), i requires 0 <= i < TailLen(std) => (123 + i) as char)
  }

  /** `_lower_trans`, which maps the `_lower_chars` onto the `_upper_chars`. */
  function LowerTrans(std: Std): map<char, char>
  {
    PairMap(LowerChars(std), UpperChars(std))
  }

  /** `_upper_trans`, the reverse table. */
  function UpperTrans(std: Std): map<char, char>
  {
    PairMap(UpperChars(std), LowerChars(std))
  }

  lemma TablesDistinct(std: Std)
    ensures DistinctChars(LowerChars(std)) && DistinctChars(UpperChars(std))
  {
  }

  /** The two tables built by `set_std` are mutually inverse. */
  lemma {:induction false} TransInverse(std: Std)
    ensures forall c :: c in LowerTrans(std) ==>
      LowerTrans(std)[c] in UpperTrans(std) && UpperTrans(std)[LowerTrans(std)[c]] == c
    ensures forall c :: c in UpperTrans(std) ==>
      UpperTrans(std)[c] in LowerTrans(std) && LowerTrans(std)[UpperTrans(std)[c]] == c
  {
    var lo, up := LowerChars(std), UpperChars(std);
    TablesDistinct(std);
    forall c | c in LowerTrans(std)
      ensures LowerTrans(std)[c] in UpperTrans(std) && UpperTrans(std)[LowerTrans(std)[c]] == c
    {
      var i :| 0 <= i < |lo| && lo[i] == c;
      PairMapAt(lo, up, i);
      PairMapAt(up, lo, i);
    }
    forall c | c in UpperTrans(std)
      ensures UpperTrans(std)[c] in LowerTrans(std) && LowerTrans(std)[UpperTrans(std)[c]] == c
    {
      var i :| 0 <= i < |up| && up[i] == c;
      PairMapAt(lo, up, i);
      PairMapAt(up, lo, i);
    }
  }

  /** `str.translate(table)`. */
  function Translate(std: Std, s: string): (r: string)
    ensures |r| == |s|
  {
    var m := LowerTrans(std);
    seq(|s|, i requires 0 <= i < |s| => if s[i] in m then m[s[i]] else s[i])
  }

  /** A punctuation character of the standard's extra pairs, lower side. */
  predicate InTail(std: Std, c: char)
  {
    91 <= c as int < 91 + TailLen(std)
  }

  /** What one character translates to: `a`..`z` and the lower-side
      punctuation move up to their partners. */
  function TransChar(std: Std, c: char): char
  {
    if 'a' <= c <= 'z' then (c as int - 32) as char
    else if InTail(std, c) then (c as int + 32) as char
    else c
  }

  /** The table lookup agrees with `TransChar`. */
  lemma TranslateChars(std: Std, s: string)
    ensures forall i :: 0 <= i < |s| ==> Translate(std, s)[i] == TransChar(std, s[i])
  {
    forall i | 0 <= i < |s| ensures Translate(std, s)[i] == TransChar(std, s[i]) {
      TransCharTable(std, s[i]);
    }
  }

  /** The table lookup of one character. */
  lemma TransCharTable(std: Std, c: char)
    ensures (if c in LowerTrans(std) then LowerTrans(std)[c] else c) == TransChar(std, c)
  {
    var lo, up := LowerChars(std), UpperChars(std);
    TablesDistinct(std);
    if 'a' <= c <= 'z' {
      assert lo[c as int - 97] == c;
      PairMapAt(lo, up, c as int - 97);
    } else if InTail(std, c) {
      assert lo[26 + c as int - 91] == c;
      PairMapAt(lo, up, 26 + c as int - 91);
    } else {
      assert c !in lo;
    }
  }

  /** The fold used for keys and comparisons: translate, then `str.lower`. */
  function Fold(std: Std, s: string): (r: string)
    ensures |r| == |s|
    ensures forall i :: 0 <= i < |s| ==> r[i] == FoldChar(std, s[i])
  {
    TranslateChars(std, s);
    Lower(Translate(std, s))
  }

  /** The fold of one character: upper-case letters and upper-side
      punctuation move down to their partners. */
  function FoldChar(std: Std, c: char): (f: char)
    ensures f == LowerChar(TransChar(std, c))
  {
    if 'A' <= c <= 'Z' then (c as int + 32) as char
    else if InTail(std, c) then (c as int + 32) as char
    else c
  }

  /** The pairs a standard identifies: the letters, then `[`/`{`, `\`/`|`,
      `]`/`}` (rfc1459 and rfc1459-strict) and `^`/`~` (rfc1459 only). */
  predicate Pair(std: Std, x: char, y: char)
  {
    (('A' <= x <= 'Z' || InTail(std, x)) && y as int == x as int + 32)
  }

  /** Two characters fold together exactly when they are equal or one of
      the standard's pairs. */
  lemma FoldCharEq(std: Std, x: char, y: char)
    ensures FoldChar(std, x) == FoldChar(std, y) <==> x == y || Pair(std, x, y) || Pair(std, y, x)
  {
  }

  /** The pairs, spelled out for each standard. */
  lemma PairsOfStd(x: char, y: char)
    ensures Pair(Ascii, x, y) <==> 'A' <= x <= 'Z' && y as int == x as int + 32
    ensures Pair(Rfc1459Strict, x, y) <==>
      ('A' <= x <= 'Z' && y as int == x as int + 32)
      || (x, y) == ('[', '{') || (x, y) == ('\\', '|') || (x, y) == (']', '}')
    ensures Pair(Rfc1459, x, y) <==>
      ('A' <= x <= 'Z' && y as int == x as int + 32)
      || (x, y) == ('[', '{') || (x, y) == ('\\', '|') || (x, y) == (']', '}') || (x, y) == ('^', '~')
  {
  }

  /** Folding twice is folding once. */
  lemma FoldIdempotent(std: Std, s: string)
    ensures Fold(std, Fold(std, s)) == Fold(std, s)
  {
  }

  /** Two strings fold equal exactly when they have the same length and
      differ only by the standard's pairs. */
  lemma FoldEq(std: Std, s: string, t: string)
    ensures Fold(std, s) == Fold(std, t) <==>
      |s| == |t| && forall i :: 0 <= i < |s| ==> s[i] == t[i] || Pair(std, s[i], t[i]) || Pair(std, t[i], s[i])
  {
    if |s| == |t| && forall i :: 0 <= i < |s| ==> s[i] == t[i] || Pair(std, s[i], t[i]) || Pair(std, t[i], s[i]) {
      forall i | 0 <= i < |s| ensures Fold(std, s)[i] == Fold(std, t)[i] {
        FoldCharEq(std, s[i], t[i]);
      }
    }
    if Fold(std, s) == Fold(std, t) {
      forall i | 0 <= i < |s| ensures s[i] == t[i] || Pair(std, s[i], t[i]) || Pair(std, t[i], s[i]) {
        assert Fold(std, s)[i] == Fold(std, t)[i];
        FoldCharEq(std, s[i], t[i]);
      }
    }
  }

  /** Translation alone is already a canonical form: two strings translate
      equal exactly when they fold equal. */
  lemma TranslateEqIffFoldEq(std: Std, s: string, t: string)
    ensures Translate(std, s) == Translate(std, t) <==> Fold(std, s) == Fold(std, t)
  {
    TranslateChars(std, s);
    TranslateChars(std, t);
    if Fold(std, s) == Fold(std, t) {
      forall i | 0 <= i < |s| ensures Translate(std, s)[i] == Translate(std, t)[i] {
        assert Fold(std, s)[i] == Fold(std, t)[i];
      }
    }
  }

  /** The standards are ordered by coarseness: ascii-equal strings are
      rfc1459-strict-equal, and those are rfc1459-equal. */
  lemma FoldCoarsening(s: string, t: string)
    ensures Fold(Ascii, s) == Fold(Ascii, t) ==> Fold(Rfc1459Strict, s) == Fold(Rfc1459Strict, t)
    ensures Fold(Rfc1459Strict, s) == Fold(Rfc1459Strict, t) ==> Fold(Rfc1459, s) == Fold(Rfc1459, t)
  {
    if Fold(Ascii, s) == Fold(Ascii, t) {
      forall i | 0 <= i < |s| ensures Fold(Rfc1459Strict, s)[i] == Fold(Rfc1459Strict, t)[i] {
        assert Fold(Ascii, s)[i] == Fold(Ascii, t)[i];
        FoldCharCoarsening(s[i], t[i]);
      }
    }
    if Fold(Rfc1459Strict, s) == Fold(Rfc1459Strict, t) {
      forall i | 0 <= i < |s| ensures Fold(Rfc1459, s)[i] == Fold(Rfc1459, t)[i] {
        assert Fold(Rfc1459Strict, s)[i] == Fold(Rfc1459Strict, t)[i];
        FoldCharCoarsening(s[i], t[i]);
      }
    }
  }

  /** The coarseness order on single characters. */
  lemma FoldCharCoarsening(x: char, y: char)
    ensures FoldChar(Ascii, x) == FoldChar(Ascii, y) ==> FoldChar(Rfc1459Strict, x) == FoldChar(Rfc1459Strict, y)
    ensures FoldChar(Rfc1459Strict, x) == FoldChar(Rfc1459Strict, y) ==> FoldChar(Rfc1459, x) == FoldChar(Rfc1459, y)
  {
    FoldCharEq(Ascii, x, y);
    FoldCharEq(Rfc1459Strict, x, y);
    FoldCharEq(Rfc1459, x, y);
    PairsOfStd(x, y);
    PairsOfStd(y, x);
  }

  /* -------------------------------------------------------------- IMap */

  /** The state `set_std` writes: the lower-cased standard name and the
      table in force. */
  datatype IMap = IMap(std: string, table: Std)

  /** The standard a connection uses until CASEMAPPING arrives. The source
      passes None there, which would fail; ascii is the evident default. */
  const DefaultMap := IMap("ascii", Ascii)

  function StdOf(name: string): (r: Option<Std>)
    ensures r == Some(Ascii) <==> name == "ascii"
    ensures r == Some(Rfc1459) <==> name == "rfc1459"
    ensures r == Some(Rfc1459Strict) <==> name == "rfc1459-strict"
  {
    if name == "ascii" then Some(Ascii)
    else if name == "rfc1459" then Some(Rfc1459)
    else if name == "rfc1459-strict" then Some(Rfc1459Strict)
    else None
  }

  /** `set_std`: the name is lower-cased; a known name selects its tables,
      any other name leaves the tables as they were. */
  function SetStd(m: IMap, name: string): (r: IMap)
    ensures r.std == Lower(name)
    ensures StdOf(Lower(name)).Some? ==> r.table == StdOf(Lower(name)).value
    ensures StdOf(Lower(name)).None? ==> r.table == m.table
  {
    IMap(Lower(name), match StdOf(Lower(name)) case Some(t) => t case None => m.table)
  }

  lemma SetStdNames(m: IMap)
    ensures SetStd(m, "RFC1459").table == Rfc1459
    ensures SetStd(m, "rfc1459-strict").table == Rfc1459Strict
    ensures SetStd(m, "Ascii").table == Ascii
  {
    assert Lower("RFC1459") == "rfc1459";
    assert Lower("rfc1459-strict") == "rfc1459-strict";
    assert Lower("Ascii") == "ascii";
  }

  /* ------------------------------------------------------------- IDict */

  /** `IDict`: values stored under the folded key. */
  datatype IDict<V> = IDict(cmap: IMap, store: Dict<string, V>)

  /** `__keytransform__`. */
  function KeyOf<V>(d: IDict<V>, key: string): string
  {
    Fold(d.cmap.table, key)
  }

  predicate IDictValid<V>(d: IDict<V>)
  {
    && DistinctKeys(d.store)
    && forall i :: 0 <= i < |d.store| ==> KeyOf(d, d.store[i].0) == d.store[i].0
  }

  function EmptyIDict<V>(m: IMap): (d: IDict<V>)
    ensures IDictValid(d) && IDictLen(d) == 0
  {
    IDict(m, [])
  }

  /** `__setitem__`. */
  function IDictSet<V>(d: IDict<V>, key: string, v: V): (r: IDict<V>)
    ensures r.cmap == d.cmap
    ensures IDictValid(d) ==> IDictValid(r)
  {
    FoldIdempotent(d.cmap.table, key);
    IDict(d.cmap, Put(d.store, KeyOf(d, key), v))
  }

  /** `__getitem__`: KeyError when no variant of the key is present. */
  function IDictGet<V>(d: IDict<V>, key: string): (r: Result<V>)
    ensures r.Success? <==> HasKey(d.store, KeyOf(d, key))
  {
    match Get(d.store, KeyOf(d, key))
    case Some(v) => Success(v)
    case None => Failure(KeyError(key))
  }

  /** `key in d`. */
  predicate IDictHas<V>(d: IDict<V>, key: string)
  {
    HasKey(d.store, KeyOf(d, key))
  }

  /** `__delitem__`: KeyError when no variant of the key is present. */
  function IDictDel<V>(d: IDict<V>, key: string): (r: Result<IDict<V>>)
    ensures r.Success? <==> IDictHas(d, key)
    ensures r.Success? ==> r.value.cmap == d.cmap
    ensures r.Success? && IDictValid(d) ==> IDictValid(r.value) && IDictLen(r.value) == IDictLen(d) - 1
  {
    if IDictHas(d, key) then
      var r := IDict(d.cmap, Remove(d.store, KeyOf(d, key)));
      assert IDictValid(d) ==> IDictValid(r) by {
        if IDictValid(d) {
          forall i | 0 <= i < |r.store| ensures KeyOf(r, r.store[i].0) == r.store[i].0 {
            assert r.store[i] in d.store;
          }
        }
      }
      Success(r)
    else Failure(KeyError(key))
  }

  /** `__len__`. */
  function IDictLen<V>(d: IDict<V>): nat
  {
    |d.store|
  }

  /** A value set under one variant of a key reads back under every variant;
      keys that fold differently read as before. */
  lemma IDictGetSet<V>(d: IDict<V>, key: string, v: V, probe: string)
    ensures IDictGet(IDictSet(d, key, v), probe) ==
      if Fold(d.cmap.table, probe) == Fold(d.cmap.table, key) then Success(v) else IDictGet(d, probe)
  {
    GetPut(d.store, KeyOf(d, key), v, KeyOf(d, probe));
  }

  /** Setting a key leaves every key that folds differently as it was. */
  lemma IDictSetOthers<V>(d: IDict<V>, key: string, v: V)
    ensures IDictGet(IDictSet(d, key, v), key) == Success(v)
    ensures forall probe :: Fold(d.cmap.table, probe) != Fold(d.cmap.table, key) ==>
      IDictGet(IDictSet(d, key, v), probe) == IDictGet(d, probe)
    ensures forall probe :: IDictHas(IDictSet(d, key, v), probe) <==>
      Fold(d.cmap.table, probe) == Fold(d.cmap.table, key) || IDictHas(d, probe)
  {
    forall probe {
      IDictGetSet(d, key, v, probe);
    }
  }

  /** Two dicts under the same casemapping with the same keys in the same
      order. */
  predicate SameKeys<V, W>(a: IDict<V>, b: IDict<W>)
  {
    a.cmap == b.cmap && Keys(a.store) == Keys(b.store)
  }

  lemma SameKeysHas<V, W>(a: IDict<V>, b: IDict<W>, probe: string)
    requires SameKeys(a, b)
    ensures IDictHas(a, probe) <==> IDictHas(b, probe)
  {
    HasKeyOfKeys(a.store, b.store, KeyOf(a, probe));
  }

  /** Setting a present key keeps the keys. */
  lemma IDictSetPresent<V>(d: IDict<V>, key: string, v: V)
    requires IDictHas(d, key)
    ensures SameKeys(IDictSet(d, key, v), d)
  {
    PutKeys(d.store, KeyOf(d, key), v);
  }

  /** `len` counts distinct folded keys: setting a variant of a present key
      does not grow the dict, and a new key grows it by one. */
  lemma IDictLenSet<V>(d: IDict<V>, key: string, v: V)
    ensures IDictLen(IDictSet(d, key, v)) == if IDictHas(d, key) then IDictLen(d) else IDictLen(d) + 1
  {
  }

  /** Deleting through any variant removes the key for every variant and
      leaves the other keys readable as before. */
  lemma IDictGetDel<V>(d: IDict<V>, key: string, probe: string)
    requires IDictValid(d)
    requires IDictHas(d, key)
    ensures IDictGet(IDictDel(d, key).value, probe) ==
      if Fold(d.cmap.table, probe) == Fold(d.cmap.table, key) then Failure(KeyError(probe)) else IDictGet(d, probe)
  {
    GetRemove(d.store, KeyOf(d, key), KeyOf(d, probe));
  }

  /* ------------------------------------------------------------- IList */

  /** `IList`: strings are stored translated (not lowered). */
  datatype IList = IList(cmap: IMap, store: seq<string>)

  /** `__valuetransform__`. */
  function ValueOf(l: IList, v: string): string
  {
    Translate(l.cmap.table, v)
  }

  /** `append`. */
  function IListAppend(l: IList, v: string): (r: IList)
    ensures r.cmap == l.cmap && r.store == l.store + [ValueOf(l, v)]
  {
    IList(l.cmap, l.store + [ValueOf(l, v)])
  }

  /** `extend` with a list: each value is translated and appended. */
  function IListExtend(l: IList, vs: seq<string>): (r: IList)
    ensures r.cmap == l.cmap
    ensures |r.store| == |l.store| + |vs|
    ensures r.store[..|l.store|] == l.store
    ensures forall i :: 0 <= i < |vs| ==> r.store[|l.store| + i] == ValueOf(l, vs[i])
    decreases |vs|
  {
    if |vs| == 0 then l
    else
      var r := IListExtend(IListAppend(l, vs[0]), vs[1..]);
      forall i | 1 <= i < |vs| ensures r.store[|l.store| + i] == ValueOf(l, vs[i]) {
        assert vs[1..][i - 1] == vs[i];
      }
      r
  }

  /** `insert(index, value)`: the translated value lands at `list.insert`'s
      clamped index, and the stored values around it keep their order. */
  function IListInsert(l: IList, at: int, v: string): (r: IList)
    ensures r.cmap == l.cmap && |r.store| == |l.store| + 1
    ensures r.store[InsertIndex(|l.store|, at)] == ValueOf(l, v)
    ensures forall i :: 0 <= i < InsertIndex(|l.store|, at) ==> r.store[i] == l.store[i]
    ensures forall i :: InsertIndex(|l.store|, at) < i < |r.store| ==> r.store[i] == l.store[i - 1]
    ensures multiset(r.store) == multiset(l.store) + multiset{ValueOf(l, v)}
  {
    IList(l.cmap, ListInsert(l.store, at, ValueOf(l, v)))
  }

  /** `__setitem__` with an integer index; IndexError out of range. Only
      the subscripted position changes, and it holds the translated value. */
  function IListSetItem(l: IList, at: int, v: string): (r: Result<IList>)
    ensures r.Success? <==> -|l.store| <= at < |l.store|
    ensures r.Success? ==>
      && r.value.cmap == l.cmap
      && |r.value.store| == |l.store|
      && r.value.store[ItemIndex(|l.store|, at)] == ValueOf(l, v)
      && forall i :: 0 <= i < |l.store| && i != ItemIndex(|l.store|, at) ==> r.value.store[i] == l.store[i]
  {
    var n := |l.store|;
    if at < -n || at >= n then Failure(IndexError("list assignment index out of range"))
    else Success(IList(l.cmap, l.store[ItemIndex(n, at) := ValueOf(l, v)]))
  }

  /** `list.remove(x)`: the first element equal to `x` goes, and the rest
      keep their order. */
  function RemoveFirst(s: seq<string>, x: string): (r: Option<seq<string>>)
    ensures r.Some? <==> x in s
    ensures r.Some? ==> r.value == s[..FirstIndex(s, x)] + s[FirstIndex(s, x) + 1..]
    ensures r.Some? ==> |r.value| == |s| - 1 && multiset(r.value) == multiset(s) - multiset{x}
    decreases |s|
  {
    if |s| == 0 then None
    else if s[0] == x then
      assert s == [s[0]] + s[1..];
      Some(s[1..])
    else
      match RemoveFirst(s[1..], x)
      case None => None
      case Some(t) =>
        assert s == [s[0]] + s[1..];
        RemoveAfterHead(s, x);
        Some([s[0]] + t)
  }

  /** Removing the first `x` from a sequence whose head is not `x` keeps the
      head and removes the first `x` from the tail. */
  lemma RemoveAfterHead(s: seq<string>, x: string)
    requires |s| > 0 && s[0] != x && x in s[1..]
    ensures
      var j := FirstIndex(s[1..], x);
      s[..FirstIndex(s, x)] + s[FirstIndex(s, x) + 1..] == [s[0]] + (s[1..][..j] + s[1..][j + 1..])
  {
    var j := FirstIndex(s[1..], x);
    assert FirstIndex(s, x) == j + 1;
    assert s[..j + 1] == [s[0]] + s[1..][..j];
    assert s[j + 2..] == s[1..][j + 1..];
  }

  /** `remove(value)`: the value is translated first; ValueError when no
      stored element equals it. Otherwise the first stored element equal to
      the translated value goes and the rest keep their order. */
  function IListRemove(l: IList, v: string): (r: Result<IList>)
    ensures r.Success? <==> ValueOf(l, v) in l.store
    ensures r.Success? ==> r.value.cmap == l.cmap
    ensures r.Success? ==>
      var j := FirstIndex(l.store, ValueOf(l, v));
      r.value.store == l.store[..j] + l.store[j + 1..]
    ensures r.Success? ==> multiset(r.value.store) == multiset(l.store) - multiset{ValueOf(l, v)}
  {
    match RemoveFirst(l.store, ValueOf(l, v))
    case Some(s) => Success(IList(l.cmap, s))
    case None => Failure(ValueError("list.remove(x): x not in list"))
  }

  /** `x in l` is the sequence default: a raw comparison with the stored,
      translated values; the probe itself is not translated. */
  predicate IListContains(l: IList, v: string)
  {
    v in l.store
  }

  /** A value appended under one case variant is removed by any other. */
  lemma IListRemoveVariant(l: IList, a: string, b: string)
    requires Fold(l.cmap.table, a) == Fold(l.cmap.table, b)
    ensures IListRemove(IListAppend(l, a), b).Success?
    ensures |IListRemove(IListAppend(l, a), b).value.store| == |l.store|
  {
    TranslateEqIffFoldEq(l.cmap.table, a, b);
    var s := IListAppend(l, a).store;
    assert s[|l.store|] == ValueOf(l, b);
  }

  /* ----------------------------------------------------------- IString */

  /** An `IString` with its standard set. */
  datatype IString = IString(text: string, cmap: IMap)

  /** `IString(*args)` as written. The class defines no `__init__` and
      `str` has none of its own, so Python finds `IMap.__init__(self)` next
      in the method resolution order: the call without an argument builds
      an empty string, and a call with one raises TypeError before any
      standard can be set. The result is the text of the new string. */
  function NewIStringAsWritten(args: seq<string>): (r: Result<string>)
    ensures r.Success? <==> args == []
    ensures r.Success? ==> r.value == ""
    ensures r.Failure? ==> r.error.TypeError?
  {
    if args == [] then Success("")
    else Failure(TypeError("__init__() takes 1 positional argument but 2 were given"))
  }

  /** `IString.lower()` as written builds its result through `IString(...)`
      with the folded text, so it raises, and so do `==` and `in`, which
      call it first. `IrcLower` is the fold it evidently intends. */
  function LowerAsWritten(s: IString): (r: Result<IString>)
    ensures r.Failure? && r.error.TypeError?
  {
    match NewIStringAsWritten([IrcLower(s, s.text)])
    case Failure(err) => Failure(err)
    case Success(text) => Success(IString(text, s.cmap))
  }

  /** `IString.lower()` and `_irc_lower`: the fold under the string's own
      standard (the second translation is a no-op, since no upper-side
      character is on the lower side). */
  function IrcLower(s: IString, t: string): (r: string)
    ensures r == Fold(s.cmap.table, t)
  {
    var once := Translate(s.cmap.table, t);
    TranslateTwice(s.cmap.table, t);
    Lower(Translate(s.cmap.table, once))
  }

  lemma TranslateTwice(std: Std, t: string)
    ensures Translate(std, Translate(std, t)) == Translate(std, t)
  {
    TranslateChars(std, t);
    TranslateChars(std, Translate(std, t));
  }

  /** `__eq__`: the other side is folded with this string's standard. */
  predicate IStringEq(s: IString, other: string)
  {
    IrcLower(s, s.text) == IrcLower(s, other)
  }

  /** `__ne__`. */
  predicate IStringNe(s: IString, other: string)
  {
    !IStringEq(s, other)
  }

  /** `__hash__`, for a given hash of plain strings. */
  function IStringHash(s: IString, hash: string -> int): int
  {
    hash(IrcLower(s, s.text))
  }

  /** `__contains__`: a substring test on the folded forms. */
  predicate IStringContains(s: IString, item: string)
  {
    IsSubstring(IrcLower(s, item), IrcLower(s, s.text))
  }

  /** Equality is fold equality, hence the pairs of the standard; equal
      strings under one standard hash alike; `!=` negates `==`. */
  lemma IStringEqSpec(a: IString, b: IString, hash: string -> int)
    requires a.cmap.table == b.cmap.table
    ensures IStringEq(a, b.text) <==> Fold(a.cmap.table, a.text) == Fold(a.cmap.table, b.text)
    ensures IStringEq(a, b.text) <==> IStringEq(b, a.text)
    ensures IStringEq(a, b.text) ==> IStringHash(a, hash) == IStringHash(b, hash)
    ensures IStringNe(a, b.text) <==> !IStringEq(a, b.text)
  {
  }

  /** Under rfc1459 the nicks `[Foo]` and `{foo}` are the same. */
  lemma Rfc1459Brackets()
    ensures IStringEq(IString("[Foo]", IMap("rfc1459", Rfc1459)), "{foo}")
  {
    var a, b := "[Foo]", "{foo}";
    forall i | 0 <= i < |a| ensures a[i] == b[i] || Pair(Rfc1459, a[i], b[i]) || Pair(Rfc1459, b[i], a[i]) {
      PairsOfStd(a[i], b[i]);
    }
    FoldEq(Rfc1459, a, b);
  }

  /** A string contains every case variant of each of its substrings. */
  lemma IStringContainsVariant(s: IString, item: string, i: int)
    requires 0 <= i <= |s.text| - |item|
    requires s.text[i..i + |item|] == item
    ensures IStringContains(s, item)
    ensures IStringContains(s, Fold(s.cmap.table, item))
    ensures forall v :: Fold(s.cmap.table, v) == Fold(s.cmap.table, item) ==> IStringContains(s, v)
  {
    var std := s.cmap.table;
    FoldIdempotent(std, item);
    assert OccursAt(Fold(std, item), Fold(std, s.text), i) by {
      forall k | 0 <= k < |item| ensures Fold(std, s.text)[i + k] == Fold(std, item)[k] {
        assert s.text[i + k] == item[k];
      }
    }
  }
}

=== FILE: info.dfy ===
/** The state tracker of a connection: the users and channels it has seen,
    kept in casemapped dicts. Models girc/info.py. */
module Info {
  import opened Wrappers
  import opened Strings
  import opened Dicts
  import opened Utils
  import opened IMapping
  import opened Types
  import Pipeline

  /** The `Info` object: users by nick and channels by name, both `idict`s
      of the connection. */
  datatype State = State(users: IDict<User>, channels: IDict<Channel>)

  predicate StateValid(s: State)
  {
    IDictValid(s.users) && IDictValid(s.channels)
  }

  /** `Info(server)`: nothing tracked yet. */
  function NewState(cmap: IMap): (s: State)
    ensures StateValid(s) && IDictLen(s.users) == 0 && IDictLen(s.channels) == 0
    ensures s.users.cmap == cmap && s.channels.cmap == cmap
  {
    State(EmptyIDict(cmap), EmptyIDict(cmap))
  }

  /** What the tracker dispatches on the connection's internal event
      manager: `create user` and `create channel`, with the new record. */
  datatype Announcement = CreatedUser(user: User) | CreatedChannel(channel: Channel)

  /* -------------------------------------------------------------- users */

  /** The record `create_user` keeps for a user it already knows: the nick
      is always rewritten, the user and host only when the mask has them. */
  function Refresh(u: User, m: NickMask): User
  {
    u.(nick := m.nick,
       user := if m.user != "" then m.user else u.user,
       host := if m.host != "" then m.host else u.host)
  }

  /** `create_user(userhost)`: a user absent under every case variant of
      the mask's nick is created and announced; the record under that nick
      then takes the mask's nick, and its user and host where the mask has
      them. Channels and other users are untouched. */
  function CreateUser(s: State, userhost: string): (r: (State, seq<Announcement>))
    ensures var m := ParseNickMask(userhost);
      && r.0.channels == s.channels && r.0.users.cmap == s.users.cmap
      && IDictHas(r.0.users, m.nick)
      && IDictGet(r.0.users, m.nick).value.nick == m.nick
    ensures var m := ParseNickMask(userhost);
      IDictHas(s.users, m.nick) ==>
        var prev := IDictGet(s.users, m.nick).value;
        var u := IDictGet(r.0.users, m.nick).value;
        && r.1 == []
        && u.user == (if m.user != "" then m.user else prev.user)
        && u.host == (if m.host != "" then m.host else prev.host)
        && u.channels == prev.channels
    ensures var m := ParseNickMask(userhost);
      !IDictHas(s.users, m.nick) ==>
        && r.1 == [CreatedUser(NewUser(s.users.cmap, userhost))]
        && IDictGet(r.0.users, m.nick) == Success(NewUser(s.users.cmap, userhost))
    ensures forall probe ::
      Fold(s.users.cmap.table, probe) != Fold(s.users.cmap.table, ParseNickMask(userhost).nick) ==>
        IDictGet(r.0.users, probe) == IDictGet(s.users, probe)
    ensures IDictValid(s.users) ==> IDictValid(r.0.users)
  {
    var m := ParseNickMask(userhost);
    var created := NewUser(s.users.cmap, userhost);
    var (users, ann) :=
      if IDictHas(s.users, m.nick) then (s.users, [])
      else (IDictSet(s.users, m.nick, created), [CreatedUser(created)]);
    IDictSetOthers(s.users, m.nick, created);
    var prev := IDictGet(users, m.nick).value;
    var updated := IDictSet(users, m.nick, Refresh(prev, m));
    IDictSetOthers(users, m.nick, Refresh(prev, m));
    (s.(users := updated), ann)
  }

  /** Creating the same user twice changes nothing the second time and
      announces nothing. */
  lemma CreateUserIdempotent(s: State, userhost: string)
    requires IDictValid(s.users)
    ensures var once := CreateUser(s, userhost).0;
      CreateUser(once, userhost) == (once, [])
  {
    var m := ParseNickMask(userhost);
    var once := CreateUser(s, userhost).0;
    var u := IDictGet(once.users, m.nick).value;
    assert Refresh(u, m) == u;
    PutSame(once.users.store, KeyOf(once.users, m.nick), u);
  }

  /* ----------------------------------------------------------- channels */

  /** One turn of `create_channels`: a channel absent under every case
      variant of its name is created and announced. */
  function CreateChannel(s: State, name: string): (r: (State, seq<Announcement>))
    ensures r.0.users == s.users && r.0.channels.cmap == s.channels.cmap
    ensures IDictHas(r.0.channels, name)
    ensures IDictHas(s.channels, name) ==> r == (s, [])
    ensures !IDictHas(s.channels, name) ==>
      && r.1 == [CreatedChannel(NewChannel(s.channels.cmap, name))]
      && IDictGet(r.0.channels, name) == Success(NewChannel(s.channels.cmap, name))
      && IDictLen(r.0.channels) == IDictLen(s.channels) + 1
    ensures forall probe :: Fold(s.channels.cmap.table, probe) != Fold(s.channels.cmap.table, name) ==>
      IDictGet(r.0.channels, probe) == IDictGet(s.channels, probe)
    ensures forall probe :: IDictHas(r.0.channels, probe) <==>
      IDictHas(s.channels, probe) || Fold(s.channels.cmap.table, probe) == Fold(s.channels.cmap.table, name)
    ensures IDictValid(s.channels) ==> IDictValid(r.0.channels)
  {
    var c := NewChannel(s.channels.cmap, name);
    IDictSetOthers(s.channels, name, c);
    IDictLenSet(s.channels, name, c);
    if IDictHas(s.channels, name) then (s, [])
    else (s.(channels := IDictSet(s.channels, name, c)), [CreatedChannel(c)])
  }

  /** Some name of the list folds to the probe. */
  predicate Mentions(t: Std, names: seq<string>, probe: string)
  {
    exists i :: 0 <= i < |names| && Fold(t, names[i]) == Fold(t, probe)
  }

  /** `create_channels(*channels)`: the names in order, each through one
      turn. */
  function CreateChannels(s: State, names: seq<string>): (r: (State, seq<Announcement>))
    ensures r.0.users == s.users && r.0.channels.cmap == s.channels.cmap
    ensures IDictValid(s.channels) ==> IDictValid(r.0.channels)
    decreases |names|
  {
    if |names| == 0 then (s, [])
    else
      var (s1, a1) := CreateChannels(s, names[..|names| - 1]);
      var (s2, a2) := CreateChannel(s1, names[|names| - 1]);
      (s2, a1 + a2)
  }

  /** Every listed channel exists afterwards, and channels already known
      keep their records. */
  lemma {:induction false} CreateChannelsCovers(s: State, names: seq<string>)
    ensures var r := CreateChannels(s, names).0;
      && (forall i :: 0 <= i < |names| ==> IDictHas(r.channels, names[i]))
      && (forall probe :: IDictHas(s.channels, probe) ==> IDictGet(r.channels, probe) == IDictGet(s.channels, probe))
    decreases |names|
  {
    if |names| > 0 {
      var init := names[..|names| - 1];
      var name := names[|names| - 1];
      CreateChannelsCovers(s, init);
      var s1 := CreateChannels(s, init).0;
      var s2 := CreateChannel(s1, name).0;
      var t := s.channels.cmap.table;
      forall i | 0 <= i < |names| ensures IDictHas(s2.channels, names[i]) {
        if i < |init| {
          assert init[i] == names[i];
        }
      }
      forall probe | IDictHas(s.channels, probe)
        ensures IDictGet(s2.channels, probe) == IDictGet(s.channels, probe)
      {
        if Fold(t, probe) == Fold(t, name) {
          assert IDictHas(s1.channels, probe);
        }
      }
    }
  }

  /** Nothing unlisted appears. */
  lemma {:induction false} CreateChannelsOnlyListed(s: State, names: seq<string>)
    ensures forall probe :: IDictHas(CreateChannels(s, names).0.channels, probe) ==>
      IDictHas(s.channels, probe) || Mentions(s.channels.cmap.table, names, probe)
    decreases |names|
  {
    if |names| > 0 {
      var init := names[..|names| - 1];
      var name := names[|names| - 1];
      CreateChannelsOnlyListed(s, init);
      var s1 := CreateChannels(s, init).0;
      var s2 := CreateChannel(s1, name).0;
      var t := s.channels.cmap.table;
      forall probe | IDictHas(s2.channels, probe)
        ensures IDictHas(s.channels, probe) || Mentions(t, names, probe)
      {
        if IDictHas(s1.channels, probe) && !IDictHas(s.channels, probe) {
          var i :| 0 <= i < |init| && Fold(t, init[i]) == Fold(t, probe);
          assert names[i] == init[i];
        } else if !IDictHas(s1.channels, probe) {
          assert names[|names| - 1] == name;
        }
      }
    }
  }

  /** Exactly one announcement is made per record created, each of a
      listed name that was unknown. */
  lemma {:induction false} CreateChannelsAnnounces(s: State, names: seq<string>)
    ensures var (r, ann) := CreateChannels(s, names);
      && IDictLen(r.channels) == IDictLen(s.channels) + |ann|
      && forall k :: 0 <= k < |ann| ==> AnnouncesUnknown(s, names, ann[k])
    decreases |names|
  {
    if |names| > 0 {
      var init := names[..|names| - 1];
      var name := names[|names| - 1];
      CreateChannelsAnnounces(s, init);
      var (s1, a1) := CreateChannels(s, init);
      var (s2, a2) := CreateChannel(s1, name);
      if a2 != [] {
        assert !IDictHas(s.channels, name) by {
          if IDictHas(s.channels, name) {
            CreateChannelsCovers(s, init);
          }
        }
        assert names[|names| - 1] == name;
        assert AnnouncesUnknown(s, names, a2[0]);
      }
      forall k | 0 <= k < |a1| ensures AnnouncesUnknown(s, names, a1[k]) {
        var i :| 0 <= i < |init| && !IDictHas(s.channels, init[i]) &&
          a1[k] == CreatedChannel(NewChannel(s.channels.cmap, init[i]));
        assert names[i] == init[i];
      }
      assert forall k :: 0 <= k < |a1 + a2| ==> (a1 + a2)[k] == if k < |a1| then a1[k] else a2[k - |a1|];
    }
  }

  /** The announcement is of a new channel record for a listed name that was
      unknown before. */
  predicate AnnouncesUnknown(s: State, names: seq<string>, a: Announcement)
  {
    exists i :: 0 <= i < |names| && !IDictHas(s.channels, names[i]) &&
      a == CreatedChannel(NewChannel(s.channels.cmap, names[i]))
  }

  /** Creating channels that all exist changes nothing and announces
      nothing. */
  lemma {:induction false} CreateChannelsPresent(s: State, names: seq<string>)
    requires forall i :: 0 <= i < |names| ==> IDictHas(s.channels, names[i])
    ensures CreateChannels(s, names) == (s, [])
    decreases |names|
  {
    if |names| > 0 {
      var init := names[..|names| - 1];
      assert forall i :: 0 <= i < |init| ==> init[i] == names[i];
      CreateChannelsPresent(s, init);
      assert IDictHas(s.channels, names[|names| - 1]);
      assert CreateChannel(s, names[|names| - 1]) == (s, []);
      var empty: seq<Announcement> := [];
      assert empty + empty == empty;
    }
  }

  /** Creating the same channels twice: the second time changes nothing and
      announces nothing. */
  lemma CreateChannelsIdempotent(s: State, names: seq<string>)
    ensures var once := CreateChannels(s, names).0;
      CreateChannels(once, names) == (once, [])
  {
    CreateChannelsCovers(s, names);
    CreateChannelsPresent(CreateChannels(s, names).0, names);
  }

  /* --------------------------------------------------------------- join */

  /** The user `nick` lists `chan` among its channels and the channel
      `chan` lists `nick` among its members, both under case variants. */
  predicate Recorded(s: State, nick: string, chan: string)
  {
    && IDictHas(s.users, nick) && IDictHas(s.channels, chan)
    && var u := IDictGet(s.users, nick).value;
       && ValueOf(u.channels, chan) in u.channels.store
       && IDictHas(IDictGet(s.channels, chan).value.users, nick)
  }

  /** No name appears twice in the list. */
  predicate NoRepeats(xs: seq<string>)
  {
    forall i, j :: 0 <= i < j < |xs| ==> xs[i] != xs[j]
  }

  /** The channel list of the user `nick` has no repeats. */
  predicate ListsOnce(s: State, nick: string)
    requires IDictHas(s.users, nick)
  {
    NoRepeats(IDictGet(s.users, nick).value.channels.store)
  }

  /** One turn of the membership loop of `update_info` on `join`, as
      evidently intended: the channel goes on the user's list and the nick
      among the channel's members, each only when not recorded yet. */
  function AddMember(s: State, nick: string, chan: string): (r: State)
    requires IDictHas(s.users, nick) && IDictHas(s.channels, chan)
    ensures SameKeys(r.users, s.users) && SameKeys(r.channels, s.channels)
    ensures Recorded(r, nick, chan)
  {
    var u2 := WithChannel(IDictGet(s.users, nick).value, chan);
    var c2 := WithMember(IDictGet(s.channels, chan).value, nick);
    IDictSetOthers(s.users, nick, u2);
    IDictSetOthers(s.channels, chan, c2);
    IDictSetPresent(s.users, nick, u2);
    IDictSetPresent(s.channels, chan, c2);
    State(IDictSet(s.users, nick, u2), IDictSet(s.channels, chan, c2))
  }

  /** The user side of one turn: the channel is appended unless listed. */
  function WithChannel(u: User, chan: string): (u2: User)
    ensures u2.channels.cmap == u.channels.cmap
    ensures u.channels.store <= u2.channels.store
    ensures ValueOf(u2.channels, chan) in u2.channels.store
    ensures NoRepeats(u.channels.store) ==> NoRepeats(u2.channels.store)
  {
    if ValueOf(u.channels, chan) in u.channels.store then u
    else u.(channels := IListAppend(u.channels, chan))
  }

  /** The channel side of one turn: the nick is added unless present. */
  function WithMember(c: Channel, nick: string): (c2: Channel)
    ensures IDictHas(c2.users, nick)
  {
    IDictSetOthers(c.users, nick, ());
    if IDictHas(c.users, nick) then c else c.(users := IDictSet(c.users, nick, ()))
  }

  /** What a turn leaves for the user and for the channel: the user's list
      only grows, by the channel when it was not listed yet; the channel's
      record gains the nick; other channels are untouched. */
  lemma AddMemberShape(s: State, nick: string, chan: string) returns (u2: User, c2: Channel)
    requires IDictHas(s.users, nick) && IDictHas(s.channels, chan)
    ensures var u := IDictGet(s.users, nick).value;
      && IDictGet(AddMember(s, nick, chan).users, nick) == Success(u2)
      && u2.channels.cmap == u.channels.cmap
      && u.channels.store <= u2.channels.store
      && ValueOf(u2.channels, chan) in u2.channels.store
      && (NoRepeats(u.channels.store) ==> NoRepeats(u2.channels.store))
    ensures IDictGet(AddMember(s, nick, chan).channels, chan) == Success(c2) && IDictHas(c2.users, nick)
    ensures forall p :: Fold(s.channels.cmap.table, p) != Fold(s.channels.cmap.table, chan) ==>
      IDictGet(AddMember(s, nick, chan).channels, p) == IDictGet(s.channels, p)
  {
    u2 := WithChannel(IDictGet(s.users, nick).value, chan);
    c2 := WithMember(IDictGet(s.channels, chan).value, nick);
    IDictSetOthers(s.users, nick, u2);
    IDictSetOthers(s.channels, chan, c2);
  }

  /** A turn keeps what earlier turns recorded. */
  lemma AddMemberKeeps(s: State, nick: string, chan: string, other: string)
    requires Recorded(s, nick, other) && IDictHas(s.channels, chan)
    ensures Recorded(AddMember(s, nick, chan), nick, other)
  {
    var r := AddMember(s, nick, chan);
    var u2, c2 := AddMemberShape(s, nick, chan);
    SameKeysHas(r.channels, s.channels, other);
    var u := IDictGet(s.users, nick).value;
    assert ValueOf(u.channels, other) in u.channels.store;
    assert ValueOf(u2.channels, other) in u2.channels.store;
    var t := s.channels.cmap.table;
    if Fold(t, other) == Fold(t, chan) {
      assert KeyOf(r.channels, other) == KeyOf(r.channels, chan);
      assert IDictGet(r.channels, other) == Success(c2);
    } else {
      assert IDictGet(r.channels, other) == IDictGet(s.channels, other);
    }
  }

  /** The membership loop over the joined channels, in order. */
  function Members(s: State, nick: string, chans: seq<string>): (r: State)
    requires IDictHas(s.users, nick)
    requires forall i :: 0 <= i < |chans| ==> IDictHas(s.channels, chans[i])
    ensures SameKeys(r.users, s.users) && SameKeys(r.channels, s.channels)
    decreases |chans|
  {
    if |chans| == 0 then s
    else
      var init := chans[..|chans| - 1];
      assert forall i :: 0 <= i < |init| ==> IDictHas(s.channels, init[i]);
      var before := Members(s, nick, init);
      SameKeysHas(before.users, s.users, nick);
      SameKeysHas(before.channels, s.channels, chans[|chans| - 1]);
      AddMember(before, nick, chans[|chans| - 1])
  }

  /** A turn keeps every record of a list of earlier turns. */
  lemma AddMemberKeepsAll(s: State, nick: string, chan: string, others: seq<string>)
    requires IDictHas(s.users, nick) && IDictHas(s.channels, chan)
    requires forall i :: 0 <= i < |others| ==> Recorded(s, nick, others[i])
    ensures forall i :: 0 <= i < |others| ==> Recorded(AddMember(s, nick, chan), nick, others[i])
  {
    forall i | 0 <= i < |others|
      ensures Recorded(AddMember(s, nick, chan), nick, others[i])
    {
      AddMemberKeeps(s, nick, chan, others[i]);
    }
  }

  /** Records of all but the last name and of the last name are records
      of the whole list. */
  lemma RecordedSnoc(r: State, nick: string, chans: seq<string>, init: seq<string>)
    requires |chans| > 0 && init == chans[..|chans| - 1]
    requires forall i :: 0 <= i < |init| ==> Recorded(r, nick, init[i])
    requires Recorded(r, nick, chans[|chans| - 1])
    ensures forall i :: 0 <= i < |chans| ==> Recorded(r, nick, chans[i])
  {
    forall k | 0 <= k < |chans| ensures Recorded(r, nick, chans[k]) {
      if k < |chans| - 1 {
        assert init[k] == chans[k];
      }
    }
  }

  /** After the loop every joined channel and the nick are recorded
      against each other. */
  lemma {:induction false} MembersRecord(s: State, nick: string, chans: seq<string>)
    requires IDictHas(s.users, nick)
    requires forall i :: 0 <= i < |chans| ==> IDictHas(s.channels, chans[i])
    ensures forall i :: 0 <= i < |chans| ==> Recorded(Members(s, nick, chans), nick, chans[i])
    decreases |chans|
  {
    if |chans| > 0 {
      var init := chans[..|chans| - 1];
      var last := chans[|chans| - 1];
      assert forall i :: 0 <= i < |init| ==> IDictHas(s.channels, init[i]);
      MembersRecord(s, nick, init);
      var before := Members(s, nick, init);
      SameKeysHas(before.users, s.users, nick);
      SameKeysHas(before.channels, s.channels, last);
      AddMemberKeepsAll(before, nick, last, init);
      var r := AddMember(before, nick, last);
      assert Members(s, nick, chans) == r;
      RecordedSnoc(r, nick, chans, init);
    }
  }

  /** The loop adds no repeat to the user's channel list. */
  lemma {:induction false} MembersListOnce(s: State, nick: string, chans: seq<string>)
    requires IDictHas(s.users, nick)
    requires forall i :: 0 <= i < |chans| ==> IDictHas(s.channels, chans[i])
    requires ListsOnce(s, nick)
    ensures ListsOnce(Members(s, nick, chans), nick)
    decreases |chans|
  {
    if |chans| > 0 {
      var init := chans[..|chans| - 1];
      assert forall i :: 0 <= i < |init| ==> IDictHas(s.channels, init[i]);
      var last := chans[|chans| - 1];
      MembersListOnce(s, nick, init);
      var before := Members(s, nick, init);
      SameKeysHas(before.users, s.users, nick);
      SameKeysHas(before.channels, s.channels, last);
      var u2, c2 := AddMemberShape(before, nick, last);
      assert Members(s, nick, chans) == AddMember(before, nick, last);
    }
  }

  /** The `join` branch of `update_info`, as evidently intended: the
      source's mask gives the user, the first parameter the comma-separated
      channels; both are created, then their membership recorded. A missing
      source raises TypeError and missing parameters IndexError. */
  function Join(s: State, source: Option<string>, params: seq<string>): (r: Result<(State, seq<Announcement>)>)
    ensures r.Success? <==> source.Some? && |params| > 0
    ensures source.None? ==> r.Failure? && r.error.TypeError?
    ensures source.Some? && |params| == 0 ==> r.Failure? && r.error.IndexError?
  {
    if source.None? then Failure(TypeError("argument of type 'NoneType' is not iterable"))
    else if |params| == 0 then Failure(IndexError("list index out of range"))
    else
      var nick := ParseNickMask(source.value).nick;
      var chans := Split(params[0], ',');
      var (s1, a1) := CreateUser(s, source.value);
      var (s2, a2) := CreateChannels(s1, chans);
      CreateChannelsCovers(s1, chans);
      Success((Members(s2, nick, chans), a1 + a2))
  }

  /** After a join the user and every joined channel exist and are recorded
      against each other; a user list without repeats stays so. */
  lemma JoinRecords(s: State, source: string, params: seq<string>)
    requires |params| > 0
    ensures var r := Join(s, Some(source), params).value.0;
      var nick := ParseNickMask(source).nick;
      var chans := Split(params[0], ',');
      && (forall i :: 0 <= i < |chans| ==> Recorded(r, nick, chans[i]))
      && (IDictHas(s.users, nick) && ListsOnce(s, nick) ==> ListsOnce(r, nick))
  {
    var nick := ParseNickMask(source).nick;
    var chans := Split(params[0], ',');
    var s1 := CreateUser(s, source).0;
    var s2 := CreateChannels(s1, chans).0;
    CreateChannelsCovers(s1, chans);
    MembersRecord(s2, nick, chans);
    if IDictHas(s.users, nick) && ListsOnce(s, nick) {
      assert ListsOnce(s1, nick);
      MembersListOnce(s2, nick, chans);
    }
  }

  /** The `join` branch as written: the membership loop appends to a list
      and sets into a dict that the `channels` and `users` properties build
      afresh on every read, so nothing it does is kept. */
  function JoinAsWritten(s: State, source: Option<string>, params: seq<string>): (r: Result<(State, seq<Announcement>)>)
    ensures r.Success? <==> source.Some? && |params| > 0
    ensures source.None? ==> r.Failure? && r.error.TypeError?
    ensures source.Some? && |params| == 0 ==> r.Failure? && r.error.IndexError?
    ensures r.Success? ==> var chans := Split(params[0], ',');
      && IDictHas(r.value.0.users, ParseNickMask(source.value).nick)
      && forall i :: 0 <= i < |chans| ==> IDictHas(r.value.0.channels, chans[i])
  {
    if source.None? then Failure(TypeError("argument of type 'NoneType' is not iterable"))
    else if |params| == 0 then Failure(IndexError("list index out of range"))
    else
      var chans := Split(params[0], ',');
      var (s1, a1) := CreateUser(s, source.value);
      var (s2, a2) := CreateChannels(s1, chans);
      CreateChannelsCovers(s1, chans);
      Success((s2, a1 + a2))
  }

  /** The two differ only by the membership loop: they create and announce
      the same. */
  lemma JoinDiffersByMembers(s: State, source: string, params: seq<string>)
    requires |params| > 0
    ensures var written := JoinAsWritten(s, Some(source), params).value;
      var nick := ParseNickMask(source).nick;
      var chans := Split(params[0], ',');
      Join(s, Some(source), params).value == (Members(written.0, nick, chans), written.1)
  {
    var nick := ParseNickMask(source).nick;
    var chans := Split(params[0], ',');
    var (s1, a1) := CreateUser(s, source);
    var (s2, a2) := CreateChannels(s1, chans);
    CreateChannelsCovers(s1, chans);
    assert JoinAsWritten(s, Some(source), params).value == (s2, a1 + a2);
    assert Join(s, Some(source), params).value == (Members(s2, nick, chans), a1 + a2);
  }

  /** A user who joins a new channel is not recorded as a member by the
      written loop, and is by the intended one. */
  lemma JoinMembershipLost(s: State, nick: string, chan: string)
    requires StateValid(s)
    requires '!' !in nick && '@' !in nick && ',' !in chan
    requires !IDictHas(s.users, nick) && !IDictHas(s.channels, chan)
    ensures JoinAsWritten(s, Some(nick), [chan]).Success?
    ensures !Recorded(JoinAsWritten(s, Some(nick), [chan]).value.0, nick, chan)
    ensures Recorded(Join(s, Some(nick), [chan]).value.0, nick, chan)
  {
    SplitNoSep(chan, ',');
    var chans := [chan];
    var s1 := CreateUser(s, nick).0;
    var s2 := CreateChannels(s1, chans).0;
    assert CreateChannels(s1, chans[..0]) == (s1, []);
    assert IDictGet(s2.users, nick).value.channels.store == [];
    JoinRecords(s, nick, [chan]);
  }

  /** `update_info(event)`: a `join` updates the tracker; every other event
      leaves it alone. */
  function UpdateInfo(s: State, e: Pipeline.Event): (r: Result<(State, seq<Announcement>)>)
    ensures e.info.verb != "join" ==> r == Success((s, []))
    ensures e.info.verb == "join" ==> (r.Success? <==> e.info.source.Some? && |e.info.params| > 0)
  {
    if e.info.verb == "join" then Join(s, e.info.source, e.info.params)
    else Success((s, []))
  }
}

=== FILE: lists.dfy ===
/** Python's list positions: the clamping of `list.insert`, negative
    subscripts, and `list.index`. */
module Lists {

  /** `list.insert(i, v)` index handling: negative indices count from the
      end, and both ends clamp. */
  function InsertIndex(n: nat, at: int): (k: nat)
    ensures k <= n
    ensures 0 <= at <= n ==> k == at
    ensures at < 0 <= n + at ==> k == n + at
    ensures at > n ==> k == n
    ensures n + at < 0 ==> k == 0
  {
    if at < 0 then (if n + at < 0 then 0 else n + at)
    else if at > n then n
    else at
  }

  /** `s.insert(at, x)`: `x` lands at the clamped index, the elements
      before it stay put and the ones from it on move up by one. */
  function ListInsert<T>(s: seq<T>, at: int, x: T): (r: seq<T>)
    ensures |r| == |s| + 1
    ensures r[InsertIndex(|s|, at)] == x
    ensures forall i :: 0 <= i < InsertIndex(|s|, at) ==> r[i] == s[i]
    ensures forall i :: InsertIndex(|s|, at) < i < |r| ==> r[i] == s[i - 1]
    ensures multiset(r) == multiset(s) + multiset{x}
  {
    var k := InsertIndex(|s|, at);
    assert s == s[..k] + s[k..];
    s[..k] + [x] + s[k..]
  }

  /** The position a subscript `s[at]` names when `-n <= at < n`:
      negative subscripts count from the end. */
  function ItemIndex(n: nat, at: int): (k: nat)
    requires 0 <= n + at && at < n
    ensures k < n
    ensures k - at == 0 || k - at == n
  {
    if at < 0 then n + at else at
  }

  /** `s.index(x)`: the first position holding `x`. */
  function FirstIndex<T(==)>(s: seq<T>, x: T): (j: nat)
    requires x in s
    ensures j < |s| && s[j] == x
    ensures forall i :: 0 <= i < j ==> s[i] != x
  {
    if s[0] == x then 0
    else
      assert x in s[1..] by { var i :| 0 <= i < |s| && s[i] == x; assert s[1..][i - 1] == x; }
      1 + FirstIndex(s[1..], x)
  }
}

=== FILE: numerics.dfy ===
/** The numeric-reply table of girc/events.py: a three-digit reply code
    names the event a handler registers for. */
module Numerics {
  import opened Wrappers

  /** `numerics.get(code)`, one case per entry, in table order. */
  function Numeric(code: string): Option<string>
  {
    match code
    case "001" => Some("welcome")
    case "002" => Some("yourhost")
    case "003" => Some("created")
    case "004" => Some("myinfo")
    case "005" => Some("features")
    case "008" => Some("snomask")
    case "009" => Some("statmemtot")
    case "010" => Some("bounce")
    case "014" => Some("yourcookie")
    case "042" => Some("yourid")
    case "043" => Some("savenick")
    case "050" => Some("attemptingjunc")
    case "051" => Some("attemptingreroute")
    case "200" => Some("tracelink")
    case "201" => Some("traceconnecting")
    case "202" => Some("tracehandshake")
    case "203" => Some("traceunknown")
    case "204" => Some("traceoperator")
    case "205" => Some("traceuser")
    case "206" => Some("traceserver")
    case "207" => Some("traceservice")
    case "208" => Some("tracenewtype")
    case "209" => Some("traceclass")
    case "210" => Some("stats")
    case "211" => Some("statslinkinfo")
    case "212" => Some("statscommands")
    case "213" => Some("statscline")
    case "215" => Some("statsiline")
    case "216" => Some("statskline")
    case "218" => Some("statsyline")
    case "219" => Some("endofstats")
    case "221" => Some("umode")
    case "234" => Some("servlist")
    case "235" => Some("servlistend")
    case "236" => Some("statsverbose")
    case "237" => Some("statsengine")
    case "239" => Some("statsiauth")
    case "241" => Some("statslline")
    case "242" => Some("statsuptime")
    case "243" => Some("statsoline")
    case "244" => Some("statshline")
    case "245" => Some("statssline")
    case "250" => Some("statsconn")
    case "251" => Some("luserclient")
    case "252" => Some("luserop")
    case "253" => Some("luserunknown")
    case "254" => Some("luserchannels")
    case "255" => Some("luserme")
    case "256" => Some("adminme")
    case "257" => Some("adminloc1")
    case "258" => Some("adminloc2")
    case "259" => Some("adminemail")
    case "261" => Some("tracelog")
    case "263" => Some("tryagain")
    case "265" => Some("localusers")
    case "266" => Some("globalusers")
    case "267" => Some("start_netstat")
    case "268" => Some("netstat")
    case "269" => Some("end_netstat")
    case "270" => Some("privs")
    case "271" => Some("silelist")
    case "272" => Some("endofsilelist")
    case "273" => Some("notify")
    case "276" => Some("vchanexist")
    case "277" => Some("vchanlist")
    case "278" => Some("vchanhelp")
    case "280" => Some("glist")
    case "296" => Some("chaninfo_kicks")
    case "299" => Some("end_chaninfo")
    case "300" => Some("none")
    case "301" => Some("away")
    case "302" => Some("userhost")
    case "303" => Some("ison")
    case "305" => Some("unaway")
    case "306" => Some("nowaway")
    case "311" => Some("whoisuser")
    case "312" => Some("whoisserver")
    case "313" => Some("whoisoperator")
    case "314" => Some("whowasuser")
    case "315" => Some("endofwho")
    case "317" => Some("whoisidle")
    case "318" => Some("endofwhois")
    case "319" => Some("whoischannels")
    case "320" => Some("whoisspecial")
    case "322" => Some("list")
    case "323" => Some("listend")
    case "324" => Some("cmodeis")
    case "326" => Some("nochanpass")
    case "327" => Some("chpassunknown")
    case "328" => Some("channel_url")
    case "329" => Some("chancreatetime")
    case "331" => Some("notopic")
    case "332" => Some("topic")
    case "333" => Some("topicwhotime")
    case "339" => Some("badchanpass")
    case "340" => Some("userip")
    case "341" => Some("inviting")
    case "345" => Some("invited")
    case "346" => Some("invitelist")
    case "347" => Some("endofinvitelist")
    case "348" => Some("exceptlist")
    case "349" => Some("endofexceptlist")
    case "351" => Some("version")
    case "352" => Some("whoreply")
    case "353" => Some("namreply")
    case "354" => Some("whospcrpl")
    case "355" => Some("namreply_")
    case "364" => Some("links")
    case "365" => Some("endoflinks")
    case "366" => Some("endofnames")
    case "367" => Some("banlist")
    case "368" => Some("endofbanlist")
    case "369" => Some("endofwhowas")
    case "371" => Some("info")
    case "372" => Some("motd")
    case "374" => Some("endofinfo")
    case "375" => Some("motdstart")
    case "376" => Some("endofmotd")
    case "381" => Some("youreoper")
    case "382" => Some("rehashing")
    case "383" => Some("youreservice")
    case "385" => Some("notoperanymore")
    case "388" => Some("alist")
    case "389" => Some("endofalist")
    case "391" => Some("time")
    case "392" => Some("usersstart")
    case "393" => Some("users")
    case "394" => Some("endofusers")
    case "395" => Some("nousers")
    case "396" => Some("hosthidden")
    case "400" => Some("unknownerror")
    case "401" => Some("nosuchnick")
    case "402" => Some("nosuchserver")
    case "403" => Some("nosuchchannel")
    case "404" => Some("cannotsendtochan")
    case "405" => Some("toomanychannels")
    case "406" => Some("wasnosuchnick")
    case "407" => Some("toomanytargets")
    case "408" => Some("nosuchservice")
    case "409" => Some("noorigin")
    case "410" => Some("invalidcapcmd")
    case "411" => Some("norecipient")
    case "412" => Some("notexttosend")
    case "413" => Some("notoplevel")
    case "414" => Some("wildtoplevel")
    case "415" => Some("badmask")
    case "416" => Some("querytoolong")
    case "419" => Some("lengthtruncated")
    case "421" => Some("unknowncommand")
    case "422" => Some("nomotd")
    case "423" => Some("noadmininfo")
    case "424" => Some("fileerror")
    case "425" => Some("noopermotd")
    case "429" => Some("toomanyaway")
    case "430" => Some("eventnickchange")
    case "431" => Some("nonicknamegiven")
    case "432" => Some("erroneusnickname")
    case "433" => Some("nicknameinuse")
    case "436" => Some("nickcollision")
    case "439" => Some("targettoofast")
    case "440" => Some("servicesdown")
    case "441" => Some("usernotinchannel")
    case "442" => Some("notonchannel")
    case "443" => Some("useronchannel")
    case "444" => Some("nologin")
    case "445" => Some("summondisabled")
    case "446" => Some("usersdisabled")
    case "447" => Some("nonickchange")
    case "449" => Some("notimplemented")
    case "451" => Some("notregistered")
    case "452" => Some("idcollision")
    case "453" => Some("nicklost")
    case "455" => Some("hostilename")
    case "456" => Some("acceptfull")
    case "457" => Some("acceptexist")
    case "458" => Some("acceptnot")
    case "459" => Some("nohiding")
    case "460" => Some("notforhalfops")
    case "461" => Some("needmoreparams")
    case "462" => Some("alreadyregistered")
    case "463" => Some("nopermforhost")
    case "464" => Some("passwdmismatch")
    case "465" => Some("yourebannedcreep")
    case "467" => Some("keyset")
    case "469" => Some("linkset")
    case "471" => Some("channelisfull")
    case "472" => Some("unknownmode")
    case "473" => Some("inviteonlychan")
    case "474" => Some("bannedfromchan")
    case "475" => Some("badchannelkey")
    case "476" => Some("badchanmask")
    case "478" => Some("banlistfull")
    case "479" => Some("linkfail")
    case "481" => Some("noprivileges")
    case "482" => Some("chanoprivsneeded")
    case "483" => Some("cantkillserver")
    case "485" => Some("uniqoprivsneeded")
    case "488" => Some("tslesschan")
    case "491" => Some("nooperhost")
    case "493" => Some("nofeature")
    case "494" => Some("badfeature")
    case "495" => Some("badlogtype")
    case "496" => Some("badlogsys")
    case "497" => Some("badlogvalue")
    case "498" => Some("isoperlchan")
    case "499" => Some("chanownprivneeded")
    case "501" => Some("umodeunknownflag")
    case "502" => Some("usersdontmatch")
    case "503" => Some("ghostedclient")
    case "504" => Some("usernotonserv")
    case "511" => Some("silelistfull")
    case "512" => Some("toomanywatch")
    case "513" => Some("badping")
    case "515" => Some("badexpire")
    case "516" => Some("dontcheat")
    case "517" => Some("disabled")
    case "522" => Some("whosyntax")
    case "523" => Some("wholimexceed")
    case "525" => Some("remotepfx")
    case "526" => Some("pfxunroutable")
    case "550" => Some("badhostmask")
    case "551" => Some("hostunavail")
    case "552" => Some("usingsline")
    case "600" => Some("logon")
    case "601" => Some("logoff")
    case "602" => Some("watchoff")
    case "603" => Some("watchstat")
    case "604" => Some("nowon")
    case "605" => Some("nowoff")
    case "606" => Some("watchlist")
    case "607" => Some("endofwatchlist")
    case "608" => Some("watchclear")
    case "611" => Some("islocop")
    case "612" => Some("isnotoper")
    case "613" => Some("endofisoper")
    case "618" => Some("dcclist")
    case "624" => Some("omotdstart")
    case "625" => Some("omotd")
    case "626" => Some("endofo")
    case "630" => Some("settings")
    case "631" => Some("endofsettings")
    case "660" => Some("traceroute_hop")
    case "661" => Some("traceroute_start")
    case "662" => Some("modechangewarn")
    case "663" => Some("chanredir")
    case "664" => Some("servmodeis")
    case "665" => Some("otherumodeis")
    case "666" => Some("endof_generic")
    case "670" => Some("starttls")
    case "671" => Some("whoissecure")
    case "672" => Some("unknownmodes")
    case "673" => Some("cannotsetmodes")
    case "678" => Some("luserstaff")
    case "679" => Some("timeonserveris")
    case "682" => Some("networks")
    case "687" => Some("yourlanguageis")
    case "688" => Some("language")
    case "689" => Some("whoisstaff")
    case "690" => Some("whoislanguage")
    case "691" => Some("starttls_error")
    case "702" => Some("modlist")
    case "703" => Some("endofmodlist")
    case "704" => Some("helpstart")
    case "705" => Some("helptxt")
    case "706" => Some("endofhelp")
    case "708" => Some("etracefull")
    case "709" => Some("etrace")
    case "710" => Some("knock")
    case "711" => Some("knockdlvr")
    case "712" => Some("toomanyknock")
    case "713" => Some("chanopen")
    case "714" => Some("knockonchan")
    case "715" => Some("knockdisabled")
    case "716" => Some("targumodeg")
    case "717" => Some("targnotify")
    case "718" => Some("umodegmsg")
    case "720" => Some("omotdstart")
    case "721" => Some("omotd")
    case "722" => Some("endofomotd")
    case "723" => Some("noprivs")
    case "724" => Some("testmark")
    case "725" => Some("testline")
    case "726" => Some("notestline")
    case "730" => Some("mononline")
    case "731" => Some("monoffline")
    case "732" => Some("monlist")
    case "733" => Some("endofmonlist")
    case "734" => Some("monlistfull")
    case "760" => Some("whoiskeyvalue")
    case "761" => Some("keyvalue")
    case "762" => Some("metadataend")
    case "764" => Some("metadatalimit")
    case "765" => Some("targetinvalid")
    case "766" => Some("nomatchingkey")
    case "767" => Some("keyinvalid")
    case "768" => Some("keynotset")
    case "769" => Some("keynopermission")
    case "771" => Some("xinfo")
    case "773" => Some("xinfostart")
    case "774" => Some("xinfoend")
    case "900" => Some("loggedin")
    case "901" => Some("loggedout")
    case "902" => Some("nicklocked")
    case "903" => Some("saslsuccess")
    case "904" => Some("saslfail")
    case "905" => Some("sasltoolong")
    case "906" => Some("saslaborted")
    case "907" => Some("saslalready")
    case "908" => Some("saslmechs")
    case "972" => Some("cannotdocommand")
    case "973" => Some("cannotchangeumode")
    case "974" => Some("cannotchangechanmode")
    case "975" => Some("cannotchangeservermode")
    case "976" => Some("cannotsendtonick")
    case "977" => Some("unknownservermode")
    case "979" => Some("servermodelock")
    case "980" => Some("badcharencoding")
    case "981" => Some("toomanylanguages")
    case "982" => Some("nolanguage")
    case "983" => Some("texttooshort")
    case "999" => Some("numeric_error")
    case _ => None
  }
}

=== FILE: pipeline.dfy ===
/** The event pipeline of girc/events.py: a parsed message becomes one or
    more named event dictionaries. Numerics are named, private/public verbs
    are told apart, CTCP payloads are split out and de-quoted, parameters
    are copied into named attributes, mode strings are parsed and the
    `from_to` convenience attribute is chosen. The live connection enters
    only through `Server`: its CHANTYPES and CHANMODES features. */
module Pipeline {
  import opened Wrappers
  import opened Strings
  import opened Utils
  import Formatting
  import Envelope
  import Numerics
  import IMapping

  datatype Direction = In | Out

  /** The `modestring` and parsed `modes` attributes of a mode event. */
  datatype ModeInfo = ModeInfo(modestring: string, modes: seq<ModeChange>)

  /** One event dictionary: the message's own fields, the direction, the
      attributes of the parameter table (`attrs`), the CTCP verb and text,
      the mode attributes and `from_to`. */
  datatype Info = Info(
    direction: Direction,
    verb: string,
    source: Option<string>,
    params: seq<string>,
    tags: Envelope.TagList,
    attrs: map<string, string>,
    ctcp: Option<(string, string)>,
    modes: Option<ModeInfo>,
    fromTo: Option<string>)

  /** An entry of the list `message_to_event` returns: the name it is
      dispatched under and its dictionary. */
  datatype Event = Event(name: string, info: Info)

  /** What the pipeline reads from the connection: the CHANTYPES string and
      the CHANMODES list (`None` when the server sent none). */
  datatype Server = Server(chantypes: string, chanmodes: Option<seq<string>>)

  /* ----------------------------------------------------- entity kinds */

  /** `is_channel(name)`: the first character is a channel type; an empty
      name raises IndexError. */
  function IsChannel(chantypes: string, name: string): (r: Result<bool>)
    ensures r.Failure? <==> name == ""
    ensures r.Success? ==> (r.value <==> name[0] in chantypes)
  {
    if name == "" then Failure(IndexError("string index out of range"))
    else Success(name[0] in chantypes)
  }

  /** `is_nick(name)`: neither a channel nor a valid hostname. */
  function IsNick(chantypes: string, name: string): (r: Result<bool>)
    ensures r.Failure? <==> name == ""
    ensures r.Success? ==> (r.value <==> name[0] !in chantypes && !IsHostname(name))
  {
    var channel :- IsChannel(chantypes, name);
    Success(!channel && !IsHostname(name))
  }

  datatype EntityKind = ChannelEntity | ServerEntity | UserEntity

  /** The kind of entity a non-empty source, target or channel resolves to:
      a channel when `is_channel`, else a server when it holds a `.` and is
      a valid hostname, else a user (both remaining branches create one). */
  function Classify(chantypes: string, name: string): EntityKind
    requires name != ""
  {
    if name[0] in chantypes then ChannelEntity
    else if '.' in name && IsHostname(name) then ServerEntity
    else UserEntity
  }

  /** A name resolves to a user exactly when `is_nick` holds of it, so the
      fall-back branch of the resolution never changes the outcome; it
      resolves to a server exactly when it is a hostname and no channel. */
  lemma ClassifyAgrees(chantypes: string, name: string)
    requires name != ""
    ensures Classify(chantypes, name) == UserEntity <==> IsNick(chantypes, name) == Success(true)
    ensures Classify(chantypes, name) == ServerEntity <==>
      IsChannel(chantypes, name) == Success(false) && IsHostname(name)
  {
  }

  /* ---------------------------------------------------- verb naming */

  /** The verb as dispatched: a numeric found in the table is replaced by
      its name, then the verb is lower-cased. An integer verb has no
      `lower` method. */
  function VerbName(verb: Envelope.Verb): (r: Result<string>)
    ensures r.Failure? <==> verb.Numeric?
    ensures r.Success? ==> Lower(r.value) == r.value
    ensures verb.Named? && Numerics.Numeric(verb.name).Some? ==>
      r == Success(Lower(Numerics.Numeric(verb.name).value))
    ensures verb.Named? && Numerics.Numeric(verb.name).None? ==> r == Success(Lower(verb.name))
  {
    match verb
    case Numeric(_) => Failure(AttributeError("'int' object has no attribute 'lower'"))
    case Named(v) =>
      var name := Numerics.Numeric(v).GetOr(v);
      LowerIdempotent(name);
      Success(Lower(name))
  }

  /** Reply 001 is dispatched as `welcome`. */
  lemma WelcomeVerb()
    ensures VerbName(Envelope.Named("001")) == Success("welcome")
  {
    var name := "welcome";
    assert Numerics.Numeric("001") == Some(name);
    LowerPlain(name);
  }

  /** Reply 376 is dispatched as `endofmotd` and 422 as `nomotd`. */
  lemma EndOfMotdVerbs()
    ensures VerbName(Envelope.Named("376")) == Success("endofmotd")
    ensures VerbName(Envelope.Named("422")) == Success("nomotd")
  {
    var end, none := "endofmotd", "nomotd";
    assert Numerics.Numeric("376") == Some(end);
    assert Numerics.Numeric("422") == Some(none);
    LowerPlain(end);
    LowerPlain(none);
  }

  /** A word verb is dispatched under its lower-case spelling. */
  lemma PrivmsgVerb()
    ensures VerbName(Envelope.Named("PRIVMSG")) == Success("privmsg")
  {
    var v := "PRIVMSG";
    assert Numerics.Numeric(v).None?;
    assert Lower(v) == "privmsg";
  }

  /** The verbs whose first parameter decides private against public. */
  predicate Refinable(verb: string)
  {
    verb == "privmsg" || verb == "notice" || verb == "mode"
  }

  /** Verb refinement: `privmsg` to a channel becomes `pubmsg`, `notice`
      becomes `pubnotice` or `privnotice`, `mode` becomes `cmode` or
      `umode`; reading `params[0]` raises when it or its first character is
      missing. */
  function Refine(chantypes: string, verb: string, params: seq<string>): (r: Result<string>)
    ensures !Refinable(verb) ==> r == Success(verb)
    ensures Refinable(verb) ==> (r.Failure? <==> |params| == 0 || params[0] == "")
    ensures r.Success? && Refinable(verb) ==>
      r.value == (if params[0][0] in chantypes then PublicVerb(verb) else PrivateVerb(verb))
  {
    if !Refinable(verb) then Success(verb)
    else if |params| == 0 then Failure(IndexError("list index out of range"))
    else
      var channel :- IsChannel(chantypes, params[0]);
      Success(if channel then PublicVerb(verb) else PrivateVerb(verb))
  }

  function PublicVerb(verb: string): string
  {
    if verb == "privmsg" then "pubmsg" else if verb == "notice" then "pubnotice" else "cmode"
  }

  function PrivateVerb(verb: string): string
  {
    if verb == "privmsg" then "privmsg" else if verb == "notice" then "privnotice" else "umode"
  }

  /** A refined verb is final: refining it again changes nothing. */
  lemma RefineIdempotent(chantypes: string, verb: string, params: seq<string>)
    requires Refine(chantypes, verb, params).Success?
    ensures Refine(chantypes, Refine(chantypes, verb, params).value, params) == Refine(chantypes, verb, params)
  {
  }

  /* ------------------------------------------------------------ CTCP */

  /** The CTCP low-level de-quoting loop: `\a` gives `\x01`, a backslash
      before any other character gives that character, and a lone
      trailing backslash is dropped. */
  function Dequote(raw: string): (r: string)
    ensures '\\' !in raw ==> r == raw
    ensures |r| <= |raw|
    decreases |raw|
  {
    if |raw| == 0 then ""
    else if raw[0] == '\\' then
      if |raw| == 1 then ""
      else (if raw[1] == 'a' then "\U{01}" else [raw[1]]) + Dequote(raw[2..])
    else
      assert raw == [raw[0]] + raw[1..];
      [raw[0]] + Dequote(raw[1..])
  }

  function DequoteAll(raws: seq<string>): (r: seq<string>)
    ensures |r| == |raws|
    ensures forall i :: 0 <= i < |raws| ==> r[i] == Dequote(raws[i])
  {
    seq(|raws|, i requires 0 <= i < |raws| => Dequote(raws[i]))
  }

  /** The quoting the de-quoting undoes: `\x01` as `\a` and a backslash
      doubled. */
  function QuoteChar(c: char): string
  {
    if c == '\U{01}' then "\\a" else if c == '\\' then "\\\\" else [c]
  }

  function Quote(s: string): (r: string)
    ensures '\U{01}' !in r
  {
    QuoteAvoidsDelimiter(s);
    FlatMap(s, QuoteChar)
  }

  lemma {:induction false} QuoteAvoidsDelimiter(s: string)
    ensures '\U{01}' !in FlatMap(s, QuoteChar)
  {
    if '\U{01}' in FlatMap(s, QuoteChar) {
      FlatMapChars(s, QuoteChar, '\U{01}');
    }
  }

  /** De-quoting undoes quoting, for every text. */
  lemma {:induction false} DequoteQuote(s: string)
    ensures Dequote(Quote(s)) == s
    decreases |s|
  {
    if |s| > 0 {
      var x, t := s[0], s[1..];
      assert s == [x] + t;
      FlatMapAppend([x], t, QuoteChar);
      assert FlatMap([x], QuoteChar) == QuoteChar(x) + FlatMap([], QuoteChar);
      var q := FlatMap(t, QuoteChar);
      DequoteQuote(t);
      assert Quote(s) == QuoteChar(x) + q;
      if x == '\U{01}' || x == '\\' {
        assert (QuoteChar(x) + q)[2..] == q;
      } else {
        assert (QuoteChar(x) + q)[1..] == q;
      }
    }
  }

  /** A backslash before a character other than `a` stands for that
      character, and a trailing lone backslash vanishes. */
  lemma DequoteRules(x: char, rest: string)
    ensures x != 'a' ==> Dequote(['\\', x] + rest) == [x] + Dequote(rest)
    ensures Dequote("\\") == ""
  {
    assert (['\\', x] + rest)[2..] == rest;
  }

  /** The verbs whose body `ctcp_unpack_message` reads. */
  predicate IsMessageVerb(verb: string)
  {
    verb == "privmsg" || verb == "pubmsg" || verb == "privnotice" || verb == "pubnotice"
  }

  /** The event name a CTCP segment of a message of this verb gets. */
  function CtcpName(verb: string): string
  {
    if verb == "privnotice" || verb == "pubnotice" then "ctcp_reply" else "ctcp"
  }

  /** A CTCP segment, left-stripped, split at its first space into the CTCP
      verb and its text (empty when there is no space). */
  function CtcpSplit(seg: string): (r: (string, string))
    ensures ' ' !in r.0
    ensures LStrip(seg) == (if ' ' in LStrip(seg) then r.0 + " " + r.1 else r.0)
    ensures ' ' !in LStrip(seg) ==> r.1 == ""
  {
    var body := LStrip(seg);
    if ' ' in body then SplitFirst(body, ' ') else (body, "")
  }

  /** Segment `i` of a message body split at `\x01`, as an event: an even
      (plain) segment keeps the target and itself as parameters and is
      dropped when empty; an odd segment is a CTCP. De-quoting is applied
      to the CTCP verb and text of a `ctcp` event and to the parameters of
      every other event. */
  function SegmentEvent(info: Info, i: nat, seg: string): (r: Option<Event>)
    requires |info.params| >= 1 && IsMessageVerb(info.verb)
    ensures r.None? <==> i % 2 == 0 && seg == ""
    ensures r.Some? && i % 2 == 0 ==>
      r.value == Event(info.verb, info.(params := DequoteAll([info.params[0], seg])))
    ensures r.Some? && i % 2 == 1 ==> r.value.name == CtcpName(info.verb) && r.value.info.verb == r.value.name
    ensures r.Some? && i % 2 == 1 && r.value.name == "ctcp" ==>
      r.value.info == info.(verb := "ctcp",
        ctcp := Some((Dequote(Lower(CtcpSplit(seg).0)), Dequote(CtcpSplit(seg).1))))
    ensures r.Some? && i % 2 == 1 && r.value.name == "ctcp_reply" ==>
      r.value.info == info.(verb := "ctcp_reply", params := DequoteAll(info.params),
        ctcp := Some((Lower(CtcpSplit(seg).0), CtcpSplit(seg).1)))
  {
    if i % 2 == 0 then
      if seg == "" then None
      else Some(DequoteEvent(Event(info.verb, info.(params := [info.params[0], seg]))))
    else
      var name := CtcpName(info.verb);
      var (v, t) := CtcpSplit(seg);
      Some(DequoteEvent(Event(name, info.(verb := name, ctcp := Some((Lower(v), t))))))
  }

  /** The de-quoting pass over one unpacked event. */
  function DequoteEvent(e: Event): (r: Event)
  {
    if e.name == "ctcp" && e.info.ctcp.Some? then
      var (v, t) := e.info.ctcp.value;
      e.(info := e.info.(ctcp := Some((Dequote(v), Dequote(t)))))
    else e.(info := e.info.(params := DequoteAll(e.info.params)))
  }

  /** The loop over the segments, in order, dropping empty plain ones. */
  function UnpackSegments(info: Info, segs: seq<string>): (r: seq<Event>)
    requires |info.params| >= 1 && IsMessageVerb(info.verb)
    ensures |r| <= |segs|
    ensures forall k :: 0 <= k < |r| ==> r[k].name == info.verb || r[k].name == CtcpName(info.verb)
    decreases |segs|
  {
    if |segs| == 0 then []
    else
      var init := UnpackSegments(info, segs[..|segs| - 1]);
      match SegmentEvent(info, |segs| - 1, segs[|segs| - 1])
      case None => init
      case Some(e) => init + [e]
  }

  /** `ctcp_unpack_message`: the body is `params[1]`, split at `\x01`. */
  function Unpack(info: Info): (r: Result<seq<Event>>)
    requires IsMessageVerb(info.verb)
    ensures r.Failure? <==> |info.params| < 2
    ensures r.Success? ==> forall k :: 0 <= k < |r.value| ==>
      r.value[k].name == info.verb || r.value[k].name == CtcpName(info.verb)
  {
    if |info.params| < 2 then Failure(IndexError("list index out of range"))
    else Success(UnpackSegments(info, Split(info.params[1], '\U{01}')))
  }

  /** When no segment is dropped, event `k` is segment `k`: order is kept. */
  lemma UnpackSegmentsInOrder(info: Info, segs: seq<string>)
    requires |info.params| >= 1 && IsMessageVerb(info.verb)
    requires forall j :: 0 <= j < |segs| ==> SegmentEvent(info, j, segs[j]).Some?
    ensures |UnpackSegments(info, segs)| == |segs|
    ensures forall k :: 0 <= k < |segs| ==> UnpackSegments(info, segs)[k] == SegmentEvent(info, k, segs[k]).value
  {
    var xs := SegmentEvents(info, segs);
    UnpackIsSomes(info, segs);
    SomesAll(xs);
  }

  /** The event of each segment, by position. */
  function SegmentEvents(info: Info, segs: seq<string>): (r: seq<Option<Event>>)
    requires |info.params| >= 1 && IsMessageVerb(info.verb)
    ensures |r| == |segs|
    ensures forall j :: 0 <= j < |segs| ==> r[j] == SegmentEvent(info, j, segs[j])
  {
    seq(|segs|, j requires 0 <= j < |segs| => SegmentEvent(info, j, segs[j]))
  }

  /** The present values, in order. */
  function Somes<T>(xs: seq<Option<T>>): (r: seq<T>)
    decreases |xs|
  {
    if |xs| == 0 then []
    else Somes(xs[..|xs| - 1]) + (if xs[|xs| - 1].Some? then [xs[|xs| - 1].value] else [])
  }

  /** With nothing absent, every value keeps its position. */
  lemma {:induction false} SomesAll<T>(xs: seq<Option<T>>)
    requires forall j :: 0 <= j < |xs| ==> xs[j].Some?
    ensures |Somes(xs)| == |xs|
    ensures forall k :: 0 <= k < |xs| ==> Somes(xs)[k] == xs[k].value
    decreases |xs|
  {
    if |xs| > 0 {
      SomesAll(xs[..|xs| - 1]);
    }
  }

  /** Unpacking keeps the events of the segments that have one. */
  lemma {:induction false} UnpackIsSomes(info: Info, segs: seq<string>)
    requires |info.params| >= 1 && IsMessageVerb(info.verb)
    ensures UnpackSegments(info, segs) == Somes(SegmentEvents(info, segs))
    decreases |segs|
  {
    if |segs| > 0 {
      var n := |segs| - 1;
      var xs := SegmentEvents(info, segs);
      UnpackIsSomes(info, segs[..n]);
      assert SegmentEvents(info, segs[..n]) == xs[..n];
    }
  }

  /** A body without `\x01` is one plain event addressed like the message,
      or none at all when the body is empty. */
  lemma UnpackPlain(info: Info)
    requires IsMessageVerb(info.verb) && |info.params| >= 2 && '\U{01}' !in info.params[1]
    ensures Unpack(info).Success?
    ensures info.params[1] == "" ==> Unpack(info).value == []
    ensures info.params[1] != "" ==>
      Unpack(info).value == [Event(info.verb, info.(params := [Dequote(info.params[0]), Dequote(info.params[1])]))]
  {
    var body := info.params[1];
    SplitNoSep(body, '\U{01}');
    assert [body][..0] == [];
    assert DequoteAll([info.params[0], body]) == [Dequote(info.params[0]), Dequote(body)];
    assert UnpackSegments(info, [body]) ==
      UnpackSegments(info, []) + (if body == "" then [] else [SegmentEvent(info, 0, body).value]);
  }

  /** A body that is exactly one delimited CTCP `verb text` yields exactly
      one CTCP event; for a `ctcp` event the verb comes back lower-cased
      and the text comes back de-quoted. */
  lemma UnpackCtcp(info: Info, verb: string, text: string)
    requires IsMessageVerb(info.verb) && |info.params| >= 2
    requires info.params[1] == "\U{01}" + verb + " " + text + "\U{01}"
    requires verb != "" && !IsSpace(verb[0]) && ' ' !in verb && '\U{01}' !in verb
    requires '\U{01}' !in text
    ensures Unpack(info).Success? && |Unpack(info).value| == 1
    ensures Unpack(info).value[0].name == CtcpName(info.verb)
    ensures Unpack(info).value[0].info.verb == CtcpName(info.verb)
    ensures CtcpName(info.verb) == "ctcp" ==>
      Unpack(info).value[0].info.ctcp == Some((Dequote(Lower(verb)), Dequote(text)))
  {
    var body := verb + " " + text;
    assert info.params[1] == "\U{01}" + body + "\U{01}";
    CtcpSegments(body);
    CtcpBody(verb, text);
    UnpackOneCtcp(info, body);
    assert Unpack(info).value == [SegmentEvent(info, 1, body).value];
  }

  /** A body delimited by `\x01` on both sides splits into one odd
      segment between two empty ones. */
  lemma CtcpSegments(body: string)
    requires '\U{01}' !in body
    ensures Split("\U{01}" + body + "\U{01}", '\U{01}') == ["", body, ""]
  {
    assert "\U{01}" + body + "\U{01}" == "" + ['\U{01}'] + (body + ['\U{01}'] + "");
    SplitAppend("", body + ['\U{01}'] + "", '\U{01}');
    SplitAppend(body, "", '\U{01}');
    SplitNoSep("", '\U{01}');
    SplitNoSep(body, '\U{01}');
  }

  /** `verb text` splits at its first space into the verb and the text. */
  lemma CtcpBody(verb: string, text: string)
    requires verb != "" && !IsSpace(verb[0]) && ' ' !in verb
    ensures CtcpSplit(verb + " " + text) == (verb, text)
  {
    var body := verb + " " + text;
    assert body[0] == verb[0];
    assert LStrip(body) == body;
    assert body == verb + [' '] + text;
    SplitFirstOf(verb, text, ' ');
  }

  /** One odd segment between two empty ones gives exactly its event. */
  lemma UnpackOneCtcp(info: Info, body: string)
    requires |info.params| >= 1 && IsMessageVerb(info.verb)
    ensures UnpackSegments(info, ["", body, ""]) == [SegmentEvent(info, 1, body).value]
  {
    UnpackSnoc(info, [], "");
    assert [] + [""] == [""];
    UnpackSnoc(info, [""], body);
    assert [""] + [body] == ["", body];
    UnpackSnoc(info, ["", body], "");
    assert ["", body] + [""] == ["", body, ""];
  }

  /** Unpacking one more segment appends its event, if it has one. */
  lemma UnpackSnoc(info: Info, segs: seq<string>, x: string)
    requires |info.params| >= 1 && IsMessageVerb(info.verb)
    ensures var e := SegmentEvent(info, |segs|, x);
      UnpackSegments(info, segs + [x]) == UnpackSegments(info, segs) + (if e.Some? then [e.value] else [])
  {
    assert (segs + [x])[..|segs|] == segs;
  }

  /* ---------------------------------------------------- parameter table */

  /** One row of `_verb_param_map`: the attribute, the parameter index and
      the verbs that take that parameter as that attribute. */
  datatype Slot = Slot(attr: string, index: nat, verbs: seq<string>)

  /** `_verb_param_map`, flattened in iteration order, one row per
      attribute and index. */
  const ParamMap: seq<Slot> := [
    TargetRow, ModeTargetRow, NewNickRow, NickRow,
    UserRow, InfoRow, MessageRow, ChannelRow,
    SecondChannelRow, ThirdChannelRow, TopicRow, NamesRow,
    TimestampRow, ReasonRow, ChannelsRow
  ]

  const TargetRow := Slot("target", 0, ["privmsg", "pubmsg", "privnotice", "pubnotice", "ctcp",
    "umode", "cmode", "nosuchservice", "ctcp_reply", "targettoofast"])
  const ModeTargetRow := Slot("target", 1, ["cmodeis"])
  const NewNickRow := Slot("new_nick", 0, ["nick"])
  const NickRow := Slot("nick", 0, ["welcome"])
  const UserRow := Slot("user", 0, ["kick"])
  const InfoRow := Slot("escaped_message", 0, ["info", "endofinfo", "motdstart", "motd", "endofmotd",
    "youreoper", "adminloc1", "adminloc2", "adminemail", "quit"])
  const MessageRow := Slot("escaped_message", 1, ["privmsg", "pubmsg", "privnotice", "pubnotice",
    "nosuchnick", "nosuchserver", "nosuchchannel", "nosuchservice", "targettoofast", "kick", "welcome"])
  const ChannelRow := Slot("channel", 0, ["cannotsendtochan", "topic", "cmode"])
  const SecondChannelRow := Slot("channel", 1, ["endofnames", "cmodeis", "chancreatetime"])
  const ThirdChannelRow := Slot("channel", 2, ["namreply"])
  const TopicRow := Slot("topic", 1, ["topic"])
  const NamesRow := Slot("names", 3, ["namreply"])
  const TimestampRow := Slot("timestamp", 2, ["chancreatetime"])
  const ReasonRow := Slot("escaped_reason", 1, ["cannotsendtochan"])
  const ChannelsRow := Slot("channels", 0, ["join", "part"])

  /** The attribute a row writes and whether its value is escaped: an
      `escaped_` name loses its leading run of the characters of
      `escaped_` (Python's `lstrip`, which strips characters, not a
      prefix). */
  function AttrName(attr: string): (string, bool)
  {
    if StartsWith(attr, "escaped_") then (LStripChars(attr, "escaped_"), true) else (attr, false)
  }

  /** For the two escaped rows the character strip happens to leave the
      intended names. */
  lemma EscapedAttrNames()
    ensures AttrName("escaped_message") == ("message", true)
    ensures AttrName("escaped_reason") == ("reason", true)
  {
    var message, reason := "message", "reason";
    EscapedName(message);
    EscapedName(reason);
    assert "escaped_" + message == "escaped_message";
    assert "escaped_" + reason == "escaped_reason";
  }

  /** An `escaped_` row whose remaining name starts with a letter outside
      `escaped_` writes that name. */
  lemma EscapedName(rest: string)
    requires |rest| > 0 && rest[0] !in "escaped_"
    ensures AttrName("escaped_" + rest) == (rest, true)
  {
    var run := "escaped_";
    assert forall i :: 0 <= i < |run| ==> run[i] in run;
    LStripCharsRun(run, rest, run);
    assert (run + rest)[..8] == run;
  }

  /** A row applies when the event's name is listed and the parameter
      exists. */
  predicate Fires(slot: Slot, name: string, params: seq<string>)
  {
    |params| > slot.index && name in slot.verbs
  }

  /** The value a row writes: the parameter, escaped for `escaped_` rows. */
  function SlotValue(slot: Slot, params: seq<string>): string
    requires |params| > slot.index
  {
    var v := params[slot.index];
    if AttrName(slot.attr).1 then Formatting.Escape(v) else v
  }

  /** The attribute loop over the rows, in order. */
  function Extract(slots: seq<Slot>, name: string, params: seq<string>, attrs: map<string, string>)
    : (r: map<string, string>)
    decreases |slots|
  {
    if |slots| == 0 then attrs
    else
      var a := Extract(slots[..|slots| - 1], name, params, attrs);
      var s := slots[|slots| - 1];
      if Fires(s, name, params) then a[AttrName(s.attr).0 := SlotValue(s, params)] else a
  }

  /** The last row that fires and writes `key`, if any. */
  function LastWriter(slots: seq<Slot>, name: string, params: seq<string>, key: string): (r: Option<nat>)
    ensures r.Some? ==>
      r.value < |slots| && Fires(slots[r.value], name, params) && AttrName(slots[r.value].attr).0 == key
    ensures r.Some? ==> forall j :: r.value < j < |slots| ==>
      !(Fires(slots[j], name, params) && AttrName(slots[j].attr).0 == key)
    ensures r.None? ==> forall j :: 0 <= j < |slots| ==>
      !(Fires(slots[j], name, params) && AttrName(slots[j].attr).0 == key)
  {
    LastWhere(slots, s => Fires(s, name, params) && AttrName(s.attr).0 == key)
  }

  lemma LastWriterSnoc(slots: seq<Slot>, name: string, params: seq<string>, key: string)
    requires |slots| > 0
    ensures var s := slots[|slots| - 1];
      LastWriter(slots, name, params, key) ==
        if Fires(s, name, params) && AttrName(s.attr).0 == key then Some(|slots| - 1)
        else LastWriter(slots[..|slots| - 1], name, params, key)
  {
  }

  /** An attribute is set exactly when some row for it fires, and it holds
      the value of the last such row; attributes no row writes are kept. */
  lemma {:induction false} ExtractGet(slots: seq<Slot>, name: string, params: seq<string>,
                                      attrs: map<string, string>, key: string)
    ensures var r := Extract(slots, name, params, attrs);
      match LastWriter(slots, name, params, key)
      case Some(j) => key in r && r[key] == SlotValue(slots[j], params)
      case None => (key in r <==> key in attrs) && (key in attrs ==> r[key] == attrs[key])
    decreases |slots|
  {
    if |slots| > 0 {
      ExtractGet(slots[..|slots| - 1], name, params, attrs, key);
      LastWriterSnoc(slots, name, params, key);
    }
  }

  /** A private or public message gets `target` from its first parameter
      and the escaped text as `message`, and nothing else. */
  lemma ExtractMessage(name: string, target: string, text: string)
    requires IsMessageVerb(name)
    ensures Extract(ParamMap, name, [target, text], map[]) ==
      map["target" := target, "message" := Formatting.Escape(text)]
  {
    LateRowsQuiet(name);
    ExtractFirstRows(name, target, text);
    ExtractQuiet(ParamMap, 7, name, [target, text], map[]);
  }

  /** A message whose text is the escape placeholder: the table keeps the
      text, while girc's own `escape`, which the written loop applies,
      turns it into `$$`. */
  lemma ExtractPlaceholder(name: string, target: string)
    requires IsMessageVerb(name)
    ensures var attrs := Extract(ParamMap, name, [target, Formatting.Placeholder], map[]);
      "message" in attrs && attrs["message"] == Formatting.Placeholder
    ensures Formatting.EscapeAsWritten(Formatting.Placeholder) == "$$"
  {
    ExtractMessage(name, target, Formatting.Placeholder);
    Formatting.PlaceholderCollision();
  }

  /** The first seven rows of the table, for a message verb. */
  lemma ExtractFirstRows(name: string, target: string, text: string)
    requires IsMessageVerb(name)
    ensures Extract(ParamMap[..7], name, [target, text], map[]) ==
      map["target" := target, "message" := Formatting.Escape(text)]
  {
    ExtractTargetRows(name, target, text);
    MessageRowWrites(name, target, text);
    ExtractStep(ParamMap, 6, name, [target, text], map[]);
  }

  /** The second `message` row writes the escaped text of a message verb. */
  lemma MessageRowWrites(name: string, target: string, text: string)
    requires IsMessageVerb(name)
    ensures ParamMap[6] == MessageRow && Fires(MessageRow, name, [target, text])
    ensures AttrName(MessageRow.attr).0 == "message"
    ensures SlotValue(MessageRow, [target, text]) == Formatting.Escape(text)
  {
    assert ParamMap[6] == MessageRow;
    assert Fires(MessageRow, name, [target, text]) by {
      MessageRows(name);
    }
    assert SlotValue(MessageRow, [target, text]) == Formatting.Escape(text) && AttrName(MessageRow.attr).0 == "message" by {
      EscapedAttrNames();
    }
  }

  /** The first six rows of the table, for a message verb: only `target`. */
  lemma ExtractTargetRows(name: string, target: string, text: string)
    requires IsMessageVerb(name)
    ensures Extract(ParamMap[..6], name, [target, text], map[]) == map["target" := target]
  {
    MessageRows(name);
    EarlyRowsQuiet(name);
    var params := [target, text];
    ExtractStep(ParamMap, 0, name, params, map[]);
    assert ParamMap[..0] == [];
    ExtractQuiet(ParamMap[..6], 1, name, params, map[]);
    assert ParamMap[..6][..1] == ParamMap[..1];
  }

  /** The message verbs are listed in the `target` row and the second
      `message` row. */
  lemma MessageRows(name: string)
    requires IsMessageVerb(name)
    ensures name in TargetRow.verbs && name in MessageRow.verbs
  {
  }

  /** Rows 1 to 5 list no message verb. */
  lemma EarlyRowsQuiet(name: string)
    requires IsMessageVerb(name)
    ensures forall j :: 1 <= j < 6 ==> name !in ParamMap[j].verbs
  {
    assert name !in ModeTargetRow.verbs && name !in NewNickRow.verbs;
    assert name !in NickRow.verbs && name !in UserRow.verbs;
    InfoRowQuiet(name);
  }

  /** The numerics of the message-text row are no message verbs. */
  lemma InfoRowQuiet(name: string)
    requires IsMessageVerb(name)
    ensures name !in InfoRow.verbs
  {
  }

  /** Rows 7 onwards list no message verb. */
  lemma LateRowsQuiet(name: string)
    requires IsMessageVerb(name)
    ensures forall j :: 7 <= j < |ParamMap| ==> name !in ParamMap[j].verbs
  {
    assert name !in ChannelRow.verbs && name !in SecondChannelRow.verbs;
    assert name !in ThirdChannelRow.verbs && name !in TopicRow.verbs;
    assert name !in NamesRow.verbs && name !in TimestampRow.verbs;
    assert name !in ReasonRow.verbs && name !in ChannelsRow.verbs;
  }

  /** One more row: the attributes after `k + 1` rows from those after `k`. */
  lemma ExtractStep(slots: seq<Slot>, k: nat, name: string, params: seq<string>, attrs: map<string, string>)
    requires k < |slots|
    ensures Extract(slots[..k + 1], name, params, attrs) ==
      var a := Extract(slots[..k], name, params, attrs);
      if Fires(slots[k], name, params) then a[AttrName(slots[k].attr).0 := SlotValue(slots[k], params)] else a
  {
    assert slots[..k + 1][..k] == slots[..k];
  }

  /** Rows from `from` on that do not fire leave the attributes as the
      earlier rows set them. */
  lemma {:induction false} ExtractQuiet(slots: seq<Slot>, from: nat, name: string, params: seq<string>,
                                        attrs: map<string, string>)
    requires from <= |slots|
    requires forall j :: from <= j < |slots| ==> !Fires(slots[j], name, params)
    ensures Extract(slots, name, params, attrs) == Extract(slots[..from], name, params, attrs)
    decreases |slots|
  {
    if |slots| > from {
      var init := slots[..|slots| - 1];
      assert forall j :: from <= j < |init| ==> init[j] == slots[j];
      ExtractQuiet(init, from, name, params, attrs);
      assert init[..from] == slots[..from];
    } else {
      assert slots[..from] == slots;
    }
  }

  /* ------------------------------------------------------------ modes */

  /** The arguments a mode event parses: `params[1:]` for `umode` and
      `cmode`, `params[2:]` for `cmodeis`. */
  function ModeArgs(name: string, params: seq<string>): seq<string>
  {
    if name == "cmodeis" then (if |params| > 2 then params[2..] else [])
    else if |params| > 1 then params[1..] else []
  }

  /** Whether an event parses a mode string: `umode` and `cmode` with more
      than one parameter, `cmodeis` with more than two. */
  predicate ParsesModes(name: string, params: seq<string>)
  {
    ((name == "umode" || name == "cmode") && |params| > 1) || (name == "cmodeis" && |params| > 2)
  }

  /** The mode classes an event parses with: the defaults for user modes,
      the server's CHANMODES for channel modes. */
  function ModeTypes(srv: Server, name: string): Option<seq<string>>
  {
    if name == "umode" then None else srv.chanmodes
  }

  /** The mode attributes. A `umode` or `cmode` with a mode string parses
      its arguments (user modes with the default classes, channel modes
      with the server's CHANMODES, neither with prefixes) and records them
      joined by spaces and stripped; a `cmodeis` without one records no
      modes; any other event has none. */
  function Modes(srv: Server, name: string, params: seq<string>): (r: Result<Option<ModeInfo>>)
    ensures name != "umode" && name != "cmode" && name != "cmodeis" ==> r == Success(None)
    ensures (name == "umode" || name == "cmode") && |params| <= 1 ==> r == Success(None)
    ensures name == "cmodeis" && |params| <= 2 ==> r == Success(Some(ModeInfo("", [])))
    ensures r.Failure? <==> ParsesModes(name, params) && ParseModes(ModeArgs(name, params), ModeTypes(srv, name), "").Failure?
    ensures ParsesModes(name, params) && r.Success? ==>
      && r.value.Some? && ModeArgs(name, params) != []
      && r.value.value.modestring == Strip(Join(ModeArgs(name, params), " "))
      && ParseModes(ModeArgs(name, params), ModeTypes(srv, name), "") == Success(r.value.value.modes)
  {
    var args := ModeArgs(name, params);
    if (name == "umode" || name == "cmode") && |params| > 1 then
      var modes :- ParseModes(args, if name == "umode" then None else srv.chanmodes, "");
      Success(Some(ModeInfo(Strip(Join(args, " ")), modes)))
    else if name == "cmodeis" then
      if |params| > 2 then
        var modes :- ParseModes(args, srv.chanmodes, "");
        Success(Some(ModeInfo(Strip(Join(args, " ")), modes)))
      else Success(Some(ModeInfo("", [])))
    else Success(None)
  }

  /** A user mode change parses without consuming any argument: every mode
      letter comes with no value. */
  lemma UserModesTakeNoArgs(srv: Server, params: seq<string>)
    requires |params| > 1 && params[1] != "" && IsSign(params[1][0])
    ensures Modes(srv, "umode", params).Success?
    ensures forall i :: 0 <= i < |Modes(srv, "umode", params).value.value.modes| ==>
      Modes(srv, "umode", params).value.value.modes[i].value.None?
  {
    ParseModesDefault(params[1..]);
  }

  /* ---------------------------------------------------------- from_to */

  /** What `from_to` is read from, if the verb has one: the source of an
      incoming private message or notice, else the target. The outer
      `None` means no `from_to`; an inner `None` is a missing attribute. */
  function FromToPick(info: Info): Option<Option<string>>
  {
    var target := if "target" in info.attrs then Some(info.attrs["target"]) else None;
    if info.verb == "privmsg" || info.verb == "privnotice" then
      Some(if info.direction == In then info.source else target)
    else if info.verb == "pubmsg" || info.verb == "pubnotice" then Some(target)
    else None
  }

  /** `from_to` as evidently intended: the picked entity, dropped when it
      resolves to a server. A missing or empty pick stays unresolved and
      has no `is_server` attribute. */
  function FromTo(chantypes: string, info: Info): (r: Result<Option<string>>)
    ensures FromToPick(info).None? ==> r == Success(None)
    ensures r.Failure? <==> FromToPick(info) == Some(None) || FromToPick(info) == Some(Some(""))
    ensures r.Success? && r.value.Some? ==>
      FromToPick(info) == Some(r.value) && Classify(chantypes, r.value.value) != ServerEntity
    ensures r.Success? && r.value.None? && FromToPick(info).Some? ==>
      Classify(chantypes, FromToPick(info).value.value) == ServerEntity
  {
    match FromToPick(info)
    case None => Success(None)
    case Some(None) => Failure(AttributeError("'NoneType' object has no attribute 'is_server'"))
    case Some(Some(name)) =>
      if name == "" then Failure(AttributeError("'str' object has no attribute 'is_server'"))
      else if Classify(chantypes, name) == ServerEntity then Success(None)
      else Success(Some(name))
  }

  /** `from_to` is the other party of a private exchange and the channel of
      a public one: the source of what comes in, the target of what goes
      out, and the target of a public message either way. */
  lemma FromToParty(chantypes: string, info: Info, party: string)
    requires party != "" && Classify(chantypes, party) != ServerEntity
    requires (info.verb == "privmsg" || info.verb == "privnotice") && info.direction == In ==>
      info.source == Some(party)
    requires (info.verb == "privmsg" || info.verb == "privnotice") && info.direction == Out ==>
      "target" in info.attrs && info.attrs["target"] == party
    requires info.verb == "pubmsg" || info.verb == "pubnotice" ==>
      "target" in info.attrs && info.attrs["target"] == party
    ensures IsMessageVerb(info.verb) ==> FromTo(chantypes, info) == Success(Some(party))
    ensures !IsMessageVerb(info.verb) ==> FromTo(chantypes, info) == Success(None)
  {
  }

  /** `from_to` as written: the removal test reads `is_server`, which none
      of the User, Channel and Server records defines, so every event that
      picks a `from_to` raises. */
  function FromToAsWritten(chantypes: string, info: Info): (r: Result<Option<string>>)
    ensures r.Failure? <==> FromToPick(info).Some?
  {
    if FromToPick(info).Some? then Failure(AttributeError("object has no attribute 'is_server'"))
    else Success(None)
  }

  /** An incoming private message from a user: the written pipeline raises
      where the intended one names the sender. */
  lemma FromToDiscrepancy(chantypes: string, info: Info, nick: string)
    requires info.verb == "privmsg" && info.direction == In && info.source == Some(nick)
    requires nick != "" && nick[0] !in chantypes && '.' !in nick
    ensures FromToAsWritten(chantypes, info).Failure?
    ensures FromTo(chantypes, info) == Success(Some(nick))
  {
  }

  /* ------------------------------------------------ entity resolution */

  /** The names the written resolution step turns into entities: the
      message's `source`, then the `target` and `channel` attributes, each
      when present and non-empty. */
  function ResolvedNames(info: Info): (r: seq<string>)
    ensures forall k :: 0 <= k < |r| ==> r[k] != ""
    ensures info.source.Some? && info.source.value != "" ==> info.source.value in r
    ensures forall a :: a in {"target", "channel"} && a in info.attrs && info.attrs[a] != "" ==> info.attrs[a] in r
    ensures forall n :: n in r ==>
      || info.source == Some(n)
      || ("target" in info.attrs && info.attrs["target"] == n)
      || ("channel" in info.attrs && info.attrs["channel"] == n)
  {
    var source := if info.source.Some? && info.source.value != "" then [info.source.value] else [];
    var target := if "target" in info.attrs && info.attrs["target"] != "" then [info.attrs["target"]] else [];
    var channel := if "channel" in info.attrs && info.attrs["channel"] != "" then [info.attrs["channel"]] else [];
    source + target + channel
  }

  /** The method of `Info` a name of the given kind is created through. */
  function Creator(kind: EntityKind): string
  {
    match kind
    case ChannelEntity => "create_channel"
    case ServerEntity => "create_server"
    case UserEntity => "create_user"
  }

  /** Whether `Info` defines the creator of an entity kind: it has
      `create_user` but neither `create_channel` nor `create_server`. */
  predicate Creatable(kind: EntityKind)
  {
    Creator(kind) == "create_user"
  }

  /** Creating entities of the given kinds in order: the first kind whose
      creator `Info` lacks raises AttributeError naming that creator. */
  function CreateAll(kinds: seq<EntityKind>): (r: Result<()>)
    ensures r.Failure? <==> exists k :: 0 <= k < |kinds| && !Creatable(kinds[k])
    ensures r.Failure? ==> exists k ::
      && 0 <= k < |kinds|
      && (forall j :: 0 <= j < k ==> Creatable(kinds[j]))
      && !Creatable(kinds[k])
      && r.error == AttributeError("'Info' object has no attribute '" + Creator(kinds[k]) + "'")
    decreases |kinds|
  {
    if |kinds| == 0 then Success(())
    else if !Creatable(kinds[0]) then Failure(AttributeError("'Info' object has no attribute '" + Creator(kinds[0]) + "'"))
    else CreateAll(kinds[1..])
  }

  /** The kind of each of a sequence of non-empty names. */
  function Kinds(chantypes: string, names: seq<string>): (r: seq<EntityKind>)
    requires forall k :: 0 <= k < |names| ==> names[k] != ""
    ensures |r| == |names| && forall k :: 0 <= k < |names| ==> r[k] == Classify(chantypes, names[k])
  {
    seq(|names|, k requires 0 <= k < |names| => Classify(chantypes, names[k]))
  }

  /** The entity steps of the written pipeline for one event, after the
      parameter table: `namreply` reads `params[2]` (IndexError when it is
      missing) and creates it through `create_channel`; then the source,
      target and channel are resolved; then each entry of a non-empty
      `channels` attribute goes through `create_channel`. As `Info` has no
      `create_channel` and no `create_server`, only an event whose names all
      resolve to users gets through. */
  function ResolveAsWritten(chantypes: string, name: string, info: Info): (r: Result<()>)
    ensures r.Success? <==>
      && name != "namreply"
      && (forall n :: n in ResolvedNames(info) ==> Classify(chantypes, n) == UserEntity)
      && !("channels" in info.attrs && info.attrs["channels"] != "")
    ensures r.Failure? && name == "namreply" ==> (r.error.IndexError? <==> |info.params| < 3)
  {
    if name == "namreply" then
      if |info.params| < 3 then Failure(IndexError("list index out of range"))
      else Failure(AttributeError("'Info' object has no attribute 'create_channel'"))
    else
      var _ :- CreateAll(Kinds(chantypes, ResolvedNames(info)));
      if "channels" in info.attrs && info.attrs["channels"] != "" then
        Failure(AttributeError("'Info' object has no attribute 'create_channel'"))
      else Success(())
  }

  /** A public message to a channel: the intended processing goes through
      and names the channel as `from_to`, while the written resolution
      raises on the channel. */
  lemma ResolveDiscrepancy(srv: Server, e: Event, chan: string, text: string)
    requires e.name == "pubmsg" && e.info.verb == "pubmsg"
    requires e.info.params == [chan, text] && e.info.attrs == map[]
    requires chan != "" && chan[0] in srv.chantypes
    ensures Process(srv, e).Success? && Process(srv, e).value.info.fromTo == Some(chan)
    ensures ResolveAsWritten(srv.chantypes, e.name, Process(srv, e).value.info).Failure?
  {
    var attrs := Extract(ParamMap, e.name, e.info.params, e.info.attrs);
    ExtractMessage("pubmsg", chan, text);
    assert attrs["target"] == chan;
    assert chan in ResolvedNames(e.info.(attrs := attrs));
  }

  /* --------------------------------------------------------- pipeline */

  /** The work on one event: the parameter table, the nick of `welcome`
      (which raises KeyError when the reply has no parameter), the mode
      attributes and `from_to`. It fails exactly when one of the three
      raises; the mode attributes and `from_to` are those the two steps
      compute, and the message's own fields are kept. */
  function Process(srv: Server, e: Event): (r: Result<Event>)
    ensures var attrs := Extract(ParamMap, e.name, e.info.params, e.info.attrs);
      r.Failure? <==>
        || (e.name == "welcome" && "nick" !in attrs)
        || Modes(srv, e.name, e.info.params).Failure?
        || FromTo(srv.chantypes, e.info.(attrs := attrs)).Failure?
    ensures r.Success? ==> r.value.name == e.name
    ensures r.Success? ==>
      r.value.info.attrs == Extract(ParamMap, e.name, e.info.params, e.info.attrs)
    ensures r.Success? ==>
      && r.value.info.verb == e.info.verb && r.value.info.params == e.info.params
      && r.value.info.source == e.info.source && r.value.info.ctcp == e.info.ctcp
      && r.value.info.direction == e.info.direction && r.value.info.tags == e.info.tags
    ensures r.Success? && e.name == "welcome" ==> "nick" in r.value.info.attrs
    ensures r.Success? ==> var modes := Modes(srv, e.name, e.info.params).value;
      r.value.info.modes == (if modes.Some? then modes else e.info.modes)
    ensures r.Success? ==>
      Success(r.value.info.fromTo) == FromTo(srv.chantypes, e.info.(attrs := Extract(ParamMap, e.name, e.info.params, e.info.attrs)))
  {
    var attrs := Extract(ParamMap, e.name, e.info.params, e.info.attrs);
    if e.name == "welcome" && "nick" !in attrs then Failure(KeyError("nick"))
    else
      var modes :- Modes(srv, e.name, e.info.params);
      var info := e.info.(attrs := attrs);
      var fromTo :- FromTo(srv.chantypes, info);
      Success(Event(e.name, info.(modes := if modes.Some? then modes else e.info.modes, fromTo := fromTo)))
  }

  /** The loop over the events, stopping at the first that raises. */
  function ProcessAll(srv: Server, events: seq<Event>): (r: Result<seq<Event>>)
    ensures r.Success? ==> |r.value| == |events|
    ensures r.Success? ==> forall k :: 0 <= k < |events| ==> Process(srv, events[k]) == Success(r.value[k])
    ensures r.Success? ==> forall k :: 0 <= k < |events| ==> r.value[k].name == events[k].name
    ensures r.Failure? ==> exists k :: 0 <= k < |events| && Process(srv, events[k]).Failure?
    decreases |events|
  {
    if |events| == 0 then Success([])
    else
      var first :- Process(srv, events[0]);
      var rest :- ProcessAll(srv, events[1..]);
      Success([first] + rest)
  }

  /** The `action` event a `ctcp` ACTION adds: a copy whose `message` is
      the CTCP text. */
  function ActionOf(e: Event): (r: Event)
    requires e.info.ctcp.Some?
    ensures r.name == "action" && "message" in r.info.attrs && r.info.attrs["message"] == e.info.ctcp.value.1
    ensures r.info.verb == e.info.verb && r.info.ctcp == e.info.ctcp
  {
    Event("action", e.info.(attrs := e.info.attrs["message" := e.info.ctcp.value.1]))
  }

  predicate IsAction(e: Event)
  {
    e.name == "ctcp" && e.info.ctcp.Some? && e.info.ctcp.value.0 == "action"
  }

  /** The actions of a list of events, in order. */
  function Actions(events: seq<Event>): (r: seq<Event>)
    ensures |r| <= |events|
    ensures forall k :: 0 <= k < |r| ==> r[k].name == "action"
    ensures r == [] <==> forall j :: 0 <= j < |events| ==> !IsAction(events[j])
    decreases |events|
  {
    if |events| == 0 then []
    else
      var init := Actions(events[..|events| - 1]);
      var e := events[|events| - 1];
      if IsAction(e) then init + [ActionOf(e)] else init
  }

  /** One action per CTCP ACTION, in the order of the events: the actions
      of a concatenation are the concatenation of the actions. */
  lemma {:induction false} ActionsAppend(a: seq<Event>, b: seq<Event>)
    ensures Actions(a + b) == Actions(a) + Actions(b)
    decreases |b|
  {
    if |b| == 0 {
      assert a + b == a;
    } else {
      var init, last := b[..|b| - 1], b[|b| - 1];
      ActionsAppend(a, init);
      assert (a + b)[..|a + b| - 1] == a + init;
      assert (a + b)[|a + b| - 1] == last;
      var x := if IsAction(last) then [ActionOf(last)] else [];
      assert Actions(b) == Actions(init) + x;
      assert Actions(a + b) == Actions(a + init) + x;
    }
  }

  /** Every action is that of a CTCP ACTION among the events. */
  lemma {:induction false} ActionsFrom(events: seq<Event>)
    ensures forall k :: 0 <= k < |Actions(events)| ==>
      exists j :: 0 <= j < |events| && IsAction(events[j]) && Actions(events)[k] == ActionOf(events[j])
    decreases |events|
  {
    if |events| > 0 {
      var init := events[..|events| - 1];
      ActionsFrom(init);
      forall k | 0 <= k < |Actions(events)|
        ensures exists j :: 0 <= j < |events| && IsAction(events[j]) && Actions(events)[k] == ActionOf(events[j])
      {
        if k < |Actions(init)| {
          var j :| 0 <= j < |init| && IsAction(init[j]) && Actions(init)[k] == ActionOf(init[j]);
          assert events[j] == init[j];
        } else {
          assert Actions(events)[k] == ActionOf(events[|events| - 1]);
        }
      }
    } else {
      assert Actions(events) == [];
    }
  }

  /** A single event has one action if it is a CTCP ACTION and none
      otherwise. */
  lemma ActionsOne(e: Event)
    ensures Actions([e]) == if IsAction(e) then [ActionOf(e)] else []
  {
    assert [e][..0] == [];
  }

  /** The nick a `welcome` reply assigns to the connection, if any: that of
      the last `welcome` event carrying one. */
  function WelcomeNick(events: seq<Event>): (r: Option<string>)
    ensures r.Some? <==> exists k :: 0 <= k < |events| && events[k].name == "welcome" && "nick" in events[k].info.attrs
    ensures r.Some? ==> exists k ::
      && 0 <= k < |events| && events[k].name == "welcome" && "nick" in events[k].info.attrs
      && events[k].info.attrs["nick"] == r.value
      && forall j :: k < j < |events| ==> !(events[j].name == "welcome" && "nick" in events[j].info.attrs)
    decreases |events|
  {
    if |events| == 0 then None
    else
      var e := events[|events| - 1];
      if e.name == "welcome" && "nick" in e.info.attrs then Some(e.info.attrs["nick"])
      else WelcomeNick(events[..|events| - 1])
  }

  /** The events of one message and the nick a `welcome` sets. */
  datatype Outcome = Outcome(events: seq<Event>, nick: Option<string>)

  /** The events of a message before processing: the verb named and
      refined, and the body of a message or notice unpacked. A numeric
      verb, a refinable verb without a usable first parameter and a
      message or notice without a body raise. */
  function Unpacked(srv: Server, dir: Direction, m: Envelope.Message): (r: Result<seq<Event>>)
    ensures r.Failure? <==>
      || m.verb.Numeric?
      || Refine(srv.chantypes, VerbName(m.verb).value, m.params).Failure?
      || (IsMessageVerb(Refine(srv.chantypes, VerbName(m.verb).value, m.params).value) && |m.params| < 2)
    ensures r.Success? ==> var verb := Refine(srv.chantypes, VerbName(m.verb).value, m.params).value;
      && (forall k :: 0 <= k < |r.value| ==> r.value[k].name == verb || r.value[k].name == CtcpName(verb))
      && (!IsMessageVerb(verb) ==> |r.value| == 1 && r.value[0].info.params == m.params)
  {
    var verb :- VerbName(m.verb);
    var verb :- Refine(srv.chantypes, verb, m.params);
    var info := Info(dir, verb, m.source, m.params, m.tags, map[], None, None, None);
    if IsMessageVerb(verb) then Unpack(info) else Success([Event(verb, info)])
  }

  /** `message_to_event(direction, message)`: name and refine the verb,
      unpack the body of a message or notice, process every event, then
      the actions the CTCP events add, which come last. */
  function MessageToEvent(srv: Server, dir: Direction, m: Envelope.Message): (r: Result<Outcome>)
    ensures Unpacked(srv, dir, m).Failure? ==> r.Failure?
  {
    var events :- Unpacked(srv, dir, m);
    var done :- ProcessAll(srv, events);
    var actions :- ProcessAll(srv, Actions(done));
    Success(Outcome(done + actions, WelcomeNick(done)))
  }

  /** The stages of a `message_to_event` that returns: the unpacked
      events, the processed events and the processed actions. */
  lemma MessageToEventStages(srv: Server, dir: Direction, m: Envelope.Message)
    returns (events: seq<Event>, done: seq<Event>, actions: seq<Event>)
    requires MessageToEvent(srv, dir, m).Success?
    ensures Unpacked(srv, dir, m) == Success(events)
    ensures ProcessAll(srv, events) == Success(done)
    ensures ProcessAll(srv, Actions(done)) == Success(actions)
    ensures MessageToEvent(srv, dir, m).value == Outcome(done + actions, WelcomeNick(done))
  {
    events := Unpacked(srv, dir, m).value;
    done := ProcessAll(srv, events).value;
    actions := ProcessAll(srv, Actions(done)).value;
  }

  /** `message_to_event` raises when processing any unpacked event raises.
      When it returns, its events are the processed unpacked events, in
      order, followed by the processed actions of those among them that
      are CTCP ACTIONs. */
  lemma MessageToEventOrder(srv: Server, dir: Direction, m: Envelope.Message)
    ensures var u := Unpacked(srv, dir, m);
      u.Success? && ProcessAll(srv, u.value).Failure? ==> MessageToEvent(srv, dir, m).Failure?
    ensures var r := MessageToEvent(srv, dir, m);
      r.Success? ==> var n := |Unpacked(srv, dir, m).value|;
        && n <= |r.value.events|
        && ProcessAll(srv, Unpacked(srv, dir, m).value) == Success(r.value.events[..n])
        && ProcessAll(srv, Actions(r.value.events[..n])) == Success(r.value.events[n..])
  {
    if MessageToEvent(srv, dir, m).Success? {
      var events, done, actions := MessageToEventStages(srv, dir, m);
      assert (done + actions)[..|events|] == done && (done + actions)[|events|..] == actions;
    }
  }

  /** Every event of `message_to_event` is named by the refined verb, a
      CTCP name or `action`. */
  lemma MessageToEventNames(srv: Server, dir: Direction, m: Envelope.Message)
    ensures var r := MessageToEvent(srv, dir, m);
      r.Success? ==> var verb := Refine(srv.chantypes, VerbName(m.verb).value, m.params).value;
        forall k :: 0 <= k < |r.value.events| ==>
          r.value.events[k].name in {verb, "ctcp", "ctcp_reply", "action"}
  {
    if MessageToEvent(srv, dir, m).Success? {
      var events, done, actions := MessageToEventStages(srv, dir, m);
      assert forall k :: 0 <= k < |actions| ==> actions[k].name == Actions(done)[k].name;
      OutcomeNames(Refine(srv.chantypes, VerbName(m.verb).value, m.params).value, events, done, actions);
    }
  }

  /** `message_to_event` assigns a nick exactly when a `welcome` event is
      among its events, and the nick is that event's `nick`. */
  lemma MessageToEventNick(srv: Server, dir: Direction, m: Envelope.Message)
    ensures var r := MessageToEvent(srv, dir, m);
      r.Success? ==> (r.value.nick.Some? <==> exists k :: 0 <= k < |r.value.events| && r.value.events[k].name == "welcome")
    ensures var r := MessageToEvent(srv, dir, m);
      r.Success? && r.value.nick.Some? ==> exists k ::
        && 0 <= k < |r.value.events| && r.value.events[k].name == "welcome"
        && "nick" in r.value.events[k].info.attrs && r.value.events[k].info.attrs["nick"] == r.value.nick.value
  {
    if MessageToEvent(srv, dir, m).Success? {
      var events, done, actions := MessageToEventStages(srv, dir, m);
      assert forall k :: 0 <= k < |done| ==> done[k].name == "welcome" ==> "nick" in done[k].info.attrs by {
        forall k | 0 <= k < |done| && done[k].name == "welcome" ensures "nick" in done[k].info.attrs {
          assert Process(srv, events[k]) == Success(done[k]);
        }
      }
      assert forall k :: 0 <= k < |actions| ==> actions[k].name == Actions(done)[k].name;
      OutcomeNick(srv, done, actions);
    }
  }

  /* ------------------------------------------------ the written loop */

  /** The `welcome` step as written: it reads the `nick` attribute (KeyError
      when the reply has no parameter) and hands it to `server.istring`,
      whose `IString(in_string)` raises TypeError; so the step never gets
      through. */
  function WelcomeAsWritten(attrs: map<string, string>): (r: Result<()>)
    ensures r.Failure?
    ensures r.error.KeyError? <==> "nick" !in attrs
    ensures r.error.TypeError? <==> "nick" in attrs
  {
    if "nick" !in attrs then Failure(KeyError("nick"))
    else
      match IMapping.NewIStringAsWritten([attrs["nick"]])
      case Failure(err) => Failure(err)
      case Success(_) => Success(())
  }

  /** The written loop's work on one event, in its order: the parameter
      table, the `welcome` nick, the mode attributes, NAMES and entity
      resolution, then `from_to`. The first step that raises decides the
      error; `StepAsWrittenFails` states when that happens. */
  function StepAsWritten(srv: Server, e: Event): Result<()>
  {
    var attrs := Extract(ParamMap, e.name, e.info.params, e.info.attrs);
    var info := e.info.(attrs := attrs);
    if e.name == "welcome" then WelcomeAsWritten(attrs)
    else
      var _ :- Modes(srv, e.name, e.info.params);
      var _ :- ResolveAsWritten(srv.chantypes, e.name, info);
      var _ :- FromToAsWritten(srv.chantypes, info);
      Success(())
  }

  /** A written step raises exactly on a `welcome`, a failing mode parse, a
      name the written resolution cannot create, or a `from_to`; so it
      raises wherever the intended processing does. */
  lemma StepAsWrittenFails(srv: Server, e: Event)
    ensures var info := e.info.(attrs := Extract(ParamMap, e.name, e.info.params, e.info.attrs));
      StepAsWritten(srv, e).Failure? <==>
        || e.name == "welcome"
        || Modes(srv, e.name, e.info.params).Failure?
        || ResolveAsWritten(srv.chantypes, e.name, info).Failure?
        || FromToAsWritten(srv.chantypes, info).Failure?
    ensures e.name == "welcome" ==>
      StepAsWritten(srv, e) == WelcomeAsWritten(Extract(ParamMap, e.name, e.info.params, e.info.attrs))
    ensures Process(srv, e).Failure? ==> StepAsWritten(srv, e).Failure?
  {
  }

  /** A loop over results that stops at the first failure. */
  function FirstFailure(rs: seq<Result<()>>): (r: Result<()>)
    ensures r.Success? <==> forall k :: 0 <= k < |rs| ==> rs[k].Success?
    ensures r.Failure? ==> exists k ::
      && 0 <= k < |rs| && rs[k] == Failure(r.error)
      && (forall j :: 0 <= j < k ==> rs[j].Success?)
    decreases |rs|
  {
    if |rs| == 0 then Success(())
    else if rs[0].Failure? then rs[0]
    else
      var r := FirstFailure(rs[1..]);
      assert r.Failure? ==>
        exists k :: 0 < k < |rs| && rs[k] == Failure(r.error) && (forall j :: 0 <= j < k ==> rs[j].Success?) by {
        if r.Failure? {
          var k :| 0 <= k < |rs[1..]| && rs[1..][k] == Failure(r.error) && forall j :: 0 <= j < k ==> rs[1..][j].Success?;
          assert rs[k + 1] == Failure(r.error);
        }
      }
      r
  }

  /** The written step of each event. */
  function Steps(srv: Server, events: seq<Event>): (r: seq<Result<()>>)
    ensures |r| == |events| && forall k :: 0 <= k < |events| ==> r[k] == StepAsWritten(srv, events[k])
  {
    seq(|events|, k requires 0 <= k < |events| => StepAsWritten(srv, events[k]))
  }

  /** The names of a sequence of events. */
  function EventNames(events: seq<Event>): (r: seq<string>)
    ensures |r| == |events| && forall k :: 0 <= k < |events| ==> r[k] == events[k].name
  {
    seq(|events|, k requires 0 <= k < |events| => events[k].name)
  }

  /** `message_to_event(direction, message)` as written, reduced to the
      names of the events it returns or the error it raises. The loop
      stops at the first event whose written step raises; it raises
      wherever the intended pipeline does, and also on every `welcome`,
      every channel or server name and every `from_to`. When it returns,
      its events are named as the intended ones are. */
  function MessageToEventAsWritten(srv: Server, dir: Direction, m: Envelope.Message): (r: Result<seq<string>>)
    ensures MessageToEvent(srv, dir, m).Failure? ==> r.Failure?
    ensures r.Success? ==>
      MessageToEvent(srv, dir, m).Success? && r.value == EventNames(MessageToEvent(srv, dir, m).value.events)
    ensures var u := Unpacked(srv, dir, m);
      u.Success? && FirstFailure(Steps(srv, u.value)).Failure? ==> r == Failure(FirstFailure(Steps(srv, u.value)).error)
  {
    var events :- Unpacked(srv, dir, m);
    var _ :- FirstFailure(Steps(srv, events));
    StepsProcess(srv, events);
    var done := ProcessAll(srv, events).value;
    var _ :- FirstFailure(Steps(srv, Actions(done)));
    StepsProcess(srv, Actions(done));
    var actions := ProcessAll(srv, Actions(done)).value;
    Success(EventNames(done + actions))
  }

  /** Events on which every written step gets through are processed
      without error by the intended loop. */
  lemma {:induction false} StepsProcess(srv: Server, events: seq<Event>)
    requires FirstFailure(Steps(srv, events)).Success?
    ensures ProcessAll(srv, events).Success?
  {
    if ProcessAll(srv, events).Failure? {
      var k :| 0 <= k < |events| && Process(srv, events[k]).Failure?;
      StepAsWrittenFails(srv, events[k]);
      assert false;
    }
  }

  /** The `nick` of a `welcome` reply is its first parameter. */
  lemma {:induction false} WelcomeNickRow(params: seq<string>)
    requires |params| >= 1
    ensures var attrs := Extract(ParamMap, "welcome", params, map[]);
      "nick" in attrs && attrs["nick"] == params[0]
  {
    assert LastWriter(ParamMap, "welcome", params, "nick") == Some(3) by {
      WelcomeRows(params);
    }
    assert SlotValue(ParamMap[3], params) == params[0] by {
      WelcomeRows(params);
    }
    ExtractGet(ParamMap, "welcome", params, map[], "nick");
  }

  /** The `nick` row fires for `welcome` and writes its first parameter
      unescaped; no later row writes `nick`. */
  lemma {:induction false} WelcomeRows(params: seq<string>)
    requires |params| >= 1
    ensures ParamMap[3] == NickRow && Fires(NickRow, "welcome", params)
    ensures AttrName(NickRow.attr) == ("nick", false)
    ensures forall j :: 3 < j < |ParamMap| ==>
      !(Fires(ParamMap[j], "welcome", params) && AttrName(ParamMap[j].attr).0 == "nick")
  {
    assert AttrName(NickRow.attr) == ("nick", false) by {
      assert "nick"[0] != "escaped_"[0];
    }
    WelcomeLateRows();
    forall j | 3 < j < |ParamMap|
      ensures !(Fires(ParamMap[j], "welcome", params) && AttrName(ParamMap[j].attr).0 == "nick")
    {
      if j == 6 {
        assert AttrName(MessageRow.attr).0 == "message" by {
          EscapedAttrNames();
        }
      }
    }
  }

  /** After the `nick` row, `welcome` is listed only in the second
      `message` row. */
  lemma WelcomeLateRows()
    ensures forall j :: 3 < j < |ParamMap| && j != 6 ==> "welcome" !in ParamMap[j].verbs
  {
    assert "welcome" !in UserRow.verbs && "welcome" !in InfoRow.verbs;
    assert "welcome" !in ChannelRow.verbs && "welcome" !in SecondChannelRow.verbs;
    assert "welcome" !in ThirdChannelRow.verbs && "welcome" !in TopicRow.verbs;
    assert "welcome" !in NamesRow.verbs && "welcome" !in TimestampRow.verbs;
    assert "welcome" !in ReasonRow.verbs && "welcome" !in ChannelsRow.verbs;
  }

  /** An outgoing `join` gets its channel list from its first parameter,
      and nothing else. */
  lemma {:induction false} ExtractJoin(params: seq<string>)
    requires |params| >= 1
    ensures Extract(ParamMap, "join", params, map[]) == map["channels" := params[0]]
  {
    assert Extract(ParamMap[..14], "join", params, map[]) == map[] by {
      assert forall j :: 0 <= j < 14 ==> !Fires(ParamMap[..14][j], "join", params) by {
        JoinRowsQuiet();
      }
      ExtractQuiet(ParamMap[..14], 0, "join", params, map[]);
      assert ParamMap[..14][..0] == [];
    }
    assert Extract(ParamMap, "join", params, map[]) ==
      Extract(ParamMap[..14], "join", params, map[])[AttrName(ChannelsRow.attr).0 := SlotValue(ChannelsRow, params)] by {
      ChannelsRowPlain();
      ExtractStep(ParamMap, 14, "join", params, map[]);
      assert ParamMap[..15] == ParamMap;
    }
    ChannelsRowPlain();
  }

  /** The last row writes `channels`, unescaped. */
  lemma ChannelsRowPlain()
    ensures ParamMap[14] == ChannelsRow && AttrName(ChannelsRow.attr) == ("channels", false)
  {
    assert "channels"[0] != "escaped_"[0];
  }

  /** Only the last row lists `join`. */
  lemma JoinRowsQuiet()
    ensures forall j :: 0 <= j < 14 ==> "join" !in ParamMap[j].verbs
  {
    assert "join" !in TargetRow.verbs && "join" !in ModeTargetRow.verbs;
    assert "join" !in NewNickRow.verbs && "join" !in NickRow.verbs;
    assert "join" !in UserRow.verbs && "join" !in InfoRow.verbs;
    assert "join" !in MessageRow.verbs && "join" !in ChannelRow.verbs;
    assert "join" !in SecondChannelRow.verbs && "join" !in ThirdChannelRow.verbs;
    assert "join" !in TopicRow.verbs && "join" !in NamesRow.verbs;
    assert "join" !in TimestampRow.verbs && "join" !in ReasonRow.verbs;
  }

  /** A `join` without a source: the intended processing goes through,
      while the written step hands the channel list to `create_channel`
      and raises, whatever the channel is called. */
  lemma JoinDiscrepancy(srv: Server, e: Event, chan: string)
    requires e.name == "join" && e.info.verb == "join" && e.info.source.None?
    requires e.info.params == [chan] && chan != "" && e.info.attrs == map[]
    ensures Process(srv, e).Success?
    ensures StepAsWritten(srv, e) == Failure(AttributeError("'Info' object has no attribute 'create_channel'"))
  {
    JoinProcessed(srv, e, chan);
    ExtractJoin(e.info.params);
    var info := e.info.(attrs := map["channels" := chan]);
    assert ResolveAsWritten(srv.chantypes, e.name, info) ==
      Failure(AttributeError("'Info' object has no attribute 'create_channel'")) by {
      assert ResolvedNames(info) == [];
      assert Kinds(srv.chantypes, []) == [];
    }
  }

  /** The intended processing of a `join` without a source goes through. */
  lemma JoinProcessed(srv: Server, e: Event, chan: string)
    requires e.name == "join" && e.info.verb == "join" && e.info.source.None?
    requires e.info.params == [chan] && e.info.attrs == map[]
    ensures Process(srv, e).Success?
  {
    ExtractJoin(e.info.params);
  }

  /** An outgoing `join` of one channel without a source: the written
      pipeline raises AttributeError for `create_channel`, while the
      intended one goes through. */
  lemma OutgoingJoin(srv: Server, m: Envelope.Message, chan: string)
    requires VerbName(m.verb) == Success("join")
    requires m.params == [chan] && chan != "" && m.source.None?
    ensures MessageToEventAsWritten(srv, Out, m) == Failure(AttributeError("'Info' object has no attribute 'create_channel'"))
    ensures MessageToEvent(srv, Out, m).Success?
  {
    var e := Event("join", Info(Out, "join", None, [chan], m.tags, map[], None, None, None));
    assert Unpacked(srv, Out, m) == Success([e]);
    JoinDiscrepancy(srv, e, chan);
    assert Steps(srv, [e]) == [StepAsWritten(srv, e)];
  }

  /** A welcome reply with a nick: the intended processing records the
      nick, while the written step raises TypeError constructing the
      `IString`. */
  lemma WelcomeDiscrepancy(srv: Server, e: Event)
    requires e.name == "welcome" && e.info.verb == "welcome"
    requires |e.info.params| >= 1 && e.info.attrs == map[]
    ensures Process(srv, e).Success?
    ensures var attrs := Process(srv, e).value.info.attrs; "nick" in attrs && attrs["nick"] == e.info.params[0]
    ensures StepAsWritten(srv, e).Failure? && StepAsWritten(srv, e).error.TypeError?
  {
    WelcomeNickRow(e.info.params);
    StepAsWrittenFails(srv, e);
  }

  /** Processing keeps names, and actions are named `action`. */
  lemma OutcomeNames(verb: string, events: seq<Event>, done: seq<Event>, actions: seq<Event>)
    requires forall k :: 0 <= k < |events| ==> events[k].name == verb || events[k].name == CtcpName(verb)
    requires |done| == |events| && forall k :: 0 <= k < |events| ==> done[k].name == events[k].name
    requires forall k :: 0 <= k < |actions| ==> actions[k].name == "action"
    ensures forall k :: 0 <= k < |done + actions| ==> (done + actions)[k].name in {verb, "ctcp", "ctcp_reply", "action"}
  {
    forall k | 0 <= k < |done + actions|
      ensures (done + actions)[k].name in {verb, "ctcp", "ctcp_reply", "action"}
    {
      if k < |done| {
        assert (done + actions)[k] == done[k];
      } else {
        assert (done + actions)[k] == actions[k - |done|];
      }
    }
  }

  /** The nick of the processed events is that of a `welcome` among them;
      every processed `welcome` carries one, and actions are no
      `welcome`. */
  lemma OutcomeNick(srv: Server, done: seq<Event>, actions: seq<Event>)
    requires forall k :: 0 <= k < |done| ==> done[k].name == "welcome" ==> "nick" in done[k].info.attrs
    requires forall k :: 0 <= k < |actions| ==> actions[k].name == "action"
    ensures WelcomeNick(done).Some? <==> exists k :: 0 <= k < |done + actions| && (done + actions)[k].name == "welcome"
    ensures WelcomeNick(done).Some? ==> exists k ::
      && 0 <= k < |done + actions| && (done + actions)[k].name == "welcome"
      && "nick" in (done + actions)[k].info.attrs && (done + actions)[k].info.attrs["nick"] == WelcomeNick(done).value
  {
    if WelcomeNick(done).Some? {
      var k :| 0 <= k < |done| && done[k].name == "welcome" && "nick" in done[k].info.attrs
        && done[k].info.attrs["nick"] == WelcomeNick(done).value;
      assert (done + actions)[k] == done[k];
    } else {
      forall k | 0 <= k < |done + actions| ensures (done + actions)[k].name != "welcome" {
        if k < |done| {
          assert (done + actions)[k] == done[k];
        } else {
          assert (done + actions)[k] == actions[k - |done|];
        }
      }
    }
  }

  /** An incoming private message from a user is one `privmsg` event with
      the target, the escaped text and the sender as `from_to`, and sets no
      nick. */
  lemma IncomingPrivateMessage(srv: Server, tags: Envelope.TagList, nick: string, me: string, text: string)
    requires me != "" && me[0] !in srv.chantypes && '\\' !in me
    requires nick != "" && Classify(srv.chantypes, nick) != ServerEntity
    requires text != "" && '\U{01}' !in text && '\\' !in text
    ensures MessageToEvent(srv, In, Envelope.Message(tags, Some(nick), Envelope.Named("PRIVMSG"), [me, text])) ==
      Success(Outcome([Event("privmsg", Info(In, "privmsg", Some(nick), [me, text], tags,
        map["target" := me, "message" := Formatting.Escape(text)], None, None, Some(nick)))], None))
  {
    var m := Envelope.Message(tags, Some(nick), Envelope.Named("PRIVMSG"), [me, text]);
    var done := PlainStages(srv, tags, nick, me, text);
    assert VerbName(m.verb) == Success("privmsg") by {
      PrivmsgVerb();
    }
    assert Refine(srv.chantypes, "privmsg", m.params) == Success("privmsg");
    assert Actions([done]) == [] && WelcomeNick([done]) == None by {
      assert [done][..0] == [];
    }
    assert ProcessAll(srv, []) == Success([]);
    MessageToEventSteps(srv, In, m, "privmsg", [Event("privmsg", Info(In, "privmsg", Some(nick), [me, text], tags,
      map[], None, None, None))], [done], []);
    assert [done] + [] == [done];
  }

  /** The stages of an incoming plain message: it unpacks to itself and
      processing sets its target, its escaped text and its sender. */
  lemma PlainStages(srv: Server, tags: Envelope.TagList, nick: string, me: string, text: string) returns (done: Event)
    requires me != "" && me[0] !in srv.chantypes && '\\' !in me
    requires nick != "" && Classify(srv.chantypes, nick) != ServerEntity
    requires text != "" && '\U{01}' !in text && '\\' !in text
    ensures var info := Info(In, "privmsg", Some(nick), [me, text], tags, map[], None, None, None);
      && Unpack(info) == Success([Event("privmsg", info)])
      && ProcessAll(srv, [Event("privmsg", info)]) == Success([done])
    ensures done == Event("privmsg", Info(In, "privmsg", Some(nick), [me, text], tags,
      map["target" := me, "message" := Formatting.Escape(text)], None, None, Some(nick)))
  {
    var info := Info(In, "privmsg", Some(nick), [me, text], tags, map[], None, None, None);
    UnpackPlain(info);
    var e := Event("privmsg", info);
    assert Unpack(info) == Success([e]);
    done := PlainProcessed(srv, e, me, text);
    ProcessOne(srv, e);
  }

  /** Processing an incoming private message sets its target, its escaped
      text and, as `from_to`, its sender. */
  lemma PlainProcessed(srv: Server, e: Event, me: string, text: string) returns (done: Event)
    requires e.name == "privmsg" && e.info.verb == "privmsg" && e.info.direction == In
    requires e.info.params == [me, text] && e.info.attrs == map[]
    requires e.info.source.Some? && e.info.source.value != ""
    requires Classify(srv.chantypes, e.info.source.value) != ServerEntity
    ensures Process(srv, e) == Success(done)
    ensures done == Event("privmsg", e.info.(attrs := map["target" := me, "message" := Formatting.Escape(text)],
      fromTo := e.info.source))
  {
    ExtractMessage("privmsg", me, text);
    done := Event("privmsg", e.info.(attrs := map["target" := me, "message" := Formatting.Escape(text)],
      fromTo := e.info.source));
  }

  /** Processing a single event is processing the event. */
  lemma ProcessOne(srv: Server, e: Event)
    ensures Process(srv, e).Success? ==> ProcessAll(srv, [e]) == Success([Process(srv, e).value])
    ensures Process(srv, e).Failure? ==> ProcessAll(srv, [e]).Failure?
  {
    assert [e][1..] == [];
    assert ProcessAll(srv, []) == Success([]);
    if Process(srv, e).Success? {
      var d := Process(srv, e).value;
      assert [d] + [] == [d];
    }
  }

  /** An incoming CTCP ACTION to the client is a `ctcp` event carrying the
      verb `action` and the de-quoted text, followed by an `action` event
      whose `message` is that text. */
  lemma IncomingAction(srv: Server, tags: Envelope.TagList, nick: string, me: string, text: string)
    requires me != "" && me[0] !in srv.chantypes
    requires nick != "" && Classify(srv.chantypes, nick) != ServerEntity
    ensures var body := "\U{01}" + "ACTION" + " " + Quote(text) + "\U{01}";
      var r := MessageToEvent(srv, In, Envelope.Message(tags, Some(nick), Envelope.Named("PRIVMSG"), [me, body]));
      && r.Success? && |r.value.events| == 2 && r.value.nick == None
      && r.value.events[0].name == "ctcp" && r.value.events[0].info.ctcp == Some(("action", text))
      && r.value.events[1].name == "action" && "message" in r.value.events[1].info.attrs
      && r.value.events[1].info.attrs["message"] == text
  {
    var body := "\U{01}" + "ACTION" + " " + Quote(text) + "\U{01}";
    var m := Envelope.Message(tags, Some(nick), Envelope.Named("PRIVMSG"), [me, body]);
    var info := Info(In, "privmsg", Some(nick), [me, body], tags, map[], None, None, None);
    var e, done, a := ActionStages(srv, info, text);
    assert VerbName(m.verb) == Success("privmsg") by {
      PrivmsgVerb();
    }
    assert Refine(srv.chantypes, "privmsg", m.params) == Success("privmsg");
    MessageToEventSteps(srv, In, m, "privmsg", [e], [done], [a]);
  }

  /** The stages of an incoming ACTION: the unpacked `ctcp` event, the
      event after processing, and the processed `action` it adds. */
  lemma ActionStages(srv: Server, info: Info, text: string) returns (e: Event, done: Event, a: Event)
    requires info.verb == "privmsg" && info.direction == In && |info.params| == 2
    requires info.params[1] == "\U{01}" + "ACTION" + " " + Quote(text) + "\U{01}"
    ensures Unpack(info) == Success([e])
    ensures ProcessAll(srv, [e]) == Success([done])
    ensures done.name == "ctcp" && done.info.ctcp == Some(("action", text))
    ensures ProcessAll(srv, Actions([done])) == Success([a]) && WelcomeNick([done]) == None
    ensures a.name == "action" && "message" in a.info.attrs && a.info.attrs["message"] == text
  {
    ActionUnpack(info, text);
    e := Unpack(info).value[0];
    assert Unpack(info).value == [e];
    done := CtcpProcessed(srv, e);
    ActionProcessed(srv, done);
    var act := ActionOf(done);
    a := act.(info := act.info.(fromTo := None));
    assert WelcomeNick([done]) == None by {
      assert [done][..0] == [];
    }
  }

  /** A `ctcp` event goes through processing unchanged in name, verb and
      CTCP pair. */
  lemma CtcpProcessed(srv: Server, e: Event) returns (done: Event)
    requires e.name == "ctcp" && e.info.verb == "ctcp" && e.info.ctcp.Some?
    ensures ProcessAll(srv, [e]) == Success([done])
    ensures done.name == "ctcp" && done.info.verb == "ctcp" && done.info.ctcp == e.info.ctcp
  {
    assert FromToPick(e.info.(attrs := Extract(ParamMap, e.name, e.info.params, e.info.attrs))).None?;
    assert Process(srv, e).Success?;
    done := Process(srv, e).value;
    ProcessOne(srv, e);
  }

  /** `message_to_event` from its stages' results. */
  lemma MessageToEventSteps(srv: Server, dir: Direction, m: Envelope.Message, verb: string,
                            events: seq<Event>, done: seq<Event>, actions: seq<Event>)
    requires VerbName(m.verb).Success? && Refine(srv.chantypes, VerbName(m.verb).value, m.params) == Success(verb)
    requires var info := Info(dir, verb, m.source, m.params, m.tags, map[], None, None, None);
      (if IsMessageVerb(verb) then Unpack(info) else Success([Event(verb, info)])) == Success(events)
    requires ProcessAll(srv, events) == Success(done)
    requires ProcessAll(srv, Actions(done)) == Success(actions)
    ensures Unpacked(srv, dir, m) == Success(events)
    ensures MessageToEvent(srv, dir, m) == Success(Outcome(done + actions, WelcomeNick(done)))
  {
  }

  /** The body of a CTCP ACTION unpacks to one `ctcp` event. */
  lemma ActionUnpack(info: Info, text: string)
    requires info.verb == "privmsg" && |info.params| == 2
    requires info.params[1] == "\U{01}" + "ACTION" + " " + Quote(text) + "\U{01}"
    ensures Unpack(info).Success? && |Unpack(info).value| == 1
    ensures Unpack(info).value[0].name == "ctcp" && Unpack(info).value[0].info.verb == "ctcp"
    ensures Unpack(info).value[0].info.ctcp == Some(("action", text))
  {
    var verb := "ACTION";
    assert !IsSpace(verb[0]) && ' ' !in verb && '\U{01}' !in verb;
    UnpackCtcp(info, verb, Quote(text));
    assert CtcpName(info.verb) == "ctcp";
    ActionVerb();
    DequoteQuote(text);
  }

  /** The `action` a processed ACTION adds goes through processing with
      its `message` intact. */
  lemma ActionProcessed(srv: Server, done: Event)
    requires IsAction(done) && done.info.verb == "ctcp"
    ensures Actions([done]) == [ActionOf(done)]
    ensures var a := ActionOf(done);
      ProcessAll(srv, [a]) == Success([a.(info := a.info.(fromTo := None))])
  {
    assert [done][..0] == [];
    var a := ActionOf(done);
    ActionUnlisted();
    ExtractQuiet(ParamMap, 0, "action", a.info.params, a.info.attrs);
    assert ParamMap[..0] == [];
    assert Process(srv, a) == Success(a.(info := a.info.(fromTo := None)));
    ProcessOne(srv, a);
  }
  /** `ACTION` lower-cases to `action`, which de-quoting leaves alone. */
  lemma ActionVerb()
    ensures Dequote(Lower("ACTION")) == "action"
  {
    var lower := "action";
    assert Lower("ACTION") == lower;
    assert '\\' !in lower;
  }

  /** No row of the parameter table lists `action`. */
  lemma ActionUnlisted()
    ensures forall j :: 0 <= j < |ParamMap| ==> "action" !in ParamMap[j].verbs
  {
    var a := "action";
    assert a !in TargetRow.verbs && a !in ModeTargetRow.verbs && a !in NewNickRow.verbs;
    assert a !in NickRow.verbs && a !in UserRow.verbs && a !in InfoRow.verbs;
    assert a !in MessageRow.verbs && a !in ChannelRow.verbs && a !in SecondChannelRow.verbs;
    assert a !in ThirdChannelRow.verbs && a !in TopicRow.verbs && a !in NamesRow.verbs;
    assert a !in TimestampRow.verbs && a !in ReasonRow.verbs && a !in ChannelsRow.verbs;
  }
}

=== FILE: reactor.dfy ===
/** Priority-ordered publish/subscribe: event objects hold receivers sorted
    by priority, and a manager maps event names to event objects. Models
    girc/ircreactor/events.py. A callable is represented by an opaque
    handler number and a receiver object's identity by `id`. */
module Reactor {
  import opened Wrappers

  /** An `EventReceiver`: identity, the callable, the priority (lower runs
      first). */
  datatype Receiver = Receiver(id: nat, handler: nat, priority: int)

  /** An `EventObject`: its subscribers in dispatch order. */
  datatype EventObject = EventObject(subscribers: seq<Receiver>)

  predicate Sorted(s: seq<Receiver>)
  {
    forall i, j :: 0 <= i < j < |s| ==> s[i].priority <= s[j].priority
  }

  /** The receivers of priority `p`, in order. */
  function WithPriority(s: seq<Receiver>, p: int): seq<Receiver>
    decreases |s|
  {
    if |s| == 0 then []
    else if s[|s| - 1].priority == p then WithPriority(s[..|s| - 1], p) + [s[|s| - 1]]
    else WithPriority(s[..|s| - 1], p)
  }

  lemma {:induction false} WithPriorityAppend(a: seq<Receiver>, b: seq<Receiver>, p: int)
    ensures WithPriority(a + b, p) == WithPriority(a, p) + WithPriority(b, p)
    decreases |b|
  {
    if |b| > 0 {
      var b' := b[..|b| - 1];
      assert (a + b)[..|a + b| - 1] == a + b';
      WithPriorityAppend(a, b', p);
    } else {
      assert a + b == a;
    }
  }

  /** Where a stable sort puts `x` among already sorted receivers: after
      every receiver whose priority is not greater than its own. */
  function InsertPos(s: seq<Receiver>, x: Receiver): (k: nat)
    ensures k <= |s|
    ensures forall i :: k <= i < |s| ==> s[i].priority > x.priority
    ensures k > 0 ==> s[k - 1].priority <= x.priority
    decreases |s|
  {
    if |s| == 0 || s[|s| - 1].priority <= x.priority then |s|
    else InsertPos(s[..|s| - 1], x)
  }

  /** One step of a stable sort. */
  function Insert(s: seq<Receiver>, x: Receiver): (r: seq<Receiver>)
    ensures |r| == |s| + 1
    ensures multiset(r) == multiset(s) + multiset{x}
    ensures forall y :: y in r <==> y in s || y == x
  {
    var k := InsertPos(s, x);
    assert s == s[..k] + s[k..];
    s[..k] + [x] + s[k..]
  }

  lemma InsertSorted(s: seq<Receiver>, x: Receiver)
    requires Sorted(s)
    ensures Sorted(Insert(s, x))
  {
    var k := InsertPos(s, x);
    var r := Insert(s, x);
    assert r == s[..k] + [x] + s[k..];
    assert forall i :: 0 <= i < k ==> r[i] == s[i];
    assert r[k] == x;
    assert forall i :: k < i < |r| ==> r[i] == s[i - 1];
    forall i, j | 0 <= i < j < |r| ensures r[i].priority <= r[j].priority {
      if j == k {
        assert s[i].priority <= s[k - 1].priority;
      }
    }
  }

  /** No receiver of priority `p` gives no group. */
  lemma {:induction false} WithPriorityNone(s: seq<Receiver>, p: int)
    requires forall i :: 0 <= i < |s| ==> s[i].priority != p
    ensures WithPriority(s, p) == []
    decreases |s|
  {
    if |s| > 0 {
      WithPriorityNone(s[..|s| - 1], p);
    }
  }

  /** Inserting adds `x` at the end of its own priority group and leaves
      every other group alone. */
  lemma InsertGroups(s: seq<Receiver>, x: Receiver, p: int)
    ensures WithPriority(Insert(s, x), p) == WithPriority(s, p) + WithPriority([x], p)
  {
    var k := InsertPos(s, x);
    assert s == s[..k] + s[k..];
    GroupsSplice(s[..k], x, s[k..], p);
  }

  lemma GroupsSplice(pre: seq<Receiver>, x: Receiver, post: seq<Receiver>, p: int)
    requires forall i :: 0 <= i < |post| ==> post[i].priority > x.priority
    ensures WithPriority(pre + [x] + post, p) == WithPriority(pre + post, p) + WithPriority([x], p)
  {
    var wx := WithPriority([x], p);
    WithPriorityAppend(pre + [x], post, p);
    WithPriorityAppend(pre, [x], p);
    WithPriorityAppend(pre, post, p);
    if p == x.priority {
      WithPriorityNone(post, p);
      assert WithPriority(post, p) == [];
      assert WithPriority(pre + [x] + post, p) == WithPriority(pre, p) + wx;
      assert WithPriority(pre + post, p) == WithPriority(pre, p);
    } else {
      assert [x][..0] == [];
      assert wx == [];
      assert WithPriority(pre + [x] + post, p) == WithPriority(pre, p) + WithPriority(post, p);
    }
  }

  /** `sorted(nlist, key=priority)`: Python's sort is stable. */
  function StableSort(s: seq<Receiver>): (r: seq<Receiver>)
    ensures Sorted(r)
    ensures multiset(r) == multiset(s)
    ensures forall p :: WithPriority(r, p) == WithPriority(s, p)
    decreases |s|
  {
    if |s| == 0 then []
    else
      var init := s[..|s| - 1];
      var sorted := StableSort(init);
      var r := Insert(sorted, s[|s| - 1]);
      assert s == init + [s[|s| - 1]];
      InsertSorted(sorted, s[|s| - 1]);
      forall p ensures WithPriority(r, p) == WithPriority(s, p) {
        InsertGroups(sorted, s[|s| - 1], p);
        WithPriorityAppend(init, [s[|s| - 1]], p);
      }
      r
  }

  /** A stably sorted sequence is determined by its priorities' groups: two
      sorted sequences with the same receivers of every priority are
      equal. */
  lemma {:induction false} SortedUnique(a: seq<Receiver>, b: seq<Receiver>)
    requires Sorted(a) && Sorted(b)
    requires forall p :: WithPriority(a, p) == WithPriority(b, p)
    ensures a == b
    decreases |a| + |b|
  {
    if |a| == 0 && |b| == 0 {
    } else if |a| == 0 {
      LastInGroup(b);
      assert false;
    } else if |b| == 0 {
      LastInGroup(a);
      assert false;
    } else {
      var x, y := a[|a| - 1], b[|b| - 1];
      var a', b' := a[..|a| - 1], b[..|b| - 1];
      if x.priority < y.priority {
        MaxPriorityAbsent(a, y.priority);
      } else if y.priority < x.priority {
        MaxPriorityAbsent(b, x.priority);
      } else {
        var q := x.priority;
        assert WithPriority(a, q) == WithPriority(a', q) + [x];
        assert WithPriority(b, q) == WithPriority(b', q) + [y];
        assert x == y by {
          assert WithPriority(a, q)[|WithPriority(a, q)| - 1] == x;
          assert WithPriority(b, q)[|WithPriority(b, q)| - 1] == y;
        }
        forall p ensures WithPriority(a', p) == WithPriority(b', p) {
          if p == q {
            assert WithPriority(a', p) == WithPriority(a, p)[..|WithPriority(a, p)| - 1];
            assert WithPriority(b', p) == WithPriority(b, p)[..|WithPriority(b, p)| - 1];
          } else {
            assert WithPriority(a', p) == WithPriority(a, p);
            assert WithPriority(b', p) == WithPriority(b, p);
          }
        }
        assert Sorted(a') && Sorted(b');
        SortedUnique(a', b');
        assert a == a' + [x] && b == b' + [y];
      }
    }
  }

  /** The last receiver of a non-empty sequence is in its priority's group. */
  lemma LastInGroup(s: seq<Receiver>)
    requires |s| > 0
    ensures WithPriority(s, s[|s| - 1].priority) != []
  {
  }

  /** A sorted sequence whose last priority is below `p` holds nothing of
      priority `p`. */
  lemma {:induction false} MaxPriorityAbsent(s: seq<Receiver>, p: int)
    requires Sorted(s) && |s| > 0 && s[|s| - 1].priority < p
    ensures WithPriority(s, p) == []
    decreases |s|
  {
    var init := s[..|s| - 1];
    if |init| > 0 {
      assert init[|init| - 1].priority <= s[|s| - 1].priority;
      MaxPriorityAbsent(init, p);
    }
  }

  /** `attach(receiver)`. */
  function Attach(eo: EventObject, x: Receiver): (r: EventObject)
    ensures Sorted(r.subscribers)
    ensures multiset(r.subscribers) == multiset(eo.subscribers) + multiset{x}
    ensures forall y :: y in r.subscribers <==> y in eo.subscribers || y == x
  {
    var r := StableSort(eo.subscribers + [x]);
    assert forall y :: y in r <==> y in multiset(r);
    EventObject(r)
  }

  /** On a sorted subscriber list, attaching places the receiver after every
      subscriber of equal or lower priority and before every higher one. */
  lemma AttachInserts(eo: EventObject, x: Receiver)
    requires Sorted(eo.subscribers)
    ensures Attach(eo, x).subscribers == Insert(eo.subscribers, x)
  {
    var s := eo.subscribers;
    InsertSorted(s, x);
    forall p ensures WithPriority(StableSort(s + [x]), p) == WithPriority(Insert(s, x), p) {
      WithPriorityAppend(s, [x], p);
      InsertGroups(s, x, p);
    }
    SortedUnique(StableSort(s + [x]), Insert(s, x));
  }

  /** The index of the first occurrence of `x`. */
  function FirstIndex(s: seq<Receiver>, x: Receiver): (i: nat)
    requires x in s
    ensures i < |s| && s[i] == x && x !in s[..i]
  {
    if s[0] == x then 0
    else
      var j := FirstIndex(s[1..], x);
      assert s[..j + 1] == [s[0]] + s[1..][..j];
      j + 1
  }

  /** `detach(receiver)`: `list.remove` drops the first occurrence, and
      raises ValueError when there is none. */
  function Detach(eo: EventObject, x: Receiver): (r: Result<EventObject>)
    ensures r.Failure? <==> x !in eo.subscribers
    ensures r.Success? ==> multiset(r.value.subscribers) == multiset(eo.subscribers) - multiset{x}
    ensures r.Success? && Sorted(eo.subscribers) ==> Sorted(r.value.subscribers)
  {
    if x !in eo.subscribers then Failure(ValueError("list.remove(x): x not in list"))
    else
      var s := eo.subscribers;
      var i := FirstIndex(s, x);
      var r := s[..i] + s[i + 1..];
      assert s == s[..i] + [x] + s[i + 1..];
      assert Sorted(s) ==> Sorted(r) by {
        if Sorted(s) {
          forall a, b | 0 <= a < b < |r| ensures r[a].priority <= r[b].priority {
            var a' := if a < i then a else a + 1;
            var b' := if b < i then b else b + 1;
            assert r[a] == s[a'] && r[b] == s[b'];
          }
        }
      }
      Success(EventObject(r))
  }

  /** Attaching a new receiver and detaching it again restores the
      subscriber list. */
  lemma AttachDetach(eo: EventObject, x: Receiver)
    requires Sorted(eo.subscribers) && x !in eo.subscribers
    ensures Detach(Attach(eo, x), x) == Success(eo)
  {
    AttachInserts(eo, x);
    InsertRemove(eo.subscribers, x);
  }

  lemma InsertRemove(s: seq<Receiver>, x: Receiver)
    requires x !in s
    ensures x in Insert(s, x)
    ensures var r := Insert(s, x); var i := FirstIndex(r, x); r[..i] + r[i + 1..] == s
  {
    var k := InsertPos(s, x);
    var r := Insert(s, x);
    assert r[k] == x;
    assert r[..k] == s[..k];
    assert x !in r[..k];
    assert FirstIndex(r, x) == k;
    assert r[k + 1..] == s[k..];
    assert s == s[..k] + s[k..];
  }

  /** `dispatch(ev_msg)`: the receivers called, in call order. */
  function Dispatch(eo: EventObject): seq<Receiver>
  {
    eo.subscribers
  }

  /** An `EventManager`; `nextId` stands for the identity of the next
      receiver object. */
  datatype EventManager = EventManager(events: map<string, EventObject>, nextId: nat)

  predicate ManagerValid(m: EventManager)
  {
    forall e :: e in m.events ==>
      Sorted(m.events[e].subscribers) && forall y :: y in m.events[e].subscribers ==> y.id < m.nextId
  }

  const EmptyManager := EventManager(map[], 0)

  /** `register(event, callable, priority)`: the event object is created on
      first use and the new receiver attached to it. */
  function Register(m: EventManager, event: string, handler: nat, priority: int): (r: (EventManager, Receiver))
    ensures r.1 == Receiver(m.nextId, handler, priority)
    ensures r.0.nextId == m.nextId + 1
    ensures r.0.events.Keys == m.events.Keys + {event}
    ensures forall e :: e in m.events && e != event ==> r.0.events[e] == m.events[e]
    ensures multiset(r.0.events[event].subscribers) ==
      (if event in m.events then multiset(m.events[event].subscribers) else multiset{}) + multiset{r.1}
    ensures ManagerValid(m) ==> ManagerValid(r.0)
  {
    var x := Receiver(m.nextId, handler, priority);
    var eo := if event in m.events then m.events[event] else EventObject([]);
    var eo' := Attach(eo, x);
    var r := EventManager(m.events[event := eo'], m.nextId + 1);
    (r, x)
  }

  /** `dispatch(event, ev_msg)` on the manager: the subscribers of the
      event, or nobody when it was never registered. */
  function DispatchEvent(m: EventManager, event: string): (r: seq<Receiver>)
    ensures event !in m.events ==> r == []
    ensures ManagerValid(m) ==> Sorted(r)
  {
    if event in m.events then Dispatch(m.events[event]) else []
  }

  /** A registered callable is called on the next dispatch of its event,
      after every receiver of lower priority. */
  lemma RegisterThenDispatch(m: EventManager, event: string, handler: nat, priority: int)
    requires ManagerValid(m)
    ensures var (m', x) := Register(m, event, handler, priority);
      var calls := DispatchEvent(m', event);
      && x in calls
      && forall i, j :: 0 <= i < |calls| && 0 <= j < |calls| && calls[j] == x && calls[i].priority < priority ==> i < j
  {
    var r := Register(m, event, handler, priority);
    var x := r.1;
    var calls := DispatchEvent(r.0, event);
    assert Sorted(calls);
    assert x in multiset(calls);
    SortedBefore(calls, priority);
  }

  /** In a sorted list every receiver of lower priority comes before every
      receiver of priority `p`. */
  lemma SortedBefore(s: seq<Receiver>, p: int)
    requires Sorted(s)
    ensures forall i, j :: 0 <= i < |s| && 0 <= j < |s| && s[j].priority == p && s[i].priority < p ==> i < j
  {
  }

  /** Re-registering the receiver after detaching it: detaching the receiver
      a registration created restores the event object it joined. */
  lemma RegisterDetach(m: EventManager, event: string, handler: nat, priority: int)
    requires ManagerValid(m) && event in m.events
    ensures var (m', x) := Register(m, event, handler, priority);
      Detach(m'.events[event], x) == Success(m.events[event])
  {
    var x := Receiver(m.nextId, handler, priority);
    var eo := m.events[event];
    AttachDetach(eo, x);
  }
}

=== FILE: strings.dfy ===
/** The few Python string operations the client relies on (`split`, `join`,
    `replace`, `lower`, `isdigit`, `strip`), written over `seq<char>`.
    Case conversion and character classes cover ASCII only. */
module Strings {

  /* ---------------------------------------------------------------- join */

  /** `sep.join(xs)`. */
  function Join(xs: seq<string>, sep: string): string
  {
    if |xs| == 0 then ""
    else if |xs| == 1 then xs[0]
    else xs[0] + sep + Join(xs[1..], sep)
  }

  lemma JoinCons(x: string, xs: seq<string>, sep: string)
    requires |xs| > 0
    ensures Join([x] + xs, sep) == x + sep + Join(xs, sep)
  {
    assert ([x] + xs)[1..] == xs;
  }

  /** A joined sequence whose elements avoid `c` contains `c` only where a
      one-character separator `[c]` was put. */
  lemma {:induction false} JoinAvoids(xs: seq<string>, c: char)
    requires forall i :: 0 <= i < |xs| ==> c !in xs[i]
    requires |xs| <= 1
    ensures c !in Join(xs, [c])
  {
  }

  /* --------------------------------------------------------------- split */

  /** `s.split(c)` for a one-character separator: never empty and every
      piece is free of `c` (`JoinSplit` shows the pieces rebuild `s`). */
  function Split(s: string, c: char): (r: seq<string>)
    ensures |r| >= 1
    ensures forall i :: 0 <= i < |r| ==> c !in r[i]
    decreases |s|
  {
    if |s| == 0 then [""]
    else
      var rest := Split(s[1..], c);
      if s[0] == c then [""] + rest
      else [[s[0]] + rest[0]] + rest[1..]
  }

  /** Joining the pieces of a split with the separator gives back the
      original string. */
  lemma {:induction false} JoinSplit(s: string, c: char)
    ensures Join(Split(s, c), [c]) == s
    decreases |s|
  {
    if |s| > 0 {
      JoinSplit(s[1..], c);
      var rest := Split(s[1..], c);
      assert s == [s[0]] + s[1..];
      SplitCons(s[0], s[1..], c);
      if s[0] == c {
        JoinCons("", rest, [c]);
      } else {
        var r := [[s[0]] + rest[0]] + rest[1..];
        assert Split(s, c) == r;
        if |rest| > 1 {
          assert rest == [rest[0]] + rest[1..];
          JoinCons(rest[0], rest[1..], [c]);
          JoinCons(r[0], rest[1..], [c]);
          assert r == [r[0]] + rest[1..];
        } else {
          assert r == [[s[0]] + rest[0]];
          assert Join(rest, [c]) == rest[0];
        }
      }
    }
  }

  /** A string without the separator splits into itself. */
  lemma {:induction false} SplitNoSep(s: string, c: char)
    requires c !in s
    ensures Split(s, c) == [s]
    decreases |s|
  {
    if |s| > 0 {
      assert c !in s[1..] by {
        forall i | 0 <= i < |s[1..]| ensures s[1..][i] != c {
          assert s[1..][i] == s[i + 1];
        }
      }
      SplitNoSep(s[1..], c);
      assert s == [s[0]] + s[1..];
    }
  }

  /** One step of `Split`, stated for a string given as head and tail. */
  lemma SplitCons(x: char, t: string, c: char)
    ensures Split([x] + t, c) ==
      if x == c then [""] + Split(t, c)
      else [[x] + Split(t, c)[0]] + Split(t, c)[1..]
  {
    assert ([x] + t)[1..] == t;
  }

  /** Splitting distributes over a separator. */
  lemma {:induction false} SplitAppend(a: string, b: string, c: char)
    ensures Split(a + [c] + b, c) == Split(a, c) + Split(b, c)
    decreases |a|
  {
    if |a| == 0 {
      assert a + [c] + b == [c] + b;
      SplitCons(c, b, c);
    } else {
      SplitAppend(a[1..], b, c);
      SplitAppendStep(a[0], a[1..], b, c);
      assert a == [a[0]] + a[1..];
      assert a + [c] + b == [a[0]] + (a[1..] + [c] + b);
    }
  }

  lemma SplitAppendStep(x: char, a: string, b: string, c: char)
    requires Split(a + [c] + b, c) == Split(a, c) + Split(b, c)
    ensures Split([x] + (a + [c] + b), c) == Split([x] + a, c) + Split(b, c)
  {
    var t := a + [c] + b;
    SplitCons(x, t, c);
    SplitCons(x, a, c);
    PieceAppend(x, x == c, Split(a, c), Split(b, c));
  }

  /** The sequence algebra of one `Split` step over a concatenation. */
  lemma PieceAppend(x: char, sep: bool, ra: seq<string>, rb: seq<string>)
    requires |ra| >= 1
    ensures var r := ra + rb;
      (if sep then [""] + r else [[x] + r[0]] + r[1..]) ==
      (if sep then [""] + ra else [[x] + ra[0]] + ra[1..]) + rb
  {
    var r := ra + rb;
    if !sep {
      assert r[0] == ra[0];
      assert r[1..] == ra[1..] + rb;
    }
  }

  /** Splitting a string extended by one character: a separator opens a
      new empty piece, any other character extends the last piece. */
  lemma {:induction false} SplitSnoc(a: string, x: char, c: char)
    ensures var p := Split(a, c);
      Split(a + [x], c) ==
        if x == c then p + [""] else p[..|p| - 1] + [p[|p| - 1] + [x]]
    decreases |a|
  {
    var p := Split(a, c);
    if x == c {
      SplitAppend(a, "", c);
      assert a + [c] + "" == a + [x];
    } else if |a| == 0 {
      assert a + [x] == [x] + "";
      SplitCons(x, "", c);
    } else {
      SplitSnoc(a[1..], x, c);
      assert a + [x] == [a[0]] + (a[1..] + [x]);
      assert a == [a[0]] + a[1..];
      SplitCons(a[0], a[1..] + [x], c);
      SplitCons(a[0], a[1..], c);
      PieceSnoc(a[0], a[0] == c, Split(a[1..], c), x);
    }
  }

  /** The sequence algebra of one `Split` step when the last piece grows
      by one character. */
  lemma PieceSnoc(y: char, sep: bool, q: seq<string>, x: char)
    requires |q| >= 1
    ensures var q' := q[..|q| - 1] + [q[|q| - 1] + [x]];
      var p := if sep then [""] + q else [[y] + q[0]] + q[1..];
      var p' := if sep then [""] + q' else [[y] + q'[0]] + q'[1..];
      p' == p[..|p| - 1] + [p[|p| - 1] + [x]]
  {
    var q' := q[..|q| - 1] + [q[|q| - 1] + [x]];
    if sep {
      assert ([""] + q)[..|q|] == [""] + q[..|q| - 1];
    } else if |q| == 1 {
      assert q' == [q[0] + [x]];
      assert [y] + (q[0] + [x]) == ([y] + q[0]) + [x];
    } else {
      assert q'[0] == q[0];
      assert q'[1..] == q[1..|q| - 1] + [q[|q| - 1] + [x]];
    }
  }

  /** `split` undoes `join` when no element contains the separator. */
  lemma {:induction false} SplitJoin(xs: seq<string>, c: char)
    requires |xs| >= 1
    requires forall i :: 0 <= i < |xs| ==> c !in xs[i]
    ensures Split(Join(xs, [c]), c) == xs
    decreases |xs|
  {
    if |xs| == 1 {
      SplitNoSep(xs[0], c);
    } else {
      SplitJoin(xs[1..], c);
      SplitAppend(xs[0], Join(xs[1..], [c]), c);
      SplitNoSep(xs[0], c);
      assert xs == [xs[0]] + xs[1..];
    }
  }

  /** Splitting a join whose elements, except possibly the last, avoid the
      separator gives those elements back followed by the pieces of the
      last one. */
  lemma {:induction false} SplitJoinLast(xs: seq<string>, c: char)
    requires |xs| >= 1
    requires forall i :: 0 <= i < |xs| - 1 ==> c !in xs[i]
    ensures Split(Join(xs, [c]), c) == xs[..|xs| - 1] + Split(xs[|xs| - 1], c)
    decreases |xs|
  {
    if |xs| > 1 {
      SplitJoinLast(xs[1..], c);
      SplitAppend(xs[0], Join(xs[1..], [c]), c);
      SplitNoSep(xs[0], c);
      assert xs[..|xs| - 1] == [xs[0]] + xs[1..][..|xs[1..]| - 1];
    }
  }

  /** Joining two non-empty sequences is joining their joins. */
  lemma {:induction false} JoinAppend(xs: seq<string>, ys: seq<string>, sep: string)
    requires |xs| > 0 && |ys| > 0
    ensures Join(xs + ys, sep) == Join(xs, sep) + sep + Join(ys, sep)
    decreases |xs|
  {
    if |xs| == 1 {
      assert xs + ys == [xs[0]] + ys;
      JoinCons(xs[0], ys, sep);
      assert Join(xs, sep) == xs[0];
    } else {
      var rest := xs[1..];
      assert xs + ys == [xs[0]] + (rest + ys);
      assert Join(rest + ys, sep) == Join(rest, sep) + sep + Join(ys, sep) by {
        JoinAppend(rest, ys, sep);
      }
      JoinCons(xs[0], rest + ys, sep);
      JoinCons(xs[0], rest, sep);
      assert xs == [xs[0]] + rest;
    }
  }

  /* ----------------------------------------------- split at one occurrence */

  /** Index of the first `c` in `s`. */
  function IndexOf(s: string, c: char): (i: nat)
    requires c in s
    ensures i < |s| && s[i] == c && c !in s[..i]
  {
    if s[0] == c then 0
    else
      var j := IndexOf(s[1..], c);
      assert s[..j + 1] == [s[0]] + s[1..][..j];
      j + 1
  }

  /** Index of the last `c` in `s`. */
  function LastIndexOf(s: string, c: char): (i: nat)
    requires c in s
    ensures i < |s| && s[i] == c && c !in s[i + 1..]
    decreases |s|
  {
    if s[|s| - 1] == c then |s| - 1
    else
      assert c in s[..|s| - 1] by {
        var k :| 0 <= k < |s| && s[k] == c;
        assert s[..|s| - 1][k] == c;
      }
      var j := LastIndexOf(s[..|s| - 1], c);
      assert s[j + 1..] == s[..|s| - 1][j + 1..] + [s[|s| - 1]];
      j
  }

  /** `s.split(c, 1)` when `c` occurs: the text before the first `c` and the
      text after it. */
  function SplitFirst(s: string, c: char): (r: (string, string))
    requires c in s
    ensures r.0 + [c] + r.1 == s
    ensures c !in r.0
  {
    var i := IndexOf(s, c);
    assert s == s[..i] + [c] + s[i + 1..];
    (s[..i], s[i + 1..])
  }

  /** `s.rsplit(c, 1)` when `c` occurs: the text before the last `c` and the
      text after it. */
  function SplitLast(s: string, c: char): (r: (string, string))
    requires c in s
    ensures r.0 + [c] + r.1 == s
    ensures c !in r.1
  {
    var i := LastIndexOf(s, c);
    assert s == s[..i] + [c] + s[i + 1..];
    (s[..i], s[i + 1..])
  }

  /** The split at the first `c` is determined by the parts: a prefix free of
      `c` followed by `c` is what `SplitFirst` cuts off. */
  lemma SplitFirstOf(a: string, b: string, c: char)
    requires c !in a
    ensures c in a + [c] + b
    ensures SplitFirst(a + [c] + b, c) == (a, b)
  {
    var s := a + [c] + b;
    assert s[|a|] == c;
    var i := IndexOf(s, c);
    assert forall j :: 0 <= j < |a| ==> s[j] == a[j];
    assert i >= |a|;
    assert i <= |a| by {
      assert forall j :: 0 <= j < i ==> s[..i][j] == s[j];
    }
    assert s[..|a|] == a;
    assert s[|a| + 1..] == b;
  }

  /** The split at the last `c` is determined by the parts: `c` followed by
      a suffix free of `c` is what `SplitLast` cuts off. */
  lemma SplitLastOf(a: string, b: string, c: char)
    requires c !in b
    ensures c in a + [c] + b
    ensures SplitLast(a + [c] + b, c) == (a, b)
  {
    var s := a + [c] + b;
    assert s[|a|] == c;
    var r := SplitLast(s, c);
    var i := |r.0|;
    assert s[i] == c by {
      assert (r.0 + [c] + r.1)[i] == c;
    }
    assert s[i + 1..] == r.1 by {
      assert (r.0 + [c] + r.1)[i + 1..] == r.1;
    }
    assert s[|a| + 1..] == b;
    assert s[..i] == r.0 by {
      assert (r.0 + [c] + r.1)[..i] == r.0;
    }
    assert s[..|a|] == a;
  }

  /* --------------------------------------------------------- prefix tests */

  predicate StartsWith(s: string, p: string)
  {
    |p| <= |s| && s[..|p|] == p
  }

  /** `needle in hay` for strings: a substring test. */
  predicate IsSubstring(needle: string, hay: string)
  {
    exists i :: 0 <= i <= |hay| - |needle| && OccursAt(needle, hay, i)
  }

  predicate OccursAt(needle: string, hay: string, i: int)
  {
    0 <= i <= |hay| - |needle| && hay[i..i + |needle|] == needle
  }

  /* ------------------------------------------------------ ASCII case maps */

  function LowerChar(c: char): char
  {
    if 'A' <= c <= 'Z' then (c as int + 32) as char else c
  }

  function UpperChar(c: char): char
  {
    if 'a' <= c <= 'z' then (c as int - 32) as char else c
  }

  /** `str.lower()` (and `str.casefold()`) on ASCII text. */
  function Lower(s: string): (r: string)
    ensures |r| == |s|
    ensures forall i :: 0 <= i < |s| ==> r[i] == LowerChar(s[i])
  {
    seq(|s|, i requires 0 <= i < |s| => LowerChar(s[i]))
  }

  /** `str.upper()` on ASCII text. */
  function Upper(s: string): (r: string)
    ensures |r| == |s|
    ensures forall i :: 0 <= i < |s| ==> r[i] == UpperChar(s[i])
  {
    seq(|s|, i requires 0 <= i < |s| => UpperChar(s[i]))
  }

  lemma LowerIdempotent(s: string)
    ensures Lower(Lower(s)) == Lower(s)
  {
  }

  lemma LowerAppend(a: string, b: string)
    ensures Lower(a + b) == Lower(a) + Lower(b)
  {
  }

  /** Text without upper-case ASCII letters is its own lower case. */
  lemma LowerPlain(s: string)
    requires forall i :: 0 <= i < |s| ==> !('A' <= s[i] <= 'Z')
    ensures Lower(s) == s
  {
  }

  /* --------------------------------------------------------------- digits */

  predicate IsDigit(c: char)
  {
    '0' <= c <= '9'
  }

  /** `str.isdigit()` on ASCII text: non-empty and all decimal digits. */
  predicate IsDigits(s: string)
  {
    |s| > 0 && forall i :: 0 <= i < |s| ==> IsDigit(s[i])
  }

  /** The value of a string of decimal digits, as `int(s)` computes it. */
  function DecimalValue(s: string): (n: nat)
    requires forall i :: 0 <= i < |s| ==> IsDigit(s[i])
    decreases |s|
  {
    if |s| == 0 then 0
    else
      assert IsDigit(s[|s| - 1]);
      DecimalValue(s[..|s| - 1]) * 10 + (s[|s| - 1] as int - '0' as int)
  }

  /** The decimal digits of a natural number, most significant first. */
  function NatToDigits(n: nat): (r: string)
    ensures |r| >= 1
    ensures forall i :: 0 <= i < |r| ==> IsDigit(r[i])
    ensures DecimalValue(r) == n
    decreases n
  {
    if n < 10 then [('0' as int + n) as char]
    else
      var r := NatToDigits(n / 10) + [('0' as int + n % 10) as char];
      assert r[..|r| - 1] == NatToDigits(n / 10);
      r
  }

  /** `str(n)` for a Python int. */
  function IntText(n: int): string
  {
    if n < 0 then "-" + NatToDigits(-n) else NatToDigits(n)
  }

  /** The two mode directions, which are also the signs `int()` accepts. */
  predicate IsSign(c: char)
  {
    c == '+' || c == '-'
  }

  /* ----------------------------------------------------------- whitespace */

  /** The ASCII characters Python's `str.isspace()` accepts. */
  predicate IsSpace(c: char)
  {
    c == ' ' || '\t' <= c <= '\r' || '\U{1c}' <= c <= '\U{1f}'
  }

  /** `s.lstrip()`. */
  function LStrip(s: string): (r: string)
    ensures |r| <= |s| && r == s[|s| - |r|..]
    ensures |r| > 0 ==> !IsSpace(r[0])
    ensures forall i :: 0 <= i < |s| - |r| ==> IsSpace(s[i])
  {
    if |s| > 0 && IsSpace(s[0]) then LStrip(s[1..]) else s
  }

  /** `s.rstrip()`. */
  function RStrip(s: string): (r: string)
    ensures |r| <= |s| && r == s[..|r|]
    ensures |r| > 0 ==> !IsSpace(r[|r| - 1])
    ensures forall i :: |r| <= i < |s| ==> IsSpace(s[i])
  {
    if |s| > 0 && IsSpace(s[|s| - 1]) then RStrip(s[..|s| - 1]) else s
  }

  /** `s.strip()`. */
  function Strip(s: string): string
  {
    RStrip(LStrip(s))
  }

  /** `s.lstrip(chars)`: drop leading characters that belong to `chars`. */
  function LStripChars(s: string, chars: string): (r: string)
    ensures |r| <= |s| && r == s[|s| - |r|..]
    ensures |r| > 0 ==> r[0] !in chars
  {
    if |s| > 0 && s[0] in chars then LStripChars(s[1..], chars) else s
  }

  /** Stripping a leading run drawn from `chars` leaves the rest when the
      rest does not start with one of them. */
  lemma {:induction false} LStripCharsRun(run: string, rest: string, chars: string)
    requires forall i :: 0 <= i < |run| ==> run[i] in chars
    requires |rest| > 0 && rest[0] !in chars
    ensures LStripChars(run + rest, chars) == rest
    decreases |run|
  {
    if |run| > 0 {
      assert (run + rest)[1..] == run[1..] + rest;
      LStripCharsRun(run[1..], rest, chars);
    } else {
      assert run + rest == rest;
    }
  }

  /* -------------------------------------------------------------- replace */

  /** `s.replace(pat, rep)`: a left-to-right scan replacing non-overlapping
      occurrences of a non-empty `pat`. */
  function Replace(s: string, pat: string, rep: string): (r: string)
    requires |pat| > 0
    decreases |s|
  {
    if |s| == 0 then ""
    else if StartsWith(s, pat) then rep + Replace(s[|pat|..], pat, rep)
    else [s[0]] + Replace(s[1..], pat, rep)
  }

  /** A string starts with `p` exactly when its head is `p`'s head and its
      tail starts with the rest of `p`. */
  lemma ConsStartsWith(x: char, s: string, p: string)
    requires |p| > 0
    ensures StartsWith([x] + s, p) <==> x == p[0] && StartsWith(s, p[1..])
  {
    var u := [x] + s;
    assert u[0] == x && u[1..] == s;
    if |p| <= |u| {
      assert u[..|p|] == [x] + s[..|p| - 1];
      assert p == [p[0]] + p[1..];
    }
  }

  /** Where the pattern does not start, the head is copied as is. */
  lemma ReplaceCons(x: char, s: string, pat: string, rep: string)
    requires |pat| > 0 && !StartsWith([x] + s, pat)
    ensures Replace([x] + s, pat, rep) == [x] + Replace(s, pat, rep)
  {
    assert ([x] + s)[1..] == s;
  }

  /** Replace every character `x` of `s` by the string `f(x)`. */
  function FlatMap(s: string, f: char -> string): (r: string)
    decreases |s|
  {
    if |s| == 0 then "" else f(s[0]) + FlatMap(s[1..], f)
  }

  lemma {:induction false} FlatMapAppend(a: string, b: string, f: char -> string)
    ensures FlatMap(a + b, f) == FlatMap(a, f) + FlatMap(b, f)
    decreases |a|
  {
    if |a| > 0 {
      assert (a + b)[1..] == a[1..] + b;
      FlatMapAppend(a[1..], b, f);
    } else {
      assert a + b == b;
    }
  }

  /** A character of a flat-mapped string comes from the image of some
      character of the input. */
  lemma {:induction false} FlatMapChars(s: string, f: char -> string, y: char)
    requires y in FlatMap(s, f)
    ensures exists i :: 0 <= i < |s| && y in f(s[i])
    decreases |s|
  {
    if |s| > 0 {
      if y !in f(s[0]) {
        FlatMapChars(s[1..], f, y);
        var i :| 0 <= i < |s[1..]| && y in f(s[1..][i]);
        assert s[i + 1] == s[1..][i];
      }
    }
  }

  /** The character map that replaces `c` by `rep` and keeps every other
      character. */
  function Subst(c: char, rep: string): char -> string
  {
    x => if x == c then rep else [x]
  }

  /** Replacing a one-character string is a character-wise map. */
  lemma {:induction false} ReplaceChar(s: string, c: char, rep: string)
    ensures Replace(s, [c], rep) == FlatMap(s, Subst(c, rep))
    decreases |s|
  {
    if |s| > 0 {
      ReplaceChar(s[1..], c, rep);
    }
  }

  /** A substitution of a character that does not occur changes nothing. */
  lemma {:induction false} SubstAbsent(s: string, c: char, rep: string)
    requires c !in s
    ensures FlatMap(s, Subst(c, rep)) == s
    decreases |s|
  {
    if |s| > 0 {
      SubstAbsent(s[1..], c, rep);
      assert s == [s[0]] + s[1..];
    }
  }

  /** Two character maps in sequence are one character map. */
  lemma {:induction false} FlatMapCompose(s: string, f: char -> string, g: char -> string, h: char -> string)
    requires forall x :: FlatMap(f(x), g) == h(x)
    ensures FlatMap(FlatMap(s, f), g) == FlatMap(s, h)
    decreases |s|
  {
    if |s| > 0 {
      FlatMapCompose(s[1..], f, g, h);
      FlatMapAppend(f(s[0]), FlatMap(s[1..], f), g);
    }
  }

  /** Every character of a replacement result comes from the input or from
      the replacement text. */
  lemma {:induction false} ReplaceChars(s: string, pat: string, rep: string, y: char)
    requires |pat| > 0
    requires y in Replace(s, pat, rep)
    ensures y in s || y in rep
    decreases |s|
  {
    if |s| > 0 {
      if StartsWith(s, pat) {
        if y !in rep {
          ReplaceChars(s[|pat|..], pat, rep, y);
        }
      } else if y != s[0] {
        ReplaceChars(s[1..], pat, rep, y);
      }
    }
  }

  /* ------------------------------------------------------ character maps */

  predicate DistinctChars(s: string)
  {
    forall i, j :: 0 <= i < j < |s| ==> s[i] != s[j]
  }

  /** The map pairing `src[i]` with `dst[i]`, a later pair overriding an
      earlier one: `str.maketrans(src, dst)`, and `dict(zip(src, dst))` on
      strings of equal length. */
  function PairMap(src: string, dst: string): (m: map<char, char>)
    requires |src| == |dst|
    ensures forall c :: c in m <==> c in src
    decreases |src|
  {
    if |src| == 0 then map[]
    else
      var n := |src| - 1;
      var m := PairMap(src[..n], dst[..n])[src[n] := dst[n]];
      assert src == src[..n] + [src[n]];
      m
  }

  /** With distinct source characters the table pairs `src[i]` with
      `dst[i]`. */
  lemma {:induction false} PairMapAt(src: string, dst: string, i: int)
    requires |src| == |dst| && DistinctChars(src)
    requires 0 <= i < |src|
    ensures PairMap(src, dst)[src[i]] == dst[i]
    decreases |src|
  {
    var n := |src| - 1;
    if i < n {
      PairMapAt(src[..n], dst[..n], i);
    }
  }
}

=== FILE: types.dfy ===
/** The records the state tracker keeps for a connection: users and
    channels. Models girc/types.py. */
module Types {
  import opened Wrappers
  import opened Utils
  import opened IMapping
  import Formatting

  /** A user: the three parts of its mask, and the names of the channels it
      is in, an `ilist` of the connection. */
  datatype User = User(nick: string, user: string, host: string, channels: IList)

  /** The mask a user record holds. */
  function MaskOf(u: User): NickMask
  {
    NickMask(u.nick, u.user, u.host)
  }

  /** `User(server, nickmask)`: the fields are those of `NickMask(mask)` and
      the channel list starts empty under the connection's casemapping. */
  function NewUser(cmap: IMap, mask: string): (u: User)
    ensures MaskOf(u) == ParseNickMask(mask)
    ensures u.channels.cmap == cmap && u.channels.store == []
    ensures '!' !in mask && '@' !in mask ==> u.nick == mask && u.user == "" && u.host == ""
  {
    var m := ParseNickMask(mask);
    User(m.nick, m.user, m.host, IList(cmap, []))
  }

  /** The `userhost` property. */
  function UserhostOf(u: User): string
  {
    Userhost(MaskOf(u))
  }

  /** The `nickmask` property. */
  function NickmaskOf(u: User): string
  {
    FullMask(MaskOf(u))
  }

  /** A user made from a full mask gives that mask back, and its userhost
      is the part after the `!`. */
  lemma NewUserMasks(cmap: IMap, n: string, u: string, h: string)
    requires '!' !in n && '@' !in u
    ensures var usr := NewUser(cmap, n + "!" + u + "@" + h);
      && usr.nick == n && usr.user == u && usr.host == h
      && NickmaskOf(usr) == n + "!" + u + "@" + h
      && UserhostOf(usr) == u + "@" + h
  {
    NickMaskRoundTrip(n, u, h);
  }

  /** A channel: its name, whether the client is in it, and the nicks of
      its members, an `idict` of the connection. */
  datatype Channel = Channel(name: string, joined: bool, users: IDict<()>)

  /** `Channel(server, name)`: not joined, no members. */
  function NewChannel(cmap: IMap, name: string): (c: Channel)
    ensures c.name == name && !c.joined
    ensures c.users.cmap == cmap && IDictValid(c.users) && IDictLen(c.users) == 0
  {
    Channel(name, false, EmptyIDict(cmap))
  }

  /** The CTCP text `me(message, formatted)` hands to `ctcp`: `ACTION `
      and the message, which is unescaped first when `formatted` holds (and
      the call fails when unescaping does). */
  function MeText(message: string, formatted: bool): (r: Result<string>)
    ensures !formatted ==> r == Success("ACTION " + message)
    ensures formatted ==> (r.Failure? <==> Formatting.Unescape(message).Failure?)
    ensures formatted && r.Success? ==> r.value == "ACTION " + Formatting.Unescape(message).value
    ensures formatted && '$' !in message ==> r == Success("ACTION " + message)
  {
    if formatted then
      var m :- Formatting.Unescape(message);
      Success("ACTION " + m)
    else Success("ACTION " + message)
  }

  /** A formatted `me` of an escaped text sends that text. */
  lemma MeEscaped(text: string)
    ensures MeText(Formatting.Escape(text), true) == Success("ACTION " + text)
  {
    Formatting.UnescapeEscape(text);
  }

  /** `User.me`: the CTCP goes to the user's nick. */
  function UserMe(u: User, message: string, formatted: bool): (r: Result<(string, string)>)
    ensures r.Success? <==> MeText(message, formatted).Success?
    ensures r.Success? ==> r.value == (u.nick, MeText(message, formatted).value)
  {
    var text :- MeText(message, formatted);
    Success((u.nick, text))
  }

  /** `Channel.me`: the CTCP goes to the channel's name. */
  function ChannelMe(c: Channel, message: string, formatted: bool): (r: Result<(string, string)>)
    ensures r.Success? <==> MeText(message, formatted).Success?
    ensures r.Success? ==> r.value == (c.name, MeText(message, formatted).value)
  {
    var text :- MeText(message, formatted);
    Success((c.name, text))
  }
}

=== FILE: utils.dfy ===
/** Helpers shared by the client: prefix ordering, MODE parsing, nick masks,
    case-insensitive containers and host name validation. Models
    girc/utils.py. Case folding is ASCII `Lower`. */
module Utils {
  import opened Wrappers
  import opened Strings
  import opened Lists
  import opened Dicts

  /* ------------------------------------------------------ sort_prefixes */

  /** `a` can be obtained from `b` by deleting characters. */
  predicate IsSubsequence<T(==)>(a: seq<T>, b: seq<T>)
    decreases |b|
  {
    if |a| == 0 then true
    else if |b| == 0 then false
    else if a[|a| - 1] == b[|b| - 1] then IsSubsequence(a[..|a| - 1], b[..|b| - 1])
    else IsSubsequence(a, b[..|b| - 1])
  }

  lemma {:induction false} SubsequenceDropLast<T>(a: seq<T>, b: seq<T>)
    requires |a| > 0 && IsSubsequence(a, b)
    ensures IsSubsequence(a[..|a| - 1], b)
    decreases |b|, 0
  {
    var a' := a[..|a| - 1];
    if |a'| > 0 {
      if a[|a| - 1] == b[|b| - 1] {
        SubsequenceExtend(a', b[..|b| - 1], b[|b| - 1]);
        assert b[..|b| - 1] + [b[|b| - 1]] == b;
      } else {
        SubsequenceDropLast(a, b[..|b| - 1]);
        SubsequenceExtend(a', b[..|b| - 1], b[|b| - 1]);
        assert b[..|b| - 1] + [b[|b| - 1]] == b;
      }
    }
  }

  lemma {:induction false} SubsequenceExtend<T>(a: seq<T>, b: seq<T>, y: T)
    requires IsSubsequence(a, b)
    ensures IsSubsequence(a, b + [y])
    decreases |b|, 1
  {
    var b' := b + [y];
    assert b'[..|b'| - 1] == b;
    if |a| > 0 && a[|a| - 1] == y {
      SubsequenceDropLast(a, b);
    }
  }

  /** `sort_prefixes(orig, prefixes)`: the characters of the reference string
      `prefixes` (highest privilege first) that occur in `orig`, kept in
      reference order and with the reference's multiplicity. */
  function SortPrefixes(orig: string, prefixes: string): (r: string)
    ensures IsSubsequence(r, prefixes)
    ensures forall c :: multiset(r)[c] == if c in orig then multiset(prefixes)[c] else 0
    decreases |prefixes|
  {
    if |prefixes| == 0 then ""
    else
      var init := prefixes[..|prefixes| - 1];
      var p := prefixes[|prefixes| - 1];
      var head := SortPrefixes(orig, init);
      assert prefixes == init + [p];
      if p in orig then
        var r := head + [p];
        assert r[..|r| - 1] == head;
        r
      else
        SubsequenceExtend(head, init, p);
        head
  }

  /* -------------------------------------------------------- parse_modes */

  /** One `[direction, char, value]` entry of `parse_modes`. */
  datatype ModeChange = ModeChange(sign: char, letter: char, value: Option<string>)

  /** Reference reading of a mode string: each non-sign character paired with
      the most recent sign before it (`dir` when there is none yet). */
  function SignedLetters(chars: string, dir: char): (sl: seq<(char, char)>)
    ensures |sl| <= |chars|
    ensures forall i :: 0 <= i < |sl| ==> !IsSign(sl[i].1) && sl[i].1 in chars
    ensures IsSign(dir) ==> forall i :: 0 <= i < |sl| ==> IsSign(sl[i].0)
    decreases |chars|
  {
    if |chars| == 0 then []
    else if IsSign(chars[0]) then SignedLetters(chars[1..], chars[0])
    else [(dir, chars[0])] + SignedLetters(chars[1..], dir)
  }

  /** The arguments a list of mode changes consumed, in order. */
  function Values(cs: seq<ModeChange>): seq<string>
  {
    if |cs| == 0 then []
    else (if cs[0].value.Some? then [cs[0].value.value] else []) + Values(cs[1..])
  }

  /** A letter of CHANMODES type A or B, or a PREFIX mode: it always takes
      an argument. */
  predicate AlwaysArg(c: char, modeTypes: seq<string>, prefixes: string)
  {
    (|modeTypes| > 0 && c in modeTypes[0]) || (|modeTypes| > 1 && c in modeTypes[1]) || c in prefixes
  }

  /** A CHANMODES type C letter: it takes an argument only when set. */
  predicate SetArg(c: char, modeTypes: seq<string>)
  {
    |modeTypes| > 2 && c in modeTypes[2]
  }

  /** The condition at girc/utils.py:50-51 under Python's precedence
      (`and` binds tighter than `or`) and short-circuiting: the `mode_types`
      lookups happen left to right, and one past the end raises IndexError. */
  function TakesArg(c: char, dir: char, modeTypes: seq<string>, prefixes: string, nargs: nat): (r: Result<bool>)
    ensures r.Success? ==>
      (r.value <==> AlwaysArg(c, modeTypes, prefixes) || (SetArg(c, modeTypes) && dir == '+' && nargs > 0))
    ensures |modeTypes| >= 3 ==> r.Success?
    ensures |modeTypes| == 2 ==> (r.Failure? <==> !AlwaysArg(c, modeTypes, prefixes))
    ensures |modeTypes| < 2 ==> (r.Failure? <==> !(|modeTypes| == 1 && c in modeTypes[0]))
  {
    if |modeTypes| == 0 then Failure(IndexError("mode_types[0]"))
    else if c in modeTypes[0] then Success(true)
    else if |modeTypes| == 1 then Failure(IndexError("mode_types[1]"))
    else if c in modeTypes[1] then Success(true)
    else if c in prefixes then Success(true)
    else if |modeTypes| == 2 then Failure(IndexError("mode_types[2]"))
    else Success(c in modeTypes[2] && dir == '+' && nargs > 0)
  }

  /** The loop of `parse_modes` from a given direction, with the arguments
      still unconsumed; it returns the changes and the leftover arguments. */
  function ParseModeChars(chars: string, dir: char, modeTypes: seq<string>, prefixes: string, args: seq<string>)
    : (r: Result<(seq<ModeChange>, seq<string>)>)
    ensures r.Success? ==> |r.value.0| == |SignedLetters(chars, dir)|
    ensures r.Success? ==> forall i :: 0 <= i < |r.value.0| ==>
      (r.value.0[i].sign, r.value.0[i].letter) == SignedLetters(chars, dir)[i]
    ensures r.Success? ==> Values(r.value.0) + r.value.1 == args
    ensures r.Success? ==> forall i :: 0 <= i < |r.value.0| ==>
      AlwaysArg(r.value.0[i].letter, modeTypes, prefixes) ==> r.value.0[i].value.Some?
    ensures r.Success? ==> forall i :: 0 <= i < |r.value.0| ==>
      (!AlwaysArg(r.value.0[i].letter, modeTypes, prefixes) &&
       (!SetArg(r.value.0[i].letter, modeTypes) || r.value.0[i].sign != '+')) ==> r.value.0[i].value.None?
    ensures r.Failure? ==> r.error.IndexError?
    decreases |chars|
  {
    if |chars| == 0 then Success(([], args))
    else if IsSign(chars[0]) then ParseModeChars(chars[1..], chars[0], modeTypes, prefixes, args)
    else
      var c := chars[0];
      match TakesArg(c, dir, modeTypes, prefixes, |args|)
      case Failure(e) => Failure(e)
      case Success(takes) =>
        if takes && |args| == 0 then Failure(IndexError("pop from empty list"))
        else
          var value := if takes then Some(args[0]) else None;
          var left := if takes then args[1..] else args;
          match ParseModeChars(chars[1..], dir, modeTypes, prefixes, left)
          case Failure(e) => Failure(e)
          case Success((cs, rest)) =>
            var all := [ModeChange(dir, c, value)] + cs;
            assert all[1..] == cs;
            assert SignedLetters(chars, dir) == [(dir, c)] + SignedLetters(chars[1..], dir);
            Success((all, rest))
  }

  /** `parse_modes(params, mode_types, prefixes)`: `params[0]` is the mode
      string and must start with a sign; the remaining params are the
      arguments. `None` mode types stand for four empty classes. */
  function ParseModes(params: seq<string>, modeTypes: Option<seq<string>>, prefixes: string): (r: Result<seq<ModeChange>>)
    ensures r.Failure? && r.error.Raised? <==>
      |params| > 0 && |params[0]| > 0 && !IsSign(params[0][0])
    ensures r.Success? ==> |params| > 0 && |params[0]| > 0 && IsSign(params[0][0])
    ensures r.Success? ==> |r.value| == |SignedLetters(params[0], params[0][0])|
    ensures r.Success? ==> forall i :: 0 <= i < |r.value| ==>
      (r.value[i].sign, r.value[i].letter) == SignedLetters(params[0], params[0][0])[i]
    ensures r.Success? ==> IsPrefix(Values(r.value), params[1..])
  {
    if |params| == 0 then Failure(IndexError("params[0]"))
    else if |params[0]| == 0 then Failure(IndexError("params[0][0]"))
    else if !IsSign(params[0][0]) then Failure(Raised("first param must start with + or -"))
    else
      var types := modeTypes.GetOr(["", "", "", ""]);
      match ParseModeChars(params[0], params[0][0], types, prefixes, params[1..])
      case Failure(e) => Failure(e)
      case Success((cs, rest)) =>
        assert params[1..][..|Values(cs)|] == Values(cs);
        Success(cs)
  }

  predicate IsPrefix(a: seq<string>, b: seq<string>)
  {
    |a| <= |b| && b[..|a|] == a
  }

  /* Reference reading of the argument consumption of `parse_modes`. A
     letter is eligible when it would take an argument that is there: type
     A or B or a prefix mode, or type C under `+`. The loop is greedy: the
     eligible letters take the arguments in order while they last, and the
     call fails at an unknown letter or when a type A, type B or prefix
     letter finds none left. */

  /** A letter whose class lookup does not run past `mode_types`. */
  predicate KnownLetter(c: char, modeTypes: seq<string>, prefixes: string)
  {
    || |modeTypes| >= 3
    || (|modeTypes| >= 1 && c in modeTypes[0])
    || (|modeTypes| >= 2 && (c in modeTypes[1] || c in prefixes))
  }

  /** A signed letter that takes an argument if one is left. */
  predicate Eligible(sc: (char, char), modeTypes: seq<string>, prefixes: string)
  {
    AlwaysArg(sc.1, modeTypes, prefixes) || (SetArg(sc.1, modeTypes) && sc.0 == '+')
  }

  /** The number of eligible letters. */
  function EligibleCount(sl: seq<(char, char)>, modeTypes: seq<string>, prefixes: string): (n: nat)
    ensures n <= |sl|
    decreases |sl|
  {
    if |sl| == 0 then 0
    else (if Eligible(sl[0], modeTypes, prefixes) then 1 else 0) + EligibleCount(sl[1..], modeTypes, prefixes)
  }

  /** The greedy reading succeeds with `n` arguments: every letter is known,
      and every letter that must take an argument finds one after the
      eligible letters before it have taken theirs. */
  predicate GreedyOk(sl: seq<(char, char)>, modeTypes: seq<string>, prefixes: string, n: nat)
  {
    forall i :: 0 <= i < |sl| ==>
      && KnownLetter(sl[i].1, modeTypes, prefixes)
      && (AlwaysArg(sl[i].1, modeTypes, prefixes) ==> EligibleCount(sl[..i], modeTypes, prefixes) < n)
  }

  /** The value of letter `i` under the greedy reading: the next argument
      if the letter is eligible and one is left. */
  function GreedyValue(sl: seq<(char, char)>, i: nat, modeTypes: seq<string>, prefixes: string, args: seq<string>)
    : Option<string>
    requires i < |sl|
  {
    var k := EligibleCount(sl[..i], modeTypes, prefixes);
    if Eligible(sl[i], modeTypes, prefixes) && k < |args| then Some(args[k]) else None
  }

  function Min(a: nat, b: nat): nat
  {
    if a < b then a else b
  }

  /** The `parse_modes` loop is the greedy reading of the signed letters:
      it fails exactly when the greedy reading does, and otherwise every
      letter gets the greedy value and the arguments after those taken are
      left over. */
  lemma {:induction false} ParseModeCharsGreedy(chars: string, dir: char, modeTypes: seq<string>, prefixes: string,
                                                args: seq<string>)
    ensures var r := ParseModeChars(chars, dir, modeTypes, prefixes, args);
      var sl := SignedLetters(chars, dir);
      && (r.Success? <==> GreedyOk(sl, modeTypes, prefixes, |args|))
      && (r.Success? ==> forall i :: 0 <= i < |sl| ==> r.value.0[i].value == GreedyValue(sl, i, modeTypes, prefixes, args))
      && (r.Success? ==> r.value.1 == args[Min(EligibleCount(sl, modeTypes, prefixes), |args|)..])
    decreases |chars|
  {
    if |chars| == 0 {
      assert SignedLetters(chars, dir) == [];
    } else if IsSign(chars[0]) {
      ParseModeCharsGreedy(chars[1..], chars[0], modeTypes, prefixes, args);
    } else {
      var c := chars[0];
      var x := (dir, c);
      var rest := SignedLetters(chars[1..], dir);
      assert SignedLetters(chars, dir) == [x] + rest;
      TakesArgKnown(c, dir, modeTypes, prefixes, |args|);
      if KnownLetter(c, modeTypes, prefixes) {
        var takes := TakesArg(c, dir, modeTypes, prefixes, |args|).value;
        if takes && |args| == 0 {
          GreedyFailsFirst(x, rest, modeTypes, prefixes, |args|);
        } else {
          var left := if takes then args[1..] else args;
          ParseModeCharsGreedy(chars[1..], dir, modeTypes, prefixes, left);
          GreedyStep(x, rest, modeTypes, prefixes, args, takes);
        }
      } else {
        GreedyFailsFirst(x, rest, modeTypes, prefixes, |args|);
      }
    }
  }

  /** `parse_modes` with a signed mode string is the greedy reading of its
      letters over the remaining parameters: it fails (with IndexError)
      exactly when that reading does, and otherwise each change carries the
      greedy value. */
  lemma ParseModesGreedy(params: seq<string>, modeTypes: Option<seq<string>>, prefixes: string)
    requires |params| > 0 && |params[0]| > 0 && IsSign(params[0][0])
    ensures var r := ParseModes(params, modeTypes, prefixes);
      var types := modeTypes.GetOr(["", "", "", ""]);
      var sl := SignedLetters(params[0], params[0][0]);
      && (r.Success? <==> GreedyOk(sl, types, prefixes, |params| - 1))
      && (r.Success? ==> forall i :: 0 <= i < |sl| ==> r.value[i].value == GreedyValue(sl, i, types, prefixes, params[1..]))
      && (r.Failure? ==> r.error.IndexError?)
  {
    ParseModeCharsGreedy(params[0], params[0][0], modeTypes.GetOr(["", "", "", ""]), prefixes, params[1..]);
  }

  /** The class lookup fails exactly on an unknown letter. */
  lemma TakesArgKnown(c: char, dir: char, modeTypes: seq<string>, prefixes: string, nargs: nat)
    ensures TakesArg(c, dir, modeTypes, prefixes, nargs).Success? <==> KnownLetter(c, modeTypes, prefixes)
  {
  }

  /** The greedy reading fails at a first letter that is unknown or must
      take an argument when none is left. */
  lemma GreedyFailsFirst(x: (char, char), rest: seq<(char, char)>, modeTypes: seq<string>, prefixes: string, n: nat)
    requires !KnownLetter(x.1, modeTypes, prefixes) || (AlwaysArg(x.1, modeTypes, prefixes) && n == 0)
    ensures !GreedyOk([x] + rest, modeTypes, prefixes, n)
  {
    assert ([x] + rest)[0] == x && ([x] + rest)[..0] == [];
  }

  /** The letters after the first, read greedily with the arguments the
      first letter leaves. */
  lemma GreedyStep(x: (char, char), rest: seq<(char, char)>, modeTypes: seq<string>, prefixes: string,
                   args: seq<string>, takes: bool)
    requires KnownLetter(x.1, modeTypes, prefixes)
    requires takes <==> AlwaysArg(x.1, modeTypes, prefixes) || (SetArg(x.1, modeTypes) && x.0 == '+' && |args| > 0)
    requires !(takes && |args| == 0)
    ensures var left := if takes then args[1..] else args;
      var sl := [x] + rest;
      && (GreedyOk(sl, modeTypes, prefixes, |args|) <==> GreedyOk(rest, modeTypes, prefixes, |left|))
      && GreedyValue(sl, 0, modeTypes, prefixes, args) == (if takes then Some(args[0]) else None)
      && (forall i :: 0 < i < |sl| ==>
            GreedyValue(sl, i, modeTypes, prefixes, args) == GreedyValue(rest, i - 1, modeTypes, prefixes, left))
      && args[Min(EligibleCount(sl, modeTypes, prefixes), |args|)..] ==
         left[Min(EligibleCount(rest, modeTypes, prefixes), |left|)..]
  {
    var left := if takes then args[1..] else args;
    var e := if Eligible(x, modeTypes, prefixes) then 1 else 0;
    EligibleShift(x, rest, modeTypes, prefixes);
    GreedyOkStep(x, rest, modeTypes, prefixes, |args|, |left|, e);
    GreedyValueStep(x, rest, modeTypes, prefixes, args, left, e);
  }

  /** The eligible letters of a prefix of `[x] + rest` are those of `x`
      and of the prefix of `rest` one shorter. */
  lemma EligibleShift(x: (char, char), rest: seq<(char, char)>, modeTypes: seq<string>, prefixes: string)
    ensures var e := if Eligible(x, modeTypes, prefixes) then 1 else 0;
      && EligibleCount([x] + rest, modeTypes, prefixes) == e + EligibleCount(rest, modeTypes, prefixes)
      && ([x] + rest)[..0] == []
      && forall i :: 0 < i <= |rest| + 1 ==>
           EligibleCount(([x] + rest)[..i], modeTypes, prefixes) == e + EligibleCount(rest[..i - 1], modeTypes, prefixes)
  {
    var sl := [x] + rest;
    assert sl[1..] == rest;
    forall i | 0 < i <= |rest| + 1
      ensures EligibleCount(sl[..i], modeTypes, prefixes) ==
        (if Eligible(x, modeTypes, prefixes) then 1 else 0) + EligibleCount(rest[..i - 1], modeTypes, prefixes)
    {
      assert sl[..i][0] == x && sl[..i][1..] == rest[..i - 1];
    }
  }

  /** Greedy success of `[x] + rest` with `n` arguments is greedy success
      of `rest` with the `m` the first letter leaves. */
  lemma GreedyOkStep(x: (char, char), rest: seq<(char, char)>, modeTypes: seq<string>, prefixes: string,
                     n: nat, m: nat, e: nat)
    requires KnownLetter(x.1, modeTypes, prefixes)
    requires AlwaysArg(x.1, modeTypes, prefixes) ==> n > 0
    requires forall i :: 0 < i <= |rest| + 1 ==>
      EligibleCount(([x] + rest)[..i], modeTypes, prefixes) == e + EligibleCount(rest[..i - 1], modeTypes, prefixes)
    requires ([x] + rest)[..0] == []
    requires (e == 1 && n == m + 1) || (e == 0 && n == m) || (n == 0 && m == 0)
    ensures GreedyOk([x] + rest, modeTypes, prefixes, n) <==> GreedyOk(rest, modeTypes, prefixes, m)
  {
    var sl := [x] + rest;
    if GreedyOk(sl, modeTypes, prefixes, n) {
      forall i | 0 <= i < |rest|
        ensures KnownLetter(rest[i].1, modeTypes, prefixes)
        ensures AlwaysArg(rest[i].1, modeTypes, prefixes) ==> EligibleCount(rest[..i], modeTypes, prefixes) < m
      {
        assert sl[i + 1] == rest[i];
      }
    }
    if GreedyOk(rest, modeTypes, prefixes, m) {
      forall i | 0 <= i < |sl|
        ensures KnownLetter(sl[i].1, modeTypes, prefixes)
        ensures AlwaysArg(sl[i].1, modeTypes, prefixes) ==> EligibleCount(sl[..i], modeTypes, prefixes) < n
      {
        if i > 0 {
          assert sl[i] == rest[i - 1];
        }
      }
    }
  }

  /** The greedy values of `[x] + rest`: the first letter's, then those of
      `rest` with the arguments the first letter leaves; and the arguments
      left over at the end agree. */
  lemma GreedyValueStep(x: (char, char), rest: seq<(char, char)>, modeTypes: seq<string>, prefixes: string,
                        args: seq<string>, left: seq<string>, e: nat)
    requires e == (if Eligible(x, modeTypes, prefixes) then 1 else 0)
    requires EligibleCount([x] + rest, modeTypes, prefixes) == e + EligibleCount(rest, modeTypes, prefixes)
    requires forall i :: 0 < i <= |rest| + 1 ==>
      EligibleCount(([x] + rest)[..i], modeTypes, prefixes) == e + EligibleCount(rest[..i - 1], modeTypes, prefixes)
    requires ([x] + rest)[..0] == []
    requires (e == 1 && |args| > 0 && left == args[1..]) || (|args| == 0 && left == args) || (e == 0 && left == args)
    ensures GreedyValue([x] + rest, 0, modeTypes, prefixes, args) == (if e == 1 && |args| > 0 then Some(args[0]) else None)
    ensures forall i :: 0 < i < |rest| + 1 ==>
      GreedyValue([x] + rest, i, modeTypes, prefixes, args) == GreedyValue(rest, i - 1, modeTypes, prefixes, left)
    ensures args[Min(EligibleCount([x] + rest, modeTypes, prefixes), |args|)..] ==
      left[Min(EligibleCount(rest, modeTypes, prefixes), |left|)..]
  {
    var sl := [x] + rest;
    forall i | 0 < i < |sl|
      ensures GreedyValue(sl, i, modeTypes, prefixes, args) == GreedyValue(rest, i - 1, modeTypes, prefixes, left)
    {
      assert sl[i] == rest[i - 1];
    }
  }

  /** With the default mode types and no prefixes nothing takes an argument:
      every value is None and no argument is consumed. */
  lemma {:induction false} ParseModeCharsNoTypes(chars: string, dir: char, args: seq<string>)
    ensures var r := ParseModeChars(chars, dir, ["", "", "", ""], "", args);
      r.Success? && r.value.1 == args && forall i :: 0 <= i < |r.value.0| ==> r.value.0[i].value.None?
    decreases |chars|
  {
    if |chars| > 0 {
      ParseModeCharsNoTypes(chars[1..], dir, args);
      if IsSign(chars[0]) {
        ParseModeCharsNoTypes(chars[1..], chars[0], args);
      }
    }
  }

  lemma ParseModesDefault(params: seq<string>)
    requires |params| > 0 && |params[0]| > 0 && IsSign(params[0][0])
    ensures var r := ParseModes(params, None, "");
      r.Success? && |Values(r.value)| == 0 && forall i :: 0 <= i < |r.value| ==> r.value[i].value.None?
  {
    ParseModeCharsNoTypes(params[0], params[0][0], params[1..]);
    var r := ParseModeChars(params[0], params[0][0], ["", "", "", ""], "", params[1..]);
    assert Values(r.value.0) + params[1..] == params[1..];
  }

  /** With all three CHANMODES classes present, at least as many arguments as
      mode characters always suffice. */
  lemma {:induction false} ParseModeCharsEnoughArgs(chars: string, dir: char, modeTypes: seq<string>, prefixes: string, args: seq<string>)
    requires |modeTypes| >= 3
    requires |args| >= |chars|
    ensures ParseModeChars(chars, dir, modeTypes, prefixes, args).Success?
    decreases |chars|
  {
    if |chars| > 0 {
      ParseModeCharsEnoughArgs(chars[1..], dir, modeTypes, prefixes, args);
      ParseModeCharsEnoughArgs(chars[1..], chars[0], modeTypes, prefixes, args);
      ParseModeCharsEnoughArgs(chars[1..], dir, modeTypes, prefixes, args[1..]);
    }
  }

  /* ----------------------------------------------------------- NickMask */

  datatype NickMask = NickMask(nick: string, user: string, host: string)

  /** What `NickMask(mask)` accepts: a string, another NickMask (copied), or
      an object with a `nickmask` attribute (its mask is parsed). */
  datatype MaskSource = MaskText(text: string) | MaskCopy(mask: NickMask) | MaskAttr(nickmask: string)

  /** `NickMask.__init__` on a string: split at the first `!`, then at the
      first `@` of the rest; missing parts are empty. */
  function ParseNickMask(mask: string): (r: NickMask)
    ensures '!' in mask ==>
      && '!' !in r.nick && '@' !in r.user
      && (mask == r.nick + "!" + r.user + "@" + r.host || (mask == r.nick + "!" + r.user && r.host == ""))
    ensures '!' !in mask && '@' in mask ==>
      r.user == "" && '@' !in r.nick && mask == r.nick + "@" + r.host
    ensures '!' !in mask && '@' !in mask ==> r == NickMask(mask, "", "")
  {
    if '!' in mask then
      var (nick, rest) := SplitFirst(mask, '!');
      if '@' in rest then
        var (user, host) := SplitFirst(rest, '@');
        NickMask(nick, user, host)
      else NickMask(nick, rest, "")
    else if '@' in mask then
      var (nick, host) := SplitFirst(mask, '@');
      NickMask(nick, "", host)
    else NickMask(mask, "", "")
  }

  function MakeNickMask(src: MaskSource): (r: NickMask)
    ensures src.MaskCopy? ==> r == src.mask
    ensures src.MaskAttr? ==> r == ParseNickMask(src.nickmask)
    ensures src.MaskText? ==> r == ParseNickMask(src.text)
  {
    match src
    case MaskText(t) => ParseNickMask(t)
    case MaskCopy(m) => m
    case MaskAttr(t) => ParseNickMask(t)
  }

  /** The `userhost` property. */
  function Userhost(m: NickMask): string
  {
    m.user + "@" + m.host
  }

  /** The `nickmask` property. */
  function FullMask(m: NickMask): string
  {
    m.nick + "!" + m.user + "@" + m.host
  }

  /** A full mask parses back to its parts when the nick has no `!` and the
      user has no `@`, so `NickMask(m).nickmask == m`. */
  lemma NickMaskRoundTrip(n: string, u: string, h: string)
    requires '!' !in n && '@' !in u
    ensures ParseNickMask(n + "!" + u + "@" + h) == NickMask(n, u, h)
    ensures FullMask(ParseNickMask(n + "!" + u + "@" + h)) == n + "!" + u + "@" + h
    ensures Userhost(ParseNickMask(n + "!" + u + "@" + h)) == u + "@" + h
  {
    var m := n + "!" + u + "@" + h;
    SplitFirstOf(n, u + "@" + h, '!');
    assert m == n + ['!'] + (u + "@" + h);
    SplitFirstOf(u, h, '@');
    assert u + "@" + h == u + ['@'] + h;
  }

  /** Passing a NickMask's own mask through the attribute path gives the
      same fields. */
  lemma NickMaskAttrCopy(m: NickMask)
    requires '!' !in m.nick && '@' !in m.user
    ensures MakeNickMask(MaskAttr(FullMask(m))) == MakeNickMask(MaskCopy(m))
  {
    NickMaskRoundTrip(m.nick, m.user, m.host);
  }

  /* -------------------------------------------------- CaseInsensitiveList */

  /** `CaseInsensitiveList`: strings are stored case-folded. */
  datatype CIList = CIList(store: seq<string>)

  predicate Folded(s: string)
  {
    Lower(s) == s
  }

  predicate CIListValid(l: CIList)
  {
    forall i :: 0 <= i < |l.store| ==> Folded(l.store[i])
  }

  /** `append` (via `insert(len(self), v)`), as `extend` and the
      constructor use it. */
  function CIAppend(l: CIList, v: string): (r: CIList)
    ensures CIListValid(l) ==> CIListValid(r)
    ensures |r.store| == |l.store| + 1
  {
    LowerIdempotent(v);
    CIList(l.store + [Lower(v)])
  }

  /** `CaseInsensitiveList(data)` / `extend(data)`. */
  function CIExtend(l: CIList, data: seq<string>): (r: CIList)
    ensures CIListValid(l) ==> CIListValid(r)
    ensures |r.store| == |l.store| + |data|
    ensures r.store[..|l.store|] == l.store
    ensures forall i :: 0 <= i < |data| ==> r.store[|l.store| + i] == Lower(data[i])
    decreases |data|
  {
    if |data| == 0 then l
    else
      var r := CIExtend(CIAppend(l, data[0]), data[1..]);
      forall i | 1 <= i < |data| ensures r.store[|l.store| + i] == Lower(data[i]) {
        assert data[1..][i - 1] == data[i];
      }
      r
  }

  /** `insert(key, value)`: the folded value lands at `list.insert`'s
      clamped index, and the stored values around it keep their order. */
  function CIInsert(l: CIList, at: int, v: string): (r: CIList)
    ensures CIListValid(l) ==> CIListValid(r)
    ensures |r.store| == |l.store| + 1
    ensures r.store[InsertIndex(|l.store|, at)] == Lower(v)
    ensures forall i :: 0 <= i < InsertIndex(|l.store|, at) ==> r.store[i] == l.store[i]
    ensures forall i :: InsertIndex(|l.store|, at) < i < |r.store| ==> r.store[i] == l.store[i - 1]
  {
    LowerIdempotent(v);
    CIList(ListInsert(l.store, at, Lower(v)))
  }

  /** `__setitem__` with an integer index; out of range raises IndexError.
      Only the subscripted position changes, and it holds the folded value. */
  function CISetItem(l: CIList, at: int, v: string): (r: Result<CIList>)
    ensures r.Success? <==> -|l.store| <= at < |l.store|
    ensures r.Success? && CIListValid(l) ==> CIListValid(r.value)
    ensures r.Success? ==>
      && |r.value.store| == |l.store|
      && r.value.store[ItemIndex(|l.store|, at)] == Lower(v)
      && forall i :: 0 <= i < |l.store| && i != ItemIndex(|l.store|, at) ==> r.value.store[i] == l.store[i]
  {
    var n := |l.store|;
    if at < -n || at >= n then Failure(IndexError("list assignment index out of range"))
    else
      LowerIdempotent(v);
      Success(CIList(l.store[ItemIndex(n, at) := Lower(v)]))
  }

  /** `__contains__`: the folded probe against the stored values. */
  function CIContains(l: CIList, v: string): bool
  {
    Lower(v) in l.store
  }

  /** Any case variant of an added string is found afterwards. */
  lemma CIExtendContains(l: CIList, data: seq<string>, v: string)
    ensures CIContains(CIExtend(l, data), v) <==>
      CIContains(l, v) || exists i :: 0 <= i < |data| && Lower(data[i]) == Lower(v)
  {
    var r := CIExtend(l, data);
    assert r.store == l.store + r.store[|l.store|..];
    if CIContains(r, v) {
      var j :| 0 <= j < |r.store| && r.store[j] == Lower(v);
      if j >= |l.store| {
        assert Lower(data[j - |l.store|]) == Lower(v);
      } else {
        assert l.store[j] == Lower(v);
      }
    }
    if exists i :: 0 <= i < |data| && Lower(data[i]) == Lower(v) {
      var i :| 0 <= i < |data| && Lower(data[i]) == Lower(v);
      assert r.store[|l.store| + i] == Lower(v);
    }
    if CIContains(l, v) {
      var j :| 0 <= j < |l.store| && l.store[j] == Lower(v);
      assert r.store[j] == Lower(v);
    }
  }

  /* -------------------------------------------------- CaseInsensitiveDict */

  /** `CaseInsensitiveDict`: folded key -> (key as last set, value), in
      insertion order of the folded keys. */
  datatype CIDict<V> = CIDict(store: Dict<string, (string, V)>)

  predicate CIDictValid<V>(d: CIDict<V>)
  {
    && DistinctKeys(d.store)
    && forall i :: 0 <= i < |d.store| ==> d.store[i].0 == Lower(d.store[i].1.0)
  }

  /** `__setitem__`. */
  function CISet<V>(d: CIDict<V>, key: string, v: V): (r: CIDict<V>)
    ensures CIDictValid(d) ==> CIDictValid(r)
    ensures |r.store| == if HasKey(d.store, Lower(key)) then |d.store| else |d.store| + 1
  {
    CIDict(Put(d.store, Lower(key), (key, v)))
  }

  /** `__getitem__`: KeyError when no variant of the key is present. */
  function CIGet<V>(d: CIDict<V>, key: string): (r: Result<V>)
    ensures r.Success? <==> HasKey(d.store, Lower(key))
  {
    match Get(d.store, Lower(key))
    case Some(kv) => Success(kv.1)
    case None => Failure(KeyError(key))
  }

  /** `__delitem__`: KeyError when no variant of the key is present. */
  function CIDel<V>(d: CIDict<V>, key: string): (r: Result<CIDict<V>>)
    ensures r.Success? <==> HasKey(d.store, Lower(key))
    ensures r.Success? && CIDictValid(d) ==> CIDictValid(r.value) && |r.value.store| == |d.store| - 1
  {
    if HasKey(d.store, Lower(key)) then
      var r := CIDict(Remove(d.store, Lower(key)));
      assert CIDictValid(d) ==> CIDictValid(r) by {
        if CIDictValid(d) {
          forall i | 0 <= i < |r.store| ensures r.store[i].0 == Lower(r.store[i].1.0) {
            assert r.store[i] in d.store;
          }
        }
      }
      Success(r)
    else Failure(KeyError(key))
  }

  /** `__len__`. */
  function CILen<V>(d: CIDict<V>): nat
  {
    |d.store|
  }

  /** `__iter__`: the keys with the casing of their last assignment. */
  function CIKeys<V>(d: CIDict<V>): (ks: seq<string>)
    ensures |ks| == |d.store|
    ensures forall i :: 0 <= i < |ks| ==> ks[i] == d.store[i].1.0
  {
    seq(|d.store|, i requires 0 <= i < |d.store| => d.store[i].1.0)
  }

  /** `lower_items()`. */
  function LowerItems<V>(d: CIDict<V>): (t: Dict<string, V>)
    ensures |t| == |d.store|
    ensures forall i :: 0 <= i < |t| ==> t[i] == (d.store[i].0, d.store[i].1.1)
  {
    seq(|d.store|, i requires 0 <= i < |d.store| => (d.store[i].0, d.store[i].1.1))
  }

  /** `__eq__`: the dicts of lower items are equal as Python dicts, that is
      they bind the same keys to the same values. */
  ghost predicate CIEq<V>(d: CIDict<V>, e: CIDict<V>)
  {
    forall k :: Get(LowerItems(d), k) == Get(LowerItems(e), k)
  }

  /** `copy()`: a new dict built from the stored (key, value) pairs. */
  function CICopy<V>(d: CIDict<V>): CIDict<V>
  {
    CISetAll(CIDict([]), d.store)
  }

  function CISetAll<V>(d: CIDict<V>, kvs: seq<(string, (string, V))>): CIDict<V>
    decreases |kvs|
  {
    if |kvs| == 0 then d else CISetAll(CISet(d, kvs[0].1.0, kvs[0].1.1), kvs[1..])
  }

  /** Reading the lower items is reading the store. */
  lemma {:induction false} GetLowerItems<V>(d: CIDict<V>, k: string)
    ensures Get(LowerItems(d), k) == if HasKey(d.store, k) then Some(Get(d.store, k).value.1) else None
    decreases |d.store|
  {
    if |d.store| > 0 {
      var tail := CIDict(d.store[1..]);
      GetLowerItems(tail, k);
      assert LowerItems(d)[1..] == LowerItems(tail);
      HasKeyCons(d.store, k);
    }
  }

  /** A value set under one variant of a key reads back under every other
      variant; keys of a different fold are unaffected. */
  lemma CIGetSet<V>(d: CIDict<V>, key: string, v: V, probe: string)
    ensures CIGet(CISet(d, key, v), probe) ==
      if Lower(probe) == Lower(key) then Success(v) else CIGet(d, probe)
  {
    GetPut(d.store, Lower(key), (key, v), Lower(probe));
  }

  /** The key reported by iteration is the casing of the last assignment. */
  lemma CIKeysLastSet<V>(d: CIDict<V>, key: string, v: V)
    requires CIDictValid(d)
    ensures key in CIKeys(CISet(d, key, v))
    ensures forall k :: k in CIKeys(CISet(d, key, v)) && Lower(k) == Lower(key) ==> k == key
  {
    var r := CISet(d, key, v);
    assert HasKey(r.store, Lower(key));
    var j :| 0 <= j < |r.store| && r.store[j].0 == Lower(key);
    assert CIKeys(r)[j] == key;
  }

  /** Deleting through any variant removes the key and nothing else. */
  lemma CIGetDel<V>(d: CIDict<V>, key: string, probe: string)
    requires CIDictValid(d)
    requires HasKey(d.store, Lower(key))
    ensures CIGet(CIDel(d, key).value, probe).Failure? <==>
      Lower(probe) == Lower(key) || CIGet(d, probe).Failure?
    ensures Lower(probe) != Lower(key) ==> CIGet(CIDel(d, key).value, probe) == CIGet(d, probe)
  {
    GetRemove(d.store, Lower(key), Lower(probe));
  }

  /** Equality compares folded items: two valid dicts are equal exactly when
      every key, in any casing, reads the same from both. */
  lemma CIEqReads<V>(d: CIDict<V>, e: CIDict<V>)
    requires CIDictValid(d) && CIDictValid(e)
    ensures CIEq(d, e) <==> forall key :: CIGet(d, key) == CIGet(e, key)
  {
    if CIEq(d, e) {
      forall key ensures CIGet(d, key) == CIGet(e, key) {
        GetLowerItems(d, Lower(key));
        GetLowerItems(e, Lower(key));
        assert Get(LowerItems(d), Lower(key)) == Get(LowerItems(e), Lower(key));
        if !HasKey(d.store, Lower(key)) {
          assert !HasKey(e.store, Lower(key));
        }
      }
    }
    if forall key :: CIGet(d, key) == CIGet(e, key) {
      forall k ensures Get(LowerItems(d), k) == Get(LowerItems(e), k) {
        GetLowerItems(d, k);
        GetLowerItems(e, k);
        if Lower(k) == k {
          assert CIGet(d, k) == CIGet(e, k);
        } else {
          UnfoldedKeyAbsent(d, k);
          UnfoldedKeyAbsent(e, k);
        }
      }
    }
  }

  /** In a valid dict every stored key is folded. */
  lemma UnfoldedKeyAbsent<V>(d: CIDict<V>, k: string)
    requires CIDictValid(d)
    requires Lower(k) != k
    ensures !HasKey(d.store, k)
  {
    if HasKey(d.store, k) {
      var i :| 0 <= i < |d.store| && d.store[i].0 == k;
      LowerIdempotent(d.store[i].1.0);
    }
  }

  /* --------------------------------------------------- validate_hostname */

  /** `string.ascii_letters + string.digits + '-'`. */
  predicate HostChar(c: char)
  {
    ('a' <= c <= 'z') || ('A' <= c <= 'Z') || ('0' <= c <= '9') || c == '-'
  }

  /** A label in the sense of section 2.3.1 of RFC 1035, with the length cap
      of section 2.3.4: 1 to 63 letters, digits or hyphens, neither first nor
      last a hyphen. */
  predicate ValidLabel(l: string)
  {
    && 1 <= |l| <= 63
    && l[0] != '-' && l[|l| - 1] != '-'
    && forall i :: 0 <= i < |l| ==> HostChar(l[i])
  }

  /** A host name: it has a dot, at most 253 characters, and every
      dot-separated label is valid. */
  predicate IsHostname(h: string)
  {
    && '.' in h
    && |h| <= 253
    && forall i :: 0 <= i < |Split(h, '.')| ==> ValidLabel(Split(h, '.')[i])
  }

  /** `validate_hostname`: the early length checks, then a scan over the
      labels that stops at the first bad one. */
  method ValidateHostname(hostname: string) returns (ok: bool)
    ensures ok <==> IsHostname(hostname)
  {
    if '.' !in hostname || |hostname| < 1 || |hostname| > 253 {
      return false;
    }
    var parts := Split(hostname, '.');
    var i := 0;
    while i < |parts|
      invariant 0 <= i <= |parts|
      invariant forall j :: 0 <= j < i ==> ValidLabel(parts[j])
    {
      var part := parts[i];
      if |part| < 1 || |part| > 63 || part[0] == '-' || part[|part| - 1] == '-' {
        return false;
      }
      var k := 0;
      while k < |part|
        invariant 0 <= k <= |part|
        invariant forall j :: 0 <= j < k ==> HostChar(part[j])
      {
        if !HostChar(part[k]) {
          return false;
        }
        k := k + 1;
      }
      i := i + 1;
    }
    return true;
  }

  /** A name with a trailing dot has an empty last label, so it is rejected.
      girc's own tests expect `google.com.` to be valid; the code rejects it. */
  lemma TrailingDotRejected(h: string)
    ensures !IsHostname(h + ".")
  {
    SplitAppend(h, "", '.');
    assert h + "." == h + ['.'] + "";
    var ls := Split(h + ".", '.');
    assert ls[|ls| - 1] == "";
  }

  /** Two valid labels joined by a dot form a host name, `google.com` for
      one. */
  lemma TwoLabelHost(a: string, b: string)
    requires ValidLabel(a) && ValidLabel(b)
    requires |a| + |b| < 253
    ensures IsHostname(a + "." + b)
  {
    assert a + "." + b == a + ['.'] + b;
    SplitAppend(a, b, '.');
    assert '.' !in a by { assert forall i :: 0 <= i < |a| ==> HostChar(a[i]); }
    assert '.' !in b by { assert forall i :: 0 <= i < |b| ==> HostChar(b[i]); }
    SplitNoSep(a, '.');
    SplitNoSep(b, '.');
    assert (a + "." + b)[|a|] == '.';
  }

  /** A name with an empty label (`..`) is rejected. */
  lemma EmptyLabelRejected(a: string, b: string)
    ensures !IsHostname(a + ".." + b)
  {
    SplitAppend(a, "." + b, '.');
    assert a + ".." + b == a + ['.'] + ("." + b);
    SplitAppend("", b, '.');
    assert "." + b == "" + ['.'] + b;
    var ls := Split(a + ".." + b, '.');
    assert ls[|Split(a, '.')|] == "";
  }
}

=== FILE: wrappers.dfy ===
/** Option and Result, the failure-carrying datatypes the rest of the model
    uses where the Python source returns None or raises, and the search for
    the last element that passes a test. */
module Wrappers {

  datatype Option<+T> = None | Some(value: T) {
    function GetOr(default: T): T {
      match this
      case Some(v) => v
      case None => default
    }
  }

  /** The Python exceptions the modelled code can raise. */
  datatype Error =
    | IndexError(what: string)
    | KeyError(what: string)
    | ValueError(what: string)
    | TypeError(what: string)
    | AttributeError(what: string)
    | Raised(what: string)

  datatype Result<+R> = Success(value: R) | Failure(error: Error) {
    predicate IsFailure() {
      Failure?
    }

    function PropagateFailure<U>(): Result<U>
      requires Failure?
    {
      Failure(error)
    }

    function Extract(): R
      requires Success?
    {
      value
    }
  }

  /** The index of the last element satisfying `p`, if any. */
  function LastWhere<T>(s: seq<T>, p: T -> bool): (r: Option<nat>)
    ensures r.Some? ==> r.value < |s| && p(s[r.value])
    ensures r.Some? ==> forall k :: r.value < k < |s| ==> !p(s[k])
    ensures r.None? ==> forall k :: 0 <= k < |s| ==> !p(s[k])
    decreases |s|
  {
    if |s| == 0 then None
    else if p(s[|s| - 1]) then Some(|s| - 1)
    else
      var init := s[..|s| - 1];
      assert forall k :: 0 <= k < |init| ==> init[k] == s[k];
      LastWhere(init, p)
  }
}
